=== FILE: README.md ===
# OptiX problem-modelling layer in Dafny

This project models the problem-modelling layer of OptiX, a Python library for
writing constraint-satisfaction, linear and goal-programming problems, and
proves properties of the model. The model covers these parts:

- **Object containers** (`Pots`, `TypedSets`). `OXObjectPot` is an
  insertion-ordered list of objects with these operations: append,
  remove-first-equal, id lookup, membership by id, `first_object` and
  `last_object`, attribute search, predicate search, and the set of
  normalised class names. Its kind-checked subclasses are
  `OXConstraintSet`, `OXVariableSet` (with `query`) and `OXDatabase`.
  Stored objects are a closed sum type, so `isinstance` becomes a tag test.
- **Variables** (`Variables`, `Objects`). Construction checks the bounds
  and auto-names blank names. Deviation variables carry a `desired` flag.
  `__str__` is modelled too.
- **Scenario data** (`Data`). `OXData` reads an attribute from the active
  scenario when that scenario overrides it. `create_scenario` records
  overrides and snapshots a "Default" scenario the first time it runs.
- **Coefficients** (`Numbers`, `Expressions`, `Fractions`, `Constraints`).
  Weights and right-hand sides are exact rationals. The model covers:
  - the common-denominator integer form of an expression;
  - the Stern-Brocot search of `calculate_fraction`;
  - `reverse` and `to_goal`, and the desired/undesired deviation split;
  - the integer scaling the OR-Tools back-end applies to a constraint.
- **Special constraints and builders** (`Specials`, `Bounds`, `Builders`).
  The five records have the meaning the OR-Tools solution callback gives
  them. For each `_create_*` builder the model covers its argument checks,
  the output variable's bounds, the name and the record it appends. Where a
  builder or a default is wrong (see "Findings"), the model keeps the code as
  written next to a corrected version. `create_special_constraint`
  dispatches to the builders as written, as the code does; a corrected
  dispatch over the corrected builders stands next to it.
- **Problems** (`Problems`). The model covers:
  - `create_decision_variable` and `create_constraint`, including the
    argument check and the generated name;
  - the linear objective and `create_goal_constraint`;
  - the goal-programming objective and `create_special_constraint`.
- **Analysis helpers** (`Solutions`, `Orders`, `RhsAnalysis`,
  `ObjectiveAnalysis`). They are modelled over a given list of per-scenario
  solver results. The right-hand-side analysis covers slack, binding,
  sensitivity, criticality, the two list queries and the scenario restore.
  The objective analysis covers values, best and worst, ranking, comparison
  and percentiles. Python's stable `sorted`, and `max`/`min` with a key,
  are modelled in `Orders`.

Python is modelled with these choices:

- Python floats used as bounds are extended reals (`Ext`).
- `nan` is the absence of a value.
- Exceptions are `Result` failures. A call that mutates state before
  raising returns `Outcome.Raised`, which carries the state at the raise.
- Fresh UUIDs are parameters.
- Floor division and `%` are written out, because Dafny's are Euclidean.

One consequence of the code surfaced while stating the right-hand-side
analysis. A constraint's `rhs` is a field of the constraint and does not go
through the scenario overlay of `OXData`. So the value read under every
scenario is the same, and every constraint's sensitivity score is 0
(`RhsAnalysis.AnalyzedSensitivityZero`, `RhsAnalysis.Analyze`). The class
documentation speaks of scenario-dependent right-hand sides
(src/analysis/OXRightHandSideAnalysis.py:47-55). Its own example, however,
passes `capacity_data.max_capacity` as a plain number. So the code offers no
mechanism a corrected model could follow, and the model keeps the code's
behaviour.

## Model

| member | source | states |
|---|---|---|
| Pots.Add | src/base/OXObjectPot.py:207-213 | `add_object` appends: the length grows by one, the new object is last, the earlier objects are unchanged, and an object already present is accepted again |
| Pots.Remove | src/base/OXObjectPot.py:215-224 | `remove_object` raises ValueError exactly when the object is absent; otherwise it deletes the first equal object only, keeping all others in their order |
| Pots.AddRemove | src/base/OXObjectPot.py:207-224 | removing an object just added to a pot that did not hold it gives back the original pot |
| Pots.RemoveKeepsOthers | src/base/OXObjectPot.py:215-224 | removal takes away exactly one copy of the object: the multiset of objects loses one element |
| Pots.Get | src/base/OXObjectPot.py:246-251 | `pot[key]` raises "Only UUID indices are accepted" for a non-UUID key, returns the first object carrying the id, and raises "Object not found" exactly when no object carries it |
| Pots.Contains | src/base/OXObjectPot.py:269-286 | `x in pot` holds exactly when some stored object's id equals the UUID, or the probe object's id |
| Pots.ContainsIffGet | src/base/OXObjectPot.py:246-286 | membership and lookup agree: `x in pot` exactly when `pot[id]` finds an object |
| Pots.AddThenGet | src/base/OXObjectPot.py:207-251 | an object with a new id, once added, is what `pot[id]` returns and is contained in the pot |
| Pots.First | src/base/OXObjectPot.py:307-324 | `first_object` is element 0, and IndexError exactly on an empty pot |
| Pots.Last | src/base/OXObjectPot.py:288-305 | `last_object` is element `len - 1`, and IndexError exactly on an empty pot |
| Pots.AddLast | src/base/OXObjectPot.py:207-213 | after adding, the last object is the added one and the first is unchanged unless the pot was empty |
| Pots.MatchesAll | src/base/OXObjectPot.py:178-182 | the per-object test of `search` holds exactly when every given attribute exists on the object with an equal value |
| Pots.Search | src/base/OXObjectPot.py:161-185 | `search(**kwargs)` returns, in stored order, exactly the objects having every given attribute with an equal value |
| Pots.SearchEmpty | src/base/OXObjectPot.py:177-185 | empty criteria select every object |
| Pots.SearchMissingAttribute | src/base/OXObjectPot.py:180 | an object lacking one of the attributes is never selected |
| Pots.SearchByFunction | src/base/OXObjectPot.py:187-205 | `search_by_function(f)` is an order-preserving subsequence holding exactly the objects that satisfy `f` |
| Pots.TypeName | src/base/OXObjectPot.py:341-343 | the normalised type name is a dot-free suffix of the lower-cased class name |
| Pots.ObjectTypes | src/base/OXObjectPot.py:326-345 | `get_object_types` holds each normalised class name of a stored object, and nothing else |
| Pots.TypeNameOfQualified | src/base/OXObjectPot.py:341-343 | only the part after the last '.' counts; it is lower-cased and a leading "ox" is removed |
| Pots.LibraryTypeName | src/base/OXObjectPot.py:341-343 | a library class `pkg.OXWord` gives the lower-cased word |
| Pots.UserTypeName | tests/test_OXObjectPot.py:202-214 | a user class whose name does not start with "ox" keeps its whole name, lower-cased (`TestObject` gives "testobject") |
| TypedSets.TypedAdd | src/constraints/OXConstraintSet.py:129-131 | a typed set's `add_object` raises "Only OXConstraint can be added to OXConstraintSet" (and the same for OXVariableSet and OXDatabase) exactly for an object of the wrong kind, and otherwise appends it as the plain pot does |
| TypedSets.TypedRemove | src/constraints/OXConstraintSet.py:153-155 | a typed set's `remove_object` raises the kind message for an object of the wrong kind before touching the list, and otherwise removes as the plain pot does, ValueError included |
| TypedSets.TypedOpsKeepKind | src/variables/OXVariableSet.py:242-244 | a typed set that holds only objects of its kind keeps holding only such objects after any add or remove |
| TypedSets.SubclassesAdmitted | src/variables/OXVariableSet.py:242 | a goal constraint is accepted by a constraint set and a deviation variable by a variable set |
| TypedSets.QueryLoop | src/variables/OXVariableSet.py:410-420 | `query_function` on a variable is true exactly when at least one query key is in its related data and every key it holds has the queried value |
| TypedSets.Query | src/variables/OXVariableSet.py:410-424 | `query` raises "This should not happen." exactly when a stored object is not a variable, and otherwise is the order-preserving selection of the variables that match |
| TypedSets.QueryOnVariableSet | src/variables/OXVariableSet.py:410-424 | on a set holding only variables, `query` never raises, returns a subsequence of the stored objects, and keeps exactly the matching variables |
| TypedSets.QueryEmpty | src/variables/OXVariableSet.py:418-419 | an empty query returns an empty list |
| TypedSets.QueryUnheldKey | tests/test_OXVariableSet.py:103-110 | a key that no stored variable holds selects nothing |
| TypedSets.QueryIgnoresUnheldKeys | src/variables/OXVariableSet.py:413-420 | a key the variable does not hold is ignored rather than failing the match, although the documentation calls every criterion required |
| TypedSets.IntendedQuery | src/variables/OXVariableSet.py:316-341 | the documented query: the same failure on a stored non-variable, and otherwise exactly the stored variables that hold every queried key with the queried value, in stored order |
| TypedSets.IntendedQueryNarrower | src/variables/OXVariableSet.py:316-420 | every variable the documented query keeps is kept by the query as written, and the two agree when every stored variable holds every queried key |
| TypedSets.IntendedQueryNeedsEveryKey | src/variables/OXVariableSet.py:325 | a variable missing one of the queried keys fails the documented criteria |
| TypedSets.QueryOneHolder | tests/test_OXVariableSet.py:92-100 | of two variables holding different keys, querying one variable's key and value returns exactly that variable |
| Variables.AutoName | src/variables/OXVariable.py:234-235 | the automatic name `var_<id>` is never blank, so a constructed variable always has a non-blank name |
| Variables.NewVariable | src/variables/OXVariable.py:231-235 | construction raises "Lower bound cannot be greater than upper bound." exactly when lower > upper (equal bounds allowed, infinite bounds compared as the extended reals); a name that is not blank is kept verbatim and a blank one becomes `var_<id>`; no other field changes |
| Variables.DefaultVariableFields | src/variables/OXVariable.py:179-184 | a variable built with every default has lower bound 0, upper bound +inf, no value, empty related data and the name `var_<id>` |
| Variables.NewVariableIdempotent | src/variables/OXVariable.py:231-235 | rebuilding a constructed variable from its own fields succeeds and gives the same variable: `__post_init__` has nothing left to change |
| Variables.VariableString | src/variables/OXVariable.py:237-264 | `str` of a variable is its name, the text that deviation variables and the solvers display |
| Variables.ConstructedVariableString | src/variables/OXVariable.py:245-264 | a constructed variable prints as the name it was given, or as `var_<id>` when that name was blank, and never as blank text |
| Variables.DeviationString | src/variables/OXDeviationVar.py:212 | `str` of a deviation variable is the variable's name followed by " (desired: True)" or " (desired: False)" |
| Variables.DeviationStringFlag | src/variables/OXDeviationVar.py:212 | two deviation variables with the same name print alike exactly when their `desired` flags agree |
| Variables.NewDeviation | src/variables/OXDeviationVar.py:187 | a deviation variable goes through the inherited bound check and auto-naming unchanged and keeps the given `desired` flag |
| Variables.DefaultDeviationFields | src/variables/OXDeviationVar.py:187 | a default deviation variable is not desired and otherwise equals the default variable |
| Objects.OpSymbolInjective | src/constraints/OXConstraint.py:83-87 | the five relational operators have five distinct string values |
| Objects.OpSymbol | src/constraints/OXConstraint.py:83-87 | each relational operator's string value is a non-empty symbol; with `OpSymbolInjective`, no two operators share one |
| Objects.ObjectString | src/base/OXObject.py:122-128 | `str` of a plain object is its fully qualified class name followed by the id's text in parentheses, and nothing more |
| Objects.ObjectStringId | src/base/OXObject.py:128 | two objects of the same class print alike exactly when their ids' texts are equal, so the id can be read back from the text |
| Data.NewData | src/data/OXData.py:100-101 | a new data object has "Default" as its active scenario and no scenarios |
| Data.FreshReadsBase | tests/test_OXData.py:55-60 | on a new data object every read returns the object's own value |
| Data.Read | src/data/OXData.py:116-122 | a read of id, class_name, active_scenario or scenarios always bypasses scenarios; any other name returns the active scenario's value when it holds the name, and the object's own value otherwise |
| Data.Put | src/data/OXData.py:155 | storing one scenario entry changes that scenario's map at that key only; every other scenario, the active scenario and the object's own values stay |
| Data.Snapshot | src/data/OXData.py:147-150 | the "Default" snapshot loop changes only the "Default" map; the other scenarios, the active scenario and the object's own values stay |
| Data.AddOverrides | src/data/OXData.py:152-157 | the kwargs loop, whether it finishes or raises, changes only the named scenario's map |
| Data.CreateScenario | src/data/OXData.py:145-157 | `create_scenario` always leaves a "Default" scenario; when it does not raise the scenarios are the old ones plus "Default" and the new name; it never changes the active scenario or the object's own values |
| Data.KwargsMap | src/data/OXData.py:152-155 | the overrides stored by a successful kwargs loop never hold an excluded name |
| Data.AddOverridesStores | src/data/OXData.py:152-155 | when every non-excluded kwargs name is an attribute, the loop does not raise and the scenario's map is the earlier entries plus the kwargs, later pairs winning |
| Data.AddOverridesRaise | src/data/OXData.py:152-157 | when the loop raises, it raises "Object ... has no attribute key" at a non-excluded name that is neither an attribute value nor a name the class supplies, and the entries stored before that name stay in the map |
| Data.ClassAttributeOverride | src/data/OXData.py:152-155 | a kwargs name the class supplies, such as the method `create_scenario`, passes `hasattr` and is stored as the scenario's override |
| Data.CreateScenarioReplaces | src/data/OXData.py:151-155 | a successful `create_scenario(name, **kwargs)` replaces the scenario's map by exactly the non-excluded kwargs, whatever it held before |
| Data.DefaultNotResnapshotted | src/data/OXData.py:145 | once "Default" exists, creating another scenario leaves it as it was |
| Data.FieldValues | src/data/OXData.py:148-150 | the snapshot's values are the object's own values of listed fields |
| Data.FieldValuesHas | src/data/OXData.py:148-150 | every non-excluded field that is an attribute is in the snapshot with its own value |
| Data.ReadDuringSnapshot | src/data/OXData.py:116-122 | while only "Default" exists and agrees with the object's own values, a field reads as its own value whichever scenario is active |
| Data.SnapshotFills | src/data/OXData.py:147-150 | the snapshot loop does not raise and leaves "Default" holding the own value of every non-excluded field it has passed |
| Data.FirstScenarioSnapshots | src/data/OXData.py:145-150 | the first `create_scenario` on an object without scenarios fills "Default" with every non-excluded field's own value |
| Data.SwitchedReads | src/data/OXData.py:116-157 | after `create_scenario(name, **kwargs)` and a switch to `name`, the kwargs names read their new values and every other attribute reads its own value |
| Data.CreateScenarioSucceeds | src/data/OXData.py:145-157 | when every field and every kwargs name is an attribute, `create_scenario` does not raise |
| Data.SnapshotSucceeds | src/data/OXData.py:147-150 | the snapshot loop does not raise when every non-excluded field is an attribute |
| Data.BothMap | tests/test_OXData.py:74 | the kwargs `ayakta=x, oturan=x` store both names with the value x |
| Data.BusFirstScenario | tests/test_OXData.py:69-76 | the bus object of the repository's test reads 10, and after creating "TestScenario" with 20 and switching to it reads 20 |
| Data.BusDefaultSnapshot | src/data/OXData.py:145-150 | the first scenario created on the bus object records `ayakta` = 10 under "Default" |
| Data.BusSecondScenario | tests/test_OXData.py:77-81 | creating "TestScenario2" with 30 and switching to it reads 30, and "Default" is left alone |
| Specials.OutputVariable | src/constraints/OXSpecialConstraints.py:119 | every special record except the conditional has an output variable; the non-linear equalities inherit theirs from the base class |
| Specials.DefaultConstruct | src/constraints/OXSpecialConstraints.py:119-264 | default construction fills the fields in declaration order and raises exactly when the id factory is `UUID` itself, and then with TypeError; otherwise the record has the requested kind and id, its id fields take the fresh ids in order, input lists are empty and the denominator is 1 |
| Specials.DefaultSpecialAsWritten | src/constraints/OXSpecialConstraints.py:119 | with `UUID` itself as the factory of the first id field every record declares, every default construction raises TypeError |
| Specials.DefaultSpecial | src/constraints/OXSpecialConstraints.py:119-264 | the intended defaults succeed for every kind: the record has that kind and the given id, its id fields take fresh ids in declaration order, product and sum get an empty input list, division and modulo get denominator 1, and every record but the conditional has an output variable |
| Specials.DefaultsRaiseAsWritten | tests/test_OXSpecialConstraints.py:83-90 | the default construction the test performs, a multiplicative record with no arguments, raises TypeError as written, and as intended gives a record with a fresh output id and no inputs |
| Specials.Evaluate | src/solvers/ortools/OXORToolsSolverInterface.py:402-420 | the callback's (input value, output value) pair: ZeroDivisionError exactly for a zero denominator, and the output value is the output variable's value |
| Specials.DivisionMeaning | src/constraints/OXSpecialConstraints.py:149-174 | a division record with denominator d > 0 holds exactly when `d * output <= input < d * output + d`, i.e. output is `input // d` |
| Specials.ModuloMeaning | src/constraints/OXSpecialConstraints.py:178-202 | a modulo record with d > 0 holds exactly when the output lies in [0, d) and differs from the input by a multiple of d |
| Specials.DivisionModuloIdentity | src/constraints/OXSpecialConstraints.py:169-202 | a division and a modulo record on the same input and denominator give `input == d * quotient + remainder`, with the remainder in [0, d) for d > 0 |
| Specials.SplitInputs | src/solvers/ortools/OXORToolsSolverInterface.py:405-419 | splitting the input list splits the product and the sum |
| Specials.TwoInputs | src/constraints/OXSpecialConstraints.py:123-145 | with inputs u and v, the product record means `output == u * v` and the summation record `output == u + v` |
| Specials.NoInputs | tests/test_OXSpecialConstraints.py:83-90 | a default record without inputs means output 1 for the product and 0 for the sum |
| Specials.ConditionalEnforces | src/solvers/ortools/OXORToolsSolverInterface.py:585-593 | the four enforced constraints raise exactly when the input constraint is an equality, whose `reverse` fails |
| Specials.ConditionalIndicator | src/solvers/ortools/OXORToolsSolverInterface.py:590-593 | whenever the enforced constraints hold, the indicator is the truth of the input constraint and the branch it selects holds |
| Numbers.FloorMod | src/constraints/OXSpecialConstraints.py:182 | Python's `%`: the remainder lies in [0, d) for d > 0 and in (d, 0] for d < 0, and `a == d * (a // d) + a % d` |
| Numbers.FloorDivIsFloor | src/constraints/OXSpecialConstraints.py:153 | Python's `//` is the floor of the exact quotient, for either sign of the divisor |
| Numbers.Reduce | src/constraints/OXConstraint.py:157 | `Fraction(n, d)` is in lowest terms and has the same value |
| Numbers.Lcm | src/constraints/OXpression.py:94 | `math.lcm` of positive numbers is the least positive common multiple, 1 for no argument |
| Numbers.ExtMul | src/problem/OXProblem.py:144 | float multiplication of bounds: `0 * inf` is nan, finite operands multiply exactly |
| Numbers.ExtAdd | src/problem/OXProblem.py:300-301 | float addition of bounds: `inf + -inf` is nan, finite operands add exactly |
| Numbers.ExtDivInt | src/problem/OXProblem.py:219-220 | true division of a bound by an integer: ZeroDivisionError exactly for 0, exact quotient for a finite bound, and an infinite bound kept for a positive divisor |
| Expressions.Pairs | src/constraints/OXpression.py:167-179 | iterating an expression yields `(variables[i], weights[i])` for every i below the shorter length, and nothing more |
| Expressions.PairsUnzip | tests/test_OXpression.py:175-190 | unzipping the pairs gives both lists cut to the shorter length: surplus ids or weights are dropped and nothing else changes |
| Expressions.Fractions | src/constraints/OXpression.py:91 | every weight is taken in lowest terms |
| Expressions.ScaleAll | src/constraints/OXpression.py:93-96 | for a common multiple D of the reduced denominators, each reduced numerator times `D // denominator` is the weight times D |
| Expressions.IntegerForm | src/constraints/OXpression.py:91-97 | `get_integer_numerator_and_denominators` returns D > 0, the least positive common multiple of the reduced denominators, and one numerator per weight with `ns[i] == ws[i] * D` |
| Expressions.EmptyIntegerForm | src/constraints/OXpression.py:94 | no weights give (1, []), since `math.lcm()` of nothing is 1 |
| Expressions.IntegralIntegerForm | src/constraints/OXpression.py:91-97 | integer weights give denominator 1 and themselves as numerators |
| Expressions.UnitFraction | src/constraints/OXpression.py:91 | 1/d is already in lowest terms |
| Expressions.LcmExample | src/constraints/OXpression.py:94 | the least common multiple of 2, 3 and 4 is 12 |
| Expressions.ThirdsExample | tests/test_OXpression.py:77-79 | the weights 1/2, 1/3, 1/4 (as exact fractions) give (12, [6, 4, 3]) |
| Fractions.NeighbourReduces | src/utilities/fraction.py:56-63 | a mediant that is a Farey neighbour of a bound is in lowest terms, and when it equals p/q it is p/q reduced |
| Fractions.MediantNeighbours | src/utilities/fraction.py:56 | the mediant of two Farey neighbours is a Farey neighbour of each |
| Fractions.RaiseLower | src/utilities/fraction.py:58-59 | moving lb up to a mediant below the value keeps the two bounds Farey neighbours strictly around it and shrinks the distance to it |
| Fractions.LowerUpper | src/utilities/fraction.py:60-61 | moving ub down to a mediant above the value keeps the bracket and shrinks the distance to it |
| Fractions.IntegralValue | src/utilities/fraction.py:51-52 | an integral value is returned as `Fraction(v, 1)` |
| Fractions.InitialBracket | src/utilities/fraction.py:54-55 | for a non-integral value, floor and floor + 1 are Farey neighbours strictly around it |
| Fractions.CalculateFraction | src/utilities/fraction.py:49-63 | with exact comparison the mediant search stops, and returns the value in lowest terms; an integral value is returned as `Fraction(v, 1)` without a search (so 17/28 gives 17/28) |
| Constraints.ReverseOp | src/constraints/OXConstraint.py:133-140 | the operator table raises exactly on EQUAL and otherwise gives the complementary operator: for every lhs and rhs exactly one of `lhs op rhs` and `lhs op' rhs` holds |
| Constraints.Reverse | src/constraints/OXConstraint.py:120-147 | `reverse()` raises "Cannot reverse an equality constraint." exactly for EQUAL; otherwise it returns a new constraint with the same expression and rhs, named "Inverse of <name>", that holds exactly where the original fails |
| Constraints.ReverseTwice | src/constraints/OXConstraint.py:135-140 | reversing a non-equality constraint twice succeeds and restores its operator |
| Constraints.RhsFraction | src/constraints/OXConstraint.py:150-165 | `Fraction(rhs)` is in lowest terms and has the rhs's value |
| Constraints.RhsDenominator | src/constraints/OXConstraint.py:158-165 | `rhs_denominator` is positive |
| Constraints.RhsParts | src/constraints/OXConstraint.py:150-165 | rhs equals `rhs_numerator / rhs_denominator`, the two are coprime, and an rhs already in lowest terms is its own numerator and denominator |
| Constraints.RhsExamples | tests/test_OXConstraint.py:49-59 | an rhs of 10 gives (10, 1) and an rhs of 2.5 gives (5, 2) |
| Constraints.ToGoal | src/constraints/OXConstraint.py:167-193 | `to_goal` returns an EQUAL goal with the same expression, rhs and name; LT/LE make only the negative deviation desired and GT/GE only the positive one; an inequality gives both deviations the given upper bound while EQUAL leaves both at +inf; lower bounds stay 0 |
| Constraints.ToGoalDefault | src/constraints/OXConstraint.py:167 | the default upper bound of `to_goal` is 100 |
| Constraints.DesiredUndesiredPartition | src/constraints/OXConstraint.py:225-251 | `desired_variables` and `undesired_variables` split {positive, negative} between them, every member of the first desired and of the second not |
| Constraints.ToGoalUndesired | tests/test_OXConstraint.py:161-206 | after `to_goal`, LT/LE leave only the positive deviation undesired, GT/GE only the negative one, and EQUAL both |
| Constraints.GoalDeviationMeaning | src/constraints/OXConstraint.py:186-193 | in `lhs - positive + negative == rhs` with minimal non-negative deviations, the undesired deviation is zero exactly when the original LE/GE constraint holds |
| Constraints.DotScale | src/solvers/ortools/OXORToolsSolverInterface.py:256-257 | multiplying every weight by k multiplies the left-hand side by k |
| Constraints.ScaleToIntegers | src/solvers/ortools/OXORToolsSolverInterface.py:256-258 | the integer form keeps one weight per variable weight |
| Constraints.ScalingPreservesSolutions | src/solvers/ortools/OXORToolsSolverInterface.py:256-258 | the scaled integer constraint (weights `rhs_denominator * integer_weights`, rhs `integer_denominator * rhs_numerator`) holds under exactly the same assignments as the original, for every operator |
| Constraints.ScaledWeights | src/solvers/ortools/OXORToolsSolverInterface.py:256-257 | each scaled weight is the original weight times `rhs_denominator * integer_denominator` |
| Constraints.ScaledRhs | src/solvers/ortools/OXORToolsSolverInterface.py:258 | the scaled rhs is the rhs times the same factor |
| Constraints.ScaleBothSides | src/solvers/ortools/OXORToolsSolverInterface.py:256-258 | multiplying both sides by the same positive factor keeps the truth of every operator |
| Bounds.MinFromProps | src/problem/OXProblem.py:146 | the loop of the built-in `min` keeps a nan it starts with, skips any later nan, and otherwise ends at an item no greater than every item that is not nan |
| Bounds.MaxFromProps | src/problem/OXProblem.py:146 | the loop of the built-in `max`, symmetrically |
| Bounds.PyMin | src/problem/OXProblem.py:146 | `min(products)` is one of the items, nan exactly when the first item is nan, and otherwise no greater than any non-nan item |
| Bounds.PyMax | src/problem/OXProblem.py:146 | `max(products)` is one of the items, nan exactly when the first item is nan, and otherwise no less than any non-nan item |
| Bounds.FirstCornerLowers | src/problem/OXProblem.py:142 | the first tuple takes every lower bound |
| Bounds.CornersAreCorners | src/problem/OXProblem.py:140-142 | every tuple picks one end of each domain |
| Bounds.CornersComplete | src/problem/OXProblem.py:140-142 | every way of picking one end of each domain is among the tuples |
| Bounds.ReduceMulFinite | src/problem/OXProblem.py:144 | on finite bounds `reduce(operator.mul, tuple)` is the exact product |
| Bounds.CornerProducts | src/problem/OXProblem.py:144 | the products list holds one product per tuple, in `itertools.product` order |
| Bounds.MulBounds | src/problem/OXProblem.py:140-146 | the multiplicative bounds are nan exactly when the product of the lower bounds is; otherwise lower <= upper and both are corner products |
| Bounds.PickBounds | src/problem/OXProblem.py:140-146 | every finite point of a finite box has its product between the products at two corners |
| Bounds.MulBoundsSound | src/problem/OXProblem.py:140-146 | for finite input bounds the output bounds exist and contain the product of every choice of in-bound input values |
| Bounds.CornersOfTwo | src/problem/OXProblem.py:142 | two domains give four tuples, the first domain varying slowest |
| Bounds.MulBoundsExample | tests/test_OXProblem.py:162-184 | [2, 4] times [3, 5] gives the bounds [6, 20] |
| Bounds.SumFromCases | src/problem/OXProblem.py:300-301 | `sum` of bounds is nan exactly when both infinities occur, infinite when one does, and the exact sum otherwise |
| Bounds.SumBounds | src/problem/OXProblem.py:300-301 | the summation bounds are nan exactly when the sum of the lower or of the upper bounds is |
| Bounds.SumBoundsSound | src/problem/OXProblem.py:300-301 | for finite input bounds the output bounds are the exact sums and contain the sum of every choice of in-bound input values |
| Bounds.SumBoundsExample | tests/test_OXProblem.py:237-259 | [2, 4] plus [3, 5] gives the bounds [5, 9] |
| Bounds.DivisionBoundsAsWritten | src/problem/OXProblem.py:219-220 | the division builder's bounds as written: true division of each input bound by the divisor, ZeroDivisionError for 0 |
| Bounds.DivisionBoundsExcludeQuotient | src/problem/OXProblem.py:219-220 | for input bounds [3, 5] and divisor 2 the bounds are [1.5, 2.5], which exclude 3 // 2 = 1, a value the output must take |
| Bounds.FloorExt | src/problem/OXProblem.py:219-220 | rounding a bound down keeps infinities and moves a finite bound by less than 1 |
| Bounds.DivisionBounds | src/problem/OXProblem.py:219-220 | the corrected division bounds: ZeroDivisionError exactly for 0; otherwise the written quotients rounded down, swapped for a negative divisor so that the lower one comes first |
| Bounds.DivisionBoundsOrdered | src/problem/OXProblem.py:219-220 | for a non-zero divisor and input bounds in order, the corrected division bounds exist and are in order |
| Bounds.DivisionBoundsSound | src/problem/OXProblem.py:219-220 | with the corrected bounds and any non-zero divisor, `x // d` lies within the output bounds for every integer input x within the input bounds |
| Bounds.ModulusBoundsAsWritten | src/problem/OXProblem.py:221-222 | the modulus bounds as written, 0 and d - 1, are out of order for every divisor d <= 0 |
| Bounds.ModulusBounds | src/problem/OXProblem.py:221-222 | the corrected modulus bounds: ZeroDivisionError exactly for 0, the written [0, d - 1] for d > 0, and bounds in order for every non-zero d |
| Bounds.ModulusBoundsSound | src/problem/OXProblem.py:221-222 | for any non-zero divisor the corrected modulus bounds contain `x % d` for every x |
| Builders.Select | src/problem/OXProblem.py:133-134 | a search function is replaced by the matching variables of the pot in pot order, a list is taken as given, and one object (not a list) raises TypeError |
| Builders.SelectSingle | src/problem/OXProblem.py:209-213 | the corrected argument handling of the single-object builders: one object stands for the list holding it, anything else is selected as before |
| Builders.BoundsOf | src/problem/OXProblem.py:140 | the (lower_bound, upper_bound) pair of every input, and AttributeError exactly when some input is not a variable |
| Builders.AddOutput | src/problem/OXProblem.py:150-157 | the output variable is created with the given name and bounds and the record names it as output; the bounds error is raised exactly when the upper bound is below the lower; nothing else in the problem changes and validity is kept |
| Builders.CreateMultiplicative | src/problem/OXProblem.py:133-159 | fewer than two inputs raise OXception with the source's message; otherwise the output is added with the corner-product bounds and the record lists the inputs' ids in order |
| Builders.MultiplicativeBoundsSound | src/problem/OXProblem.py:140-150 | for inputs with finite bounds, every integer assignment within the inputs' bounds that satisfies the record keeps the output within its bounds |
| Builders.MultiplicativeExample | tests/test_OXProblem.py:162-184 | inputs in [2, 4] and [3, 5] give an output variable bounded by [6, 20] |
| Builders.MultiplicationName | src/problem/OXProblem.py:148 | the output's name is "Multiplication of " followed by the inputs' names joined by "_", and is never blank |
| Builders.DivModName | src/problem/OXProblem.py:224-227 | the output's name is the input's name, then " / " for the division or " % " for the modulus, then the divisor in decimal; it is never blank |
| Builders.DivModBoundsAsWritten | src/problem/OXProblem.py:217-222 | the output bounds as written: true division of each input bound by the divisor, or (0, d - 1) for the modulus |
| Builders.DivModBounds | src/problem/OXProblem.py:217-222 | the corrected output bounds: the corrected division bounds of the input's bounds, or the corrected modulus bounds |
| Builders.CreateDivisionModulus | src/problem/OXProblem.py:209-246 | the builder as written: one object given directly raises TypeError; anything but exactly one input raises the count error; a kind other than division or modulus raises the type error; a non-variable input raises AttributeError; for the division a zero divisor raises ZeroDivisionError, while the modulus computes (0, -1) without dividing; written bounds out of order, including that modulus pair, raise the bounds error when the output is created; otherwise the output is added with the name `<input> / d` or `<input> % d` and the written bounds, and the record ties it to the input and divisor |
| Builders.IntendedDivisionModulus | src/problem/OXProblem.py:209-246 | the corrected builder: one object stands for the list holding it; the same count, type and attribute errors; a zero divisor raises ZeroDivisionError, and for an input whose bounds are in order nothing else raises; on success the output has the corrected bounds, the same name and the same record |
| Builders.DivisionModulusOfObject | src/problem/OXProblem.py:209-213 | with the corrected builder, passing the object itself builds the same as passing the list holding it |
| Builders.DivisionModulusAgree | src/problem/OXProblem.py:209-246 | for a list or a search function and a positive divisor, the two builders give the same result for the modulus (and for a wrong kind), and the corrected division succeeds whenever the one as written does |
| Builders.DivisionModulusBoundsSound | src/problem/OXProblem.py:217-222 | whenever the corrected builder succeeds the divisor is not 0, and for an integer input within its bounds the floor quotient (division) or the remainder (modulus) lies within the output's bounds, for either sign of the divisor |
| Builders.NegativeDivisorAsWritten | src/problem/OXProblem.py:219-222 | an input in [3, 4] with divisor -10 raises the bounds error as written, for the division and for the modulus; the corrected builder gives [-1, -1] for the quotient and [-9, 0] for the remainder |
| Builders.DivisionModulusExample | tests/test_OXProblem.py:187-234 | an input in [10, 20] with divisor 5 gives [2, 4] for the quotient and [0, 4] for the remainder, and the corrected division builder builds the same problem |
| Builders.SummationName | src/problem/OXProblem.py:302 | the output's name is "Summation of " followed by the inputs' names joined by "_", and is never blank |
| Builders.CreateSummation | src/problem/OXProblem.py:291-309 | fewer than two inputs raise the count error, a non-variable input raises the type error, and on success the output is added with the summed bounds and the record lists the inputs' ids |
| Builders.SummationBoundsSound | src/problem/OXProblem.py:300-303 | for inputs with finite bounds, every integer assignment within the inputs' bounds that satisfies the record keeps the output within its bounds |
| Builders.SummationValue | src/problem/OXProblem.py:304-307 | a satisfied summation record makes the output the sum of its inputs |
| Builders.SummationExample | tests/test_OXProblem.py:237-259 | inputs in [2, 4] and [3, 5] give an output variable bounded by [5, 9] |
| Builders.ConditionalName | src/problem/OXProblem.py:387 | the indicator's name is "Conditional constraint: " followed by the input, if-true and if-false ids as "a ? b : c", and is never blank |
| Builders.ConditionalOn | src/problem/OXProblem.py:377-396 | once three objects are chosen their ids are recorded as used in special constraints before the kind check; it raises "All constraints must be OXConstraint objects" exactly when one is not a constraint, with the ids already recorded; otherwise the indicator variable, bounded by [0, 1], is added and the record names the three constraints |
| Builders.CreateConditional | src/problem/OXProblem.py:361-396 | the builder as written: a list (or a search function's result) whose length is not 1 raises the count error with the problem unchanged; one object given directly passes the count and raises TypeError at `[0]` with the problem unchanged; otherwise it goes on as `ConditionalOn` with the three selected objects |
| Builders.IntendedConditional | src/problem/OXProblem.py:361-396 | the corrected builder: one object stands for the list holding it; a count other than 1 raises the count error with the problem unchanged; otherwise it goes on as `ConditionalOn` |
| Builders.ConditionalOfObject | src/problem/OXProblem.py:361-375 | the corrected builder builds what it builds with each object written as a one-item list, which is also what the builder as written does with those lists; as written, an object given directly raises TypeError wherever the corrected builder would build |
| Builders.CreateSpecial | src/problem/OXProblem.py:478-491 | dispatches on the type to the builder as written: a builder's new problem is the result, a builder's error is raised with the problem unchanged, the conditional's outcome is passed through; arguments that do not fit raise TypeError, an unknown type raises OXception; a success adds exactly one variable and one record |
| Builders.IntendedSpecial | src/problem/OXProblem.py:436-491 | the corrected dispatch: the same call for every type but division, modulus and conditional, which go to the corrected builders with the same lifting of results and errors; a success adds exactly one variable and one record |
| Builders.SpecialAsWrittenAndIntended | src/problem/OXProblem.py:465-491 | the two dispatches agree on the multiplicative and summation types and unknown names; the corrected conditional is the written one with objects listed; they agree on the modulus with a positive divisor and no object given directly; for the division with a positive divisor the corrected one succeeds whenever the written one does; the docstring's own call, one variable object as `input_variable`, raises TypeError as written |
| Problems.NewProblem | src/problem/OXProblem.py:430-434 | a new problem has an empty database, variable set, constraint set and goal set, no special constraints or recorded ids, an empty objective and minimisation, and is valid |
| Problems.FirstInvalidKey | src/problem/OXProblem.py:620-622 | the position of the first keyword whose key is not an object type of the database; every keyword before it is one |
| Problems.RelatedFromKeys | src/problem/OXProblem.py:620-623 | the related data of a new variable has exactly the keywords given as keys |
| Problems.RelatedFromLast | src/problem/OXProblem.py:620-623 | a key given more than once keeps the value of its last occurrence |
| Problems.CreateDecisionVariable | src/problem/OXProblem.py:572-624 | bounds out of order raise the bounds error; otherwise the first keyword naming no database type raises the invalid-key error with that key; success exactly when neither happens, and then one variable with the given id, description, bounds, name (or the generated one) and related data is appended and nothing else changes |
| Problems.CheckParameters | src/problem/OXProblem.py:732-745 | the check passes exactly for a search function with a weight function and no lists, or two lists of equal length and no functions; otherwise the message of the first failed test |
| Problems.CheckParametersTested | tests/test_OXProblem.py:370-417 | the rejected calls of the validation test raise the messages the test expects |
| Problems.SelectedIds | src/problem/OXProblem.py:686-687 | the variables are the given list, or the ids of the variables the search function selects, in stored order |
| Problems.SelectedWeights | src/problem/OXProblem.py:689-690 | the weights are the given list, or the weight function applied to each selected id and the problem |
| Problems.LookupAll | src/problem/OXProblem.py:694 | looking up every id fails exactly when one of them is not in the variable set |
| Problems.Prefix | src/problem/OXProblem.py:696-699 | a term is preceded by " - " exactly when its weight is negative, and by nothing exactly when it is a first term with a weight that is not negative |
| Problems.DefaultName | src/problem/OXProblem.py:693-702 | an unknown variable raises the not-found error, an empty constraint raises IndexError, and otherwise the name is the stripped join of the signed terms |
| Problems.TwoTermName | src/problem/OXProblem.py:695-702 | a two-term name joins the terms with " + " or " - " by the sign of the second weight, and keeps "- " in front when the first weight is negative |
| Problems.DefaultNameExample | src/problem/OXProblem.py:695-702 | weights 1 and -2 on x and y give the name "1*x - 2*y" |
| Problems.BuildConstraint | src/problem/OXProblem.py:684-703 | a failed argument check raises its message; otherwise the constraint holds the selected variables and weights, the operator and the value, and the given name or else the generated one |
| Problems.CreateConstraint | src/problem/OXProblem.py:684-704 | the call fails exactly when building the constraint fails, with the same error; otherwise the constraint is appended to the constraint set and nothing else changes |
| Problems.CreateObjective | src/problem/OXProblem.py:844-851 | the call fails exactly when the argument check does; otherwise the objective holds the selected variables and weights, the objective type is set, and nothing else changes |
| Problems.MaxUpperFrom | src/problem/OXProblem.py:955-958 | the loop fails exactly when an id names no variable; otherwise its result is at least the start and every variable's upper bound, and is the start or one of those bounds |
| Problems.GoalBound | src/problem/OXProblem.py:959 | `round(ub // 7)` raises ValueError exactly for an infinite bound and is otherwise the k with 7k <= ub < 7k + 7 |
| Problems.GoalUpperBound | src/problem/OXProblem.py:955-959 | the deviation bound k is at least 0, every variable's upper bound is below 7k + 7 and, unless k is 0, some upper bound reaches 7k; an unbounded variable raises ValueError |
| Problems.GoalUpperBoundFinite | src/problem/OXProblem.py:955-959 | when every variable of the constraint has a finite upper bound, the deviation bound is computed without raising |
| Problems.GoalUpperBoundExample | tests/test_OXProblem.py:313-341 | variables with upper bounds 10 and 20 give the deviation bound 2 |
| Problems.CreateGoalConstraint | src/problem/OXProblem.py:950-961 | a failed build raises with the problem unchanged; a later raise leaves only the constraint set changed; on success only the constraint and goal sets change |
| Problems.MoveToGoals | src/problem/OXProblem.py:953-961 | after the constraint is added and removed again, a raise changes at most the constraint set and a completed move changes only the constraint and goal sets |
| Problems.MoveToGoalsFresh | src/problem/OXProblem.py:953-961 | for a constraint not already in the set, the add-then-remove restores the problem exactly, so the move raises with the problem unchanged or appends the goal form with the computed bound |
| Problems.GoalConstraintMoves | src/problem/OXProblem.py:950-961 | when no variable is unbounded above, the constraint set is as before and the goal form of the new constraint, with the deviation bound of `GoalUpperBound`, is appended to the goal set |
| Problems.GoalConstraintInfiniteBound | src/problem/OXProblem.py:953-959 | a variable with upper bound +inf makes the call raise ValueError after the constraint has left the constraint set, so the problem is as before |
| Problems.CollectDeviations | src/problem/OXProblem.py:1006-1011 | a stored goal set object that is not a goal raises AttributeError; otherwise the two lists are the goal-by-goal concatenations of the undesired and of the desired deviations, in goal order, as `extend` builds them, so the first holds exactly the undesired deviations and both together every deviation of the goals |
| Problems.GoalsJoin | src/problem/OXProblem.py:1009-1011 | the concatenation over two runs of goals is the first run's list followed by the second's, so a goal stored later contributes its deviations later |
| Problems.AddMissingProps | src/problem/OXProblem.py:1013-1019 | afterwards the pot contains every deviation given, and every object added is one of them |
| Problems.AddMissingSkips | src/problem/OXProblem.py:1013-1019 | a deviation whose id is already in the pot is not added: every appended object has an id the pot did not hold, and no two appended objects share an id |
| Problems.AddMissingPresent | src/problem/OXProblem.py:1013-1019 | deviations whose ids are all present already leave the pot unchanged |
| Problems.CreateGoalObjective | src/problem/OXProblem.py:1006-1026 | the objective minimises, with weight 1 each, the ids of the undesired deviations goal by goal in goal order, one entry per deviation of each goal, every deviation of every goal is now in the variable set, the earlier variables are kept in order, and nothing else changes |
| Problems.GoalObjectiveFacts | src/problem/OXProblem.py:1009-1023 | the ids of the collected undesired deviations are exactly those of the goals' undesired deviations, and adding the deviations keeps the problem valid |
| Orders.InsertBySorted | src/analysis/OXObjectiveFunctionAnalysis.py:181 | inserting an item into a list sorted by key keeps it sorted |
| Orders.SortBy | src/analysis/OXObjectiveFunctionAnalysis.py:181 | `sorted` returns a permutation of its input |
| Orders.SortBySorted | src/analysis/OXObjectiveFunctionAnalysis.py:181 | `sorted` returns a list ordered by key, descending with `reverse=True` |
| Orders.SortByStable | src/analysis/OXRightHandSideAnalysis.py:234 | the sort is stable: items with equal keys keep their order |
| Orders.ArgMax | src/analysis/OXObjectiveFunctionAnalysis.py:407 | `max` with a key returns an item whose key no other item exceeds, the first such item |
| Orders.ArgMin | src/analysis/OXObjectiveFunctionAnalysis.py:408 | `min` with a key returns an item whose key no other item undercuts, the first such item |
| Orders.SortedHeadIsFirstExtreme | src/analysis/OXObjectiveFunctionAnalysis.py:177-181 | the head of the stable sort is the item `max` (descending) or `min` (ascending) returns |
| Orders.SetMax | src/analysis/OXRightHandSideAnalysis.py:135-141 | the greatest of a non-empty collection of values is one of them and no value exceeds it |
| Orders.SetMin | src/analysis/OXRightHandSideAnalysis.py:135-141 | the least of a non-empty collection of values is one of them and no value is below it |
| Solutions.Lookup | src/analysis/OXObjectiveFunctionAnalysis.py:451 | `d.get(name)` is None exactly when no item has the name, and otherwise a value stored under it |
| Solutions.LookupDistinct | src/analysis/OXObjectiveFunctionAnalysis.py:451 | in a dictionary the value found is the one stored under the name |
| Solutions.SuccessRate | src/analysis/OXObjectiveFunctionAnalysis.py:388 | the rate is 0 without scenarios and otherwise times the total is the count, within [0, 1] and above 0 when something counted |
| Solutions.SuccessRateExtremes | src/analysis/OXRightHandSideAnalysis.py:509 | the rate is 1 exactly when every scenario counted and 0 exactly when none did or there were none |
| RhsAnalysis.Slack | src/analysis/OXRightHandSideAnalysis.py:542-547 | for <= and >= the slack is non-negative exactly when the evaluated constraint holds; for any other operator it is the distance between the sides, zero exactly when they are equal; in every case its absolute value is that distance |
| RhsAnalysis.BindingIgnoresOperator | src/analysis/OXRightHandSideAnalysis.py:542-553 | a constraint binds exactly when its two sides differ by less than 1e-6, whatever its operator and on either side of its bound |
| RhsAnalysis.SlackValues | src/analysis/OXRightHandSideAnalysis.py:533-549 | a scenario has a slack value exactly when it is OPTIMAL with a solution that evaluates the constraint |
| RhsAnalysis.SlackValuesLastWins | src/analysis/OXRightHandSideAnalysis.py:533-549 | the stored slack of a scenario is the one computed from its last occurrence |
| RhsAnalysis.BindingScenarios | src/analysis/OXRightHandSideAnalysis.py:533-553 | a scenario is listed as binding exactly when it reports the constraint with a slack below the tolerance |
| RhsAnalysis.BindingScenariosOrdered | src/analysis/OXRightHandSideAnalysis.py:533-553 | the binding scenarios appear in scenario order |
| RhsAnalysis.BindingHasSlack | src/analysis/OXRightHandSideAnalysis.py:549-553 | every binding scenario has a recorded slack, and in a dictionary of results that slack is binding |
| RhsAnalysis.ObjectiveValues | src/analysis/OXRightHandSideAnalysis.py:504-505 | a name has an objective value exactly when some scenario of that name is OPTIMAL with a solution |
| RhsAnalysis.ObjectiveValuesLastWins | src/analysis/OXRightHandSideAnalysis.py:504-505 | the value stored under a solved scenario with no later scenario of the same name is its solution's objective value |
| RhsAnalysis.FeasibleCount | src/analysis/OXRightHandSideAnalysis.py:504-506 | the feasible count never exceeds the number of scenarios |
| RhsAnalysis.FeasibleCountIsSize | src/analysis/OXRightHandSideAnalysis.py:504-506 | the feasible count equals the number of recorded objective values |
| RhsAnalysis.Feasibility | src/analysis/OXRightHandSideAnalysis.py:498-502 | exactly the scenarios' names have a feasibility entry, and in a dictionary of results each entry is true exactly when that scenario's status is OPTIMAL |
| RhsAnalysis.RhsStatistics | src/analysis/OXRightHandSideAnalysis.py:132-141 | no statistics for no values; otherwise the minimum and maximum are values, every value lies between them and the range is their difference |
| RhsAnalysis.Range | src/analysis/OXRightHandSideAnalysis.py:434-439 | the spread over the common scenarios is not negative, bounds every pairwise difference and is the difference of one pair, so it is max - min; it is 0 exactly when all those values are equal |
| RhsAnalysis.Sensitivity | src/analysis/OXRightHandSideAnalysis.py:425-444 | the score is never negative, and is 0 with fewer than two rhs values or fewer than two common scenarios |
| RhsAnalysis.SensitivityMeaning | src/analysis/OXRightHandSideAnalysis.py:434-444 | over the common scenarios, a constant rhs gives 0 and otherwise the objective's spread is the score times the rhs's spread |
| RhsAnalysis.ConstantRhsInsensitive | src/analysis/OXRightHandSideAnalysis.py:438-442 | an rhs that is the same in every scenario has score 0 |
| RhsAnalysis.IsCritical | src/analysis/OXRightHandSideAnalysis.py:166-170 | a constraint is critical exactly when it has rhs values and binding scenarios and the binding share reaches the threshold |
| RhsAnalysis.CriticalThresholds | src/analysis/OXRightHandSideAnalysis.py:166-170 | at threshold 0.5 critical means binding in at least half of the scenarios with rhs values; lowering the threshold keeps every critical constraint critical |
| RhsAnalysis.Originals | src/analysis/OXRightHandSideAnalysis.py:389-392 | the recorded active scenarios have exactly the database's ids as keys |
| RhsAnalysis.OriginalsConsistent | src/analysis/OXRightHandSideAnalysis.py:389-392 | when objects sharing an id share an active scenario, each object's recorded scenario is its own |
| RhsAnalysis.SwitchAll | src/analysis/OXRightHandSideAnalysis.py:396-400 | every object is switched to the requested scenario where it has it and to "Default" otherwise, and nothing else about it changes |
| RhsAnalysis.RestoreAll | src/analysis/OXRightHandSideAnalysis.py:407-411 | restoring keeps the number of objects; a recorded object gets its recorded scenario back with every other field as it was, and an unrecorded object is unchanged |
| RhsAnalysis.RestoreFacts | src/analysis/OXRightHandSideAnalysis.py:389-411 | switching and then restoring changes nothing but active scenarios, and in a consistent database changes nothing at all |
| RhsAnalysis.ExtractRhs | src/analysis/OXRightHandSideAnalysis.py:389-411 | the extraction returns the constraint's own rhs value and leaves every object as it was except possibly its active scenario; a consistent database comes back unchanged |
| RhsAnalysis.RhsValuesFor | src/analysis/OXRightHandSideAnalysis.py:523-530 | every scenario name gets an rhs value, and a consistent database comes back unchanged |
| RhsAnalysis.RhsValuesIgnoreScenarios | src/analysis/OXRightHandSideAnalysis.py:396-405 | every scenario reads the same rhs value, the constraint's own |
| RhsAnalysis.AnalysisName | src/analysis/OXRightHandSideAnalysis.py:519 | the constraint's name, or `Constraint_<id>` when the name is empty |
| RhsAnalysis.Targets | src/analysis/OXRightHandSideAnalysis.py:491-514 | the constraints visited are exactly the problem's constraints that are targeted: all of them when no ids are given, otherwise those whose id is given |
| RhsAnalysis.AnalyzeConstraint | src/analysis/OXRightHandSideAnalysis.py:516-564 | the analysis carries the constraint's id, its name (or `Constraint_<id>`) and its operator's symbol; it has the constraint's rhs value under every scenario name and no other key; its binding scenarios and slack values are those of the results; its statistics are those of its rhs values and its sensitivity is computed against the given objective values; it equals the database-free `AnalysisOf`, and a consistent database comes back unchanged |
| RhsAnalysis.AnalyzedSensitivityZero | src/analysis/OXRightHandSideAnalysis.py:523-561 | every analysed constraint gets sensitivity 0 and, when it has statistics, an rhs range of 0 |
| RhsAnalysis.AnalyzeAll | src/analysis/OXRightHandSideAnalysis.py:512-564 | the loop yields, in constraint order, exactly one analysis per targeted constraint, each the database-free analysis of that constraint, and a consistent database comes back unchanged |
| RhsAnalysis.AllInsensitive | src/analysis/OXRightHandSideAnalysis.py:512-558 | every analysis the loop produces has sensitivity 0 |
| RhsAnalysis.CriticalIds | src/analysis/OXRightHandSideAnalysis.py:566-570 | the critical ids are exactly the ids of the analyses that are critical at 0.5, in analysis order, one entry per such analysis: the list of ids of the analyses the filter keeps |
| RhsAnalysis.Analyze | src/analysis/OXRightHandSideAnalysis.py:482-580 | no scenarios raise the no-scenarios error; exactly one analysed constraint makes `statistics.quantiles` raise StatisticsError; otherwise the scenario count, feasibility map, objective values, feasible count and success rate are those of the results, the analyses are the analyses of the targeted constraints in constraint order, the critical ids are those of the analyses critical at 0.5, every sensitivity is 0, and a consistent database comes back unchanged |
| RhsAnalysis.PyPrefix | src/analysis/OXRightHandSideAnalysis.py:235 | `s[:n]` is a prefix of s: n items when n is between 0 and the length, all of s for larger n, and the length plus n items (at least 0) for negative n |
| RhsAnalysis.TopSensitive | src/analysis/OXRightHandSideAnalysis.py:233-235 | the result is a prefix of the analyses sorted by score, highest first, as long as `top_n` allows (the length plus `top_n` for a negative one, at least 0); so it is sorted, holds only analyses given, and is a permutation of them when `top_n` covers them all |
| RhsAnalysis.TopSensitiveKeepsHighest | src/analysis/OXRightHandSideAnalysis.py:233-235 | no analysis left out scores higher than one kept |
| RhsAnalysis.ByBindingFrequency | src/analysis/OXRightHandSideAnalysis.py:247-256 | exactly the analyses with rhs values, binding scenarios and a binding rate of at least the minimum, each as often as given, highest rate first |
| RhsAnalysis.ByBindingFrequencyStable | src/analysis/OXRightHandSideAnalysis.py:247-256 | analyses with the same binding rate keep their original order |
| ObjectiveAnalysis.ScenarioValues | src/analysis/OXObjectiveFunctionAnalysis.py:376-384 | a (name, value) item is recorded exactly when a scenario of that name is OPTIMAL or FEASIBLE with a solution whose objective value it is |
| ObjectiveAnalysis.ScenarioValuesOrdered | src/analysis/OXObjectiveFunctionAnalysis.py:376-384 | the recorded values keep the scenarios' order |
| ObjectiveAnalysis.ScenarioValuesDistinct | src/analysis/OXObjectiveFunctionAnalysis.py:376-384 | a dictionary of results gives a dictionary of values: no name recorded twice |
| ObjectiveAnalysis.OptimalCount | src/analysis/OXObjectiveFunctionAnalysis.py:382-385 | the optimal count never exceeds the number of scenarios |
| ObjectiveAnalysis.OptimalCountIsSize | src/analysis/OXObjectiveFunctionAnalysis.py:382-385 | the optimal count is the number of values recorded |
| ObjectiveAnalysis.Statuses | src/analysis/OXObjectiveFunctionAnalysis.py:376-380 | exactly the scenarios' names have a recorded status, and in a dictionary of results each is that scenario's status |
| ObjectiveAnalysis.Direction | src/analysis/OXObjectiveFunctionAnalysis.py:369-373 | the direction is "maximize" exactly when the problem maximises |
| ObjectiveAnalysis.BestIndex | src/analysis/OXObjectiveFunctionAnalysis.py:406-411 | the best scenario holds the greatest value when maximising and the least otherwise, and is the first such item |
| ObjectiveAnalysis.WorstIndex | src/analysis/OXObjectiveFunctionAnalysis.py:406-411 | the worst scenario holds the other extreme, and is the first such item |
| ObjectiveAnalysis.LowerKeepsDirections | src/analysis/OXObjectiveFunctionAnalysis.py:406 | lower-casing leaves both direction values as they are |
| ObjectiveAnalysis.BestWorstDual | src/analysis/OXObjectiveFunctionAnalysis.py:406-411 | best and worst trade places when the direction flips, and when maximising the best value is at least the worst |
| ObjectiveAnalysis.Extremes | src/analysis/OXObjectiveFunctionAnalysis.py:398-400 | the minimum and maximum are values of recorded scenarios and every value lies between them |
| ObjectiveAnalysis.AnalyzeObjective | src/analysis/OXObjectiveFunctionAnalysis.py:360-413 | no scenarios raise the no-scenarios error, no recorded value raises the no-optimal error, and otherwise the result holds the recorded values, the total and optimal counts, a success rate in (0, 1], the range of the values, the direction and every status, and `best`/`worst` name the scenarios at the direction's best and worst positions |
| ObjectiveAnalysis.AnalyzeBestWorst | src/analysis/OXObjectiveFunctionAnalysis.py:406-411 | when maximising the best scenario holds the maximum and the worst the minimum, otherwise the other way round; of several scenarios tied at an extreme, the first in scenario order is the one named, as `max` and `min` return |
| ObjectiveAnalysis.Ranking | src/analysis/OXObjectiveFunctionAnalysis.py:177-181 | the ranking is a permutation of the recorded items sorted by value, descending exactly when the direction is "maximize" |
| ObjectiveAnalysis.RankingStable | src/analysis/OXObjectiveFunctionAnalysis.py:181 | scenarios with equal values keep their scenario order |
| ObjectiveAnalysis.RankingHeadIsBest | src/analysis/OXObjectiveFunctionAnalysis.py:177-181 | for either direction the analysis sets, the ranking starts with the best scenario |
| ObjectiveAnalysis.RankedNames | src/analysis/OXObjectiveFunctionAnalysis.py:177-181 | the ranking names exactly the scenarios with values |
| ObjectiveAnalysis.RankIn | src/analysis/OXObjectiveFunctionAnalysis.py:458-463 | the rank is the 1-based position of the first item with the name |
| ObjectiveAnalysis.PercentileRank | src/analysis/OXObjectiveFunctionAnalysis.py:462 | the percentile rank lies in (0, 100], times the ranking's length is 100 times the rank, and is 100 exactly for the last place |
| ObjectiveAnalysis.CompareOne | src/analysis/OXObjectiveFunctionAnalysis.py:446-463 | a name without a status raises the not-found error; otherwise the entry holds the status and the value (if any), and a rank and percentile rank exactly when the scenario has a value |
| ObjectiveAnalysis.CompareScenarios | src/analysis/OXObjectiveFunctionAnalysis.py:441-467 | the analysis's exceptions propagate; otherwise one entry per requested name, in order, and a failure is the OXception "Scenario '<name>' not found in analysis results" for the first requested name without a status |
| ObjectiveAnalysis.CompareEach | src/analysis/OXObjectiveFunctionAnalysis.py:445-465 | the loop fails exactly when some requested name has no status, with the not-found message of the first such name, and otherwise holds one entry per name |
| ObjectiveAnalysis.Trunc | src/analysis/OXObjectiveFunctionAnalysis.py:202 | `int()` truncates toward zero |
| ObjectiveAnalysis.PyIndex | src/analysis/OXObjectiveFunctionAnalysis.py:202 | indexing succeeds exactly for indices from minus the length up to the length, counting negative ones from the end, and otherwise raises IndexError |
| ObjectiveAnalysis.GetPercentile | src/analysis/OXObjectiveFunctionAnalysis.py:198-202 | nothing without values, the value itself for one, and otherwise the cut point at `int(p) - 1`, raising IndexError when that index is out of range |
| ObjectiveAnalysis.PercentileEdges | src/analysis/OXObjectiveFunctionAnalysis.py:198-202 | with 99 cut points, a percentile p in [1, 100) picks cut point `floor(p) - 1`; 100 and above, and -99 and below, raise IndexError; between -99 and 1 the index `int(p) - 1` counts from the end, so every p in (-1, 1) gives the last cut point |

## Left out

- Solver adapters (OR-Tools, Gurobi, the solver factory and `solve_all_scenarios`) are left out. The per-scenario results the analyses consume are a parameter (`Solutions.ScenarioResults`). Only the integer scaling of constraint coefficients is taken from the OR-Tools adapter, together with the evaluation its callback gives special constraints.
- Serialization, class loading, `OXObject` (uuid4 ids and the reflective `class_name`), `OXception`'s stack inspection and `DynamicValue` are not part of this model. Ids are an abstract `Uuid`, and exceptions are named values.
- The float-to-fraction step (`Decimal(str(w))`, `math.isclose`, `lru_cache`) is floating point, so it is left out. Weights arrive as exact rationals. `calculate_fraction` receives its number exactly as p / q and stops on exact equality.
- Fractions.CalculateFraction: does not model the float test cases such as 1/3, because they depend on `math.isclose` and float rounding.
- The float statistics are left out: mean, median, stdev, variance, the coefficient of variation and `statistics.quantiles`. `ObjectiveAnalysis.GetPercentile` takes the quantile list as a parameter. `RhsAnalysis.RhsStatistics` keeps only min, max and range.
- `most_sensitive_constraints` and `rhs_sensitivity_summary` are left out. Both are built from quantiles and the float statistics. Only the raise of `statistics.quantiles` is kept (`RhsAnalysis.Analyze`).
- The analysers' constructors and their checks are left out (an objective present, scenario data present, constraints present). So is `analyze_constraint_subset`.
- `get_constraint_analysis` is a plain dictionary `get` and is left out. The result's constraint analyses are a list in constraint order, not a dictionary keyed by id. The two agree when constraint ids are distinct, which the constraint set's fresh ids give; with a repeated id the dictionary would keep only the last analysis.
- RhsAnalysis.Analyze: models the StatisticsError that `statistics.quantiles` raises for a single data point, as Python up to 3.12 does. From Python 3.13 a single point no longer raises, and `analyze` would then return.
- RhsAnalysis.Analyze: a failure carries no database. The source raises inside the constraint loop only after every `finally` has restored the active scenarios, so a consistent database is unchanged then too.
- Shadow prices are left out. `analyze` never fills them in.
- `create_variables_from_db` is left out. It relies on template `.format`, `dataclasses.fields` and products over the database. Builders take their inputs as a list, a search function or one object.
- Python dictionaries are lists of (key, value) items. `ObjectiveAnalysis.CompareScenarios` returns one entry per requested name in order. The source's dictionary would collapse a name requested twice into one entry.
- Set iteration order is not modelled. Where the source iterates over a set (the common scenarios of the sensitivity ratio), the model states only order-independent results: the range is computed on the set.
- RhsAnalysis.RhsValuesFor: does not model the `except Exception: continue` skip. Reading `constraint.rhs` and `float()` of a Fraction cannot raise, so every scenario gets a value.
- Builders.CreateMultiplicative: raises ValueError when the first corner product is nan (a `0 * inf` corner). The source would instead create an output variable with nan bounds, which `nan > nan` lets through the bound check.
- Builders.CreateSummation: raises ValueError when the sum of the lower or of the upper bounds is nan (both infinities present). The source would keep the nan bound.
- `lower()` is modelled on the ASCII range only (`Base.Lower`), which covers every class name and direction string the library uses.
- Problems.CreateGoalObjective: gives every weight as the exact rational 1, where the source writes the float `1.0`.
- Data.AddOverrides: `hasattr` also sees names the class supplies. The model lists those that OXData and OXObject define, those the dataclass decorator adds and those inherited from `object` (`Data.ClassAttributes`). Methods and class variables that a subclass of OXData adds are not modelled: a kwargs name that is only such a method raises in the model, where the source would store it.
- OXGPProblem's `create_objective_function` ignores all its arguments, so `Problems.CreateGoalObjective` takes none.
- Rounding of bounds and `inf` to `sys.maxsize` in the OR-Tools adapter are solver-side, so they are left out.

## Findings

| source | as written | input that shows it | evidently intended | confidence | as-written member | corrected member |
|---|---|---|---|---|---|---|
| src/constraints/OXSpecialConstraints.py:119 | the id fields of the special constraints use `field(default_factory=UUID)`, and `UUID()` with no argument raises TypeError | `OXMultiplicativeEqualityConstraint()` with no arguments (tests/test_OXSpecialConstraints.py:83-90) | a fresh id per id field (`uuid4`), an empty input list and denominator 1 | not executed | Specials.DefaultConstruct, Specials.DefaultSpecialAsWritten, Specials.DefaultsRaiseAsWritten | Specials.DefaultSpecial |
| src/problem/OXProblem.py:219-220 | the division builder bounds its output by `lower_bound / divisor` and `upper_bound / divisor`, using true division | an input variable in [3, 5] with divisor 2 gives the bounds [1.5, 2.5], but the output holds `x // 2`, which is 1 for x = 3 | bounds rounded down, `floor(lb / d)` and `floor(ub / d)`, which contain `x // d` for every in-bound x | not executed | Bounds.DivisionBoundsAsWritten, Bounds.DivisionBoundsExcludeQuotient, Builders.CreateDivisionModulus | Bounds.DivisionBounds, Bounds.DivisionBoundsSound, Builders.IntendedDivisionModulus, Builders.DivisionModulusBoundsSound |
| src/problem/OXProblem.py:219-222 | for a negative divisor the division bounds come out in reverse order, and the modulus bounds 0 and `divisor - 1` are always out of order, so creating the output raises the bounds error | an input variable in [3, 4] with divisor -10: division bounds -0.3 and -0.4, modulus bounds 0 and -11 | bounds ordered for the divisor's sign: [-1, -1] for the quotient and (d, 0], here [-9, 0], for the remainder | not executed | Bounds.ModulusBoundsAsWritten, Builders.CreateDivisionModulus, Builders.NegativeDivisorAsWritten | Bounds.ModulusBounds, Bounds.DivisionBounds, Builders.IntendedDivisionModulus, Builders.DivisionModulusBoundsSound |
| src/problem/OXProblem.py:212 | the division/modulus builder calls `len()` on its argument, so the variable object itself (allowed by the signature and docstring at lines 163 and 177-178) raises TypeError; the conditional builder counts only lists and then indexes `[0]` on a constraint object (lines 370-375) | `_create_division_or_modulus_equality_constraint(problem, input_variable=x, divisor=3, ...)` with x an `OXVariable` | one object stands for the list holding it | not executed | Builders.Select, Builders.CreateDivisionModulus, Builders.CreateConditional, Builders.CreateSpecial | Builders.SelectSingle, Builders.IntendedDivisionModulus, Builders.IntendedConditional, Builders.DivisionModulusOfObject, Builders.ConditionalOfObject, Builders.IntendedSpecial, Builders.SpecialAsWrittenAndIntended |
| src/variables/OXVariableSet.py:413-420 | `query` skips a queried key the variable does not hold and keeps the variable if one key matches, while the docstring (lines 316-335) requires ALL keys to be present and matching | a variable holding only `k1 = a`, queried with `k1 = a, k2 = b`, is returned | keep only variables holding every queried key with its value | not executed | TypedSets.QueryLoop, TypedSets.Query, TypedSets.QueryIgnoresUnheldKeys | TypedSets.IntendedQuery, TypedSets.IntendedQueryNarrower, TypedSets.IntendedQueryNeedsEveryKey |

=== FILE: base.dfy ===
/** Shared vocabulary of the OptiX model: object ids, failure-carrying results,
    the exceptions the library raises, and the sequence and string helpers that
    stand in for Python's list and str built-ins. */
module Base {

  /** An object id. OptiX draws these from uuid4; the model only needs equality
      and the canonical text form that appears in generated names. */
  datatype Uuid = Uuid(text: string)

  datatype Option<+T> = None | Some(value: T)

  /** The exceptions raised by the modelled code. */
  datatype Error =
    | OXception(message: string)
    | ValueError
    | IndexError
    | TypeError
    | ZeroDivisionError
    | AttributeError
    | StatisticsError

  /** Result of a call that returns a value or raises. */
  datatype Result<+T> = Success(value: T) | Failure(error: Error) {
    predicate IsFailure() { Failure? }
    function PropagateFailure<U>(): Result<U>
      requires Failure?
    {
      Failure(error)
    }
    function Extract(): T
      requires Success?
    {
      value
    }
  }

  /** Result of a call that mutates some state S in place. Python keeps every
      mutation made before an exception, so a raise carries the state reached
      at that point. */
  datatype Outcome<S> = Done(state: S) | Raised(state: S, error: Error)

  // ---------------------------------------------------------------------------
  // Sequences
  // ---------------------------------------------------------------------------

  /** `r` is obtained from `s` by deleting elements, keeping the order. */
  predicate IsSubsequence<T(==)>(r: seq<T>, s: seq<T>)
    decreases |s|
  {
    if |r| == 0 then true
    else if |s| == 0 then false
    else if r[0] == s[0] then IsSubsequence(r[1..], s[1..])
    else IsSubsequence(r, s[1..])
  }

  lemma {:induction false} EmptyIsSubsequence<T>(s: seq<T>)
    ensures IsSubsequence([], s)
  {
  }

  /** The order-preserving filter a list comprehension `[x for x in s if p(x)]` builds. */
  function Filter<T(!new)>(s: seq<T>, p: T -> bool): (r: seq<T>)
    ensures |r| <= |s|
    ensures forall x :: x in r <==> x in s && p(x)
    ensures forall i :: 0 <= i < |r| ==> p(r[i])
  {
    if |s| == 0 then []
    else if p(s[0]) then [s[0]] + Filter(s[1..], p)
    else Filter(s[1..], p)
  }

  lemma {:induction false} FilterIsSubsequence<T(!new)>(s: seq<T>, p: T -> bool)
    ensures IsSubsequence(Filter(s, p), s)
  {
    if |s| == 0 {
    } else {
      FilterIsSubsequence(s[1..], p);
      var r := Filter(s, p);
      if p(s[0]) {
        assert r[0] == s[0] && r[1..] == Filter(s[1..], p);
      } else if |r| > 0 {
        SkipHead(r, s);
      }
    }
  }

  /** Filtering with a predicate that holds everywhere on `s` keeps all of `s`. */
  lemma {:induction false} FilterAll<T(!new)>(s: seq<T>, p: T -> bool)
    requires forall i :: 0 <= i < |s| ==> p(s[i])
    ensures Filter(s, p) == s
  {
    if |s| > 0 {
      FilterAll(s[1..], p);
      assert [s[0]] + s[1..] == s;
    }
  }

  /** Prepending an element to the longer sequence keeps a subsequence one. */
  lemma {:induction false} SkipHead<T>(r: seq<T>, s: seq<T>)
    requires |s| > 0
    requires IsSubsequence(r, s[1..])
    ensures IsSubsequence(r, s)
    decreases |s|, |r|
  {
    if |r| > 0 && r[0] == s[0] {
      DropHead(r, s[1..]);
    }
  }

  /** Dropping the first element of a subsequence keeps it a subsequence. */
  lemma {:induction false} DropHead<T>(r: seq<T>, t: seq<T>)
    requires |r| > 0
    requires IsSubsequence(r, t)
    ensures IsSubsequence(r[1..], t)
    decreases |t|, |r|
  {
    if |r| > 1 {
      if r[0] == t[0] {
        SkipHead(r[1..], t);
      } else {
        DropHead(r, t[1..]);
        SkipHead(r[1..], t);
      }
    }
  }

  /** Filtering with a predicate that holds nowhere on `s` keeps nothing. */
  lemma {:induction false} FilterNone<T(!new)>(s: seq<T>, p: T -> bool)
    requires forall i :: 0 <= i < |s| ==> !p(s[i])
    ensures Filter(s, p) == []
  {
    if |s| > 0 {
      FilterNone(s[1..], p);
    }
  }

  /** Two filters agree when their predicates agree on the elements. */
  lemma {:induction false} FilterExt<T(!new)>(s: seq<T>, p: T -> bool, q: T -> bool)
    requires forall x :: x in s ==> p(x) == q(x)
    ensures Filter(s, p) == Filter(s, q)
  {
    if |s| > 0 {
      assert forall x :: x in s[1..] ==> x in s;
      FilterExt(s[1..], p, q);
    }
  }

  /** Index of the first element equal to `x` (Python's `list.index`). */
  function FirstIndex<T(==)>(s: seq<T>, x: T): (i: nat)
    requires x in s
    ensures i < |s| && s[i] == x
    ensures forall j :: 0 <= j < i ==> s[j] != x
  {
    if s[0] == x then 0 else 1 + FirstIndex(s[1..], x)
  }

  /** Python's `list.remove(x)`: deletes the first element equal to `x`,
      raising ValueError when there is none. */
  function RemoveFirst<T(==)>(s: seq<T>, x: T): (r: Result<seq<T>>)
    ensures x !in s <==> r == Failure(ValueError)
    ensures r.Success? ==> |r.value| == |s| - 1
    ensures r.Success? ==> multiset(r.value) == multiset(s) - multiset{x}
    ensures r.Success? ==> exists i :: 0 <= i < |s| && s[i] == x
                                     && (forall j :: 0 <= j < i ==> s[j] != x)
                                     && r.value == s[..i] + s[i + 1..]
  {
    if x !in s then Failure(ValueError)
    else
      var i := FirstIndex(s, x);
      assert s == s[..i] + [s[i]] + s[i + 1..];
      Success(s[..i] + s[i + 1..])
  }

  // ---------------------------------------------------------------------------
  // Strings
  // ---------------------------------------------------------------------------

  /** Python's `str.isspace` for one character. */
  predicate IsSpace(c: char) {
    c == ' ' || c == '\t' || c == '\n' || c == '\r' || c == '\U{000B}' || c == '\U{000C}'
    || ('\U{001C}' <= c <= '\U{001F}') || c == '\U{0085}' || c == '\U{00A0}'
    || c == '\U{1680}' || ('\U{2000}' <= c <= '\U{200A}') || c == '\U{2028}'
    || c == '\U{2029}' || c == '\U{202F}' || c == '\U{205F}' || c == '\U{3000}'
  }

  predicate AllSpace(s: string) {
    forall i :: 0 <= i < |s| ==> IsSpace(s[i])
  }

  /** Index of the first non-space character of `s` at or after `i`, or |s|. */
  function SkipSpaces(s: string, i: nat): (k: nat)
    requires i <= |s|
    ensures i <= k <= |s|
    ensures forall m :: i <= m < k ==> IsSpace(s[m])
    ensures k < |s| ==> !IsSpace(s[k])
    decreases |s| - i
  {
    if i == |s| || !IsSpace(s[i]) then i else SkipSpaces(s, i + 1)
  }

  /** The end of `s[lo..j]` once trailing spaces are removed. */
  function TrimEnd(s: string, lo: nat, j: nat): (k: nat)
    requires lo <= j <= |s|
    ensures lo <= k <= j
    ensures forall m :: k <= m < j ==> IsSpace(s[m])
    ensures k > lo ==> !IsSpace(s[k - 1])
    decreases j
  {
    if j == lo || !IsSpace(s[j - 1]) then j else TrimEnd(s, lo, j - 1)
  }

  /** Python's `str.strip()` with no argument. */
  function Strip(s: string): (r: string)
    ensures exists i, j :: 0 <= i <= j <= |s| && r == s[i..j]
                           && AllSpace(s[..i]) && AllSpace(s[j..])
    ensures |r| > 0 ==> !IsSpace(r[0]) && !IsSpace(r[|r| - 1])
    ensures r == "" <==> AllSpace(s)
  {
    var i := SkipSpaces(s, 0);
    var j := TrimEnd(s, i, |s|);
    assert AllSpace(s[..i]) by {
      forall m | 0 <= m < i ensures IsSpace(s[..i][m]) { assert s[..i][m] == s[m]; }
    }
    assert AllSpace(s[j..]) by {
      forall m | 0 <= m < |s| - j ensures IsSpace(s[j..][m]) { assert s[j..][m] == s[j + m]; }
    }
    assert s[i..j] == "" ==> AllSpace(s) by {
      if i == j {
        assert i == |s|;
      }
    }
    s[i..j]
  }

  lemma AllSpaceConcat(a: string, b: string)
    requires AllSpace(a) && AllSpace(b)
    ensures AllSpace(a + b)
  {
    assert forall k :: 0 <= k < |a + b| ==> (a + b)[k] == if k < |a| then a[k] else b[k - |a|];
  }

  /** ASCII lower-casing (Python's `str.lower` on the ASCII range). */
  function LowerChar(c: char): char {
    if 'A' <= c <= 'Z' then (c as int + 32) as char else c
  }

  function Lower(s: string): (r: string)
    ensures |r| == |s|
    ensures forall i :: 0 <= i < |s| ==> r[i] == LowerChar(s[i])
  {
    if |s| == 0 then "" else [LowerChar(s[0])] + Lower(s[1..])
  }

  /** Python's `str.rfind(c)`: last index of `c`, or -1. */
  function RFind(s: string, c: char): (k: int)
    ensures -1 <= k < |s|
    ensures k >= 0 ==> s[k] == c
    ensures forall j :: k < j < |s| ==> s[j] != c
  {
    if |s| == 0 then -1
    else if s[|s| - 1] == c then |s| - 1
    else RFind(s[..|s| - 1], c)
  }

  function DigitChar(d: nat): char
    requires d < 10
  {
    ('0' as int + d) as char
  }

  /** Decimal text of a natural number, as Python's `str(int)` writes it. */
  function NatToString(n: nat): (s: string)
    ensures |s| > 0
    ensures forall i :: 0 <= i < |s| ==> '0' <= s[i] <= '9'
    decreases n
  {
    if n < 10 then [DigitChar(n)] else NatToString(n / 10) + [DigitChar(n % 10)]
  }

  function IntToString(n: int): (s: string)
    ensures |s| > 0
  {
    if n < 0 then "-" + NatToString(-n) else NatToString(n)
  }
}

=== FILE: bounds.dfy ===
/** The bounds the special-constraint builders give their output variables:
    corner products under `min`/`max` for a product, left-to-right `sum`
    for a summation, and the quotient bounds of a division. Python floats
    are extended reals here, with `None` standing for nan. */
module Bounds {
  import opened Base
  import opened Numbers

  /** A Python float: an extended real, or nan (None). */
  type Float = Option<Ext>

  /** Python's `a < b` on floats: false whenever either side is nan. */
  predicate FLt(a: Float, b: Float) {
    a.Some? && b.Some? && Lt(a.value, b.value)
  }

  lemma LeTotal(a: Ext, b: Ext)
    ensures Le(a, b) || Le(b, a)
    ensures !Lt(a, b) ==> Le(b, a)
  {
  }

  lemma LeTrans(a: Ext, b: Ext, c: Ext)
    requires Le(a, b) && Le(b, c)
    ensures Le(a, c)
  {
  }

  // ---------------------------------------------------------------------------
  // min and max
  // ---------------------------------------------------------------------------

  /** The loop of the built-in `min` from the current item on: a later item
      replaces the current one only when it compares less. */
  function MinFrom(cur: Float, rest: seq<Float>): Float
    decreases |rest|
  {
    if |rest| == 0 then cur
    else MinFrom(if FLt(rest[0], cur) then rest[0] else cur, rest[1..])
  }

  /** So a nan is skipped unless it is the current item, and then it stays;
      otherwise the result is no greater than any item that is not nan. */
  lemma {:induction false} MinFromProps(cur: Float, rest: seq<Float>)
    ensures var r := MinFrom(cur, rest);
      (cur.None? ==> r.None?)
      && (cur.Some? ==> r.Some? && Le(r.value, cur.value))
      && (cur.Some? ==> forall i :: 0 <= i < |rest| && rest[i].Some? ==> Le(r.value, rest[i].value))
      && (r == cur || r in rest)
    decreases |rest|
  {
    if |rest| > 0 {
      var next := if FLt(rest[0], cur) then rest[0] else cur;
      MinFromProps(next, rest[1..]);
      var r := MinFrom(next, rest[1..]);
      assert forall x :: x in rest[1..] ==> x in rest;
      if cur.Some? {
        LeTrans(r.value, next.value, cur.value);
        if rest[0].Some? {
          LeTotal(rest[0].value, cur.value);
        }
        if rest[0].Some? && !FLt(rest[0], cur) {
          LeTrans(r.value, cur.value, rest[0].value);
        }
        forall i | 1 <= i < |rest| && rest[i].Some? ensures Le(r.value, rest[i].value) {
          assert rest[i] == rest[1..][i - 1];
        }
      }
    }
  }

  /** The loop of the built-in `max`: replace only on a strictly greater item. */
  function MaxFrom(cur: Float, rest: seq<Float>): Float
    decreases |rest|
  {
    if |rest| == 0 then cur
    else MaxFrom(if FLt(cur, rest[0]) then rest[0] else cur, rest[1..])
  }

  lemma {:induction false} MaxFromProps(cur: Float, rest: seq<Float>)
    ensures var r := MaxFrom(cur, rest);
      (cur.None? ==> r.None?)
      && (cur.Some? ==> r.Some? && Le(cur.value, r.value))
      && (cur.Some? ==> forall i :: 0 <= i < |rest| && rest[i].Some? ==> Le(rest[i].value, r.value))
      && (r == cur || r in rest)
    decreases |rest|
  {
    if |rest| > 0 {
      var next := if FLt(cur, rest[0]) then rest[0] else cur;
      MaxFromProps(next, rest[1..]);
      var r := MaxFrom(next, rest[1..]);
      assert forall x :: x in rest[1..] ==> x in rest;
      if cur.Some? {
        LeTrans(cur.value, next.value, r.value);
        if rest[0].Some? {
          LeTotal(cur.value, rest[0].value);
        }
        if rest[0].Some? && !FLt(cur, rest[0]) {
          LeTrans(rest[0].value, cur.value, r.value);
        }
        forall i | 1 <= i < |rest| && rest[i].Some? ensures Le(rest[i].value, r.value) {
          assert rest[i] == rest[1..][i - 1];
        }
      }
    }
  }

  /** `min(xs)`: nan exactly when the first item is nan; otherwise an item
      no greater than any item that is not nan. */
  function PyMin(xs: seq<Float>): (r: Float)
    requires |xs| > 0
    ensures r.None? <==> xs[0].None?
    ensures r.Some? ==> forall i :: 0 <= i < |xs| && xs[i].Some? ==> Le(r.value, xs[i].value)
    ensures r in xs
  {
    MinFromProps(xs[0], xs[1..]);
    assert forall i :: 1 <= i < |xs| ==> xs[i] == xs[1..][i - 1];
    MinFrom(xs[0], xs[1..])
  }

  /** `max(xs)`, symmetrically. */
  function PyMax(xs: seq<Float>): (r: Float)
    requires |xs| > 0
    ensures r.None? <==> xs[0].None?
    ensures r.Some? ==> forall i :: 0 <= i < |xs| && xs[i].Some? ==> Le(xs[i].value, r.value)
    ensures r in xs
  {
    MaxFromProps(xs[0], xs[1..]);
    assert forall i :: 1 <= i < |xs| ==> xs[i] == xs[1..][i - 1];
    MaxFrom(xs[0], xs[1..])
  }

  // ---------------------------------------------------------------------------
  // Corners of a box
  // ---------------------------------------------------------------------------

  /** A variable's domain as the pair (lower_bound, upper_bound). */
  type Domain = (Ext, Ext)

  /** `c` picks one end of each domain. */
  predicate IsCorner(c: seq<Ext>, ds: seq<Domain>) {
    |c| == |ds| && forall i :: 0 <= i < |ds| ==> c[i] == ds[i].0 || c[i] == ds[i].1
  }

  function Lowers(ds: seq<Domain>): (ls: seq<Ext>)
    ensures |ls| == |ds| && forall i :: 0 <= i < |ds| ==> ls[i] == ds[i].0
  {
    seq(|ds|, i requires 0 <= i < |ds| => ds[i].0)
  }

  function Uppers(ds: seq<Domain>): (us: seq<Ext>)
    ensures |us| == |ds| && forall i :: 0 <= i < |ds| ==> us[i] == ds[i].1
  {
    seq(|ds|, i requires 0 <= i < |ds| => ds[i].1)
  }

  function Prepend(a: Ext, cs: seq<seq<Ext>>): (r: seq<seq<Ext>>)
    ensures |r| == |cs| && forall i :: 0 <= i < |cs| ==> r[i] == [a] + cs[i]
  {
    seq(|cs|, i requires 0 <= i < |cs| => [a] + cs[i])
  }

  /** `itertools.product(*domains)`: every way to pick an end of each
      domain, the first domain varying slowest. The first tuple takes every
      lower bound. */
  function Corners(ds: seq<Domain>): (cs: seq<seq<Ext>>)
    ensures |cs| > 0
  {
    if |ds| == 0 then [[]]
    else
      var rest := Corners(ds[1..]);
      Prepend(ds[0].0, rest) + Prepend(ds[0].1, rest)
  }

  /** The first tuple takes every lower bound. */
  lemma {:induction false} FirstCornerLowers(ds: seq<Domain>)
    ensures Corners(ds)[0] == Lowers(ds)
  {
    if |ds| > 0 {
      FirstCornerLowers(ds[1..]);
      assert Lowers(ds) == [ds[0].0] + Lowers(ds[1..]);
    }
  }

  /** Every enumerated tuple picks one end of each domain. */
  lemma {:induction false} CornersAreCorners(ds: seq<Domain>)
    ensures forall c :: c in Corners(ds) ==> IsCorner(c, ds)
    ensures forall i :: 0 <= i < |Corners(ds)| ==> IsCorner(Corners(ds)[i], ds)
  {
    if |ds| > 0 {
      var rest := Corners(ds[1..]);
      CornersAreCorners(ds[1..]);
      var cs := Corners(ds);
      forall j | 0 <= j < |cs| ensures IsCorner(cs[j], ds) {
        if j < |rest| {
          assert cs[j] == [ds[0].0] + rest[j];
          PrependPick(ds, ds[0].0, rest[j]);
        } else {
          assert cs[j] == [ds[0].1] + rest[j - |rest|];
          PrependPick(ds, ds[0].1, rest[j - |rest|]);
        }
      }
    }
  }

  /** An end of the first domain followed by a pick for the rest is a pick. */
  lemma PrependPick(ds: seq<Domain>, a: Ext, t: seq<Ext>)
    requires |ds| > 0 && (a == ds[0].0 || a == ds[0].1) && IsCorner(t, ds[1..])
    ensures IsCorner([a] + t, ds)
  {
    assert forall i :: 1 <= i < |ds| ==> ([a] + t)[i] == t[i - 1] && ds[i] == ds[1..][i - 1];
  }

  /** The corners of a nonempty box prepend one end of the first domain to
      a corner of the rest. */
  lemma PrependCornerAt(ds: seq<Domain>, a: Ext, j: nat)
    requires |ds| > 0 && (a == ds[0].0 || a == ds[0].1) && j < |Corners(ds[1..])|
    ensures [a] + Corners(ds[1..])[j] in Corners(ds)
  {
    var rest := Corners(ds[1..]);
    var lows, highs := Prepend(ds[0].0, rest), Prepend(ds[0].1, rest);
    assert Corners(ds) == lows + highs;
    if a == ds[0].0 {
      assert (lows + highs)[j] == lows[j] == [a] + rest[j];
    } else {
      assert (lows + highs)[|rest| + j] == highs[j] == [a] + rest[j];
    }
  }

  lemma PrependCorner(ds: seq<Domain>, a: Ext, t: seq<Ext>)
    requires |ds| > 0
    requires a == ds[0].0 || a == ds[0].1
    requires t in Corners(ds[1..])
    ensures [a] + t in Corners(ds)
  {
    var rest := Corners(ds[1..]);
    var j :| 0 <= j < |rest| && rest[j] == t;
    PrependCornerAt(ds, a, j);
  }

  /** Every way of picking ends is enumerated. */
  lemma {:induction false} CornersComplete(ds: seq<Domain>, c: seq<Ext>)
    requires IsCorner(c, ds)
    ensures c in Corners(ds)
  {
    if |ds| == 0 {
      assert c == [];
    } else {
      assert IsCorner(c[1..], ds[1..]) by {
        forall i | 0 <= i < |ds| - 1 ensures c[1..][i] == ds[1..][i].0 || c[1..][i] == ds[1..][i].1 {
          assert c[1..][i] == c[i + 1];
        }
      }
      CornersComplete(ds[1..], c[1..]);
      PrependCorner(ds, c[0], c[1..]);
      assert [c[0]] + c[1..] == c;
    }
  }

  // ---------------------------------------------------------------------------
  // Products
  // ---------------------------------------------------------------------------

  /** `reduce(operator.mul, ...)` from an accumulated value: left to right,
      and nan from the first step that is nan on. */
  function MulFrom(acc: Float, rest: seq<Ext>): Float
    decreases |rest|
  {
    if |rest| == 0 then acc
    else MulFrom(if acc.Some? then ExtMul(acc.value, rest[0]) else None, rest[1..])
  }

  function ReduceMul(c: seq<Ext>): Float
    requires |c| > 0
  {
    MulFrom(Some(c[0]), c[1..])
  }

  predicate AllFinite(c: seq<Ext>) {
    forall i :: 0 <= i < |c| ==> c[i].Fin?
  }

  /** The exact product of finite values. */
  function RealProduct(c: seq<Ext>): real
    requires AllFinite(c)
  {
    if |c| == 0 then 1.0 else c[0].r * RealProduct(c[1..])
  }

  lemma RealProductHead(c: seq<Ext>)
    requires |c| > 0 && AllFinite(c)
    ensures AllFinite(c[1..]) && RealProduct(c) == c[0].r * RealProduct(c[1..])
  {
    forall i | 0 <= i < |c| - 1 ensures c[1..][i].Fin? {
      assert c[1..][i] == c[i + 1];
    }
  }

  /** A product that is not nan and is finite, with its value. */
  predicate IsFinite(x: Float, v: real) {
    x.Some? && x.value.Fin? && x.value.r == v
  }

  lemma {:induction false} MulFromFinite(x: Ext, rest: seq<Ext>)
    requires x.Fin? && AllFinite(rest)
    ensures AllFinite([x] + rest)
    ensures IsFinite(MulFrom(Some(x), rest), RealProduct([x] + rest))
    decreases |rest|
  {
    RealProductCons(x, rest);
    if |rest| > 0 {
      RealProductHead(rest);
      var k := x.r * rest[0].r;
      var m := ExtMul(x, rest[0]);
      assert m.Some? && m.value.Fin? && m.value.r == k;
      assert m == Some(Fin(k));
      MulFromFinite(Fin(k), rest[1..]);
      RealProductCons(Fin(k), rest[1..]);
      var p := RealProduct(rest[1..]);
      assert x.r * RealProduct(rest) == k * p;
    }
  }

  /** The tail of finite values is finite. */
  lemma FiniteTail(c: seq<Ext>)
    requires |c| > 0 && AllFinite(c)
    ensures AllFinite(c[1..]) && c == [c[0]] + c[1..]
  {
    assert forall i :: 0 <= i < |c| - 1 ==> c[1..][i] == c[i + 1];
  }

  /** On finite values the left-to-right float product is the exact product. */
  lemma ReduceMulFinite(c: seq<Ext>)
    requires |c| > 0 && AllFinite(c)
    ensures IsFinite(ReduceMul(c), RealProduct(c))
  {
    FiniteTail(c);
    MulFromFinite(c[0], c[1..]);
  }

  /** The products of the corners, in `itertools.product` order. */
  function CornerProducts(ds: seq<Domain>): (ps: seq<Float>)
    requires |ds| > 0
    ensures |ps| == |Corners(ds)| && ps[0] == ReduceMul(Lowers(ds))
    ensures forall i :: 0 <= i < |ps| ==> ps[i] == ReduceMul(Corners(ds)[i])
  {
    var cs := Corners(ds);
    CornersAreCorners(ds);
    FirstCornerLowers(ds);
    seq(|cs|, i requires 0 <= i < |cs| && IsCorner(cs[i], ds) => ReduceMul(cs[i]))
  }

  /** The multiplicative builder's bounds: `min` and `max` of the corner
      products, or None when either is nan. */
  function MulBounds(ds: seq<Domain>): (r: Option<Domain>)
    requires |ds| > 0
    ensures r.None? <==> ReduceMul(Lowers(ds)).None?
    ensures r.Some? ==> Le(r.value.0, r.value.1)
    ensures r.Some? ==> Some(r.value.0) in CornerProducts(ds) && Some(r.value.1) in CornerProducts(ds)
  {
    var ps := CornerProducts(ds);
    var lo, hi := PyMin(ps), PyMax(ps);
    if lo.None? || hi.None? then None else Some((lo.value, hi.value))
  }

  /** Every domain has finite ends. */
  predicate FiniteBox(ds: seq<Domain>) {
    forall i :: 0 <= i < |ds| ==> ds[i].0.Fin? && ds[i].1.Fin?
  }

  /** `xs` is a finite point of the box. */
  predicate InBox(xs: seq<Ext>, ds: seq<Domain>) {
    |xs| == |ds| && forall i :: 0 <= i < |ds| ==> xs[i].Fin? && Le(ds[i].0, xs[i]) && Le(xs[i], ds[i].1)
  }

  /** Multiplying both sides by a non-negative factor keeps the order. */
  lemma MulMono(a: real, b: real, k: real)
    requires a <= b && k >= 0.0
    ensures a * k <= b * k && k * a <= k * b
  {
    assert (b - a) * k >= 0.0;
    assert (b - a) * k == b * k - a * k;
    assert k * a == a * k && k * b == b * k;
  }

  /** Multiplying both sides by a negative factor reverses the order. */
  lemma MulAnti(a: real, b: real, k: real)
    requires a <= b && k < 0.0
    ensures b * k <= a * k && k * b <= k * a
  {
    assert (b - a) * -k >= 0.0;
    assert (b - a) * -k == a * k - b * k;
    assert k * a == a * k && k * b == b * k;
  }

  /** For x >= 0 in [l, u] and p >= lo, x * p is at least an end times lo. */
  lemma StepLowerNonneg(l: Ext, x: real, u: Ext, lo: real, p: real) returns (a: Ext)
    requires l.Fin? && u.Fin? && l.r <= x <= u.r && lo <= p && x >= 0.0
    ensures (a == l || a == u) && a.r * lo <= x * p
  {
    MulMono(lo, p, x);
    if lo >= 0.0 {
      a := l;
      MulMono(l.r, x, lo);
    } else {
      a := u;
      MulAnti(x, u.r, lo);
    }
  }

  /** For x >= 0 in [l, u] and p <= hi, x * p is at most an end times hi. */
  lemma StepUpperNonneg(l: Ext, x: real, u: Ext, p: real, hi: real) returns (b: Ext)
    requires l.Fin? && u.Fin? && l.r <= x <= u.r && p <= hi && x >= 0.0
    ensures (b == l || b == u) && x * p <= b.r * hi
  {
    MulMono(p, hi, x);
    if hi >= 0.0 {
      b := u;
      MulMono(x, u.r, hi);
    } else {
      b := l;
      MulAnti(l.r, x, hi);
    }
  }

  /** For x < 0 in [l, u] and p <= hi, x * p is at least an end times hi. */
  lemma StepLowerNeg(l: Ext, x: real, u: Ext, p: real, hi: real) returns (a: Ext)
    requires l.Fin? && u.Fin? && l.r <= x <= u.r && p <= hi && x < 0.0
    ensures (a == l || a == u) && a.r * hi <= x * p
  {
    MulAnti(p, hi, x);
    if hi >= 0.0 {
      a := l;
      MulMono(l.r, x, hi);
    } else {
      a := u;
      MulAnti(x, u.r, hi);
    }
  }

  /** For x < 0 in [l, u] and p >= lo, x * p is at most an end times lo. */
  lemma StepUpperNeg(l: Ext, x: real, u: Ext, lo: real, p: real) returns (b: Ext)
    requires l.Fin? && u.Fin? && l.r <= x <= u.r && lo <= p && x < 0.0
    ensures (b == l || b == u) && x * p <= b.r * lo
  {
    MulAnti(lo, p, x);
    if lo >= 0.0 {
      b := u;
      MulMono(x, u.r, lo);
    } else {
      b := l;
      MulAnti(l.r, x, lo);
    }
  }

  /** One step of the induction on the box for x >= 0: an end of `d`
      prepended to the lower tail bounds the product from below, and one
      prepended to the upper tail bounds it from above. */
  lemma ConsStepNonneg(d: Domain, x: Ext, lo: seq<Ext>, p: seq<Ext>, hi: seq<Ext>) returns (a: Ext, b: Ext)
    requires d.0.Fin? && d.1.Fin? && x.Fin? && d.0.r <= x.r <= d.1.r && x.r >= 0.0
    requires AllFinite(lo) && AllFinite(p) && AllFinite(hi)
    requires RealProduct(lo) <= RealProduct(p) <= RealProduct(hi)
    ensures (a == d.0 || a == d.1) && (b == d.0 || b == d.1)
    ensures AllFinite([a] + lo) && AllFinite([x] + p) && AllFinite([b] + hi)
    ensures RealProduct([a] + lo) <= RealProduct([x] + p) <= RealProduct([b] + hi)
  {
    a := StepLowerNonneg(d.0, x.r, d.1, RealProduct(lo), RealProduct(p));
    ConsOrder(a, lo, x, p);
    b := StepUpperNonneg(d.0, x.r, d.1, RealProduct(p), RealProduct(hi));
    ConsOrder(x, p, b, hi);
  }

  /** The same step for x < 0, where the tails swap: an end prepended to the
      upper tail bounds the product from below. */
  lemma ConsStepNeg(d: Domain, x: Ext, lo: seq<Ext>, p: seq<Ext>, hi: seq<Ext>) returns (a: Ext, b: Ext)
    requires d.0.Fin? && d.1.Fin? && x.Fin? && d.0.r <= x.r <= d.1.r && x.r < 0.0
    requires AllFinite(lo) && AllFinite(p) && AllFinite(hi)
    requires RealProduct(lo) <= RealProduct(p) <= RealProduct(hi)
    ensures (a == d.0 || a == d.1) && (b == d.0 || b == d.1)
    ensures AllFinite([a] + hi) && AllFinite([x] + p) && AllFinite([b] + lo)
    ensures RealProduct([a] + hi) <= RealProduct([x] + p) <= RealProduct([b] + lo)
  {
    a := StepLowerNeg(d.0, x.r, d.1, RealProduct(p), RealProduct(hi));
    ConsOrder(a, hi, x, p);
    b := StepUpperNeg(d.0, x.r, d.1, RealProduct(lo), RealProduct(p));
    ConsOrder(x, p, b, lo);
  }

  /** Prepending one factor to each side keeps the order of the products. */
  lemma ConsOrder(a: Ext, s: seq<Ext>, x: Ext, p: seq<Ext>)
    requires a.Fin? && x.Fin? && AllFinite(s) && AllFinite(p)
    requires a.r * RealProduct(s) <= x.r * RealProduct(p)
    ensures AllFinite([a] + s) && AllFinite([x] + p)
    ensures RealProduct([a] + s) <= RealProduct([x] + p)
  {
    RealProductCons(a, s);
    RealProductCons(x, p);
  }

  lemma RealProductCons(a: Ext, s: seq<Ext>)
    requires a.Fin? && AllFinite(s)
    ensures AllFinite([a] + s) && RealProduct([a] + s) == a.r * RealProduct(s)
  {
    var c := [a] + s;
    assert c[1..] == s;
    assert AllFinite(c);
  }

  lemma TailOfBox(ds: seq<Domain>, xs: seq<Ext>)
    requires |ds| > 0 && FiniteBox(ds) && InBox(xs, ds)
    ensures FiniteBox(ds[1..]) && InBox(xs[1..], ds[1..])
    ensures ds[0].0.Fin? && ds[0].1.Fin? && xs[0].Fin? && ds[0].0.r <= xs[0].r <= ds[0].1.r
  {
    assert forall i :: 0 <= i < |ds| - 1 ==> ds[1..][i] == ds[i + 1] && xs[1..][i] == xs[i + 1];
  }

  /** A finite pick of ends extends by a finite end of the first domain. */
  lemma ConsCorner(ds: seq<Domain>, a: Ext, s: seq<Ext>)
    requires |ds| > 0 && FiniteBox(ds) && (a == ds[0].0 || a == ds[0].1)
    requires IsCorner(s, ds[1..]) && AllFinite(s)
    ensures IsCorner([a] + s, ds) && AllFinite([a] + s)
  {
    assert forall i :: 1 <= i < |ds| ==> ([a] + s)[i] == s[i - 1] && ds[i] == ds[1..][i - 1];
  }

  /** Interval arithmetic for a product: every point of a finite box has
      a product between the products at two picks of ends. */
  lemma {:induction false} PickBounds(ds: seq<Domain>, xs: seq<Ext>) returns (lo: seq<Ext>, hi: seq<Ext>)
    requires FiniteBox(ds) && InBox(xs, ds)
    ensures IsCorner(lo, ds) && IsCorner(hi, ds)
    ensures AllFinite(lo) && AllFinite(hi) && AllFinite(xs)
    ensures RealProduct(lo) <= RealProduct(xs) <= RealProduct(hi)
  {
    if |ds| == 0 {
      lo, hi := [], [];
    } else {
      TailOfBox(ds, xs);
      var lo', hi' := PickBounds(ds[1..], xs[1..]);
      if xs[0].r >= 0.0 {
        var a, b := ConsStepNonneg(ds[0], xs[0], lo', xs[1..], hi');
        ConsCorner(ds, a, lo');
        ConsCorner(ds, b, hi');
        lo, hi := [a] + lo', [b] + hi';
      } else {
        var a, b := ConsStepNeg(ds[0], xs[0], lo', xs[1..], hi');
        ConsCorner(ds, a, hi');
        ConsCorner(ds, b, lo');
        lo, hi := [a] + hi', [b] + lo';
      }
      assert xs == [xs[0]] + xs[1..];
    }
  }

  /** The multiplicative bounds contain the product of every finite point
      of the box, and each bound is the product at some corner. */
  lemma MulBoundsSound(ds: seq<Domain>, xs: seq<Ext>)
    requires |ds| > 0 && FiniteBox(ds) && InBox(xs, ds)
    ensures MulBounds(ds).Some?
    ensures AllFinite(xs)
    ensures Le(MulBounds(ds).value.0, Fin(RealProduct(xs)))
    ensures Le(Fin(RealProduct(xs)), MulBounds(ds).value.1)
  {
    var cs := Corners(ds);
    var ps := CornerProducts(ds);
    CornersAreCorners(ds);
    var lo, hi := PickBounds(ds, xs);
    CornersComplete(ds, lo);
    CornersComplete(ds, hi);
    var i :| 0 <= i < |cs| && cs[i] == lo;
    var j :| 0 <= j < |cs| && cs[j] == hi;
    ReduceMulFinite(lo);
    ReduceMulFinite(hi);
    FirstCornerLowers(ds);
    assert IsCorner(Lowers(ds), ds);
    ReduceMulFinite(Lowers(ds));
    assert ps[i].value == Fin(RealProduct(lo));
    assert ps[j].value == Fin(RealProduct(hi));
    var b := MulBounds(ds).value;
    LeTrans(b.0, Fin(RealProduct(lo)), Fin(RealProduct(xs)));
    LeTrans(Fin(RealProduct(xs)), Fin(RealProduct(hi)), b.1);
  }

  /** Two domains give four corners, the first domain varying slowest. */
  lemma CornersOfTwo(d0: Domain, d1: Domain)
    ensures Corners([d0, d1]) == [[d0.0, d1.0], [d0.0, d1.1], [d0.1, d1.0], [d0.1, d1.1]]
  {
    var ds := [d0, d1];
    assert ds[1..] == [d1];
    assert [d1][1..] == [];
    var none: seq<Domain> := [];
    assert Corners(none) == [[]];
    var one := Corners([d1]);
    assert one == Prepend(d1.0, Corners(none)) + Prepend(d1.1, Corners(none));
    assert [d1.0] + [] == [d1.0] && [d1.1] + [] == [d1.1];
    assert one == [[d1.0], [d1.1]];
    assert Corners(ds) == Prepend(d0.0, one) + Prepend(d0.1, one);
    assert [d0.0] + [d1.0] == [d0.0, d1.0] && [d0.0] + [d1.1] == [d0.0, d1.1];
    assert [d0.1] + [d1.0] == [d0.1, d1.0] && [d0.1] + [d1.1] == [d0.1, d1.1];
    var p0, p1 := Prepend(d0.0, one), Prepend(d0.1, one);
    assert p0[0] == [d0.0, d1.0] && p0[1] == [d0.0, d1.1];
    assert p1[0] == [d0.1, d1.0] && p1[1] == [d0.1, d1.1];
    assert p0 == [[d0.0, d1.0], [d0.0, d1.1]];
    assert p1 == [[d0.1, d1.0], [d0.1, d1.1]];
  }

  lemma PairProduct(a: Ext, b: Ext)
    requires a.Fin? && b.Fin?
    ensures IsFinite(ReduceMul([a, b]), a.r * b.r)
  {
    ReduceMulFinite([a, b]);
    RealProductCons(b, []);
    RealProductCons(a, [b]);
    assert [a] + [b] == [a, b] && [b] + [] == [b];
  }

  /** The case in the repository's tests: [2, 4] times [3, 5] gives [6, 20]. */
  lemma MulBoundsExample()
    ensures MulBounds([(Fin(2.0), Fin(4.0)), (Fin(3.0), Fin(5.0))]) == Some((Fin(6.0), Fin(20.0)))
  {
    var ds := [(Fin(2.0), Fin(4.0)), (Fin(3.0), Fin(5.0))];
    CornersOfTwo(ds[0], ds[1]);
    var cs := Corners(ds);
    var ps := CornerProducts(ds);
    PairProduct(Fin(2.0), Fin(3.0));
    PairProduct(Fin(2.0), Fin(5.0));
    PairProduct(Fin(4.0), Fin(3.0));
    PairProduct(Fin(4.0), Fin(5.0));
    var b := MulBounds(ds).value;
    assert b.0 == Fin(6.0) by {
      assert Le(b.0, ps[0].value);
    }
    assert b.1 == Fin(20.0) by {
      assert Le(ps[3].value, b.1);
    }
  }

  // ---------------------------------------------------------------------------
  // Sums
  // ---------------------------------------------------------------------------

  /** The built-in `sum` from an accumulated value: left to right, nan from
      the first `inf + -inf` on. */
  function SumFrom(acc: Float, rest: seq<Ext>): Float
    decreases |rest|
  {
    if |rest| == 0 then acc
    else SumFrom(if acc.Some? then ExtAdd(acc.value, rest[0]) else None, rest[1..])
  }

  /** `sum(xs)`, which starts from the integer 0. */
  function PySum(xs: seq<Ext>): Float {
    SumFrom(Some(Fin(0.0)), xs)
  }

  function RealSum(c: seq<Ext>): real
    requires AllFinite(c)
  {
    if |c| == 0 then 0.0 else c[0].r + RealSum(c[1..])
  }

  /** A sum is nan exactly when both infinities occur; otherwise it is
      infinite when one of them occurs and the exact sum when none does. */
  lemma {:induction false} SumFromCases(a: Ext, rest: seq<Ext>)
    ensures var r := SumFrom(Some(a), rest);
      var pos := a == PosInf || PosInf in rest;
      var neg := a == NegInf || NegInf in rest;
      (r.None? <==> pos && neg)
      && (pos && !neg ==> r == Some(PosInf))
      && (neg && !pos ==> r == Some(NegInf))
      && (!pos && !neg ==> AllFinite(rest) && r == Some(Fin(a.r + RealSum(rest))))
    decreases |rest|
  {
    if |rest| > 0 {
      assert forall x :: x in rest <==> x == rest[0] || x in rest[1..];
      var next := ExtAdd(a, rest[0]);
      if next.None? {
        NoneStays(rest[1..]);
      } else {
        SumFromCases(next.value, rest[1..]);
        if a.Fin? && PosInf !in rest && NegInf !in rest {
          assert rest[0].Fin? && AllFinite(rest[1..]);
          assert AllFinite(rest) by {
            forall i | 1 <= i < |rest| ensures rest[i].Fin? {
              assert rest[i] == rest[1..][i - 1];
            }
          }
          assert RealSum(rest) == rest[0].r + RealSum(rest[1..]);
        }
      }
    }
  }

  lemma {:induction false} NoneStays(rest: seq<Ext>)
    ensures SumFrom(None, rest) == None
    decreases |rest|
  {
    if |rest| > 0 {
      NoneStays(rest[1..]);
    }
  }

  /** The summation builder's bounds: the sums of the lower and of the upper
      bounds, or None when either is nan. */
  function SumBounds(ds: seq<Domain>): (r: Option<Domain>)
    ensures r.None? <==> PySum(Lowers(ds)).None? || PySum(Uppers(ds)).None?
  {
    var lo, hi := PySum(Lowers(ds)), PySum(Uppers(ds));
    if lo.None? || hi.None? then None else Some((lo.value, hi.value))
  }

  lemma FiniteEnds(ds: seq<Domain>)
    requires FiniteBox(ds)
    ensures PosInf !in Lowers(ds) && NegInf !in Lowers(ds) && AllFinite(Lowers(ds))
    ensures PosInf !in Uppers(ds) && NegInf !in Uppers(ds) && AllFinite(Uppers(ds))
  {
  }

  lemma {:induction false} RealSumMono(ls: seq<Ext>, xs: seq<Ext>)
    requires |ls| == |xs| && AllFinite(ls) && AllFinite(xs)
    requires forall i :: 0 <= i < |xs| ==> ls[i].r <= xs[i].r
    ensures RealSum(ls) <= RealSum(xs)
  {
    if |xs| > 0 {
      RealSumMono(ls[1..], xs[1..]);
    }
  }

  /** The summation bounds of a finite box are finite and contain the sum of
      every point of the box. */
  lemma SumBoundsSound(ds: seq<Domain>, xs: seq<Ext>)
    requires FiniteBox(ds) && InBox(xs, ds)
    ensures SumBounds(ds).Some? && AllFinite(xs)
    ensures SumBounds(ds).value == (Fin(RealSum(Lowers(ds))), Fin(RealSum(Uppers(ds))))
    ensures RealSum(Lowers(ds)) <= RealSum(xs) <= RealSum(Uppers(ds))
  {
    FiniteEnds(ds);
    SumFromCases(Fin(0.0), Lowers(ds));
    SumFromCases(Fin(0.0), Uppers(ds));
    RealSumMono(Lowers(ds), xs);
    RealSumMono(xs, Uppers(ds));
  }

  /** The case in the repository's tests: [2, 4] plus [3, 5] gives [5, 9]. */
  lemma SumBoundsExample()
    ensures SumBounds([(Fin(2.0), Fin(4.0)), (Fin(3.0), Fin(5.0))]) == Some((Fin(5.0), Fin(9.0)))
  {
    var ds := [(Fin(2.0), Fin(4.0)), (Fin(3.0), Fin(5.0))];
    assert Lowers(ds) == [Fin(2.0), Fin(3.0)];
    assert Uppers(ds) == [Fin(4.0), Fin(5.0)];
  }

  // ---------------------------------------------------------------------------
  // Division and modulus
  // ---------------------------------------------------------------------------

  /** The division builder's bounds as written: `lower_bound / divisor` and
      `upper_bound / divisor`, true division, ZeroDivisionError for 0. */
  function DivisionBoundsAsWritten(lb: Ext, ub: Ext, d: int): (r: Result<Domain>)
    ensures r.Failure? <==> d == 0
    ensures r.Success? && lb.Fin? ==> r.value.0 == Fin(lb.r / d as real)
    ensures r.Success? && ub.Fin? ==> r.value.1 == Fin(ub.r / d as real)
  {
    if d == 0 then Failure(ZeroDivisionError)
    else Success((ExtDivInt(lb, d).value, ExtDivInt(ub, d).value))
  }

  /** The output holds `input // divisor`, an integer, yet a lower bound
      that the divisor does not divide is left fractional: for an input in
      [3, 5] and divisor 2 the output's lower bound is 1.5 while 3 // 2 is 1. */
  lemma DivisionBoundsExcludeQuotient()
    ensures DivisionBoundsAsWritten(Fin(3.0), Fin(5.0), 2) == Success((Fin(1.5), Fin(2.5)))
    ensures FloorDiv(3, 2) == 1
    ensures !Le(Fin(1.5), Fin(FloorDiv(3, 2) as real))
  {
  }

  /** An extended real rounded down (infinities stay). */
  function FloorExt(a: Ext): (r: Ext)
    ensures a.Fin? ==> r.Fin? && r.r <= a.r < r.r + 1.0
    ensures !a.Fin? ==> r == a
  {
    if a.Fin? then Fin(a.r.Floor as real) else a
  }

  /** The evidently intended bounds: the quotients rounded down, as the
      integer division the output holds, and in increasing order, which for
      a negative divisor takes the upper bound's quotient first. */
  function DivisionBounds(lb: Ext, ub: Ext, d: int): (r: Result<Domain>)
    ensures r.Failure? <==> d == 0
    ensures r.Failure? ==> r.error == ZeroDivisionError
    ensures r.Success? && d > 0 ==> r.value == (FloorExt(DivisionBoundsAsWritten(lb, ub, d).value.0),
                                                FloorExt(DivisionBoundsAsWritten(lb, ub, d).value.1))
    ensures r.Success? && d < 0 ==> r.value == (FloorExt(DivisionBoundsAsWritten(lb, ub, d).value.1),
                                                FloorExt(DivisionBoundsAsWritten(lb, ub, d).value.0))
  {
    var b :- DivisionBoundsAsWritten(lb, ub, d);
    if d > 0 then Success((FloorExt(b.0), FloorExt(b.1))) else Success((FloorExt(b.1), FloorExt(b.0)))
  }

  /** With the corrected bounds and a non-zero divisor, the output's bounds
      contain `x // d` for every integer input x within the input's bounds. */
  lemma DivisionBoundsSound(lb: Ext, ub: Ext, d: int, x: int)
    requires d != 0 && Le(lb, Fin(x as real)) && Le(Fin(x as real), ub)
    ensures DivisionBounds(lb, ub, d).Success?
    ensures Le(DivisionBounds(lb, ub, d).value.0, Fin(FloorDiv(x, d) as real))
    ensures Le(Fin(FloorDiv(x, d) as real), DivisionBounds(lb, ub, d).value.1)
  {
    var q := FloorDiv(x, d);
    FloorDivIsFloor(x, d);
    var xd := (x as real) / (d as real);
    if d > 0 {
      if lb.Fin? {
        var k := (lb.r / d as real).Floor;
        DivMono(lb.r, x as real, d as real);
        assert k as real <= xd;
        assert k <= q;
      }
      if ub.Fin? {
        var k := (ub.r / d as real).Floor;
        DivMono(x as real, ub.r, d as real);
        assert q as real <= ub.r / d as real;
        assert q <= k;
      }
    } else {
      if ub.Fin? {
        var k := (ub.r / d as real).Floor;
        DivAnti(x as real, ub.r, d as real);
        assert k as real <= xd;
        assert k <= q;
      }
      if lb.Fin? {
        var k := (lb.r / d as real).Floor;
        DivAnti(lb.r, x as real, d as real);
        assert q as real <= lb.r / d as real;
        assert q <= k;
      }
    }
  }

  /** Rounding down keeps the order. */
  lemma FloorExtMono(a: Ext, b: Ext)
    requires Le(a, b)
    ensures Le(FloorExt(a), FloorExt(b))
  {
    if a.Fin? && b.Fin? {
      assert a.r.Floor as real <= b.r;
    }
  }

  /** Ordered input bounds give ordered corrected bounds. */
  lemma DivisionBoundsOrdered(lb: Ext, ub: Ext, d: int)
    requires d != 0 && Le(lb, ub)
    ensures DivisionBounds(lb, ub, d).Success?
    ensures Le(DivisionBounds(lb, ub, d).value.0, DivisionBounds(lb, ub, d).value.1)
  {
    if lb.Fin? && ub.Fin? {
      if d > 0 {
        DivMono(lb.r, ub.r, d as real);
      } else {
        DivAnti(lb.r, ub.r, d as real);
      }
    }
  }

  lemma DivMono(a: real, b: real, d: real)
    requires d > 0.0 && a <= b
    ensures a / d <= b / d
  {
    assert b / d - a / d == (b - a) / d;
  }

  lemma DivAnti(a: real, b: real, d: real)
    requires d < 0.0 && a <= b
    ensures b / d <= a / d
  {
    assert a / d - b / d == (b - a) / (-d);
  }

  /** The modulus builder's bounds as written, 0 and divisor - 1. */
  function ModulusBoundsAsWritten(d: int): (r: Domain)
    ensures d <= 0 ==> Lt(r.1, r.0)
  {
    (Fin(0.0), Fin((d - 1) as real))
  }

  /** The evidently intended bounds of `x % d`: [0, d - 1] for a positive
      divisor, [d + 1, 0] for a negative one (Python's remainder takes the
      divisor's sign), and ZeroDivisionError for 0. */
  function ModulusBounds(d: int): (r: Result<Domain>)
    ensures r.Failure? <==> d == 0
    ensures r.Failure? ==> r.error == ZeroDivisionError
    ensures d > 0 ==> r == Success(ModulusBoundsAsWritten(d))
    ensures r.Success? ==> Le(r.value.0, r.value.1)
  {
    if d == 0 then Failure(ZeroDivisionError)
    else if d > 0 then Success((Fin(0.0), Fin((d - 1) as real)))
    else Success((Fin((d + 1) as real), Fin(0.0)))
  }

  /** The corrected modulus bounds contain `x % d` for every x. */
  lemma ModulusBoundsSound(d: int, x: int)
    requires d != 0
    ensures ModulusBounds(d).Success?
    ensures Le(ModulusBounds(d).value.0, Fin(FloorMod(x, d) as real))
    ensures Le(Fin(FloorMod(x, d) as real), ModulusBounds(d).value.1)
  {
  }
}

=== FILE: builders.dfy ===
/** The special-constraint builders of OXProblem.py: each selects its inputs,
    checks them, creates an output decision variable whose bounds cover every
    value the output can take, and records the special constraint that ties
    the output to the inputs. */
module Builders {
  import opened Base
  import opened Numbers
  import opened Variables
  import opened Objects
  import opened Pots
  import opened Specials
  import opened Bounds
  import opened Problems

  /** How a builder argument names its objects: a search function applied
      to a pot, a list of objects, or one object. */
  datatype Selection = ByFunction(f: Obj -> bool) | ByList(objs: seq<Obj>) | ByObject(obj: Obj)

  /** The builders' argument handling as written: a search function is
      replaced by the list of matching objects and the result is used as a
      list. One object is not a list (OXObject is neither iterable, sized
      nor subscriptable), so it raises TypeError. */
  function Select(pot: Pot, sel: Selection): (r: Result<seq<Obj>>)
    ensures r.Failure? <==> sel.ByObject?
    ensures r.Failure? ==> r.error == TypeError
    ensures sel.ByList? ==> r == Success(sel.objs)
    ensures sel.ByFunction? ==> IsSubsequence(r.value, pot.objects)
                                && forall o :: o in r.value <==> o in pot.objects && sel.f(o)
  {
    match sel
    case ByFunction(f) =>
      FilterIsSubsequence(pot.objects, f);
      Success(Filter(pot.objects, f))
    case ByList(objs) => Success(objs)
    case ByObject(_) => Failure(TypeError)
  }

  /** The single-object builders (division, modulus, conditional) accept "a
      search function or the object itself": one object stands for the list
      holding just that object. */
  function SelectSingle(pot: Pot, sel: Selection): (r: seq<Obj>)
    ensures sel.ByObject? ==> r == [sel.obj]
    ensures !sel.ByObject? ==> Select(pot, sel) == Success(r)
  {
    if sel.ByObject? then [sel.obj] else Select(pot, sel).value
  }

  /** `sep.join(xs)`. */
  function Join(sep: string, xs: seq<string>): string {
    if |xs| == 0 then "" else if |xs| == 1 then xs[0] else xs[0] + sep + Join(sep, xs[1..])
  }

  lemma JoinTwo(sep: string, a: string, b: string)
    ensures Join(sep, [a, b]) == a + sep + b
  {
    assert [a, b][1..] == [b];
  }

  /** The (lower_bound, upper_bound) pair of each input; AttributeError at
      the first object that is not a variable. */
  function BoundsOf(objs: seq<Obj>): (r: Result<seq<Domain>>)
    ensures r.Failure? <==> exists i :: 0 <= i < |objs| && !IsVariable(objs[i])
    ensures r.Failure? ==> r.error == AttributeError
    ensures r.Success? ==> |r.value| == |objs| && forall i :: 0 <= i < |objs| ==>
                             r.value[i] == (AsVariable(objs[i]).lowerBound, AsVariable(objs[i]).upperBound)
  {
    if exists i :: 0 <= i < |objs| && !IsVariable(objs[i]) then Failure(AttributeError)
    else Success(seq(|objs|, i requires 0 <= i < |objs| => (AsVariable(objs[i]).lowerBound, AsVariable(objs[i]).upperBound)))
  }

  /** A string with a non-space character is not stripped to nothing. */
  lemma NotBlank(s: string, i: nat)
    requires i < |s| && !IsSpace(s[i])
    ensures Strip(s) != ""
  {
  }

  /** `q` is `p` with one more variable (id `varId`, the given name and
      bounds) and one more special constraint, `s`; nothing else changes. */
  predicate AddsOutput(p: Problem, q: Problem, varId: Uuid, name: string, lo: Ext, hi: Ext, s: Special) {
    q.(variables := p.variables, specials := p.specials) == p
    && q.specials == p.specials + [s]
    && q.variables.id == p.variables.id
    && q.variables.Len() == p.variables.Len() + 1
    && q.variables.objects[..p.variables.Len()] == p.variables.objects
    && q.variables.objects[p.variables.Len()].OVariable?
    && q.variables.objects[p.variables.Len()].v.id == varId
    && q.variables.objects[p.variables.Len()].v.name == name
    && q.variables.objects[p.variables.Len()].v.lowerBound == lo
    && q.variables.objects[p.variables.Len()].v.upperBound == hi
  }

  /** The tail every builder shares: `create_decision_variable(name, lo, hi)`
      and then a record whose output is `variables.last_object.id`. The
      record therefore names the variable just created. */
  function AddOutput(p: Problem, varId: Uuid, name: string, lo: Ext, hi: Ext, mk: Uuid -> Special): (r: Result<Problem>)
    requires Strip(name) != ""
    ensures r.Failure? <==> Lt(hi, lo)
    ensures r.Failure? ==> r.error == OXception(BoundsMessage)
    ensures r.Success? ==> AddsOutput(p, r.value, varId, name, lo, hi, mk(varId))
    ensures Valid(p) && r.Success? ==> Valid(r.value)
  {
    var q :- CreateDecisionVariable(p, varId, name, "", hi, lo, []);
    Success(q.(specials := q.specials + [mk(Id(Last(q.variables).value))]))
  }

  // ---------------------------------------------------------------------------
  // Multiplication
  // ---------------------------------------------------------------------------

  const MultiplicationCountMessage := "Multiplicative equality constraint requires at least 2 variables"

  /** `f"{prefix}{'_'.join(names)}"`, never blank for a prefix that starts
      with a non-space character. */
  function JoinedName(prefix: string, names: seq<string>): (n: string)
    requires |prefix| > 0 && !IsSpace(prefix[0])
    ensures Strip(n) != ""
    ensures |n| >= |prefix| && n[..|prefix|] == prefix && n[|prefix|..] == Join("_", names)
  {
    NotBlank(prefix + Join("_", names), 0);
    prefix + Join("_", names)
  }

  /** The output's name: "Multiplication of " and the inputs' names joined
      by "_". */
  function MultiplicationName(names: seq<string>): (n: string)
    ensures Strip(n) != ""
    ensures n == "Multiplication of " + Join("_", names)
  {
    JoinedName("Multiplication of ", names)
  }

  /** `_create_multiplicative_equality_constraint`: at least two inputs; the
      output's bounds are the least and greatest product over the corners
      of the inputs' box. A nan corner product first in line raises
      ValueError here (see README). */
  function CreateMultiplicative(p: Problem, sel: Selection, varId: Uuid, specialId: Uuid): (r: Result<Problem>)
    ensures sel.ByObject? ==> r == Failure(TypeError)
    ensures var objs := Select(p.variables, sel);
      objs.Success? && |objs.value| < 2 ==> r == Failure(OXception(MultiplicationCountMessage))
    ensures var objs := Select(p.variables, sel);
      objs.Success? && |objs.value| >= 2 && BoundsOf(objs.value).Failure? ==> r == Failure(AttributeError)
    ensures r.Success? <==> var objs := Select(p.variables, sel);
      objs.Success? && |objs.value| >= 2 && BoundsOf(objs.value).Success? && MulBounds(BoundsOf(objs.value).value).Some?
    ensures r.Success? ==>
      var objs := Select(p.variables, sel).value;
      var b := MulBounds(BoundsOf(objs).value).value;
      AddsOutput(p, r.value, varId, MultiplicationName(Names(objs).value), b.0, b.1,
                 Multiplicative(specialId, varId, Ids(objs)))
    ensures Valid(p) && r.Success? ==> Valid(r.value)
  {
    var objs :- Select(p.variables, sel);
    if |objs| < 2 then Failure(OXception(MultiplicationCountMessage))
    else
      var ds :- BoundsOf(objs);
      match MulBounds(ds)
      case None => Failure(ValueError)
      case Some(b) =>
        var ids := Ids(objs);
        AddOutput(p, varId, MultiplicationName(Names(objs).value), b.0, b.1, out => Multiplicative(specialId, out, ids))
  }

  /** Integer values read as extended reals. */
  function AsExt(xs: seq<int>): (r: seq<Ext>)
    ensures |r| == |xs| && forall i :: 0 <= i < |xs| ==> r[i] == Fin(xs[i] as real)
  {
    seq(|xs|, i requires 0 <= i < |xs| => Fin(xs[i] as real))
  }

  lemma {:induction false} ProductAsReal(xs: seq<int>)
    ensures AllFinite(AsExt(xs)) && RealProduct(AsExt(xs)) == Product(xs) as real
  {
    if |xs| > 0 {
      ProductAsReal(xs[1..]);
      assert AsExt(xs) == [Fin(xs[0] as real)] + AsExt(xs[1..]);
      RealProductCons(Fin(xs[0] as real), AsExt(xs[1..]));
      CastProduct(xs[0], Product(xs[1..]));
    }
  }

  lemma CastProduct(a: int, b: int)
    ensures (a * b) as real == a as real * b as real
  {
  }

  lemma {:induction false} SumAsReal(xs: seq<int>)
    ensures AllFinite(AsExt(xs)) && RealSum(AsExt(xs)) == Sum(xs) as real
  {
    if |xs| > 0 {
      SumAsReal(xs[1..]);
      assert AsExt(xs)[1..] == AsExt(xs[1..]);
    }
  }

  /** Every input value within the inputs' bounds, read off an integer
      assignment. */
  predicate WithinBounds(ds: seq<Domain>, ids: seq<Uuid>, x: Uuid -> int) {
    |ds| == |ids| && forall i :: 0 <= i < |ids| ==> Le(ds[i].0, Fin(x(ids[i]) as real)) && Le(Fin(x(ids[i]) as real), ds[i].1)
  }

  /** The output's bounds never cut off a solution: when the inputs have
      finite bounds, every integer assignment that keeps the inputs within
      their bounds and satisfies the record keeps the output within its
      bounds too. */
  lemma MultiplicativeBoundsSound(p: Problem, sel: Selection, varId: Uuid, specialId: Uuid, x: Uuid -> int)
    requires CreateMultiplicative(p, sel, varId, specialId).Success?
    requires var ds := BoundsOf(Select(p.variables, sel).value).value;
      FiniteBox(ds) && WithinBounds(ds, Ids(Select(p.variables, sel).value), x)
    requires Satisfied(Multiplicative(specialId, varId, Ids(Select(p.variables, sel).value)), x)
    ensures var q := CreateMultiplicative(p, sel, varId, specialId).value;
      var o := q.variables.objects[p.variables.Len()].v;
      Le(o.lowerBound, Fin(x(varId) as real)) && Le(Fin(x(varId) as real), o.upperBound)
  {
    var objs := Select(p.variables, sel).value;
    ProductWithin(BoundsOf(objs).value, Multiplicative(specialId, varId, Ids(objs)), x);
  }

  /** A satisfied product record whose inputs lie in a finite box has its
      output within the box's least and greatest corner product. */
  lemma ProductWithin(ds: seq<Domain>, s: Special, x: Uuid -> int)
    requires s.Multiplicative? && |ds| > 0 && FiniteBox(ds) && WithinBounds(ds, s.inputs, x)
    requires Satisfied(s, x)
    ensures MulBounds(ds).Some?
    ensures Le(MulBounds(ds).value.0, Fin(x(s.output) as real))
    ensures Le(Fin(x(s.output) as real), MulBounds(ds).value.1)
  {
    var vs := Values(s.inputs, x);
    ProductAsReal(vs);
    MulBoundsSound(ds, AsExt(vs));
  }

  /** The case in the repository's tests: inputs in [2, 4] and [3, 5] give an output in [6, 20]. */
  lemma MultiplicativeExample(p: Problem, a: Variable, b: Variable, varId: Uuid, specialId: Uuid)
    requires a.lowerBound == Fin(2.0) && a.upperBound == Fin(4.0)
    requires b.lowerBound == Fin(3.0) && b.upperBound == Fin(5.0)
    ensures var r := CreateMultiplicative(p, ByList([OVariable(a), OVariable(b)]), varId, specialId);
      r.Success? && r.value.variables.objects[p.variables.Len()].v.lowerBound == Fin(6.0)
      && r.value.variables.objects[p.variables.Len()].v.upperBound == Fin(20.0)
  {
    var objs := [OVariable(a), OVariable(b)];
    assert BoundsOf(objs).value == [(Fin(2.0), Fin(4.0)), (Fin(3.0), Fin(5.0))];
    MulBoundsExample();
  }

  // ---------------------------------------------------------------------------
  // Division and modulus
  // ---------------------------------------------------------------------------

  const DivisionType := "DivisionEquality"
  const ModulusType := "ModulusEquality"
  const DivModCountMessage := "Division/Modulus equality constraint requires exactly 1 variable"
  const DivModTypeMessage := "This function only works for Division/Modulus equality constraints"

  /** The output's name: the input's name, " / " or " % ", and the divisor
      in decimal. */
  function DivModName(name: string, divide: bool, divisor: int): (n: string)
    ensures Strip(n) != ""
    ensures n == name + (if divide then " / " else " % ") + IntToString(divisor)
  {
    var n := name + (if divide then " / " else " % ") + IntToString(divisor);
    NotBlank(n, |name| + 1);
    n
  }

  /** The output's bounds as written: `lower_bound / divisor` and
      `upper_bound / divisor` in true division, or 0 and divisor - 1 for
      the modulus. */
  function DivModBoundsAsWritten(v: Variable, divide: bool, divisor: int): (r: Result<Domain>)
    ensures divide ==> r == DivisionBoundsAsWritten(v.lowerBound, v.upperBound, divisor)
    ensures !divide ==> r == Success(ModulusBoundsAsWritten(divisor))
  {
    if divide then DivisionBoundsAsWritten(v.lowerBound, v.upperBound, divisor)
    else Success(ModulusBoundsAsWritten(divisor))
  }

  /** The corrected bounds: the division's floored quotients in increasing
      order, or the range of the remainder for the divisor's sign. */
  function DivModBounds(v: Variable, divide: bool, divisor: int): (r: Result<Domain>)
    ensures divide ==> r == DivisionBounds(v.lowerBound, v.upperBound, divisor)
    ensures !divide ==> r == ModulusBounds(divisor)
  {
    if divide then DivisionBounds(v.lowerBound, v.upperBound, divisor)
    else ModulusBounds(divisor)
  }

  /** The corrected bounds of an input whose bounds are in order are in
      order too. */
  lemma DivModBoundsOrdered(v: Variable, divide: bool, divisor: int)
    requires DivModBounds(v, divide, divisor).Success?
    ensures Le(v.lowerBound, v.upperBound) ==>
      Le(DivModBounds(v, divide, divisor).value.0, DivModBounds(v, divide, divisor).value.1)
  {
    if divide && Le(v.lowerBound, v.upperBound) {
      DivisionBoundsOrdered(v.lowerBound, v.upperBound, divisor);
    }
  }

  /** The record the division/modulus builder appends. */
  function DivModRecord(divide: bool, specialId: Uuid, output: Uuid, input: Uuid, divisor: int): Special {
    if divide then Division(specialId, output, input, divisor) else Modulo(specialId, output, input, divisor)
  }

  /** `_create_division_or_modulus_equality_constraint` as written. A search
      function becomes the list of matching variables; `len()` of one object
      raises TypeError; then exactly one input, a division or modulus type,
      the input's bounds (AttributeError for a non-variable), true division
      of the bounds (ZeroDivisionError for 0), and the output variable,
      whose creation raises the bounds error when the bounds are out of
      order: always for the modulus with a divisor below 1, and for the
      division with a negative divisor and an input that is not fixed. */
  function CreateDivisionModulus(p: Problem, sel: Selection, divisor: int, kind: string,
                                 varId: Uuid, specialId: Uuid): (r: Result<Problem>)
    ensures sel.ByObject? ==> r == Failure(TypeError)
    ensures var objs := Select(p.variables, sel);
      objs.Success? && |objs.value| != 1 ==> r == Failure(OXception(DivModCountMessage))
    ensures var objs := Select(p.variables, sel);
      objs.Success? && |objs.value| == 1 && kind != DivisionType && kind != ModulusType
      ==> r == Failure(OXception(DivModTypeMessage))
    ensures var objs := Select(p.variables, sel);
      objs.Success? && |objs.value| == 1 && kind in {DivisionType, ModulusType} && !IsVariable(objs.value[0])
      ==> r == Failure(AttributeError)
    ensures var objs := Select(p.variables, sel);
      objs.Success? && |objs.value| == 1 && IsVariable(objs.value[0]) && kind in {DivisionType, ModulusType}
      ==> var v := AsVariable(objs.value[0]);
          var b := DivModBoundsAsWritten(v, kind == DivisionType, divisor);
          (b.Failure? ==> r == Failure(ZeroDivisionError))
          && (b.Success? && Lt(b.value.1, b.value.0) ==> r == Failure(OXception(BoundsMessage)))
          && (b.Success? && !Lt(b.value.1, b.value.0) ==>
                r.Success? && AddsOutput(p, r.value, varId, DivModName(v.name, kind == DivisionType, divisor),
                                         b.value.0, b.value.1,
                                         DivModRecord(kind == DivisionType, specialId, varId, v.id, divisor)))
    ensures Valid(p) && r.Success? ==> Valid(r.value)
  {
    var objs :- Select(p.variables, sel);
    if |objs| != 1 then Failure(OXception(DivModCountMessage))
    else if kind != DivisionType && kind != ModulusType then Failure(OXception(DivModTypeMessage))
    else if !IsVariable(objs[0]) then Failure(AttributeError)
    else
      var v := AsVariable(objs[0]);
      var divide := kind == DivisionType;
      var b :- DivModBoundsAsWritten(v, divide, divisor);
      AddOutput(p, varId, DivModName(v.name, divide, divisor), b.0, b.1,
                out => DivModRecord(divide, specialId, out, v.id, divisor))
  }

  /** The evidently intended builder: one object stands for the list holding
      it, and the output's bounds are the corrected ones, which are always in
      order, so only a zero divisor raises once the input is accepted. */
  function IntendedDivisionModulus(p: Problem, sel: Selection, divisor: int, kind: string,
                                   varId: Uuid, specialId: Uuid): (r: Result<Problem>)
    ensures var objs := SelectSingle(p.variables, sel);
      |objs| != 1 ==> r == Failure(OXception(DivModCountMessage))
    ensures var objs := SelectSingle(p.variables, sel);
      |objs| == 1 && kind != DivisionType && kind != ModulusType ==> r == Failure(OXception(DivModTypeMessage))
    ensures var objs := SelectSingle(p.variables, sel);
      |objs| == 1 && kind in {DivisionType, ModulusType} && !IsVariable(objs[0]) ==> r == Failure(AttributeError)
    ensures var objs := SelectSingle(p.variables, sel);
      |objs| == 1 && kind in {DivisionType, ModulusType} && IsVariable(objs[0]) ==>
        (divisor == 0 ==> r == Failure(ZeroDivisionError))
        && (Le(AsVariable(objs[0]).lowerBound, AsVariable(objs[0]).upperBound) ==> (r.Success? <==> divisor != 0))
    ensures r.Success? ==>
      var objs := SelectSingle(p.variables, sel);
      |objs| == 1 && IsVariable(objs[0]) && kind in {DivisionType, ModulusType} && divisor != 0
      && var v := AsVariable(objs[0]);
         var b := DivModBounds(v, kind == DivisionType, divisor).value;
         AddsOutput(p, r.value, varId, DivModName(v.name, kind == DivisionType, divisor), b.0, b.1,
                    DivModRecord(kind == DivisionType, specialId, varId, v.id, divisor))
    ensures Valid(p) && r.Success? ==> Valid(r.value)
  {
    var objs := SelectSingle(p.variables, sel);
    if |objs| != 1 then Failure(OXception(DivModCountMessage))
    else if kind != DivisionType && kind != ModulusType then Failure(OXception(DivModTypeMessage))
    else if !IsVariable(objs[0]) then Failure(AttributeError)
    else
      var v := AsVariable(objs[0]);
      var divide := kind == DivisionType;
      var b :- DivModBounds(v, divide, divisor);
      DivModBoundsOrdered(v, divide, divisor);
      AddOutput(p, varId, DivModName(v.name, divide, divisor), b.0, b.1,
                out => DivModRecord(divide, specialId, out, v.id, divisor))
  }

  /** One object given directly builds the same as the list holding it. */
  lemma DivisionModulusOfObject(p: Problem, o: Obj, divisor: int, kind: string, varId: Uuid, specialId: Uuid)
    ensures IntendedDivisionModulus(p, ByObject(o), divisor, kind, varId, specialId)
            == IntendedDivisionModulus(p, ByList([o]), divisor, kind, varId, specialId)
  {
  }

  /** The two builders agree on a list or a search function, a positive
      divisor and the modulus; for the division with a positive divisor the
      corrected builder succeeds whenever the one as written does. */
  lemma DivisionModulusAgree(p: Problem, sel: Selection, divisor: int, kind: string, varId: Uuid, specialId: Uuid)
    requires !sel.ByObject? && divisor > 0
    ensures kind != DivisionType ==>
      CreateDivisionModulus(p, sel, divisor, kind, varId, specialId)
      == IntendedDivisionModulus(p, sel, divisor, kind, varId, specialId)
    ensures CreateDivisionModulus(p, sel, divisor, kind, varId, specialId).Success?
            ==> IntendedDivisionModulus(p, sel, divisor, kind, varId, specialId).Success?
  {
    var objs := Select(p.variables, sel).value;
    assert SelectSingle(p.variables, sel) == objs;
    if |objs| == 1 && kind in {DivisionType, ModulusType} && IsVariable(objs[0]) {
      var v := AsVariable(objs[0]);
      if kind == DivisionType {
        var b := DivisionBoundsAsWritten(v.lowerBound, v.upperBound, divisor).value;
        if !Lt(b.1, b.0) {
          FloorExtMono(b.0, b.1);
        }
      } else {
        assert DivModBounds(v, false, divisor) == DivModBoundsAsWritten(v, false, divisor);
      }
    }
  }

  /** With the corrected builder the output's bounds never cut off a
      solution: an integer input within its bounds has its floor quotient,
      or its remainder, within the output's bounds, whatever the divisor's
      sign. */
  lemma DivisionModulusBoundsSound(p: Problem, sel: Selection, divisor: int, kind: string,
                                   varId: Uuid, specialId: Uuid, x: Uuid -> int)
    requires IntendedDivisionModulus(p, sel, divisor, kind, varId, specialId).Success?
    requires var v := AsVariable(SelectSingle(p.variables, sel)[0]);
      Le(v.lowerBound, Fin(x(v.id) as real)) && Le(Fin(x(v.id) as real), v.upperBound)
    ensures divisor != 0
    ensures var q := IntendedDivisionModulus(p, sel, divisor, kind, varId, specialId).value;
      var o := q.variables.objects[p.variables.Len()].v;
      var v := AsVariable(SelectSingle(p.variables, sel)[0]);
      var out := if kind == DivisionType then FloorDiv(x(v.id), divisor) else FloorMod(x(v.id), divisor);
      Le(o.lowerBound, Fin(out as real)) && Le(Fin(out as real), o.upperBound)
  {
    var v := AsVariable(SelectSingle(p.variables, sel)[0]);
    if kind == DivisionType {
      DivisionBoundsSound(v.lowerBound, v.upperBound, divisor, x(v.id));
    } else {
      ModulusBoundsSound(divisor, x(v.id));
    }
  }

  /** A negative divisor, as written: an input in [3, 4] divided by -10 gets
      the bounds -0.3 and -0.4, out of order, so the builder raises, and the
      modulus by -10 always raises, its bounds being 0 and -11. The
      corrected builder gives [-1, -1] and [-9, 0]. */
  lemma NegativeDivisorAsWritten(p: Problem, v: Variable, varId: Uuid, specialId: Uuid)
    requires v.lowerBound == Fin(3.0) && v.upperBound == Fin(4.0)
    ensures CreateDivisionModulus(p, ByList([OVariable(v)]), -10, DivisionType, varId, specialId)
            == Failure(OXception(BoundsMessage))
    ensures CreateDivisionModulus(p, ByList([OVariable(v)]), -10, ModulusType, varId, specialId)
            == Failure(OXception(BoundsMessage))
    ensures var r := IntendedDivisionModulus(p, ByList([OVariable(v)]), -10, DivisionType, varId, specialId);
      r.Success? && r.value.variables.objects[p.variables.Len()].v.lowerBound == Fin(-1.0)
      && r.value.variables.objects[p.variables.Len()].v.upperBound == Fin(-1.0)
    ensures var r := IntendedDivisionModulus(p, ByList([OVariable(v)]), -10, ModulusType, varId, specialId);
      r.Success? && r.value.variables.objects[p.variables.Len()].v.lowerBound == Fin(-9.0)
      && r.value.variables.objects[p.variables.Len()].v.upperBound == Fin(0.0)
  {
    assert (4.0 / -10.0).Floor == -1 && (3.0 / -10.0).Floor == -1;
  }

  /** The cases in the repository's tests: an input in [10, 20] and divisor 5 give [2, 4] for
      the quotient and [0, 4] for the remainder, and the corrected division
      builder builds the same problem. */
  lemma DivisionModulusExample(p: Problem, v: Variable, varId: Uuid, specialId: Uuid)
    requires v.lowerBound == Fin(10.0) && v.upperBound == Fin(20.0)
    ensures var r := CreateDivisionModulus(p, ByList([OVariable(v)]), 5, DivisionType, varId, specialId);
      r.Success? && r.value.variables.objects[p.variables.Len()].v.lowerBound == Fin(2.0)
      && r.value.variables.objects[p.variables.Len()].v.upperBound == Fin(4.0)
    ensures var r := CreateDivisionModulus(p, ByList([OVariable(v)]), 5, ModulusType, varId, specialId);
      r.Success? && r.value.variables.objects[p.variables.Len()].v.lowerBound == Fin(0.0)
      && r.value.variables.objects[p.variables.Len()].v.upperBound == Fin(4.0)
    ensures IntendedDivisionModulus(p, ByList([OVariable(v)]), 5, DivisionType, varId, specialId)
            == CreateDivisionModulus(p, ByList([OVariable(v)]), 5, DivisionType, varId, specialId)
  {
    DivisionExample(p, v, varId, specialId);
    ModulusExample(p, v, varId, specialId);
  }

  lemma DivisionExample(p: Problem, v: Variable, varId: Uuid, specialId: Uuid)
    requires v.lowerBound == Fin(10.0) && v.upperBound == Fin(20.0)
    ensures var r := CreateDivisionModulus(p, ByList([OVariable(v)]), 5, DivisionType, varId, specialId);
      r.Success? && r.value.variables.objects[p.variables.Len()].v.lowerBound == Fin(2.0)
      && r.value.variables.objects[p.variables.Len()].v.upperBound == Fin(4.0)
    ensures IntendedDivisionModulus(p, ByList([OVariable(v)]), 5, DivisionType, varId, specialId)
            == CreateDivisionModulus(p, ByList([OVariable(v)]), 5, DivisionType, varId, specialId)
  {
    assert (10.0 / 5.0).Floor == 2 && (20.0 / 5.0).Floor == 4;
  }

  lemma ModulusExample(p: Problem, v: Variable, varId: Uuid, specialId: Uuid)
    requires v.lowerBound == Fin(10.0) && v.upperBound == Fin(20.0)
    ensures var r := CreateDivisionModulus(p, ByList([OVariable(v)]), 5, ModulusType, varId, specialId);
      r.Success? && r.value.variables.objects[p.variables.Len()].v.lowerBound == Fin(0.0)
      && r.value.variables.objects[p.variables.Len()].v.upperBound == Fin(4.0)
  {
  }

  // ---------------------------------------------------------------------------
  // Summation
  // ---------------------------------------------------------------------------

  const SummationCountMessage := "Summation equality constraint requires at least 2 variables"
  const SummationTypeMessage := "All elements in input_variables must be OXVariable objects"

  /** The output's name: "Summation of " and the inputs' names joined by
      "_". */
  function SummationName(names: seq<string>): (n: string)
    ensures Strip(n) != ""
    ensures n == "Summation of " + Join("_", names)
  {
    JoinedName("Summation of ", names)
  }

  /** `_create_summation_equality_constraint`: at least two inputs, all
      variables; the output's bounds are the sums of the inputs' bounds. A
      nan sum (both infinities among the bounds) raises ValueError here (see
      README). */
  function CreateSummation(p: Problem, sel: Selection, varId: Uuid, specialId: Uuid): (r: Result<Problem>)
    ensures sel.ByObject? ==> r == Failure(TypeError)
    ensures var objs := Select(p.variables, sel);
      objs.Success? && |objs.value| < 2 ==> r == Failure(OXception(SummationCountMessage))
    ensures var objs := Select(p.variables, sel);
      objs.Success? && |objs.value| >= 2 && BoundsOf(objs.value).Failure? ==> r == Failure(OXception(SummationTypeMessage))
    ensures r.Success? ==>
      var objs := Select(p.variables, sel).value;
      |objs| >= 2 && BoundsOf(objs).Success? && SumBounds(BoundsOf(objs).value).Some?
      && var b := SumBounds(BoundsOf(objs).value).value;
         AddsOutput(p, r.value, varId, SummationName(Names(objs).value), b.0, b.1,
                    Summation(specialId, Ids(objs), varId))
    ensures Valid(p) && r.Success? ==> Valid(r.value)
  {
    var objs :- Select(p.variables, sel);
    if |objs| < 2 then Failure(OXception(SummationCountMessage))
    else if BoundsOf(objs).Failure? then Failure(OXception(SummationTypeMessage))
    else
      match SumBounds(BoundsOf(objs).value)
      case None => Failure(ValueError)
      case Some(b) =>
        var ids := Ids(objs);
        AddOutput(p, varId, SummationName(Names(objs).value), b.0, b.1, out => Summation(specialId, ids, out))
  }

  /** The output's bounds never cut off a solution: with finite input bounds
      the sum of inputs within their bounds lies within the output's bounds,
      and the output variable is created whenever the inputs' bounds are
      ordered. */
  lemma SummationBoundsSound(p: Problem, sel: Selection, varId: Uuid, specialId: Uuid, x: Uuid -> int)
    requires CreateSummation(p, sel, varId, specialId).Success?
    requires var ds := BoundsOf(Select(p.variables, sel).value).value;
      FiniteBox(ds) && WithinBounds(ds, Ids(Select(p.variables, sel).value), x)
    requires Satisfied(Summation(specialId, Ids(Select(p.variables, sel).value), varId), x)
    ensures var q := CreateSummation(p, sel, varId, specialId).value;
      var o := q.variables.objects[p.variables.Len()].v;
      Le(o.lowerBound, Fin(x(varId) as real)) && Le(Fin(x(varId) as real), o.upperBound)
  {
    var objs := Select(p.variables, sel).value;
    SumWithin(BoundsOf(objs).value, Summation(specialId, Ids(objs), varId), x);
  }

  /** A satisfied sum record whose inputs lie in a finite box has its output
      within the sums of the box's lower and upper ends. */
  lemma SumWithin(ds: seq<Domain>, s: Special, x: Uuid -> int)
    requires s.Summation? && FiniteBox(ds) && WithinBounds(ds, s.inputs, x)
    requires Satisfied(s, x)
    ensures SumBounds(ds).Some?
    ensures Le(SumBounds(ds).value.0, Fin(x(s.output) as real))
    ensures Le(Fin(x(s.output) as real), SumBounds(ds).value.1)
  {
    var vs := Values(s.inputs, x);
    SumAsReal(vs);
    assert InBox(AsExt(vs), ds);
    SumBoundsSound(ds, AsExt(vs));
    SummationValue(s, x);
  }

  lemma SummationValue(s: Special, x: Uuid -> int)
    requires s.Summation? && Satisfied(s, x)
    ensures x(s.output) == Sum(Values(s.inputs, x))
  {
  }

  /** The case in the repository's tests: inputs in [2, 4] and [3, 5] give an output in [5, 9]. */
  lemma SummationExample(p: Problem, a: Variable, b: Variable, varId: Uuid, specialId: Uuid)
    requires a.lowerBound == Fin(2.0) && a.upperBound == Fin(4.0)
    requires b.lowerBound == Fin(3.0) && b.upperBound == Fin(5.0)
    ensures var r := CreateSummation(p, ByList([OVariable(a), OVariable(b)]), varId, specialId);
      r.Success? && r.value.variables.objects[p.variables.Len()].v.lowerBound == Fin(5.0)
      && r.value.variables.objects[p.variables.Len()].v.upperBound == Fin(9.0)
  {
    var objs := [OVariable(a), OVariable(b)];
    assert BoundsOf(objs).value == [(Fin(2.0), Fin(4.0)), (Fin(3.0), Fin(5.0))];
    SumBoundsExample();
  }

  // ---------------------------------------------------------------------------
  // The conditional
  // ---------------------------------------------------------------------------

  const ConditionalCountMessage := "Conditional constraint requires exactly 1 input, true and false constraints"
  const ConditionalTypeMessage := "All constraints must be OXConstraint objects"

  /** The indicator's name: "Conditional constraint: " and the three ids
      as "input ? if-true : if-false". */
  function ConditionalName(a: Uuid, b: Uuid, c: Uuid): (n: string)
    ensures Strip(n) != ""
    ensures n == "Conditional constraint: " + a.text + " ? " + b.text + " : " + c.text
  {
    var n := "Conditional constraint: " + a.text + " ? " + b.text + " : " + c.text;
    NotBlank(n, 0);
    n
  }

  /** The conditional builder once its three constraints are chosen: their
      ids are recorded as used by a special constraint before their kind is
      checked, so a non-constraint raises with the ids already recorded;
      then the indicator variable, bounded by 0 and 1, and the record. */
  function ConditionalOn(p: Problem, a: Obj, b: Obj, c: Obj, varId: Uuid, specialId: Uuid): (r: Outcome<Problem>)
    ensures var q := p.(constraintsInSpecial := p.constraintsInSpecial + [Id(a), Id(b), Id(c)]);
      (r.Raised? <==> !(IsConstraint(a) && IsConstraint(b) && IsConstraint(c)))
      && (r.Raised? ==> r == Raised(q, OXception(ConditionalTypeMessage)))
      && (r.Done? ==> AddsOutput(q, r.state, varId, ConditionalName(Id(a), Id(b), Id(c)), Fin(0.0), Fin(1.0),
                                 Conditional(specialId, varId, Id(a), Id(b), Id(c))))
    ensures Valid(p) && r.Done? ==> Valid(r.state)
  {
    var ia, ib, ic := Id(a), Id(b), Id(c);
    var q := p.(constraintsInSpecial := p.constraintsInSpecial + [ia, ib, ic]);
    if !(IsConstraint(a) && IsConstraint(b) && IsConstraint(c)) then
      Raised(q, OXception(ConditionalTypeMessage))
    else
      match AddOutput(q, varId, ConditionalName(ia, ib, ic), Fin(0.0), Fin(1.0), out => Conditional(specialId, out, ia, ib, ic))
      case Success(q') => Done(q')
      case Failure(e) => Raised(q, e)
  }

  /** A selection the count check rejects: a list (or a search function's
      result) that does not hold exactly one object. One object passes. */
  predicate WrongCount(x: Result<seq<Obj>>) {
    x.Success? && |x.value| != 1
  }

  /** `_create_conditional_constraint` as written: search functions become
      lists; only lists are counted, so one object given directly passes the
      count and then raises TypeError at `[0]`, before any state changes. */
  function CreateConditional(p: Problem, input: Selection, ifTrue: Selection, ifFalse: Selection,
                             varId: Uuid, specialId: Uuid): (r: Outcome<Problem>)
    ensures var a, b, c := Select(p.constraints, input), Select(p.constraints, ifTrue),
                           Select(p.constraints, ifFalse);
      (a.Success? && |a.value| != 1) || (b.Success? && |b.value| != 1) || (c.Success? && |c.value| != 1)
      ==> r == Raised(p, OXception(ConditionalCountMessage))
    ensures var a, b, c := Select(p.constraints, input), Select(p.constraints, ifTrue),
                           Select(p.constraints, ifFalse);
      (a.Success? ==> |a.value| == 1) && (b.Success? ==> |b.value| == 1) && (c.Success? ==> |c.value| == 1)
      && (input.ByObject? || ifTrue.ByObject? || ifFalse.ByObject?)
      ==> r == Raised(p, TypeError)
    ensures var a, b, c := Select(p.constraints, input), Select(p.constraints, ifTrue),
                           Select(p.constraints, ifFalse);
      a.Success? && b.Success? && c.Success? && |a.value| == 1 && |b.value| == 1 && |c.value| == 1
      ==> r == ConditionalOn(p, a.value[0], b.value[0], c.value[0], varId, specialId)
  {
    var a, b, c := Select(p.constraints, input), Select(p.constraints, ifTrue), Select(p.constraints, ifFalse);
    if WrongCount(a) || WrongCount(b) || WrongCount(c) then Raised(p, OXception(ConditionalCountMessage))
    else if a.Failure? || b.Failure? || c.Failure? then Raised(p, TypeError)
    else ConditionalOn(p, a.value[0], b.value[0], c.value[0], varId, specialId)
  }

  /** The evidently intended builder: one object stands for the list
      holding it. */
  function IntendedConditional(p: Problem, input: Selection, ifTrue: Selection, ifFalse: Selection,
                               varId: Uuid, specialId: Uuid): (r: Outcome<Problem>)
    ensures var a, b, c := SelectSingle(p.constraints, input), SelectSingle(p.constraints, ifTrue),
                           SelectSingle(p.constraints, ifFalse);
      (|a| != 1 || |b| != 1 || |c| != 1) ==> r == Raised(p, OXception(ConditionalCountMessage))
    ensures var a, b, c := SelectSingle(p.constraints, input), SelectSingle(p.constraints, ifTrue),
                           SelectSingle(p.constraints, ifFalse);
      |a| == 1 && |b| == 1 && |c| == 1 ==> r == ConditionalOn(p, a[0], b[0], c[0], varId, specialId)
    ensures Valid(p) && r.Done? ==> Valid(r.state)
  {
    var a, b, c := SelectSingle(p.constraints, input), SelectSingle(p.constraints, ifTrue),
                   SelectSingle(p.constraints, ifFalse);
    if |a| != 1 || |b| != 1 || |c| != 1 then Raised(p, OXception(ConditionalCountMessage))
    else ConditionalOn(p, a[0], b[0], c[0], varId, specialId)
  }

  /** One object written as the list holding it. */
  function Listed(sel: Selection): (r: Selection)
    ensures !r.ByObject?
  {
    if sel.ByObject? then ByList([sel.obj]) else sel
  }

  /** The corrected builder treats one object as the list holding it, and
      agrees with the builder as written whenever no object is given
      directly; the builder as written raises TypeError on every call that
      gives one object directly and would otherwise build. */
  lemma ConditionalOfObject(p: Problem, input: Selection, ifTrue: Selection, ifFalse: Selection,
                            varId: Uuid, specialId: Uuid)
    ensures IntendedConditional(p, input, ifTrue, ifFalse, varId, specialId)
         == IntendedConditional(p, Listed(input), Listed(ifTrue), Listed(ifFalse), varId, specialId)
    ensures IntendedConditional(p, input, ifTrue, ifFalse, varId, specialId)
         == CreateConditional(p, Listed(input), Listed(ifTrue), Listed(ifFalse), varId, specialId)
    ensures (input.ByObject? || ifTrue.ByObject? || ifFalse.ByObject?)
            && IntendedConditional(p, input, ifTrue, ifFalse, varId, specialId).Done?
            ==> CreateConditional(p, input, ifTrue, ifFalse, varId, specialId) == Raised(p, TypeError)
  {
  }

  // ---------------------------------------------------------------------------
  // create_special_constraint
  // ---------------------------------------------------------------------------

  const MultiplicativeType := "MultiplicativeEquality"
  const SummationType := "SummationEquality"
  const ConditionalType := "ConditionalConstraint"

  /** The keyword arguments passed on to a builder. */
  datatype SpecialArgs =
    | NoArgs
    | VariablesArg(inputVariables: Selection)
    | VariableArg(inputVariable: Selection, divisor: int)
    | ConstraintsArg(input: Selection, ifTrue: Selection, ifFalse: Selection)

  /** A builder's result as the outcome of a call on `p`: a raise leaves
      the problem as it was. */
  function Lift(p: Problem, b: Result<Problem>): (r: Outcome<Problem>)
    ensures b.Success? ==> r == Done(b.value)
    ensures b.Failure? ==> r == Raised(p, b.error)
  {
    match b
    case Success(q) => Done(q)
    case Failure(e) => Raised(p, e)
  }

  /** `create_special_constraint`: dispatch on the type's name to the
      builders as written. Arguments that do not fit the builder raise
      TypeError (the multiplicative builder's missing list defaults to None,
      which is not iterable); an unknown name raises OXception. A success
      adds exactly one output variable and one record. */
  function CreateSpecial(p: Problem, kind: string, args: SpecialArgs, varId: Uuid, specialId: Uuid): (r: Outcome<Problem>)
    ensures kind !in {MultiplicativeType, DivisionType, ModulusType, SummationType, ConditionalType}
            ==> r == Raised(p, OXception("Unknown constraint type: " + kind))
    ensures (kind in {MultiplicativeType, DivisionType, ModulusType, SummationType, ConditionalType}
             && !ArgsFit(kind, args)) ==> r == Raised(p, TypeError)
    ensures kind == MultiplicativeType && args.VariablesArg? ==>
      var b := CreateMultiplicative(p, args.inputVariables, varId, specialId);
      (b.Success? ==> r == Done(b.value)) && (b.Failure? ==> r == Raised(p, b.error))
    ensures (kind == DivisionType || kind == ModulusType) && args.VariableArg? ==>
      var b := CreateDivisionModulus(p, args.inputVariable, args.divisor, kind, varId, specialId);
      (b.Success? ==> r == Done(b.value)) && (b.Failure? ==> r == Raised(p, b.error))
    ensures kind == SummationType && args.VariablesArg? ==>
      var b := CreateSummation(p, args.inputVariables, varId, specialId);
      (b.Success? ==> r == Done(b.value)) && (b.Failure? ==> r == Raised(p, b.error))
    ensures kind == ConditionalType && args.ConstraintsArg? ==>
      r == CreateConditional(p, args.input, args.ifTrue, args.ifFalse, varId, specialId)
    ensures r.Raised? && kind != ConditionalType ==> r.state == p
    ensures r.Done? ==> |r.state.specials| == |p.specials| + 1
                        && r.state.variables.Len() == p.variables.Len() + 1
    ensures Valid(p) && r.Done? ==> Valid(r.state)
  {
    if kind !in {MultiplicativeType, DivisionType, ModulusType, SummationType, ConditionalType} then
      Raised(p, OXception("Unknown constraint type: " + kind))
    else if !ArgsFit(kind, args) then Raised(p, TypeError)
    else if kind == ConditionalType then CreateConditional(p, args.input, args.ifTrue, args.ifFalse, varId, specialId)
    else if kind == MultiplicativeType then Lift(p, CreateMultiplicative(p, args.inputVariables, varId, specialId))
    else if kind == SummationType then Lift(p, CreateSummation(p, args.inputVariables, varId, specialId))
    else Lift(p, CreateDivisionModulus(p, args.inputVariable, args.divisor, kind, varId, specialId))
  }

  /** The evidently intended dispatch: as `CreateSpecial`, with the
      corrected division/modulus and conditional builders. */
  function IntendedSpecial(p: Problem, kind: string, args: SpecialArgs, varId: Uuid, specialId: Uuid): (r: Outcome<Problem>)
    ensures kind !in {DivisionType, ModulusType, ConditionalType} ==>
      r == CreateSpecial(p, kind, args, varId, specialId)
    ensures (kind == DivisionType || kind == ModulusType) && args.VariableArg? ==>
      var b := IntendedDivisionModulus(p, args.inputVariable, args.divisor, kind, varId, specialId);
      (b.Success? ==> r == Done(b.value)) && (b.Failure? ==> r == Raised(p, b.error))
    ensures kind == ConditionalType && args.ConstraintsArg? ==>
      r == IntendedConditional(p, args.input, args.ifTrue, args.ifFalse, varId, specialId)
    ensures kind in {DivisionType, ModulusType, ConditionalType} && !ArgsFit(kind, args) ==> r == Raised(p, TypeError)
    ensures r.Done? ==> |r.state.specials| == |p.specials| + 1
                        && r.state.variables.Len() == p.variables.Len() + 1
    ensures Valid(p) && r.Done? ==> Valid(r.state)
  {
    if kind !in {DivisionType, ModulusType, ConditionalType} || !ArgsFit(kind, args) then
      CreateSpecial(p, kind, args, varId, specialId)
    else if kind == ConditionalType then IntendedConditional(p, args.input, args.ifTrue, args.ifFalse, varId, specialId)
    else Lift(p, IntendedDivisionModulus(p, args.inputVariable, args.divisor, kind, varId, specialId))
  }

  /** The arguments with every directly given object written as the list
      holding it. */
  function ListedArgs(args: SpecialArgs): SpecialArgs {
    match args
    case NoArgs => NoArgs
    case VariablesArg(s) => VariablesArg(Listed(s))
    case VariableArg(s, d) => VariableArg(Listed(s), d)
    case ConstraintsArg(a, b, c) => ConstraintsArg(Listed(a), Listed(b), Listed(c))
  }

  /** How the entry point as written relates to the intended one: the same
      call for the multiplicative and summation types and unknown names;
      the conditional as intended is the one as written with objects listed;
      for the modulus with a positive divisor and no object given directly
      they agree; for the division with a positive divisor the intended
      dispatch succeeds whenever the written one does; and one object given
      directly to the division or modulus raises TypeError as written. */
  lemma SpecialAsWrittenAndIntended(p: Problem, kind: string, args: SpecialArgs, varId: Uuid, specialId: Uuid)
    ensures kind !in {DivisionType, ModulusType, ConditionalType} ==>
      IntendedSpecial(p, kind, args, varId, specialId) == CreateSpecial(p, kind, args, varId, specialId)
    ensures kind == ConditionalType ==>
      IntendedSpecial(p, kind, args, varId, specialId) == CreateSpecial(p, kind, ListedArgs(args), varId, specialId)
    ensures kind == ModulusType && args.VariableArg? && !args.inputVariable.ByObject? && args.divisor > 0 ==>
      IntendedSpecial(p, kind, args, varId, specialId) == CreateSpecial(p, kind, args, varId, specialId)
    ensures kind == DivisionType && args.VariableArg? && !args.inputVariable.ByObject? && args.divisor > 0 ==>
      (CreateSpecial(p, kind, args, varId, specialId).Done? ==> IntendedSpecial(p, kind, args, varId, specialId).Done?)
    ensures (kind == DivisionType || kind == ModulusType) && args.VariableArg? && args.inputVariable.ByObject? ==>
      CreateSpecial(p, kind, args, varId, specialId) == Raised(p, TypeError)
  {
    if kind == ConditionalType && args.ConstraintsArg? {
      ConditionalOfObject(p, args.input, args.ifTrue, args.ifFalse, varId, specialId);
    }
    if (kind == DivisionType || kind == ModulusType) && args.VariableArg? && !args.inputVariable.ByObject? && args.divisor > 0 {
      DivisionModulusAgree(p, args.inputVariable, args.divisor, kind, varId, specialId);
    }
  }

  /** The arguments have the shape the named builder takes. */
  predicate ArgsFit(kind: string, args: SpecialArgs) {
    if kind == MultiplicativeType || kind == SummationType then args.VariablesArg?
    else if kind == ConditionalType then args.ConstraintsArg?
    else args.VariableArg?
  }
}

=== FILE: constraints.dfy ===
/** OXConstraint and OXGoalConstraint: relational operators, `reverse`, the
    exact right-hand side, `to_goal`, the desired/undesired split of deviation
    variables, and the integer scaling applied by the integer back-ends. */
module Constraints {
  import opened Base
  import opened Numbers
  import opened Expressions
  import opened Variables

  /** RelationalOperators: >, >=, =, <, <=. */
  datatype RelOp = GreaterThan | GreaterThanEqual | Equal | LessThan | LessThanEqual

  /** What a solver makes of `lhs op rhs`. */
  predicate Holds(op: RelOp, lhs: real, rhs: real) {
    match op
    case GreaterThan => lhs > rhs
    case GreaterThanEqual => lhs >= rhs
    case Equal => lhs == rhs
    case LessThan => lhs < rhs
    case LessThanEqual => lhs <= rhs
  }

  /** The rhs is an exact rational with a positive denominator. */
  datatype Constraint = Constraint(id: Uuid, expression: Expression, op: RelOp, rhs: Frac, name: string) {
    predicate Valid() {
      rhs.Valid() && AllValid(expression.weights)
    }
  }

  datatype Goal = Goal(c: Constraint, positive: Deviation, negative: Deviation)

  const ReverseMessage := "Cannot reverse an equality constraint."

  /** The operator table of `reverse`; EQUAL has no entry. */
  function ReverseOp(op: RelOp): (r: Result<RelOp>)
    ensures r.Failure? <==> op == Equal
    ensures r.Success? ==> r.value != Equal
    ensures r.Success? ==> forall lhs, rhs :: Holds(r.value, lhs, rhs) <==> !Holds(op, lhs, rhs)
  {
    match op
    case Equal => Failure(OXception(ReverseMessage))
    case GreaterThan => Success(LessThanEqual)
    case GreaterThanEqual => Success(LessThan)
    case LessThan => Success(GreaterThanEqual)
    case LessThanEqual => Success(GreaterThan)
  }

  /** `reverse()`: a new constraint (fresh id) with the complementary
      operator, the same expression and rhs, named "Inverse of <name>". */
  function Reverse(c: Constraint, freshId: Uuid): (r: Result<Constraint>)
    ensures r.Failure? <==> c.op == Equal
    ensures r.Failure? ==> r.error == OXception(ReverseMessage)
    ensures r.Success? ==> r.value.expression == c.expression && r.value.rhs == c.rhs
    ensures r.Success? ==> r.value.id == freshId && r.value.name == "Inverse of " + c.name
    ensures r.Success? ==> forall lhs, rhs :: Holds(r.value.op, lhs, rhs) <==> !Holds(c.op, lhs, rhs)
  {
    var op :- ReverseOp(c.op);
    Success(Constraint(freshId, c.expression, op, c.rhs, "Inverse of " + c.name))
  }

  /** Reversing twice restores the operator. */
  lemma ReverseTwice(c: Constraint, id1: Uuid, id2: Uuid)
    requires c.op != Equal
    ensures Reverse(c, id1).Success?
    ensures Reverse(Reverse(c, id1).value, id2).Success?
    ensures Reverse(Reverse(c, id1).value, id2).value.op == c.op
  {
  }

  /** `Fraction(rhs)`: the rhs in lowest terms. */
  function RhsFraction(c: Constraint): (f: Frac)
    requires c.rhs.Valid()
    ensures f.Normal() && SameValue(f, c.rhs)
  {
    Reduce(c.rhs.num, c.rhs.den)
  }

  function RhsNumerator(c: Constraint): int
    requires c.rhs.Valid()
  {
    RhsFraction(c).num
  }

  /** rhs_denominator: always positive. */
  function RhsDenominator(c: Constraint): (d: int)
    requires c.rhs.Valid()
    ensures d > 0
  {
    RhsFraction(c).den
  }

  /** rhs == rhs_numerator / rhs_denominator, in lowest terms; a fraction
      already in lowest terms is its own numerator and denominator. */
  lemma RhsParts(c: Constraint)
    requires c.rhs.Valid()
    ensures RhsNumerator(c) as real / RhsDenominator(c) as real == c.rhs.Value()
    ensures Coprime(RhsNumerator(c), RhsDenominator(c))
    ensures c.rhs.Normal() ==> RhsNumerator(c) == c.rhs.num && RhsDenominator(c) == c.rhs.den
  {
    SameValueReal(RhsFraction(c), c.rhs);
    if c.rhs.Normal() {
      NormalOfMultiple(c.rhs, 1);
    }
  }

  /** 10 gives (10, 1) and 2.5 = 5/2 gives (5, 2). */
  lemma RhsExamples(c: Constraint, d: Constraint)
    requires c.rhs == Frac(10, 1) && d.rhs == Frac(5, 2)
    ensures RhsNumerator(c) == 10 && RhsDenominator(c) == 1
    ensures RhsNumerator(d) == 5 && RhsDenominator(d) == 2
  {
    BezoutCoprime(10, 1, 0, 1);
    BezoutCoprime(5, 2, 1, -2);
    RhsParts(c);
    RhsParts(d);
  }

  // ---------------------------------------------------------------------------
  // Goal constraints
  // ---------------------------------------------------------------------------

  /** A deviation variable as `OXDeviationVar()` creates it (bounds [0, +inf],
      not desired), after `to_goal` has overwritten its name, flag and upper
      bound. No bound check runs on those assignments. */
  function GoalDeviation(id: Uuid, name: string, desired: bool, upperBound: Ext): Deviation {
    Deviation(Variable(id, name, "", None, upperBound, Fin(0.0), map[]), desired)
  }

  /** `to_goal(upper_bound)`: an equality goal with the same expression, rhs
      and name. LT/LE make the negative deviation desired, GT/GE the positive
      one; for those four both deviation upper bounds become `upperBound`,
      while EQUAL leaves both undesired and unbounded. */
  function ToGoal(c: Constraint, goalId: Uuid, posId: Uuid, negId: Uuid, upperBound: Ext): (g: Goal)
    ensures g.c == Constraint(goalId, c.expression, Equal, c.rhs, c.name)
    ensures g.positive.v.name == "Positive deviation of " + c.name
    ensures g.negative.v.name == "Negative deviation of " + c.name
    ensures g.positive.v.id == posId && g.negative.v.id == negId
    ensures g.positive.desired <==> c.op in {GreaterThan, GreaterThanEqual}
    ensures g.negative.desired <==> c.op in {LessThan, LessThanEqual}
    ensures !(g.positive.desired && g.negative.desired)
    ensures g.positive.v.upperBound == g.negative.v.upperBound
    ensures g.positive.v.upperBound == if c.op == Equal then PosInf else upperBound
    ensures g.positive.v.lowerBound == Fin(0.0) && g.negative.v.lowerBound == Fin(0.0)
  {
    var pn := "Positive deviation of " + c.name;
    var nn := "Negative deviation of " + c.name;
    var gc := Constraint(goalId, c.expression, Equal, c.rhs, c.name);
    match c.op
    case LessThan | LessThanEqual =>
      Goal(gc, GoalDeviation(posId, pn, false, upperBound), GoalDeviation(negId, nn, true, upperBound))
    case GreaterThan | GreaterThanEqual =>
      Goal(gc, GoalDeviation(posId, pn, true, upperBound), GoalDeviation(negId, nn, false, upperBound))
    case Equal =>
      Goal(gc, GoalDeviation(posId, pn, false, PosInf), GoalDeviation(negId, nn, false, PosInf))
  }

  /** `to_goal()` uses an upper bound of 100 by default. */
  function ToGoalDefault(c: Constraint, goalId: Uuid, posId: Uuid, negId: Uuid): (g: Goal)
    ensures c.op != Equal ==> g.positive.v.upperBound == Fin(100.0)
  {
    ToGoal(c, goalId, posId, negId, Fin(100.0))
  }

  /** `desired_variables`: the desired deviations, positive first. */
  function DesiredVariables(g: Goal): seq<Deviation> {
    (if g.positive.desired then [g.positive] else [])
    + (if g.negative.desired then [g.negative] else [])
  }

  /** `undesired_variables`: the deviations not marked desired, positive first. */
  function UndesiredVariables(g: Goal): seq<Deviation> {
    (if !g.positive.desired then [g.positive] else [])
    + (if !g.negative.desired then [g.negative] else [])
  }

  /** The two lists partition {positive, negative}, each in the order
      positive, negative. */
  lemma DesiredUndesiredPartition(g: Goal)
    ensures |DesiredVariables(g)| + |UndesiredVariables(g)| == 2
    ensures forall d :: d in DesiredVariables(g) ==> d.desired
    ensures forall d :: d in UndesiredVariables(g) ==> !d.desired
    ensures g.positive in DesiredVariables(g) + UndesiredVariables(g)
    ensures g.negative in DesiredVariables(g) + UndesiredVariables(g)
    ensures g.positive != g.negative ==>
      multiset(DesiredVariables(g) + UndesiredVariables(g)) == multiset{g.positive, g.negative}
  {
  }

  /** After `to_goal` on an inequality exactly one deviation is undesired:
      the positive one for LT/LE, the negative one for GT/GE; on EQUAL both are. */
  lemma ToGoalUndesired(c: Constraint, goalId: Uuid, posId: Uuid, negId: Uuid, ub: Ext)
    ensures var g := ToGoal(c, goalId, posId, negId, ub);
      UndesiredVariables(g) == (
        match c.op
        case LessThan | LessThanEqual => [g.positive]
        case GreaterThan | GreaterThanEqual => [g.negative]
        case Equal => [g.positive, g.negative])
  {
  }

  /** In the solver a goal reads `lhs - positive + negative == rhs`. With the
      smallest non-negative deviations that satisfy it, the undesired
      deviation is zero exactly when the original non-strict inequality
      holds. */
  lemma GoalDeviationMeaning(c: Constraint, goalId: Uuid, posId: Uuid, negId: Uuid, ub: Ext,
                             lhs: real, rhs: real, p: real, n: real)
    requires c.op in {LessThanEqual, GreaterThanEqual}
    requires p >= 0.0 && n >= 0.0 && p * n == 0.0
    requires lhs - p + n == rhs
    ensures var g := ToGoal(c, goalId, posId, negId, ub);
      var u := UndesiredVariables(g)[0];
      (if u == g.positive then p else n) == 0.0 <==> Holds(c.op, lhs, rhs)
  {
    var g := ToGoal(c, goalId, posId, negId, ub);
    assert UndesiredVariables(g) == if c.op == LessThanEqual then [g.positive] else [g.negative];
    if c.op == LessThanEqual {
      assert g.positive != g.negative by { assert g.positive.desired != g.negative.desired; }
    } else {
      assert g.positive != g.negative by { assert g.positive.desired != g.negative.desired; }
    }
  }

  // ---------------------------------------------------------------------------
  // Integer scaling
  // ---------------------------------------------------------------------------

  /** Sum of weight * value over the pairs zip(variables, weights) forms. */
  function Dot(vars: seq<Uuid>, ws: seq<real>, x: Uuid -> real): real
    decreases |vars|
  {
    if |vars| == 0 || |ws| == 0 then 0.0
    else ws[0] * x(vars[0]) + Dot(vars[1..], ws[1..], x)
  }

  function RealWeights(ws: seq<Frac>): (rs: seq<real>)
    requires AllValid(ws)
    ensures |rs| == |ws| && forall i :: 0 <= i < |ws| ==> rs[i] == ws[i].Value()
  {
    seq(|ws|, i requires 0 <= i < |ws| && AllValid(ws) => ws[i].Value())
  }

  function IntWeights(ws: seq<int>): (rs: seq<real>)
    ensures |rs| == |ws| && forall i :: 0 <= i < |ws| ==> rs[i] == ws[i] as real
  {
    seq(|ws|, i requires 0 <= i < |ws| => ws[i] as real)
  }

  /** The value of a constraint's left-hand side under an assignment `x`
      of values to variable ids. */
  function LhsValue(c: Constraint, x: Uuid -> real): real
    requires c.Valid()
  {
    Dot(c.expression.variables, RealWeights(c.expression.weights), x)
  }

  /** `vs` is `ws` with every entry multiplied by k. */
  predicate ScaledBy(vs: seq<real>, ws: seq<real>, k: real) {
    |vs| == |ws| && forall i :: 0 <= i < |ws| ==> vs[i] == k * ws[i]
  }

  /** Scaling every weight by k scales the sum by k. */
  lemma {:induction false} DotScale(vars: seq<Uuid>, ws: seq<real>, vs: seq<real>, k: real,
                                    x: Uuid -> real)
    requires ScaledBy(vs, ws, k)
    ensures Dot(vars, vs, x) == k * Dot(vars, ws, x)
    decreases |vars|
  {
    if |vars| > 0 && |ws| > 0 {
      DotScale(vars[1..], ws[1..], vs[1..], k, x);
    }
  }

  /** The integer form the OR-Tools back-end builds when denominators are
      equalised: weights rhs_denominator * integer_weights and rhs
      integer_denominator * rhs_numerator. */
  function ScaleToIntegers(c: Constraint): (r: (seq<int>, int))
    requires c.Valid()
    ensures |r.0| == |c.expression.weights|
  {
    var ns := IntegerWeights(c.expression);
    (seq(|ns|, i requires 0 <= i < |ns| => RhsDenominator(c) * ns[i]),
     IntegerDenominator(c.expression) * RhsNumerator(c))
  }

  /** rhs_denominator * integer_denominator: the positive number both sides
      are multiplied by. */
  function ScaleFactor(c: Constraint): (k: real)
    requires c.Valid()
    ensures k > 0.0
  {
    ScaleFactorPositive(RhsDenominator(c), IntegerDenominator(c.expression));
    (RhsDenominator(c) * IntegerDenominator(c.expression)) as real
  }

  lemma ScaleFactorPositive(a: int, b: int)
    requires a > 0 && b > 0
    ensures a * b > 0
  {
  }

  /** Both sides are multiplied by the same positive number
      rhs_denominator * integer_denominator, so for every assignment the
      scaled constraint holds exactly when the original one does. */
  lemma ScalingPreservesSolutions(c: Constraint, x: Uuid -> real)
    requires c.Valid()
    ensures Holds(c.op, Dot(c.expression.variables, IntWeights(ScaleToIntegers(c).0), x),
                  ScaleToIntegers(c).1 as real)
        <==> Holds(c.op, LhsValue(c, x), c.rhs.Value())
  {
    ScaledWeights(c);
    ScaledRhs(c);
    ScaleBothSides(c.op, c.expression.variables, RealWeights(c.expression.weights),
                   IntWeights(ScaleToIntegers(c).0), ScaleFactor(c), c.rhs.Value(),
                   ScaleToIntegers(c).1 as real, x);
  }

  /** Each scaled weight is the weight times rhs_denominator * integer_denominator. */
  lemma ScaledWeights(c: Constraint)
    requires c.Valid()
    ensures ScaledBy(IntWeights(ScaleToIntegers(c).0), RealWeights(c.expression.weights), ScaleFactor(c))
  {
    forall i | 0 <= i < |RealWeights(c.expression.weights)|
      ensures IntWeights(ScaleToIntegers(c).0)[i] == ScaleFactor(c) * RealWeights(c.expression.weights)[i]
    {
      ScaledWeightAt(c, i);
    }
  }

  lemma ScaledWeightAt(c: Constraint, i: nat)
    requires c.Valid() && i < |c.expression.weights|
    ensures IntWeights(ScaleToIntegers(c).0)[i] == ScaleFactor(c) * RealWeights(c.expression.weights)[i]
  {
    assert ScaleToIntegers(c).0[i] == RhsDenominator(c) * IntegerWeights(c.expression)[i];
    WeightTimesDenominator(IntegerForm(c.expression.weights).1[i], c.expression.weights[i],
                           IntegerDenominator(c.expression), RhsDenominator(c));
  }

  lemma WeightTimesDenominator(n: int, w: Frac, D: int, rd: int)
    requires w.Valid() && n * w.den == w.num * D
    ensures (rd * n) as real == (rd * D) as real * w.Value()
  {
    assert (n as real) * (w.den as real) == (w.num as real) * (D as real);
    assert (n as real) == w.Value() * (D as real);
  }

  /** The scaled rhs is the rhs times the same factor. */
  lemma ScaledRhs(c: Constraint)
    requires c.Valid()
    ensures ScaleToIntegers(c).1 as real == ScaleFactor(c) * c.rhs.Value()
  {
    var f := RhsFraction(c);
    assert f.num * c.rhs.den == c.rhs.num * f.den;
    RealScale(f.num, f.den, c.rhs.num, c.rhs.den, IntegerDenominator(c.expression));
  }

  /** n/d == p/q implies D*n == (d*D) * (p/q). */
  lemma RealScale(n: int, d: int, p: int, q: int, D: int)
    requires d > 0 && q > 0 && n * q == p * d
    ensures (D * n) as real == (d * D) as real * (p as real / q as real)
  {
    var v := p as real / q as real;
    assert (n as real) * (q as real) == (p as real) * (d as real);
    assert n as real == v * d as real;
    assert (D * n) as real == D as real * n as real;
    assert (d * D) as real == d as real * D as real;
  }

  lemma ScaleBothSides(op: RelOp, vars: seq<Uuid>, ws: seq<real>, vs: seq<real>, k: real,
                        rhs: real, scaledRhs: real, x: Uuid -> real)
    requires k > 0.0 && scaledRhs == k * rhs
    requires ScaledBy(vs, ws, k)
    ensures Holds(op, Dot(vars, vs, x), scaledRhs) <==> Holds(op, Dot(vars, ws, x), rhs)
  {
    DotScale(vars, ws, vs, k, x);
    ScaleHolds(op, Dot(vars, ws, x), rhs, k, Dot(vars, vs, x), scaledRhs);
  }

  lemma ScaleHolds(op: RelOp, lhs: real, rhs: real, k: real, scaledLhs: real, scaledRhs: real)
    requires k > 0.0 && scaledLhs == k * lhs && scaledRhs == k * rhs
    ensures Holds(op, scaledLhs, scaledRhs) <==> Holds(op, lhs, rhs)
  {
    MulOrder(k, lhs, rhs);
  }

  /** A positive factor keeps the order of reals both ways. */
  lemma MulOrder(k: real, a: real, b: real)
    requires k > 0.0
    ensures k * a <= k * b <==> a <= b
    ensures k * a < k * b <==> a < b
    ensures k * a == k * b <==> a == b
  {
    assert k * b - k * a == k * (b - a);
  }
}

=== FILE: data.dfy ===
/** OXData: a data object whose attribute reads are overlaid by the values of
    the active scenario, and `create_scenario`, which records per-scenario
    overrides and snapshots a "Default" scenario the first time. */
module Data {
  import opened Base
  import opened Numbers

  /** An attribute value. Numbers are compared by value (Python's 0 == 0.0),
      enumeration members by their string value. */
  datatype Value =
    | VNone
    | VBool(b: bool)
    | VNum(x: Ext)
    | VStr(s: string)
    | VId(id: Uuid)
    | VMap(m: map<string, Value>)

  /** NON_SCENARIO_FIELDS: always read from the object itself. */
  const NonScenarioFields: seq<string> := ["active_scenario", "scenarios", "id", "class_name"]

  const DefaultScenario := "Default"

  /** An OXData object. `fields` lists the dataclass fields in declaration
      order (including the four inherited bookkeeping fields) and `attrs`
      holds the object's own value of every other attribute. */
  datatype DataObject = DataObject(
    id: Uuid,
    className: string,
    activeScenario: string,
    scenarios: map<string, map<string, Value>>,
    fields: seq<string>,
    attrs: map<string, Value>)

  /** A freshly built object: "Default" active and no scenarios. */
  function NewData(id: Uuid, className: string, fields: seq<string>, attrs: map<string, Value>)
    : (d: DataObject)
    ensures d.activeScenario == DefaultScenario && d.scenarios == map[]
  {
    DataObject(id, className, DefaultScenario, map[], fields, attrs)
  }

  /** The object's own value of an attribute, bypassing scenarios. */
  function BaseRead(d: DataObject, item: string): Option<Value> {
    if item == "id" then Some(VId(d.id))
    else if item == "class_name" then Some(VStr(d.className))
    else if item == "active_scenario" then Some(VStr(d.activeScenario))
    else if item == "scenarios" then
      Some(VMap(map s | s in d.scenarios :: VMap(d.scenarios[s])))
    else if item in d.attrs then Some(d.attrs[item])
    else None
  }

  /** The active scenario's overrides; `scenarios.get(active, {})`. */
  function ActiveValues(d: DataObject): map<string, Value> {
    if d.activeScenario in d.scenarios then d.scenarios[d.activeScenario] else map[]
  }

  /** `__getattribute__`: None stands for AttributeError. */
  function Read(d: DataObject, item: string): (r: Option<Value>)
    ensures item in NonScenarioFields ==> r == BaseRead(d, item)
    ensures item !in NonScenarioFields && item in ActiveValues(d) ==> r == Some(ActiveValues(d)[item])
    ensures item !in ActiveValues(d) ==> r == BaseRead(d, item)
  {
    if item in NonScenarioFields then BaseRead(d, item)
    else
      var active := ActiveValues(d);
      if |active| > 0 && item in active then Some(active[item])
      else BaseRead(d, item)
  }

  /** The attributes every OXData object has through its class rather than
      its own values: the methods OXData and OXObject define, those the
      dataclass decorator generates, and those inherited from `object`. */
  const ClassAttributes: set<string> := {
    "create_scenario", "__getattribute__", "__post_init__", "__str__", "__repr__", "__hash__",
    "__init__", "__eq__", "__dataclass_fields__", "__dataclass_params__", "__match_args__",
    "__annotations__", "__dict__", "__module__", "__weakref__", "__doc__",
    "__class__", "__delattr__", "__dir__", "__format__", "__ge__", "__getstate__", "__gt__",
    "__init_subclass__", "__le__", "__lt__", "__ne__", "__new__", "__reduce__", "__reduce_ex__",
    "__setattr__", "__sizeof__", "__subclasshook__"}

  /** `hasattr(d, item)`: an attribute read succeeds, or the class supplies
      the name. */
  predicate HasAttr(d: DataObject, item: string) {
    item in ClassAttributes || Read(d, item).Some?
  }

  /** Attribute assignment `d.item = v`: the object's own value changes,
      scenarios do not. */
  function SetAttr(d: DataObject, item: string, v: Value): DataObject
    requires item !in NonScenarioFields
  {
    d.(attrs := d.attrs[item := v])
  }

  /** `d.active_scenario = name`. */
  function SetActive(d: DataObject, name: string): DataObject {
    d.(activeScenario := name)
  }

  lemma FreshReadsBase(id: Uuid, className: string, fields: seq<string>, attrs: map<string, Value>,
                       item: string)
    ensures Read(NewData(id, className, fields, attrs), item)
         == BaseRead(NewData(id, className, fields, attrs), item)
  {
  }

  /** Store one scenario entry. */
  function Put(d: DataObject, scenario: string, key: string, v: Value): (e: DataObject)
    requires scenario in d.scenarios
    ensures e.scenarios.Keys == d.scenarios.Keys
    ensures e.scenarios[scenario] == d.scenarios[scenario][key := v]
    ensures forall s :: s in d.scenarios && s != scenario ==> e.scenarios[s] == d.scenarios[s]
    ensures e.activeScenario == d.activeScenario && e.attrs == d.attrs && e.fields == d.fields
  {
    d.(scenarios := d.scenarios[scenario := d.scenarios[scenario][key := v]])
  }

  /** The loop that fills "Default": every non-excluded field, read through
      `getattr` on the object as it is being filled. */
  function Snapshot(d: DataObject, fs: seq<string>): (r: Outcome<DataObject>)
    requires DefaultScenario in d.scenarios
    ensures DefaultScenario in r.state.scenarios
    ensures r.state.scenarios.Keys == d.scenarios.Keys
    ensures r.state.activeScenario == d.activeScenario && r.state.attrs == d.attrs
    ensures r.state.fields == d.fields
    ensures forall s :: s in d.scenarios && s != DefaultScenario ==> r.state.scenarios[s] == d.scenarios[s]
    decreases |fs|
  {
    if |fs| == 0 then Done(d)
    else if fs[0] in NonScenarioFields then Snapshot(d, fs[1..])
    else match Read(d, fs[0])
      case None => Raised(d, AttributeError)
      case Some(v) => Snapshot(Put(d, DefaultScenario, fs[0], v), fs[1..])
  }

  /** The message of the exception for a kwargs name that is not an
      attribute; the object prints as `class_name(id)`. */
  function NoAttributeMessage(d: DataObject, key: string): string {
    "Object " + d.className + "(" + d.id.text + ") has no attribute " + key
  }

  /** The kwargs loop of `create_scenario`: excluded names are skipped, a
      name that is not an attribute raises, and entries stored before the
      raise stay. */
  function AddOverrides(d: DataObject, name: string, kvs: seq<(string, Value)>): (r: Outcome<DataObject>)
    requires name in d.scenarios
    ensures name in r.state.scenarios && r.state.scenarios.Keys == d.scenarios.Keys
    ensures r.state.activeScenario == d.activeScenario && r.state.attrs == d.attrs
    ensures r.state.fields == d.fields && r.state.id == d.id && r.state.className == d.className
    ensures forall s :: s in d.scenarios && s != name ==> r.state.scenarios[s] == d.scenarios[s]
    decreases |kvs|
  {
    if |kvs| == 0 then Done(d)
    else
      var (k, v) := kvs[0];
      if k in NonScenarioFields then AddOverrides(d, name, kvs[1..])
      else if HasAttr(d, k) then AddOverrides(Put(d, name, k, v), name, kvs[1..])
      else Raised(d, OXception(NoAttributeMessage(d, k)))
  }

  /** `create_scenario(name, **kwargs)`. */
  function CreateScenario(d: DataObject, name: string, kvs: seq<(string, Value)>): (r: Outcome<DataObject>)
    ensures DefaultScenario in r.state.scenarios
    ensures r.state.scenarios.Keys == d.scenarios.Keys + {DefaultScenario} + {name} || r.Raised?
    ensures r.state.activeScenario == d.activeScenario && r.state.attrs == d.attrs
  {
    var first :=
      if DefaultScenario !in d.scenarios then
        Snapshot(d.(scenarios := d.scenarios[DefaultScenario := map[]]), d.fields)
      else Done(d);
    match first
    case Raised(s, e) => Raised(s, e)
    case Done(s) => AddOverrides(s.(scenarios := s.scenarios[name := map[]]), name, kvs)
  }

  // ---------------------------------------------------------------------------
  // Properties
  // ---------------------------------------------------------------------------

  /** The overrides a successful kwargs loop stores: every non-excluded pair,
      later pairs winning. */
  function KwargsMap(kvs: seq<(string, Value)>): (m: map<string, Value>)
    ensures forall k :: k in m ==> k !in NonScenarioFields
    decreases |kvs|
  {
    if |kvs| == 0 then map[]
    else
      var rest := KwargsMap(kvs[..|kvs| - 1]);
      var (k, v) := kvs[|kvs| - 1];
      if k in NonScenarioFields then rest else rest[k := v]
  }

  /** Every non-excluded name is an attribute of the object itself. */
  predicate AllAttributes(d: DataObject, kvs: seq<(string, Value)>) {
    forall i :: 0 <= i < |kvs| && kvs[i].0 !in NonScenarioFields ==> kvs[i].0 in d.attrs
  }

  lemma KwargsMapSnoc(kvs: seq<(string, Value)>, k: string, v: Value)
    ensures KwargsMap(kvs + [(k, v)]) == if k in NonScenarioFields then KwargsMap(kvs) else KwargsMap(kvs)[k := v]
  {
    assert (kvs + [(k, v)])[..|kvs|] == kvs;
  }

  /** The kwargs loop, run on names that are all attributes, succeeds and
      leaves the scenario map equal to what it held plus the kwargs. */
  lemma {:induction false} AddOverridesStores(d: DataObject, name: string, kvs: seq<(string, Value)>,
                                              pre: seq<(string, Value)>)
    requires name in d.scenarios && AllAttributes(d, kvs)
    requires d.scenarios[name] == KwargsMap(pre)
    ensures AddOverrides(d, name, kvs).Done?
    ensures AddOverrides(d, name, kvs).state.scenarios[name] == KwargsMap(pre + kvs)
    decreases |kvs|
  {
    if |kvs| == 0 {
      assert pre + kvs == pre;
    } else {
      var (k, v) := kvs[0];
      assert pre + kvs == (pre + [kvs[0]]) + kvs[1..];
      KwargsMapSnoc(pre, k, v);
      if k in NonScenarioFields {
        AddOverridesStores(d, name, kvs[1..], pre + [kvs[0]]);
      } else {
        assert k in d.attrs;
        assert HasAttr(d, k);
        var d' := Put(d, name, k, v);
        assert AllAttributes(d', kvs[1..]) by {
          forall i | 0 <= i < |kvs[1..]| && kvs[1..][i].0 !in NonScenarioFields
            ensures kvs[1..][i].0 in d'.attrs
          {
            assert kvs[1..][i] == kvs[i + 1];
          }
        }
        AddOverridesStores(d', name, kvs[1..], pre + [kvs[0]]);
      }
    }
  }

  /** The position of the pair the kwargs loop raises on (|kvs| if none). */
  function RaiseIndex(d: DataObject, name: string, kvs: seq<(string, Value)>): (i: nat)
    requires name in d.scenarios
    ensures i <= |kvs|
    decreases |kvs|
  {
    if |kvs| == 0 then 0
    else if kvs[0].0 in NonScenarioFields then 1 + RaiseIndex(d, name, kvs[1..])
    else if HasAttr(d, kvs[0].0) then 1 + RaiseIndex(Put(d, name, kvs[0].0, kvs[0].1), name, kvs[1..])
    else 0
  }

  lemma SliceStep(pre: seq<(string, Value)>, kvs: seq<(string, Value)>, i: nat)
    requires i < |kvs|
    ensures pre + [kvs[0]] + kvs[1..][..i] == pre + kvs[..i + 1]
  {
  }

  /** When the kwargs loop raises, it raises on a name that is not an
      attribute of the object itself, and the entries stored before that
      name stay. */
  lemma {:induction false} AddOverridesRaise(d: DataObject, name: string, kvs: seq<(string, Value)>,
                                             pre: seq<(string, Value)>)
    requires name in d.scenarios && d.scenarios[name] == KwargsMap(pre)
    requires AddOverrides(d, name, kvs).Raised?
    ensures RaiseIndex(d, name, kvs) < |kvs|
    ensures kvs[RaiseIndex(d, name, kvs)].0 !in NonScenarioFields
    ensures kvs[RaiseIndex(d, name, kvs)].0 !in d.attrs
    ensures kvs[RaiseIndex(d, name, kvs)].0 !in ClassAttributes
    ensures AddOverrides(d, name, kvs).state.scenarios[name] == KwargsMap(pre + kvs[..RaiseIndex(d, name, kvs)])
    ensures AddOverrides(d, name, kvs).error == OXception(NoAttributeMessage(d, kvs[RaiseIndex(d, name, kvs)].0))
    decreases |kvs|
  {
    var (k, v) := kvs[0];
    if k in NonScenarioFields {
      KwargsMapSnoc(pre, k, v);
      AddOverridesRaise(d, name, kvs[1..], pre + [kvs[0]]);
      RaisePastHead(d, d, name, kvs, pre);
    } else if HasAttr(d, k) {
      var d' := Put(d, name, k, v);
      KwargsMapSnoc(pre, k, v);
      AddOverridesRaise(d', name, kvs[1..], pre + [kvs[0]]);
      RaisePastHead(d, d', name, kvs, pre);
    } else {
      assert kvs[..0] == [];
      assert pre + kvs[..0] == pre;
    }
  }

  /** The kwargs loop got past the first pair (from `d` to `e`) and raised
      later: the raise, shifted by one position, is the raise of the whole
      loop. */
  lemma RaisePastHead(d: DataObject, e: DataObject, name: string, kvs: seq<(string, Value)>,
                      pre: seq<(string, Value)>)
    requires |kvs| > 0 && name in d.scenarios && name in e.scenarios
    requires e.attrs == d.attrs && e.id == d.id && e.className == d.className
    requires AddOverrides(d, name, kvs) == AddOverrides(e, name, kvs[1..])
    requires RaiseIndex(d, name, kvs) == 1 + RaiseIndex(e, name, kvs[1..])
    requires AddOverrides(e, name, kvs[1..]).Raised?
    requires RaiseIndex(e, name, kvs[1..]) < |kvs[1..]|
    requires kvs[1..][RaiseIndex(e, name, kvs[1..])].0 !in NonScenarioFields
    requires kvs[1..][RaiseIndex(e, name, kvs[1..])].0 !in e.attrs
    requires kvs[1..][RaiseIndex(e, name, kvs[1..])].0 !in ClassAttributes
    requires AddOverrides(e, name, kvs[1..]).state.scenarios[name]
          == KwargsMap(pre + [kvs[0]] + kvs[1..][..RaiseIndex(e, name, kvs[1..])])
    requires AddOverrides(e, name, kvs[1..]).error
          == OXception(NoAttributeMessage(e, kvs[1..][RaiseIndex(e, name, kvs[1..])].0))
    ensures RaiseIndex(d, name, kvs) < |kvs|
    ensures kvs[RaiseIndex(d, name, kvs)].0 !in NonScenarioFields
    ensures kvs[RaiseIndex(d, name, kvs)].0 !in d.attrs
    ensures kvs[RaiseIndex(d, name, kvs)].0 !in ClassAttributes
    ensures AddOverrides(d, name, kvs).state.scenarios[name] == KwargsMap(pre + kvs[..RaiseIndex(d, name, kvs)])
    ensures AddOverrides(d, name, kvs).error == OXception(NoAttributeMessage(d, kvs[RaiseIndex(d, name, kvs)].0))
  {
    var j := RaiseIndex(e, name, kvs[1..]);
    assert kvs[1..][j] == kvs[j + 1];
    SliceStep(pre, kvs, j);
  }

  /** A successful create_scenario replaces the scenario's map by exactly the
      non-excluded kwargs. */
  lemma CreateScenarioReplaces(d: DataObject, name: string, kvs: seq<(string, Value)>)
    requires CreateScenario(d, name, kvs).Done?
    requires AllAttributes(d, kvs)
    ensures CreateScenario(d, name, kvs).state.scenarios[name] == KwargsMap(kvs)
  {
    var first :=
      if DefaultScenario !in d.scenarios then
        Snapshot(d.(scenarios := d.scenarios[DefaultScenario := map[]]), d.fields)
      else Done(d);
    var s := first.state;
    var s' := s.(scenarios := s.scenarios[name := map[]]);
    assert AllAttributes(s', kvs);
    assert [] + kvs == kvs;
    AddOverridesStores(s', name, kvs, []);
  }

  /** Once "Default" exists it is never snapshotted again: creating another
      scenario leaves it as it was. */
  lemma DefaultNotResnapshotted(d: DataObject, name: string, kvs: seq<(string, Value)>)
    requires DefaultScenario in d.scenarios && name != DefaultScenario
    ensures CreateScenario(d, name, kvs).state.scenarios[DefaultScenario] == d.scenarios[DefaultScenario]
  {
  }

  /** The values "Default" receives: each non-excluded field's own value. */
  function FieldValues(d: DataObject, fs: seq<string>): (m: map<string, Value>)
    ensures forall k :: k in m ==> k in fs && k in d.attrs && m[k] == d.attrs[k]
    decreases |fs|
  {
    if |fs| == 0 then map[]
    else
      var rest := FieldValues(d, fs[..|fs| - 1]);
      var f := fs[|fs| - 1];
      if f in NonScenarioFields || f !in d.attrs then rest else rest[f := d.attrs[f]]
  }

  /** Every non-excluded field that is an attribute is snapshotted. */
  lemma {:induction false} FieldValuesHas(d: DataObject, fs: seq<string>, f: string)
    requires f in fs && f !in NonScenarioFields && f in d.attrs
    ensures f in FieldValues(d, fs) && FieldValues(d, fs)[f] == d.attrs[f]
    decreases |fs|
  {
    if fs[|fs| - 1] != f {
      assert f in fs[..|fs| - 1] by {
        var i :| 0 <= i < |fs| && fs[i] == f;
        assert fs[..|fs| - 1][i] == f;
      }
      FieldValuesHas(d, fs[..|fs| - 1], f);
    }
  }

  /** While only "Default" exists and it agrees with the object's own
      values, a field reads as its own value, whatever scenario is active. */
  lemma ReadDuringSnapshot(d: DataObject, f: string)
    requires d.scenarios.Keys == {DefaultScenario}
    requires forall k :: k in d.scenarios[DefaultScenario] ==>
      k in d.attrs && d.scenarios[DefaultScenario][k] == d.attrs[k]
    requires f !in NonScenarioFields && f in d.attrs
    ensures Read(d, f) == Some(d.attrs[f])
  {
  }

  /** Invariant of the snapshot loop: after the fields `done`, "Default"
      holds their own values. */
  lemma {:induction false} SnapshotFills(d: DataObject, fs: seq<string>, done: seq<string>)
    requires d.scenarios.Keys == {DefaultScenario}
    requires d.scenarios[DefaultScenario] == FieldValues(d, done)
    requires forall f :: f in fs && f !in NonScenarioFields ==> f in d.attrs
    ensures Snapshot(d, fs).Done?
    ensures Snapshot(d, fs).state.scenarios[DefaultScenario] == FieldValues(d, done + fs)
    decreases |fs|
  {
    if |fs| == 0 {
      assert done + fs == done;
    } else {
      var f := fs[0];
      assert done + fs == (done + [f]) + fs[1..];
      assert (done + [f])[..|done + [f]| - 1] == done;
      if f in NonScenarioFields {
        SnapshotFills(d, fs[1..], done + [f]);
      } else {
        ReadDuringSnapshot(d, f);
        var d' := Put(d, DefaultScenario, f, d.attrs[f]);
        assert d'.scenarios[DefaultScenario] == FieldValues(d', done + [f]) by {
          FieldValuesSameAttrs(d, d', done + [f]);
        }
        SnapshotFills(d', fs[1..], done + [f]);
        FieldValuesSameAttrs(d, d', done + fs);
      }
    }
  }

  lemma {:induction false} FieldValuesSameAttrs(d: DataObject, e: DataObject, fs: seq<string>)
    requires d.attrs == e.attrs
    ensures FieldValues(d, fs) == FieldValues(e, fs)
    decreases |fs|
  {
    if |fs| > 0 {
      FieldValuesSameAttrs(d, e, fs[..|fs| - 1]);
    }
  }

  /** The first create_scenario on an object with no scenarios snapshots
      every non-excluded field's own value into "Default". */
  lemma FirstScenarioSnapshots(d: DataObject, name: string, kvs: seq<(string, Value)>)
    requires d.scenarios == map[] && name != DefaultScenario
    requires forall f :: f in d.fields && f !in NonScenarioFields ==> f in d.attrs
    ensures CreateScenario(d, name, kvs).state.scenarios[DefaultScenario] == FieldValues(d, d.fields)
  {
    var d0 := d.(scenarios := map[DefaultScenario := map[]]);
    assert d0.scenarios[DefaultScenario] == FieldValues(d0, []);
    SnapshotFills(d0, d.fields, []);
    assert [] + d.fields == d.fields;
    FieldValuesSameAttrs(d, d0, d.fields);
  }

  /** After a successful create_scenario(name, kwargs) and a switch to
      `name`, a read returns the kwargs value for the names given and the
      object's own value for every other attribute. */
  lemma SwitchedReads(d: DataObject, name: string, kvs: seq<(string, Value)>, item: string)
    requires CreateScenario(d, name, kvs).Done? && AllAttributes(d, kvs)
    requires item !in NonScenarioFields
    ensures var e := SetActive(CreateScenario(d, name, kvs).state, name);
      Read(e, item) == if item in KwargsMap(kvs) then Some(KwargsMap(kvs)[item]) else BaseRead(d, item)
  {
    CreateScenarioReplaces(d, name, kvs);
    var e := SetActive(CreateScenario(d, name, kvs).state, name);
    assert ActiveValues(e) == KwargsMap(kvs);
    BaseReadOwn(e, item);
    BaseReadOwn(d, item);
  }

  /** A name scenarios cover reads, bypassing scenarios, as the object's own
      attribute. */
  lemma BaseReadOwn(d: DataObject, item: string)
    requires item !in NonScenarioFields
    ensures BaseRead(d, item) == if item in d.attrs then Some(d.attrs[item]) else None
  {
    assert item != NonScenarioFields[0] && item != NonScenarioFields[1];
    assert item != NonScenarioFields[2] && item != NonScenarioFields[3];
  }

  /** The bus example: fields `ayakta` and `oturan` both 10 by default. */
  predicate IsBus(d: DataObject) {
    d.fields == ["id", "class_name", "active_scenario", "scenarios", "ayakta", "oturan"]
    && d.attrs == map["ayakta" := VNum(Fin(10.0)), "oturan" := VNum(Fin(10.0))]
  }

  function Both(x: real): seq<(string, Value)> {
    [("ayakta", VNum(Fin(x))), ("oturan", VNum(Fin(x)))]
  }

  lemma BothMap(x: real)
    ensures KwargsMap(Both(x)) == map["ayakta" := VNum(Fin(x)), "oturan" := VNum(Fin(x))]
  {
    assert |"ayakta"| == |"oturan"| == 6;
    assert "ayakta" !in NonScenarioFields && "oturan" !in NonScenarioFields;
    var b := Both(x);
    assert b[..1] == [("ayakta", VNum(Fin(x)))];
    assert b[..1][..0] == [];
    assert KwargsMap(b[..1][..0]) == map[];
    assert KwargsMap(b[..1]) == map["ayakta" := VNum(Fin(x))];
  }

  /** A kwargs name that only the class supplies, such as the method
      `create_scenario`, passes `hasattr` and is stored as an override. */
  lemma ClassAttributeOverride(d: DataObject, name: string, v: Value)
    requires DefaultScenario in d.scenarios
    ensures CreateScenario(d, name, [("create_scenario", v)]).Done?
    ensures CreateScenario(d, name, [("create_scenario", v)]).state.scenarios[name] == map["create_scenario" := v]
  {
    assert "create_scenario" !in NonScenarioFields by {
      assert "create_scenario"[0] != NonScenarioFields[0][0] && "create_scenario"[0] != NonScenarioFields[1][0];
      assert "create_scenario"[0] != NonScenarioFields[2][0] && |"create_scenario"| != |NonScenarioFields[3]|;
    }
    var kvs := [("create_scenario", v)];
    var s := d.(scenarios := d.scenarios[name := map[]]);
    assert HasAttr(s, "create_scenario");
    assert kvs[1..] == [];
    var e := Put(s, name, "create_scenario", v);
    assert AddOverrides(e, name, kvs[1..]) == Done(e);
    assert AddOverrides(s, name, kvs) == Done(e);
  }

  /** Fields that are all attributes and kwargs that name attributes:
      create_scenario does not raise. */
  lemma CreateScenarioSucceeds(d: DataObject, name: string, kvs: seq<(string, Value)>)
    requires forall f :: f in d.fields && f !in NonScenarioFields ==> f in d.attrs
    requires AllAttributes(d, kvs)
    ensures CreateScenario(d, name, kvs).Done?
  {
    if DefaultScenario !in d.scenarios {
      var d0 := d.(scenarios := d.scenarios[DefaultScenario := map[]]);
      if d.scenarios == map[] {
        assert d0.scenarios[DefaultScenario] == FieldValues(d0, []);
        SnapshotFills(d0, d.fields, []);
      } else {
        SnapshotSucceeds(d0, d.fields);
      }
    }
    var first :=
      if DefaultScenario !in d.scenarios then
        Snapshot(d.(scenarios := d.scenarios[DefaultScenario := map[]]), d.fields)
      else Done(d);
    var s := first.state;
    AddOverridesStores(s.(scenarios := s.scenarios[name := map[]]), name, kvs, []);
  }

  /** Reading a field that is an attribute never fails, so the snapshot
      loop does not raise. */
  lemma {:induction false} SnapshotSucceeds(d: DataObject, fs: seq<string>)
    requires DefaultScenario in d.scenarios
    requires forall f :: f in fs && f !in NonScenarioFields ==> f in d.attrs
    ensures Snapshot(d, fs).Done?
    decreases |fs|
  {
    if |fs| > 0 {
      if fs[0] in NonScenarioFields {
        SnapshotSucceeds(d, fs[1..]);
      } else {
        assert HasAttr(d, fs[0]);
        var v := Read(d, fs[0]).value;
        SnapshotSucceeds(Put(d, DefaultScenario, fs[0], v), fs[1..]);
      }
    }
  }

  /** Creating "TestScenario" with 20 and switching to it reads 20. */
  lemma BusFirstScenario(d: DataObject)
    requires IsBus(d) && d.scenarios == map[]
    ensures Read(d, "ayakta") == Some(VNum(Fin(10.0)))
    ensures CreateScenario(d, "TestScenario", Both(20.0)).Done?
    ensures var e := CreateScenario(d, "TestScenario", Both(20.0)).state;
      IsBus(e) && Read(SetActive(e, "TestScenario"), "ayakta") == Some(VNum(Fin(20.0)))
  {
    BothMap(20.0);
    assert AllAttributes(d, Both(20.0));
    BusFieldsAreAttributes(d);
    CreateScenarioSucceeds(d, "TestScenario", Both(20.0));
    SwitchedReads(d, "TestScenario", Both(20.0), "ayakta");
  }

  /** Every field of a bus that scenarios cover is one of its attributes. */
  lemma BusFieldsAreAttributes(d: DataObject)
    requires IsBus(d)
    ensures forall f :: f in d.fields && f !in NonScenarioFields ==> f in d.attrs
  {
    forall f | f in d.fields && f !in NonScenarioFields ensures f in d.attrs {
      var i :| 0 <= i < |d.fields| && d.fields[i] == f;
      assert i >= 4 by {
        assert NonScenarioFields[2] == d.fields[0] && NonScenarioFields[3] == d.fields[1];
        assert NonScenarioFields[0] == d.fields[2] && NonScenarioFields[1] == d.fields[3];
      }
    }
  }

  /** The first scenario created on a bus fills "Default" with the value 10. */
  lemma BusDefaultSnapshot(d: DataObject, name: string, kvs: seq<(string, Value)>)
    requires IsBus(d) && d.scenarios == map[] && name != DefaultScenario
    ensures var m := CreateScenario(d, name, kvs).state.scenarios[DefaultScenario];
      "ayakta" in m && m["ayakta"] == VNum(Fin(10.0))
  {
    BusFieldsAreAttributes(d);
    FirstScenarioSnapshots(d, name, kvs);
    assert d.fields[4] == "ayakta";
    FieldValuesHas(d, d.fields, "ayakta");
  }

  /** Then creating "TestScenario2" with 30 and switching to it reads 30,
      and "Default" is left alone. */
  lemma BusSecondScenario(d: DataObject)
    requires IsBus(d) && DefaultScenario in d.scenarios
    ensures CreateScenario(d, "TestScenario2", Both(30.0)).Done?
    ensures var e := CreateScenario(d, "TestScenario2", Both(30.0)).state;
      Read(SetActive(e, "TestScenario2"), "oturan") == Some(VNum(Fin(30.0)))
      && e.scenarios[DefaultScenario] == d.scenarios[DefaultScenario]
  {
    BothMap(30.0);
    assert AllAttributes(d, Both(30.0));
    BusFieldsAreAttributes(d);
    CreateScenarioSucceeds(d, "TestScenario2", Both(30.0));
    SwitchedReads(d, "TestScenario2", Both(30.0), "oturan");
    DefaultNotResnapshotted(d, "TestScenario2", Both(30.0));
  }
}

=== FILE: expression.dfy ===
/** OXpression: a linear combination of variables, held as parallel lists of
    variable ids and weights, and the integer form that the integer back-ends
    consume (a common denominator D and integer numerators). */
module Expressions {
  import opened Base
  import opened Numbers

  /** Weights are exact rationals with positive denominators; the conversion
      of float weights to fractions is not part of this model. */
  datatype Expression = Expression(variables: seq<Uuid>, weights: seq<Frac>) {
    /** `number_of_variables`: the number of variable ids, whatever the
        number of weights. */
    function NumberOfVariables(): nat {
      |variables|
    }
  }

  function Min(a: int, b: int): int {
    if a <= b then a else b
  }

  /** `iter(zip(variables, weights))`: pairs up to the shorter list. */
  function Pairs(e: Expression): (ps: seq<(Uuid, Frac)>)
    ensures |ps| == Min(e.NumberOfVariables(), |e.weights|)
    ensures forall i :: 0 <= i < |ps| ==> ps[i] == (e.variables[i], e.weights[i])
  {
    seq(Min(|e.variables|, |e.weights|), i requires 0 <= i < Min(|e.variables|, |e.weights|) =>
      (e.variables[i], e.weights[i]))
  }

  /** Unzipping the pairs gives back both lists cut to the shorter length:
      surplus ids or weights are dropped, nothing else. */
  lemma PairsUnzip(e: Expression)
    ensures var ps := Pairs(e); var m := |ps|;
      seq(m, i requires 0 <= i < m => ps[i].0) == e.variables[..m]
      && seq(m, i requires 0 <= i < m => ps[i].1) == e.weights[..m]
      && (m == |e.variables| || m == |e.weights|)
  {
  }

  predicate AllValid(ws: seq<Frac>) {
    forall i :: 0 <= i < |ws| ==> ws[i].Valid()
  }

  /** `Fraction(w)` for every weight: each in lowest terms. */
  function Fractions(ws: seq<Frac>): (fs: seq<Frac>)
    requires AllValid(ws)
    ensures |fs| == |ws|
    ensures forall i :: 0 <= i < |ws| ==> fs[i] == Reduce(ws[i].num, ws[i].den)
  {
    seq(|ws|, i requires 0 <= i < |ws| && AllValid(ws) => Reduce(ws[i].num, ws[i].den))
  }

  function Denominators(fs: seq<Frac>): (ds: seq<int>)
    ensures |ds| == |fs| && forall i :: 0 <= i < |fs| ==> ds[i] == fs[i].den
  {
    seq(|fs|, i requires 0 <= i < |fs| => fs[i].den)
  }

  /** A common multiple of a weight's reduced denominator scales the weight's
      reduced numerator to weight * D. */
  lemma ScaleNumerator(w: Frac, f: Frac, D: int)
    requires w.Valid() && f == Reduce(w.num, w.den) && Divides(f.den, D)
    ensures f.num * FloorDiv(D, f.den) * w.den == w.num * D
  {
    DividesWitness(f.den, D);
    var k := D / f.den;
    assert f.num * w.den == w.num * f.den;
    assert f.num * k * w.den == (f.num * w.den) * k;
    assert w.num * f.den * k == w.num * (f.den * k);
  }

  lemma ScaleAll(ws: seq<Frac>, D: int)
    requires AllValid(ws) && DividesAll(D, Denominators(Fractions(ws)))
    ensures forall i :: 0 <= i < |ws| ==>
      Fractions(ws)[i].num * FloorDiv(D, Fractions(ws)[i].den) * ws[i].den == ws[i].num * D
  {
    var fs := Fractions(ws);
    forall i | 0 <= i < |ws|
      ensures fs[i].num * FloorDiv(D, fs[i].den) * ws[i].den == ws[i].num * D
    {
      assert Denominators(fs)[i] == fs[i].den;
      ScaleNumerator(ws[i], fs[i], D);
    }
  }

  /** `get_integer_numerator_and_denominators(ws)`: the pair (D, ns) where D
      is the least common multiple of the reduced denominators (`math.lcm`)
      and ns[i] is the reduced numerator times D // denominator, so that
      ns[i] == ws[i] * D. */
  function IntegerForm(ws: seq<Frac>): (r: (int, seq<int>))
    requires AllValid(ws)
    ensures r.0 > 0 && |r.1| == |ws|
    ensures forall i :: 0 <= i < |ws| ==> r.1[i] * ws[i].den == ws[i].num * r.0
    ensures DividesAll(r.0, Denominators(Fractions(ws)))
    ensures forall j :: 0 < j < r.0 ==> !DividesAll(j, Denominators(Fractions(ws)))
  {
    var fs := Fractions(ws);
    var dens := Denominators(fs);
    assert AllPositive(dens) by {
      forall i | 0 <= i < |dens| ensures dens[i] > 0 { assert fs[i].Normal(); }
    }
    var common := Lcm(dens);
    var factors := seq(|dens|, i requires 0 <= i < |dens| => FloorDiv(common, dens[i]));
    var ns := seq(|ws|, i requires 0 <= i < |ws| => fs[i].num * factors[i]);
    ScaleAll(ws, common);
    (common, ns)
  }

  /** `integer_denominator` and `integer_weights`: the two halves of one call. */
  function IntegerDenominator(e: Expression): int
    requires AllValid(e.weights)
  {
    IntegerForm(e.weights).0
  }

  function IntegerWeights(e: Expression): seq<int>
    requires AllValid(e.weights)
  {
    IntegerForm(e.weights).1
  }

  /** An empty weight list gives (1, []): `math.lcm()` is 1. */
  lemma EmptyIntegerForm()
    ensures IntegerForm([]) == (1, [])
  {
    var r := IntegerForm([]);
    assert DividesAll(1, Denominators(Fractions([])));
  }

  /** Integer weights are their own integer form, with denominator 1. */
  lemma IntegralIntegerForm(ws: seq<Frac>)
    requires forall i :: 0 <= i < |ws| ==> ws[i].den == 1
    ensures AllValid(ws)
    ensures IntegerForm(ws).0 == 1
    ensures forall i :: 0 <= i < |ws| ==> IntegerForm(ws).1[i] == ws[i].num
  {
    var fs := Fractions(ws);
    assert DividesAll(1, Denominators(fs)) by {
      forall i | 0 <= i < |ws| ensures Divides(Denominators(fs)[i], 1) {
        assert Denominators(fs)[i] == fs[i].den;
        assert fs[i].Normal();
        DividesLe(fs[i].den, ws[i].den);
      }
    }
  }

  /** A unit fraction is its own Fraction. */
  lemma UnitFraction(d: int)
    requires d > 0
    ensures Reduce(1, d) == Frac(1, d)
  {
    assert Frac(1, d).Normal() by {
      forall k | k > 1 ensures !(Divides(k, 1) && Divides(k, d)) {
        if Divides(k, 1) {
          DividesLe(k, 1);
        }
      }
    }
    NormalOfMultiple(Frac(1, d), 1);
  }

  /** The least common multiple of 2, 3 and 4 is 12. */
  lemma LcmExample()
    ensures Lcm([2, 3, 4]) == 12
  {
    var ds := [2, 3, 4];
    var m := Lcm(ds);
    assert DividesAll(12, ds) by {
      DividesIntro(2, 6);
      DividesIntro(3, 4);
      DividesIntro(4, 3);
    }
    assert m <= 12;
    assert Divides(ds[1], m) && Divides(ds[2], m);
    DividesWitness(4, m);
    DividesWitness(3, m);
    var a := m / 4;
    assert 0 < a <= 3;
  }

  lemma ThirdsReduced()
    ensures Denominators(Fractions([Frac(1, 2), Frac(1, 3), Frac(1, 4)])) == [2, 3, 4]
  {
    UnitFraction(2);
    UnitFraction(3);
    UnitFraction(4);
    assert Fractions([Frac(1, 2), Frac(1, 3), Frac(1, 4)]) == [Frac(1, 2), Frac(1, 3), Frac(1, 4)];
  }

  /** The weights 1/2, 1/3 and 1/4 scaled by 12. */
  lemma ThirdsNumerators(ws: seq<Frac>, r: (int, seq<int>))
    requires ws == [Frac(1, 2), Frac(1, 3), Frac(1, 4)]
    requires r.0 == 12 && |r.1| == |ws|
    requires forall i :: 0 <= i < |ws| ==> r.1[i] * ws[i].den == ws[i].num * r.0
    ensures r == (12, [6, 4, 3])
  {
    assert r.1[0] * 2 == 12 && r.1[1] * 3 == 12 && r.1[2] * 4 == 12;
    assert r.1 == [r.1[0], r.1[1], r.1[2]];
  }

  /** [1/2, 1/3, 1/4] has integer form (12, [6, 4, 3]). */
  lemma ThirdsExample()
    ensures IntegerForm([Frac(1, 2), Frac(1, 3), Frac(1, 4)]) == (12, [6, 4, 3])
  {
    var ws := [Frac(1, 2), Frac(1, 3), Frac(1, 4)];
    ThirdsReduced();
    LcmExample();
    ThirdsNumerators(ws, IntegerForm(ws));
  }
}

=== FILE: fraction.dfy ===
/** `calculate_fraction`: the Stern-Brocot (mediant) search that turns a
    number into a Fraction. The number is given exactly as p / q and the loop
    stops on exact equality, where the library stops once `math.isclose`
    holds. */
module Fractions {
  import opened Numbers

  /** a/b and c/d are Farey neighbours with a/b the larger: a*d - c*b == 1. */
  predicate Neighbours(a: int, b: int, c: int, d: int) {
    a * d - c * b == 1
  }

  /** If n/d has a Farey neighbour u/w above it and equals p/q, then p/q
      reduces to n/d. */
  lemma NeighbourReduces(n: int, d: int, u: int, w: int, p: int, q: int)
    requires d > 0 && q > 0
    requires Neighbours(u, w, n, d)
    requires n * q == p * d
    ensures Frac(n, d).Normal()
    ensures Reduce(p, q) == Frac(n, d)
  {
    BezoutCoprime(n, d, -w, u);
    var t := q * u - p * w;
    assert d * t == q * (u * d - n * w) by {
      assert d * t == d * q * u - d * p * w;
      assert d * p * w == n * q * w;
    }
    assert n * t == p * (u * d - n * w) by {
      assert n * t == n * q * u - n * p * w;
      assert n * q * u == p * d * u;
    }
    assert d * t == q && n * t == p;
    MulPosFactor(d, t);
    NormalOfMultiple(Frac(n, d), t);
  }

  /** lb = ln/ld and ub = un/ud are Farey neighbours that strictly bracket p/q. */
  predicate Bracket(p: int, q: int, un: int, ud: int, ln: int, ld: int) {
    q > 0 && ud > 0 && ld > 0 && Neighbours(un, ud, ln, ld)
    && ln * q < p * ld && p * ud < un * q
  }

  /** How far the bracket is from p/q, scaled to integers; each step shrinks it. */
  function Gap(p: int, q: int, un: int, ud: int, ln: int, ld: int): int {
    (un * q - ud * p) + (p * ld - q * ln)
  }

  /** The mediant of a bracket is a Farey neighbour of both ends. */
  lemma MediantNeighbours(un: int, ud: int, ln: int, ld: int)
    requires Neighbours(un, ud, ln, ld)
    ensures Neighbours(un, ud, un + ln, ud + ld)
    ensures Neighbours(un + ln, ud + ld, ln, ld)
  {
    assert un * (ud + ld) - (un + ln) * ud == un * ld - ln * ud;
    assert (un + ln) * ld - ln * (ud + ld) == un * ld - ln * ud;
  }

  /** Replacing lb by a mediant below p/q keeps a bracket and shrinks the gap. */
  lemma RaiseLower(p: int, q: int, un: int, ud: int, ln: int, ld: int)
    requires Bracket(p, q, un, ud, ln, ld)
    requires (un + ln) * q < p * (ud + ld)
    ensures Bracket(p, q, un, ud, un + ln, ud + ld)
    ensures 0 <= Gap(p, q, un, ud, un + ln, ud + ld) < Gap(p, q, un, ud, ln, ld)
  {
    MediantNeighbours(un, ud, ln, ld);
    assert (un + ln) * q == un * q + ln * q && p * (ud + ld) == p * ud + p * ld;
  }

  /** Replacing ub by a mediant above p/q keeps a bracket and shrinks the gap. */
  lemma LowerUpper(p: int, q: int, un: int, ud: int, ln: int, ld: int)
    requires Bracket(p, q, un, ud, ln, ld)
    requires p * (ud + ld) < (un + ln) * q
    ensures Bracket(p, q, un + ln, ud + ld, ln, ld)
    ensures 0 <= Gap(p, q, un + ln, ud + ld, ln, ld) < Gap(p, q, un, ud, ln, ld)
  {
    MediantNeighbours(un, ud, ln, ld);
    assert (un + ln) * q == un * q + ln * q && p * (ud + ld) == p * ud + p * ld;
  }

  lemma IntegralValue(p: int, q: int)
    requires q > 0 && p % q == 0
    ensures Reduce(p, q) == Frac(p / q, 1)
  {
    assert p / q * q == p;
    NeighbourReduces(p / q, 1, p / q + 1, 1, p, q);
  }

  /** floor(p/q) and floor(p/q) + 1 bracket a non-integral p/q. */
  lemma InitialBracket(p: int, q: int)
    requires q > 0 && p % q != 0
    ensures Bracket(p, q, p / q + 1, 1, p / q, 1)
  {
    var lo := p / q;
    assert p == lo * q + p % q;
    assert (lo + 1) * q == lo * q + q;
  }

  /** Python's `calculate_fraction(p / q)`: returns Fraction(p, q), found by
      narrowing the interval [floor, ceil] with mediants. */
  method CalculateFraction(p: int, q: int) returns (f: Frac)
    requires q > 0
    ensures f.Normal()
    ensures SameValue(f, Frac(p, q))
    ensures f == Reduce(p, q)
    ensures p % q == 0 ==> f == Frac(p / q, 1)
  {
    if p % q == 0 {
      // ceil(v) == floor(v): no search.
      IntegralValue(p, q);
      return Frac(p / q, 1);
    }
    var lo := p / q;  // floor, as q > 0
    InitialBracket(p, q);
    var un, ud, ln, ld := lo + 1, 1, lo, 1;
    MediantNeighbours(un, ud, ln, ld);
    // Fraction(n, d) normalises, but a mediant of neighbours is already in lowest terms.
    NeighbourReduces(un + ln, ud + ld, un, ud, un + ln, ud + ld);
    f := Reduce(un + ln, ud + ld);
    while !SameValue(f, Frac(p, q))
      invariant Bracket(p, q, un, ud, ln, ld)
      invariant f == Frac(un + ln, ud + ld)
      decreases Gap(p, q, un, ud, ln, ld)
    {
      if Less(f, Frac(p, q)) {
        RaiseLower(p, q, un, ud, ln, ld);
        ln, ld := un + ln, ud + ld;
      } else {
        LowerUpper(p, q, un, ud, ln, ld);
        un, ud := un + ln, ud + ld;
      }
      MediantNeighbours(un, ud, ln, ld);
      NeighbourReduces(un + ln, ud + ld, un, ud, un + ln, ud + ld);
      f := Reduce(un + ln, ud + ld);
    }
    MediantNeighbours(un, ud, ln, ld);
    NeighbourReduces(un + ln, ud + ld, un, ud, p, q);
  }
}

=== FILE: numbers.dfy ===
/** The numbers OptiX computes with: extended reals for variable bounds (Python
    floats that may be +-inf), exact rationals for coefficients (Python's
    `fractions.Fraction`), and Python's flooring integer division. Python's
    float `nan`, produced by `0 * inf` or `inf + -inf`, is modelled as the
    absence of a result. */
module Numbers {
  import opened Base

  // ---------------------------------------------------------------------------
  // Extended reals
  // ---------------------------------------------------------------------------

  datatype Ext = Fin(r: real) | PosInf | NegInf

  /** Python's `<=` on non-nan floats. */
  predicate Le(a: Ext, b: Ext) {
    match (a, b)
    case (NegInf, _) => true
    case (_, PosInf) => true
    case (Fin(x), Fin(y)) => x <= y
    case _ => false
  }

  predicate Lt(a: Ext, b: Ext) {
    Le(a, b) && a != b
  }

  function ExtMin(a: Ext, b: Ext): (r: Ext)
    ensures Le(r, a) && Le(r, b) && (r == a || r == b)
  {
    if Le(a, b) then a else b
  }

  function ExtMax(a: Ext, b: Ext): (r: Ext)
    ensures Le(a, r) && Le(b, r) && (r == a || r == b)
  {
    if Le(a, b) then b else a
  }

  /** Float addition; `inf + -inf` is nan. */
  function ExtAdd(a: Ext, b: Ext): (r: Option<Ext>)
    ensures r == None <==> (a == PosInf && b == NegInf) || (a == NegInf && b == PosInf)
    ensures a.Fin? && b.Fin? ==> r == Some(Fin(a.r + b.r))
  {
    match (a, b)
    case (Fin(x), Fin(y)) => Some(Fin(x + y))
    case (PosInf, NegInf) => None
    case (NegInf, PosInf) => None
    case (PosInf, _) => Some(PosInf)
    case (NegInf, _) => Some(NegInf)
    case (_, PosInf) => Some(PosInf)
    case (_, NegInf) => Some(NegInf)
  }

  function Sign(a: Ext): int {
    match a
    case PosInf => 1
    case NegInf => -1
    case Fin(x) => if x > 0.0 then 1 else if x < 0.0 then -1 else 0
  }

  /** Float multiplication; `0 * inf` is nan. */
  function ExtMul(a: Ext, b: Ext): (r: Option<Ext>)
    ensures r == None <==> (a == Fin(0.0) && !b.Fin?) || (b == Fin(0.0) && !a.Fin?)
    ensures a.Fin? && b.Fin? ==> r == Some(Fin(a.r * b.r))
  {
    if a.Fin? && b.Fin? then Some(Fin(a.r * b.r))
    else if Sign(a) == 0 || Sign(b) == 0 then None
    else if Sign(a) * Sign(b) > 0 then Some(PosInf)
    else Some(NegInf)
  }

  /** Python's true division `a / d` of a float by an int. */
  function ExtDivInt(a: Ext, d: int): (r: Result<Ext>)
    ensures d == 0 <==> r == Failure(ZeroDivisionError)
    ensures d != 0 && a.Fin? ==> r == Success(Fin(a.r / d as real))
    ensures d > 0 && !a.Fin? ==> r == Success(a)
  {
    if d == 0 then Failure(ZeroDivisionError)
    else match a
      case Fin(x) => Success(Fin(x / d as real))
      case PosInf => Success(if d > 0 then PosInf else NegInf)
      case NegInf => Success(if d > 0 then NegInf else PosInf)
  }

  // ---------------------------------------------------------------------------
  // Python integer division
  // ---------------------------------------------------------------------------

  /** Python's `a // d`: the quotient rounded towards minus infinity. Dafny's
      own `/` is Euclidean, which agrees only for positive divisors. */
  function FloorDiv(a: int, d: int): int
    requires d != 0
  {
    if d > 0 then a / d else (-a) / (-d)
  }

  /** Python's `a % d`: the remainder takes the sign of the divisor. */
  function FloorMod(a: int, d: int): (r: int)
    requires d != 0
    ensures d > 0 ==> 0 <= r < d
    ensures d < 0 ==> d < r <= 0
    ensures a == d * FloorDiv(a, d) + r
  {
    if d > 0 then a % d
    else
      var q := (-a) / (-d);
      assert -a == (-d) * q + (-a) % (-d);
      a - d * q
  }

  /** FloorDiv is the floor of the exact quotient. */
  lemma FloorDivIsFloor(a: int, d: int)
    requires d != 0
    ensures var q := FloorDiv(a, d);
      (a as real) / (d as real) - 1.0 < q as real <= (a as real) / (d as real)
  {
    var q := FloorDiv(a, d);
    var r := FloorMod(a, d);
    assert (a as real) == (d as real) * (q as real) + (r as real);
    QuotientSplit(a as real, d as real, q as real, r as real);
    RatioInUnit(r as real, d as real);
  }

  /** a = d * q + r gives a / d = q + r / d. */
  lemma QuotientSplit(a: real, d: real, q: real, r: real)
    requires d != 0.0 && a == d * q + r
    ensures a / d == q + r / d
  {
    assert (q + r / d) * d == q * d + (r / d) * d;
    assert (r / d) * d == r;
  }

  /** A remainder with the sign of the divisor and smaller in magnitude is a
      fraction in [0, 1) of it. */
  lemma RatioInUnit(r: real, d: real)
    requires (0.0 < d && 0.0 <= r < d) || (d < 0.0 && d < r <= 0.0)
    ensures 0.0 <= r / d < 1.0
  {
    var f := r / d;
    assert f * d == r;
    if d > 0.0 {
      assert f >= 1.0 ==> f * d >= d;
      assert f < 0.0 ==> f * d < 0.0;
    } else {
      assert f >= 1.0 ==> f * d <= d;
      assert f < 0.0 ==> f * d > 0.0;
    }
  }

  // ---------------------------------------------------------------------------
  // Divisibility, gcd, lowest terms
  // ---------------------------------------------------------------------------

  lemma MulGe(a: int, b: int)
    requires a > 0 && b >= 1
    ensures a * b >= a
  {
  }

  lemma MulGt(a: int, b: int)
    requires a > 0 && b > 1
    ensures b * a > a
  {
  }

  lemma MulPosFactor(a: int, b: int)
    requires a > 0 && a * b > 0
    ensures b > 0
  {
  }

  /** Euclidean division is unique. */
  lemma DivUnique(a: int, k: int, q: int, r: int)
    requires k > 0 && a == k * q + r && 0 <= r < k
    ensures a / k == q && a % k == r
  {
    var q', r' := a / k, a % k;
    assert k * (q - q') == r' - r;
    if q - q' >= 1 {
      MulGe(k, q - q');
    } else if q' - q >= 1 {
      MulGe(k, q' - q);
    }
  }

  /** k is a positive divisor of n. */
  predicate Divides(k: int, n: int) {
    k > 0 && n % k == 0
  }

  lemma DividesIntro(k: int, m: int)
    requires k > 0
    ensures Divides(k, k * m) && (k * m) / k == m
  {
    DivUnique(k * m, k, m, 0);
  }

  lemma DividesWitness(k: int, n: int)
    requires Divides(k, n)
    ensures n == k * (n / k)
  {
  }

  lemma DividesLinear(k: int, a: int, b: int, x: int, y: int)
    requires Divides(k, a) && Divides(k, b)
    ensures Divides(k, a * x + b * y)
  {
    var p := a / k;
    var q := b / k;
    DividesWitness(k, a);
    DividesWitness(k, b);
    assert a * x == k * (p * x);
    assert b * y == k * (q * y);
    assert a * x + b * y == k * (p * x + q * y);
    DividesIntro(k, p * x + q * y);
  }

  lemma DividesLe(k: int, n: int)
    requires Divides(k, n) && n > 0
    ensures k <= n
  {
    DividesWitness(k, n);
    MulPosFactor(k, n / k);
    MulGe(k, n / k);
  }

  /** Euclid's algorithm on naturals. */
  function Gcd(a: nat, b: nat): nat
    decreases b
  {
    if b == 0 then a else Gcd(b, a % b)
  }

  /** Gcd is a common divisor, and every common divisor divides it. */
  lemma {:induction false} GcdProperties(a: nat, b: nat)
    requires a > 0 || b > 0
    ensures Gcd(a, b) > 0
    ensures Divides(Gcd(a, b), a) && Divides(Gcd(a, b), b)
    ensures forall k :: Divides(k, a) && Divides(k, b) ==> Divides(k, Gcd(a, b))
    decreases b
  {
    if b == 0 {
      DividesIntro(a, 1);
      DividesIntro(a, 0);
    } else {
      var q, r := a / b, a % b;
      GcdProperties(b, r);
      var g := Gcd(b, r);
      assert g == Gcd(a, b);
      assert b * q + r * 1 == a;
      DividesLinear(g, b, r, q, 1);
      forall k | Divides(k, a) && Divides(k, b) ensures Divides(k, g) {
        assert a * 1 + b * (-q) == r;
        DividesLinear(k, a, b, 1, -q);
      }
    }
  }

  /** No common divisor above one. */
  ghost predicate Coprime(a: int, b: int) {
    forall k :: k > 1 ==> !(Divides(k, a) && Divides(k, b))
  }

  function Abs(n: int): nat {
    if n < 0 then -n else n
  }

  lemma DividesAbs(k: int, n: int)
    ensures Divides(k, n) <==> Divides(k, Abs(n))
  {
    if k > 0 && n < 0 {
      if Divides(k, n) { DividesLinear(k, n, 0, -1, 0); }
      if Divides(k, -n) { DividesLinear(k, -n, 0, -1, 0); }
    }
  }

  /** An exact rational number `num / den`, as Python's Fraction holds it. */
  datatype Frac = Frac(num: int, den: int) {
    predicate Valid() { den > 0 }

    /** In lowest terms with a positive denominator: Fraction's normal form. */
    ghost predicate Normal() { den > 0 && Coprime(num, den) }

    function Value(): real
      requires Valid()
    {
      num as real / den as real
    }
  }

  /** Two fractions denote the same number. */
  predicate SameValue(a: Frac, b: Frac) {
    a.num * b.den == b.num * a.den
  }

  /** a < b, for positive denominators. */
  predicate Less(a: Frac, b: Frac) {
    a.num * b.den < b.num * a.den
  }

  lemma SameValueReal(a: Frac, b: Frac)
    requires a.Valid() && b.Valid()
    ensures SameValue(a, b) <==> a.Value() == b.Value()
  {
    var x, y := a.den as real, b.den as real;
    assert a.Value() * x == a.num as real;
    assert b.Value() * y == b.num as real;
    assert (a.num * b.den) as real == a.Value() * x * y;
    assert (b.num * a.den) as real == b.Value() * x * y;
  }

  /** Python's `Fraction(num, den)` for a positive denominator: the same
      number with numerator and denominator divided by their gcd. */
  function Reduce(num: int, den: int): (f: Frac)
    requires den > 0
    ensures f.Normal()
    ensures SameValue(f, Frac(num, den))
  {
    var g := Gcd(Abs(num), den);
    ReduceParts(num, den);
    Frac(num / g, den / g)
  }

  /** Dividing both parts by their gcd leaves a positive denominator, coprime
      parts and the same cross products. */
  lemma ReduceParts(num: int, den: int)
    requires den > 0
    ensures var g := Gcd(Abs(num), den);
      g > 0 && den / g > 0 && Coprime(num / g, den / g) && (num / g) * den == num * (den / g)
  {
    GcdProperties(Abs(num), den);
    var g := Gcd(Abs(num), den);
    DividesAbs(g, num);
    DividesWitness(g, den);
    MulPosFactor(g, den / g);
    ReduceCoprime(num, den, g);
    CrossQuotients(num, den, g);
  }

  lemma CrossQuotients(num: int, den: int, g: int)
    requires g > 0 && Divides(g, num) && Divides(g, den)
    ensures (num / g) * den == num * (den / g)
  {
    DividesWitness(g, num);
    DividesWitness(g, den);
    var q, r := num / g, den / g;
    assert q * den == q * (g * r);
    assert num * r == (g * q) * r;
    assert q * (g * r) == (g * q) * r;
  }

  lemma ReduceCoprime(num: int, den: int, g: int)
    requires den > 0 && g > 0
    requires Divides(g, num) && Divides(g, den)
    requires forall k :: Divides(k, Abs(num)) && Divides(k, den) ==> Divides(k, g)
    ensures Coprime(num / g, den / g)
  {
    forall k | k > 1 ensures !(Divides(k, num / g) && Divides(k, den / g)) {
      if Divides(k, num / g) && Divides(k, den / g) {
        CommonFactor(num, g, k);
        CommonFactor(den, g, k);
        DividesAbs(k * g, num);
        assert Divides(k * g, g);
        MulGt(g, k);
        DividesLe(k * g, g);
      }
    }
  }

  /** A divisor of n / g, multiplied by g, divides n. */
  lemma CommonFactor(n: int, g: int, k: int)
    requires Divides(g, n) && Divides(k, n / g)
    ensures Divides(k * g, n)
  {
    DividesWitness(g, n);
    DividesWitness(k, n / g);
    var m := (n / g) / k;
    assert n == g * (k * m);
    assert n == (k * g) * m;
    DividesIntro(k * g, m);
  }

  /** A fraction with integer Bezout coefficients is in lowest terms. */
  lemma BezoutCoprime(a: int, b: int, x: int, y: int)
    requires a * x + b * y == 1
    ensures Coprime(a, b)
  {
    forall k | k > 1 ensures !(Divides(k, a) && Divides(k, b)) {
      if Divides(k, a) && Divides(k, b) {
        DividesLinear(k, a, b, x, y);
        DividesLe(k, 1);
      }
    }
  }

  /** Scaling a fraction in lowest terms by t and reducing gives it back. */
  lemma NormalOfMultiple(f: Frac, t: int)
    requires f.Normal() && t > 0
    ensures Reduce(f.num * t, f.den * t) == f
  {
    var p, q := f.num * t, f.den * t;
    assert q == t * f.den;
    assert p == t * f.num;
    GcdProperties(Abs(p), q);
    var g := Gcd(Abs(p), q);
    DividesIntro(t, f.num);
    DividesIntro(t, f.den);
    DividesAbs(t, p);
    assert Divides(t, g);
    DividesAbs(g, p);
    var s := g / t;
    DividesWitness(t, g);
    MulPosFactor(t, s);
    // s divides both f.num and f.den, so s == 1.
    CancelFactor(f.den, t, s, g);
    CancelFactor(f.num, t, s, g);
    assert g == t;
    DividesIntro(t, f.num);
    DividesIntro(t, f.den);
  }

  /** If t * s divides t * x then s divides x. */
  lemma CancelFactor(x: int, t: int, s: int, g: int)
    requires t > 0 && s > 0 && g == t * s && Divides(g, t * x)
    ensures Divides(s, x)
  {
    DividesWitness(g, t * x);
    var m := (t * x) / g;
    assert t * x == t * (s * m);
    assert x == s * m;
    DividesIntro(s, m);
  }

  // ---------------------------------------------------------------------------
  // Least common multiple
  // ---------------------------------------------------------------------------

  predicate DividesAll(m: int, ds: seq<int>) {
    forall i :: 0 <= i < |ds| ==> Divides(ds[i], m)
  }

  predicate AllPositive(ds: seq<int>) {
    forall i :: 0 <= i < |ds| ==> ds[i] > 0
  }

  function Product(ds: seq<int>): int {
    if |ds| == 0 then 1 else ds[0] * Product(ds[1..])
  }

  lemma {:induction false} ProductIsCommonMultiple(ds: seq<int>)
    requires AllPositive(ds)
    ensures Product(ds) > 0 && DividesAll(Product(ds), ds)
  {
    if |ds| > 0 {
      ProductIsCommonMultiple(ds[1..]);
      var rest := Product(ds[1..]);
      assert Product(ds) == ds[0] * rest;
      forall i | 0 <= i < |ds| ensures Divides(ds[i], Product(ds)) {
        if i == 0 {
          DividesIntro(ds[0], rest);
        } else {
          assert Divides(ds[1..][i - 1], rest);
          DividesLinear(ds[i], rest, 0, ds[0], 0);
        }
      }
    }
  }

  /** The least common multiple of `ds` that is at least `k`, found by counting
      up; `math.lcm` returns the same number. */
  function LcmFrom(ds: seq<int>, k: int): (m: int)
    requires AllPositive(ds) && 1 <= k <= Product(ds)
    ensures k <= m && DividesAll(m, ds)
    ensures forall j :: k <= j < m ==> !DividesAll(j, ds)
    decreases Product(ds) - k
  {
    ProductIsCommonMultiple(ds);
    if DividesAll(k, ds) then k else LcmFrom(ds, k + 1)
  }

  /** Python's `math.lcm(*ds)` for positive arguments: 1 for no argument. */
  function Lcm(ds: seq<int>): (m: int)
    requires AllPositive(ds)
    ensures m > 0 && DividesAll(m, ds)
    ensures forall j :: 0 < j < m ==> !DividesAll(j, ds)
  {
    ProductIsCommonMultiple(ds);
    LcmFrom(ds, 1)
  }
}

=== FILE: objective_analysis.dfy ===
/** OXObjectiveFunctionAnalysis over given scenario results: the objective
    values of the solved scenarios, their extremes, the best and worst
    scenario, the ranking, the comparison of named scenarios and the
    percentile query. */
module ObjectiveAnalysis {
  import opened Base
  import opened Orders
  import opened Solutions
  import Problems

  /** Counted by this analysis: OPTIMAL or FEASIBLE, with a solution. */
  predicate Contributes(r: ScenarioResult) {
    (r.status == Optimal || r.status == Feasible) && r.solution.Some?
  }

  function ValueOf(e: (string, real)): real {
    e.1
  }

  /** `scenario_values`, as its items: the objective value of every
      contributing scenario, in scenario order. */
  function ScenarioValues(rs: ScenarioResults): (vs: seq<(string, real)>)
    ensures |vs| <= |rs|
    ensures forall e :: e in vs <==>
      exists i :: 0 <= i < |rs| && Contributes(rs[i].1) && e == (rs[i].0, rs[i].1.solution.value.objectiveValue)
  {
    if |rs| == 0 then []
    else
      assert forall i :: 0 < i < |rs| ==> rs[i] == rs[1..][i - 1];
      (if Contributes(rs[0].1) then [(rs[0].0, rs[0].1.solution.value.objectiveValue)] else [])
        + ScenarioValues(rs[1..])
  }

  /** The values keep the scenarios' order. */
  lemma {:induction false} ScenarioValuesOrdered(rs: ScenarioResults)
    ensures IsSubsequence(Names(ScenarioValues(rs)), Names(rs))
  {
    if |rs| > 0 {
      var rest := ScenarioValues(rs[1..]);
      ScenarioValuesOrdered(rs[1..]);
      assert Names(rs)[1..] == Names(rs[1..]);
      if Contributes(rs[0].1) {
        var head := (rs[0].0, rs[0].1.solution.value.objectiveValue);
        assert ScenarioValues(rs) == [head] + rest;
        assert Names([head] + rest) == [rs[0].0] + Names(rest);
        assert ([rs[0].0] + Names(rest))[1..] == Names(rest);
      } else {
        assert ScenarioValues(rs) == rest;
        SkipHead(Names(rest), Names(rs));
      }
    }
  }

  /** A dictionary of results gives a dictionary of values. */
  lemma {:induction false} ScenarioValuesDistinct(rs: ScenarioResults)
    requires DistinctNames(rs)
    ensures DistinctNames(ScenarioValues(rs))
  {
    if |rs| > 0 {
      var rest := ScenarioValues(rs[1..]);
      assert DistinctNames(rs[1..]) by {
        assert forall i :: 0 <= i < |rs| - 1 ==> rs[1..][i] == rs[i + 1];
      }
      ScenarioValuesDistinct(rs[1..]);
      if Contributes(rs[0].1) {
        var head := (rs[0].0, rs[0].1.solution.value.objectiveValue);
        forall j | 0 <= j < |rest| ensures rest[j].0 != rs[0].0 {
          assert rest[j] in rest;
          var i :| 0 <= i < |rs[1..]| && Contributes(rs[1..][i].1)
                   && rest[j] == (rs[1..][i].0, rs[1..][i].1.solution.value.objectiveValue);
          assert rs[1..][i] == rs[i + 1];
        }
        assert ScenarioValues(rs) == [head] + rest;
      } else {
        assert ScenarioValues(rs) == rest;
      }
    }
  }

  /** `optimal_scenario_count`: one per contributing scenario. */
  function OptimalCount(rs: ScenarioResults): (k: nat)
    ensures k <= |rs|
  {
    if |rs| == 0 then 0
    else (if Contributes(rs[0].1) then 1 else 0) + OptimalCount(rs[1..])
  }

  /** The count is the number of values recorded. */
  lemma {:induction false} OptimalCountIsSize(rs: ScenarioResults)
    ensures OptimalCount(rs) == |ScenarioValues(rs)|
  {
    if |rs| > 0 {
      OptimalCountIsSize(rs[1..]);
    }
  }

  /** `scenario_statuses`. */
  function Statuses(rs: ScenarioResults): (m: map<string, Status>)
    ensures forall n :: n in m <==> n in Names(rs)
    ensures DistinctNames(rs) ==> forall i :: 0 <= i < |rs| ==> m[rs[i].0] == rs[i].1.status
  {
    if |rs| == 0 then map[]
    else
      var rest := Statuses(rs[1..]);
      assert forall n :: n in Names(rs) <==> n == rs[0].0 || n in Names(rs[1..]) by {
        assert Names(rs) == [rs[0].0] + Names(rs[1..]);
      }
      assert forall i :: 0 < i < |rs| ==> rs[i] == rs[1..][i - 1];
      DistinctTail(rs);
      MergeHead(rs[0].0, rs[0].1.status, rest);
      map[rs[0].0 := rs[0].1.status] + rest
  }

  // ---------------------------------------------------------------------------
  // Direction, best and worst
  // ---------------------------------------------------------------------------

  /** `objective_direction`: the objective type's value, or "minimize" for a
      problem without one. */
  function Direction(t: Option<Problems.ObjectiveType>): (d: string)
    ensures d == "maximize" <==> t == Some(Problems.Maximize)
  {
    if t == Some(Problems.Maximize) then "maximize" else "minimize"
  }

  /** Best and worst compare the direction case-insensitively. */
  predicate IsMaximize(direction: string) {
    Lower(direction) == "maximize"
  }

  /** `best_scenario`'s position: `max` by value when maximising, `min`
      otherwise, each taking the first of equal values. */
  function BestIndex(vs: seq<(string, real)>, direction: string): (i: nat)
    requires |vs| > 0
    ensures i < |vs|
    ensures IsMaximize(direction) ==> forall j :: 0 <= j < |vs| ==> vs[j].1 <= vs[i].1
    ensures !IsMaximize(direction) ==> forall j :: 0 <= j < |vs| ==> vs[i].1 <= vs[j].1
    ensures forall j :: 0 <= j < i ==> vs[j].1 != vs[i].1
  {
    if IsMaximize(direction) then ArgMax(vs, ValueOf) else ArgMin(vs, ValueOf)
  }

  /** `worst_scenario`'s position: the other extreme. */
  function WorstIndex(vs: seq<(string, real)>, direction: string): (i: nat)
    requires |vs| > 0
    ensures i < |vs|
    ensures IsMaximize(direction) ==> forall j :: 0 <= j < |vs| ==> vs[i].1 <= vs[j].1
    ensures !IsMaximize(direction) ==> forall j :: 0 <= j < |vs| ==> vs[j].1 <= vs[i].1
    ensures forall j :: 0 <= j < i ==> vs[j].1 != vs[i].1
  {
    if IsMaximize(direction) then ArgMin(vs, ValueOf) else ArgMax(vs, ValueOf)
  }

  lemma LowerKeepsDirections()
    ensures Lower("maximize") == "maximize" && Lower("minimize") == "minimize"
  {
    LowerMaximize();
    LowerMinimize();
  }

  lemma LowerMaximize()
    ensures Lower("maximize") == "maximize"
  {
    var r := Lower("maximize");
    assert r[0] == 'm' && r[1] == 'a' && r[2] == 'x' && r[3] == 'i';
    assert r[4] == 'm' && r[5] == 'i' && r[6] == 'z' && r[7] == 'e';
  }

  lemma LowerMinimize()
    ensures Lower("minimize") == "minimize"
  {
    var r := Lower("minimize");
    assert r[0] == 'm' && r[1] == 'i' && r[2] == 'n' && r[3] == 'i';
    assert r[4] == 'm' && r[5] == 'i' && r[6] == 'z' && r[7] == 'e';
  }

  /** Best and worst trade places when the direction flips, and the best
      value is never worse than the worst. */
  lemma BestWorstDual(vs: seq<(string, real)>)
    requires |vs| > 0
    ensures BestIndex(vs, "maximize") == WorstIndex(vs, "minimize")
    ensures WorstIndex(vs, "maximize") == BestIndex(vs, "minimize")
    ensures vs[WorstIndex(vs, "maximize")].1 <= vs[BestIndex(vs, "maximize")].1
  {
    LowerKeepsDirections();
  }

  // ---------------------------------------------------------------------------
  // The analysis
  // ---------------------------------------------------------------------------

  /** OXObjectiveFunctionAnalysisResult without the float statistics. */
  datatype ObjectiveResult = ObjectiveResult(
    values: seq<(string, real)>,
    statuses: map<string, Status>,
    minimum: real,
    maximum: real,
    range: real,
    best: string,
    worst: string,
    optimalCount: nat,
    totalCount: nat,
    successRate: real,
    direction: string)

  const NoScenariosMessage := "No scenarios found for analysis"
  const NoOptimalMessage := "No scenarios achieved optimal solutions - cannot perform analysis"

  /** The least and greatest value: `min(values)` and `max(values)`. */
  function Extremes(vs: seq<(string, real)>): (r: (real, real))
    requires |vs| > 0
    ensures (vs[ArgMin(vs, ValueOf)].0, r.0) in vs && (vs[ArgMax(vs, ValueOf)].0, r.1) in vs
    ensures forall e :: e in vs ==> r.0 <= e.1 <= r.1
  {
    var i, j := ArgMin(vs, ValueOf), ArgMax(vs, ValueOf);
    assert forall e :: e in vs ==> vs[i].1 <= e.1 <= vs[j].1;
    (vs[i].1, vs[j].1)
  }

  /** `analyze` on the results of solving every scenario. */
  function AnalyzeObjective(rs: ScenarioResults, t: Option<Problems.ObjectiveType>): (r: Result<ObjectiveResult>)
    ensures |rs| == 0 ==> r == Failure(OXception(NoScenariosMessage))
    ensures |rs| > 0 && |ScenarioValues(rs)| == 0 ==> r == Failure(OXception(NoOptimalMessage))
    ensures r.Success? <==> |ScenarioValues(rs)| > 0
    ensures r.Success? ==> r.value.values == ScenarioValues(rs) && r.value.totalCount == |rs|
    ensures r.Success? ==> r.value.optimalCount == |r.value.values| && 0.0 < r.value.successRate <= 1.0
    ensures r.Success? ==> r.value.range == r.value.maximum - r.value.minimum
    ensures r.Success? ==> forall e :: e in r.value.values ==> r.value.minimum <= e.1 <= r.value.maximum
    ensures r.Success? ==> r.value.direction == Direction(t) && r.value.statuses == Statuses(rs)
    ensures r.Success? ==>
      var vs := r.value.values;
      r.value.best == vs[BestIndex(vs, r.value.direction)].0
      && r.value.worst == vs[WorstIndex(vs, r.value.direction)].0
  {
    if |rs| == 0 then Failure(OXception(NoScenariosMessage))
    else
      var vs := ScenarioValues(rs);
      var count := OptimalCount(rs);
      OptimalCountIsSize(rs);
      if |vs| == 0 then Failure(OXception(NoOptimalMessage))
      else
        var direction := Direction(t);
        var x := Extremes(vs);
        var b, w := BestIndex(vs, direction), WorstIndex(vs, direction);
        Success(ObjectiveResult(vs, Statuses(rs), x.0, x.1, x.1 - x.0, vs[b].0, vs[w].0,
                                count, |rs|, SuccessRate(count, |rs|), direction))
  }

  /** When maximising the best scenario holds the greatest value and the
      worst the least; otherwise the other way round. Of several scenarios
      tied at an extreme, the first in scenario order is named, as `max`
      and `min` return the first of equal items. */
  lemma AnalyzeBestWorst(rs: ScenarioResults, t: Option<Problems.ObjectiveType>)
    requires AnalyzeObjective(rs, t).Success?
    ensures var res := AnalyzeObjective(rs, t).value;
      var hi := if t == Some(Problems.Maximize) then res.maximum else res.minimum;
      var lo := if t == Some(Problems.Maximize) then res.minimum else res.maximum;
      (res.best, hi) in res.values && (res.worst, lo) in res.values
      && FirstWith(res.values, hi, res.best) && FirstWith(res.values, lo, res.worst)
  {
    LowerKeepsDirections();
    var res := AnalyzeObjective(rs, t).value;
    var vs := res.values;
    var b, w := BestIndex(vs, res.direction), WorstIndex(vs, res.direction);
    assert res.best == vs[b].0 && res.worst == vs[w].0;
    FirstIndexNamed(vs, b);
    FirstIndexNamed(vs, w);
  }

  /** A position holding a value that no earlier position holds is the
      first with that value. */
  lemma FirstIndexNamed(vs: seq<(string, real)>, i: nat)
    requires i < |vs| && forall j :: 0 <= j < i ==> vs[j].1 != vs[i].1
    ensures FirstWith(vs, vs[i].1, vs[i].0)
  {
  }

  /** The first scenario whose value is `v` is named `name`. */
  predicate FirstWith(vs: seq<(string, real)>, v: real, name: string) {
    forall i :: 0 <= i < |vs| && vs[i].1 == v && (forall j :: 0 <= j < i ==> vs[j].1 != v) ==> vs[i].0 == name
  }

  /** `get_scenario_ranking`: every (name, value) item sorted by value,
      descending exactly when the direction is the string "maximize". */
  function Ranking(vs: seq<(string, real)>, direction: string): (r: seq<(string, real)>)
    ensures multiset(r) == multiset(vs)
    ensures SortedBy(r, ValueOf, direction == "maximize")
  {
    if |vs| == 0 then []
    else
      SortBySorted(vs, ValueOf, direction == "maximize");
      SortBy(vs, ValueOf, direction == "maximize")
  }

  /** Scenarios with equal values keep their scenario order. */
  lemma RankingStable(vs: seq<(string, real)>, direction: string, v: real)
    ensures WithKey(Ranking(vs, direction), ValueOf, v) == WithKey(vs, ValueOf, v)
  {
    if |vs| > 0 {
      SortByStable(vs, ValueOf, direction == "maximize", v);
    }
  }

  /** For either direction value the analysis produces, the ranking starts
      with the best scenario. */
  lemma RankingHeadIsBest(vs: seq<(string, real)>, t: Option<Problems.ObjectiveType>)
    requires |vs| > 0
    ensures Ranking(vs, Direction(t))[0] == vs[BestIndex(vs, Direction(t))]
  {
    LowerKeepsDirections();
    SortedHeadIsFirstExtreme(vs, ValueOf, Direction(t) == "maximize");
  }

  lemma RankedNames(vs: seq<(string, real)>, direction: string)
    ensures forall n :: n in Names(Ranking(vs, direction)) <==> n in Names(vs)
  {
    var r := Ranking(vs, direction);
    forall n ensures n in Names(r) <==> n in Names(vs) {
      if n in Names(vs) {
        var i :| 0 <= i < |vs| && Names(vs)[i] == n;
        assert vs[i] in multiset(r);
        var j :| 0 <= j < |r| && r[j] == vs[i];
        assert Names(r)[j] == n;
      }
      if n in Names(r) {
        var j :| 0 <= j < |r| && Names(r)[j] == n;
        assert r[j] in multiset(vs);
        var i :| 0 <= i < |vs| && vs[i] == r[j];
        assert Names(vs)[i] == n;
      }
    }
  }

  // ---------------------------------------------------------------------------
  // compare_scenarios
  // ---------------------------------------------------------------------------

  datatype Comparison = Comparison(
    status: Status,
    objectiveValue: Option<real>,
    rank: Option<nat>,
    percentileRank: Option<real>)

  function NotFoundMessage(name: string): string {
    "Scenario '" + name + "' not found in analysis results"
  }

  /** The 1-based position of the first item named `name`. */
  function RankIn(ranking: seq<(string, real)>, name: string): (k: nat)
    requires name in Names(ranking)
    ensures 1 <= k <= |ranking| && ranking[k - 1].0 == name
    ensures forall j :: 0 <= j < k - 1 ==> ranking[j].0 != name
  {
    FirstIndex(Names(ranking), name) + 1
  }

  /** `(rank / len(ranking)) * 100`. */
  function PercentileRank(k: nat, n: nat): (p: real)
    requires 0 < k <= n
    ensures 0.0 < p <= 100.0
    ensures p * n as real == 100.0 * k as real
    ensures p == 100.0 <==> k == n
  {
    (k as real / n as real) * 100.0
  }

  /** One scenario's entry: an exception for a name without a status;
      otherwise its status and value, and for a scenario with a value its
      1-based position in the ranking and that position as a percentage of
      the ranking's length. */
  function CompareOne(res: ObjectiveResult, name: string): (r: Result<Comparison>)
    ensures r.Failure? <==> name !in res.statuses
    ensures r.Failure? ==> r.error == OXception(NotFoundMessage(name))
    ensures r.Success? ==> r.value.status == res.statuses[name] && r.value.objectiveValue == Lookup(res.values, name)
    ensures r.Success? ==> (r.value.rank.Some? <==> name in Names(res.values))
    ensures r.Success? && r.value.rank.Some? ==>
      && name in Names(Ranking(res.values, res.direction))
      && r.value.rank.value == RankIn(Ranking(res.values, res.direction), name)
      && r.value.percentileRank == Some(PercentileRank(r.value.rank.value, |res.values|))
  {
    if name !in res.statuses then Failure(OXception(NotFoundMessage(name)))
    else if name !in Names(res.values) then
      Success(Comparison(res.statuses[name], Lookup(res.values, name), None, None))
    else
      var ranking := Ranking(res.values, res.direction);
      RankedNames(res.values, res.direction);
      var k := RankIn(ranking, name);
      Success(Comparison(res.statuses[name], Lookup(res.values, name), Some(k), Some(PercentileRank(k, |ranking|))))
  }

  /** `compare_scenarios(names)`: the full analysis first (whose exceptions
      propagate), then one entry per name, raising at the first unknown one. */
  function CompareScenarios(rs: ScenarioResults, t: Option<Problems.ObjectiveType>, names: seq<string>)
    : (r: Result<seq<(string, Comparison)>>)
    ensures AnalyzeObjective(rs, t).Failure? ==> r == Failure(AnalyzeObjective(rs, t).error)
    ensures AnalyzeObjective(rs, t).Success? ==>
      (r.Failure? <==> exists i :: 0 <= i < |names| && names[i] !in Names(rs))
    ensures AnalyzeObjective(rs, t).Success? && r.Failure? ==>
      exists i :: FirstUnknown(names, Statuses(rs).Keys, i) && r.error == OXception(NotFoundMessage(names[i]))
    ensures r.Success? ==> |r.value| == |names| && forall i :: 0 <= i < |names| ==>
      r.value[i].0 == names[i] && CompareOne(AnalyzeObjective(rs, t).value, names[i]) == Success(r.value[i].1)
  {
    var res :- AnalyzeObjective(rs, t);
    CompareEach(res, names)
  }

  /** `names[i]` is the first name outside `known`. */
  predicate FirstUnknown(names: seq<string>, known: set<string>, i: int) {
    0 <= i < |names| && names[i] !in known && forall j :: 0 <= j < i ==> names[j] in known
  }

  function CompareEach(res: ObjectiveResult, names: seq<string>): (r: Result<seq<(string, Comparison)>>)
    ensures r.Failure? <==> exists i :: 0 <= i < |names| && names[i] !in res.statuses
    ensures r.Failure? ==>
      exists i :: FirstUnknown(names, res.statuses.Keys, i) && r.error == OXception(NotFoundMessage(names[i]))
    ensures r.Success? ==> |r.value| == |names| && forall i :: 0 <= i < |names| ==>
      r.value[i].0 == names[i] && CompareOne(res, names[i]) == Success(r.value[i].1)
  {
    if |names| == 0 then Success([])
    else
      var first :- CompareOne(res, names[0]);
      var rest :- CompareEach(res, names[1..]);
      assert forall i :: 0 < i < |names| ==> names[i] == names[1..][i - 1];
      Success([(names[0], first)] + rest)
  }

  // ---------------------------------------------------------------------------
  // get_percentile
  // ---------------------------------------------------------------------------

  /** Python's `int()` of a float: truncation toward zero. */
  function Trunc(x: real): (n: int)
    ensures x >= 0.0 ==> n as real <= x < n as real + 1.0
    ensures x < 0.0 ==> n as real - 1.0 < x <= n as real
  {
    if x >= 0.0 then x.Floor else -((-x).Floor)
  }

  /** Python's `s[i]`: a negative index counts from the end; out of range
      raises IndexError. */
  function PyIndex<T>(s: seq<T>, i: int): (r: Result<T>)
    ensures r.Success? <==> -|s| <= i < |s|
    ensures r.Failure? ==> r.error == IndexError
    ensures 0 <= i < |s| ==> r == Success(s[i])
    ensures -|s| <= i < 0 ==> r == Success(s[|s| + i])
  {
    if 0 <= i < |s| then Success(s[i])
    else if -|s| <= i < 0 then Success(s[|s| + i])
    else Failure(IndexError)
  }

  /** `get_percentile(p)`: nothing without values, the value itself when
      there is one, and otherwise item `int(p) - 1` of the cut points
      `statistics.quantiles(values, n=100)`, given here as `quantiles`. */
  function GetPercentile(vs: seq<(string, real)>, p: real, quantiles: seq<real>): (r: Result<Option<real>>)
    ensures |vs| == 0 ==> r == Success(None)
    ensures |vs| == 1 ==> r == Success(Some(vs[0].1))
    ensures |vs| > 1 ==> (r.Success? <==> PyIndex(quantiles, Trunc(p) - 1).Success?)
    ensures |vs| > 1 && r.Success? ==> r.value == Some(PyIndex(quantiles, Trunc(p) - 1).value)
  {
    if |vs| == 0 then Success(None)
    else if |vs| == 1 then Success(Some(vs[0].1))
    else
      var q :- PyIndex(quantiles, Trunc(p) - 1);
      Success(Some(q))
  }

  /** With the 99 cut points `quantiles(n=100)` returns, for every
      percentile: 1 to 99 pick their own cut point; 100 and above, and -99
      and below, raise IndexError; anything in between counts from the end,
      as item `98 + int(p)`, so that a percentile in (-1, 1) gives the 99th
      cut point and -1.5 the 98th. */
  lemma PercentileEdges(vs: seq<(string, real)>, quantiles: seq<real>, p: real)
    requires |vs| > 1 && |quantiles| == 99
    ensures 1.0 <= p < 100.0 ==> GetPercentile(vs, p, quantiles) == Success(Some(quantiles[p.Floor - 1]))
    ensures p >= 100.0 || p <= -99.0 ==> GetPercentile(vs, p, quantiles) == Failure(IndexError)
    ensures -99.0 < p < 1.0 ==>
      0 <= 98 + Trunc(p) < 99 && GetPercentile(vs, p, quantiles) == Success(Some(quantiles[98 + Trunc(p)]))
    ensures -1.0 < p < 1.0 ==> GetPercentile(vs, p, quantiles) == Success(Some(quantiles[98]))
  {
    if p >= 100.0 {
      assert Trunc(p) >= 100;
    } else if p <= -99.0 {
      assert Trunc(p) <= -99;
    } else if -1.0 < p < 1.0 {
      assert Trunc(p) == 0;
    }
  }
}

=== FILE: objects.dfy ===
/** The objects a pot can hold, as a closed sum of the library's classes,
    with the attribute view (`hasattr` / `getattr`) that searches use. */
module Objects {
  import opened Base
  import opened Numbers
  import opened Variables
  import opened Constraints
  import opened Data

  datatype Obj =
    | OVariable(v: Variable)
    | ODeviation(dv: Deviation)
    | OConstraint(c: Constraint)
    | OGoal(g: Goal)
    | OData(data: DataObject)
    | OOther(oid: Uuid, otherClass: string, attrs: map<string, Value>)

  function Id(o: Obj): Uuid {
    match o
    case OVariable(v) => v.id
    case ODeviation(dv) => dv.v.id
    case OConstraint(c) => c.id
    case OGoal(g) => g.c.id
    case OData(d) => d.id
    case OOther(id, _, _) => id
  }

  /** The fully qualified class name `__post_init__` records: module path
      followed by the class name. */
  function ClassName(o: Obj): string {
    match o
    case OVariable(_) => "variables.OXVariable.OXVariable"
    case ODeviation(_) => "variables.OXDeviationVar.OXDeviationVar"
    case OConstraint(_) => "constraints.OXConstraint.OXConstraint"
    case OGoal(_) => "constraints.OXConstraint.OXGoalConstraint"
    case OData(d) => d.className
    case OOther(_, cls, _) => cls
  }

  /** `isinstance(o, OXVariable)`: deviation variables are variables. */
  predicate IsVariable(o: Obj) {
    o.OVariable? || o.ODeviation?
  }

  /** `isinstance(o, OXConstraint)`: goal constraints are constraints. */
  predicate IsConstraint(o: Obj) {
    o.OConstraint? || o.OGoal?
  }

  /** `isinstance(o, OXData)`. */
  predicate IsData(o: Obj) {
    o.OData?
  }

  /** The underlying variable of a variable or deviation variable. */
  function AsVariable(o: Obj): Variable
    requires IsVariable(o)
  {
    if o.OVariable? then o.v else o.dv.v
  }

  /** The enumeration member is a string enumeration: it equals its symbol. */
  function OpSymbol(op: RelOp): (s: string)
    ensures |s| > 0
  {
    match op
    case GreaterThan => ">"
    case GreaterThanEqual => ">="
    case Equal => "="
    case LessThan => "<"
    case LessThanEqual => "<="
  }

  lemma OpSymbolInjective(a: RelOp, b: RelOp)
    ensures OpSymbol(a) == OpSymbol(b) <==> a == b
  {
    if OpSymbol(a) == OpSymbol(b) {
      assert |OpSymbol(a)| == |OpSymbol(b)| && OpSymbol(a)[0] == OpSymbol(b)[0];
    }
  }

  function OptionalReal(x: Option<real>): Value {
    if x.Some? then VNum(Fin(x.value)) else VNone
  }

  function RelatedData(rel: map<string, Uuid>): (m: map<string, Value>)
    ensures m.Keys == rel.Keys && forall k :: k in rel ==> m[k] == VId(rel[k])
  {
    map k | k in rel :: VId(rel[k])
  }

  function VariableAttr(v: Variable, key: string): Option<Value> {
    if key == "name" then Some(VStr(v.name))
    else if key == "description" then Some(VStr(v.description))
    else if key == "value" then Some(OptionalReal(v.value))
    else if key == "upper_bound" then Some(VNum(v.upperBound))
    else if key == "lower_bound" then Some(VNum(v.lowerBound))
    else if key == "related_data" then Some(VMap(RelatedData(v.relatedData)))
    else None
  }

  /** The number a constraint's rhs denotes (a constraint's rhs always has a
      positive denominator; see Constraint.Valid). */
  function RhsNumber(f: Frac): real {
    if f.Valid() then f.Value() else 0.0
  }

  function ConstraintAttr(c: Constraint, key: string): Option<Value> {
    if key == "relational_operator" then Some(VStr(OpSymbol(c.op)))
    else if key == "rhs" then Some(VNum(Fin(RhsNumber(c.rhs))))
    else if key == "name" then Some(VStr(c.name))
    else None
  }

  /** `getattr(o, key)` for the scalar attributes; None when `hasattr` is
      false. Reads on a data object go through its active scenario. */
  function Attr(o: Obj, key: string): (r: Option<Value>)
    ensures !o.OData? && key == "id" ==> r == Some(VId(Id(o)))
    ensures !o.OData? && key == "class_name" ==> r == Some(VStr(ClassName(o)))
  {
    if o.OData? then Read(o.data, key)
    else if key == "id" then Some(VId(Id(o)))
    else if key == "class_name" then Some(VStr(ClassName(o)))
    else match o
      case OVariable(v) => VariableAttr(v, key)
      case ODeviation(dv) =>
        if key == "desired" then Some(VBool(dv.desired)) else VariableAttr(dv.v, key)
      case OConstraint(c) => ConstraintAttr(c, key)
      case OGoal(g) => ConstraintAttr(g.c, key)
      case OOther(_, _, attrs) => if key in attrs then Some(attrs[key]) else None
  }

  /** `str(o)` for the objects that do not override it: `class_name(id)`. */
  function ObjectString(o: Obj): (s: string)
    ensures |s| == |ClassName(o)| + |Id(o).text| + 2
    ensures s[..|ClassName(o)|] == ClassName(o) && s[|ClassName(o)|] == '(' && s[|s| - 1] == ')'
    ensures s[|ClassName(o)| + 1..|s| - 1] == Id(o).text
  {
    ClassName(o) + "(" + Id(o).text + ")"
  }

  /** Two objects of the same class print alike exactly when their ids do. */
  lemma ObjectStringId(a: Obj, b: Obj)
    requires ClassName(a) == ClassName(b)
    ensures ObjectString(a) == ObjectString(b) <==> Id(a).text == Id(b).text
  {
    if ObjectString(a) == ObjectString(b) {
      var n := |ClassName(a)|;
      assert Id(a).text == ObjectString(a)[n + 1..|ObjectString(a)| - 1];
    }
  }
}

=== FILE: orders.dfy ===
/** Orderings the analysis helpers rely on: Python's stable `sorted` by a
    real-valued key (ascending, or with `reverse=True`), `max`/`min` with a
    key (the first extreme item wins) and the extremes of a finite set of
    reals. */
module Orders {
  import opened Base

  function AbsReal(x: real): (r: real)
    ensures r >= 0.0 && (r == x || r == -x)
  {
    if x < 0.0 then -x else x
  }

  // ---------------------------------------------------------------------------
  // Stable sorting by key
  // ---------------------------------------------------------------------------

  /** `a` must come strictly before `b`: a smaller key ascending, a larger one
      with `reverse=True`. */
  predicate Before<T>(a: T, b: T, key: T -> real, desc: bool) {
    if desc then key(a) > key(b) else key(a) < key(b)
  }

  predicate SortedBy<T>(s: seq<T>, key: T -> real, desc: bool) {
    forall i, j :: 0 <= i < j < |s| ==> !Before(s[j], s[i], key, desc)
  }

  /** Insert `x` in front of the first element it need not follow. */
  function InsertBy<T(==)>(x: T, s: seq<T>, key: T -> real, desc: bool): (r: seq<T>)
    ensures |r| == |s| + 1
    ensures multiset(r) == multiset(s) + multiset{x}
  {
    if |s| == 0 || !Before(s[0], x, key, desc) then [x] + s
    else
      assert s == [s[0]] + s[1..];
      [s[0]] + InsertBy(x, s[1..], key, desc)
  }

  lemma {:induction false} InsertBySorted<T>(x: T, s: seq<T>, key: T -> real, desc: bool)
    requires SortedBy(s, key, desc)
    ensures SortedBy(InsertBy(x, s, key, desc), key, desc)
  {
    var r := InsertBy(x, s, key, desc);
    if |s| > 0 && Before(s[0], x, key, desc) {
      var t := InsertBy(x, s[1..], key, desc);
      InsertBySorted(x, s[1..], key, desc);
      assert r == [s[0]] + t;
      forall j | 0 < j < |r| ensures !Before(r[j], r[0], key, desc) {
        assert r[j] == t[j - 1];
        assert t[j - 1] in multiset(t);
        if t[j - 1] != x {
          assert t[j - 1] in multiset(s[1..]);
          var k :| 0 <= k < |s[1..]| && s[1..][k] == t[j - 1];
          assert s[k + 1] == t[j - 1];
        }
      }
    } else {
      forall j | 0 < j < |r| ensures !Before(r[j], r[0], key, desc) {
        assert r[j] == s[j - 1];
      }
    }
  }

  /** `sorted(xs, key=key, reverse=desc)`: an insertion sort that keeps equal
      keys in their original order. */
  function SortBy<T(==)>(xs: seq<T>, key: T -> real, desc: bool): (r: seq<T>)
    ensures |r| == |xs| && multiset(r) == multiset(xs)
  {
    if |xs| == 0 then []
    else
      assert xs == [xs[0]] + xs[1..];
      InsertBy(xs[0], SortBy(xs[1..], key, desc), key, desc)
  }

  lemma {:induction false} SortBySorted<T>(xs: seq<T>, key: T -> real, desc: bool)
    ensures SortedBy(SortBy(xs, key, desc), key, desc)
  {
    if |xs| > 0 {
      SortBySorted(xs[1..], key, desc);
      InsertBySorted(xs[0], SortBy(xs[1..], key, desc), key, desc);
    }
  }

  /** The items with one key value, in order. */
  function WithKey<T>(s: seq<T>, key: T -> real, k: real): seq<T> {
    if |s| == 0 then []
    else (if key(s[0]) == k then [s[0]] else []) + WithKey(s[1..], key, k)
  }

  lemma WithKeyCons<T>(x: T, s: seq<T>, key: T -> real, k: real)
    ensures WithKey([x] + s, key, k) == (if key(x) == k then [x] else []) + WithKey(s, key, k)
  {
    assert ([x] + s)[0] == x && ([x] + s)[1..] == s;
  }

  lemma {:induction false} InsertByStable<T>(x: T, s: seq<T>, key: T -> real, desc: bool, k: real)
    ensures WithKey(InsertBy(x, s, key, desc), key, k)
         == (if key(x) == k then [x] else []) + WithKey(s, key, k)
  {
    if |s| == 0 || !Before(s[0], x, key, desc) {
      WithKeyCons(x, s, key, k);
    } else {
      InsertByStable(x, s[1..], key, desc, k);
      InsertPastHead(x, s, key, desc, k);
    }
  }

  /** When `x` goes past the head, the head keeps its place among the items
      with key k: it carries k only if x does not. */
  lemma InsertPastHead<T>(x: T, s: seq<T>, key: T -> real, desc: bool, k: real)
    requires |s| > 0 && Before(s[0], x, key, desc)
    requires WithKey(InsertBy(x, s[1..], key, desc), key, k)
          == (if key(x) == k then [x] else []) + WithKey(s[1..], key, k)
    ensures WithKey(InsertBy(x, s, key, desc), key, k)
         == (if key(x) == k then [x] else []) + WithKey(s, key, k)
  {
    var t := InsertBy(x, s[1..], key, desc);
    assert InsertBy(x, s, key, desc) == [s[0]] + t;
    WithKeyCons(s[0], t, key, k);
    assert s == [s[0]] + s[1..];
    WithKeyCons(s[0], s[1..], key, k);
  }

  /** Stability: for every key value the items carrying it appear in the
      sorted list in the order they had before sorting. */
  lemma {:induction false} SortByStable<T>(xs: seq<T>, key: T -> real, desc: bool, k: real)
    ensures WithKey(SortBy(xs, key, desc), key, k) == WithKey(xs, key, k)
  {
    if |xs| > 0 {
      SortByStable(xs[1..], key, desc, k);
      InsertByStable(xs[0], SortBy(xs[1..], key, desc), key, desc, k);
    }
  }

  /** The first element of a list sorted by key is extreme: no element has a
      key that must come before it. */
  lemma SortedHeadExtreme<T>(s: seq<T>, key: T -> real, desc: bool)
    requires |s| > 0 && SortedBy(s, key, desc)
    ensures forall j :: 0 <= j < |s| ==> !Before(s[j], s[0], key, desc)
  {
    forall j | 0 < j < |s| ensures !Before(s[j], s[0], key, desc) {
    }
  }

  // ---------------------------------------------------------------------------
  // max / min with a key
  // ---------------------------------------------------------------------------

  /** `max(s, key=key)`: scanning left to right, the current item is replaced
      only by a strictly larger one, so the first maximal item is returned. */
  function ArgMax<T>(s: seq<T>, key: T -> real): (i: nat)
    requires |s| > 0
    ensures i < |s|
    ensures forall j :: 0 <= j < |s| ==> key(s[j]) <= key(s[i])
    ensures forall j :: 0 <= j < i ==> key(s[j]) < key(s[i])
  {
    if |s| == 1 then 0
    else
      var j := ArgMax(s[..|s| - 1], key);
      assert forall m :: 0 <= m < |s| - 1 ==> s[..|s| - 1][m] == s[m];
      if key(s[|s| - 1]) > key(s[j]) then |s| - 1 else j
  }

  /** `min(s, key=key)`: the first minimal item. */
  function ArgMin<T>(s: seq<T>, key: T -> real): (i: nat)
    requires |s| > 0
    ensures i < |s|
    ensures forall j :: 0 <= j < |s| ==> key(s[i]) <= key(s[j])
    ensures forall j :: 0 <= j < i ==> key(s[i]) < key(s[j])
  {
    if |s| == 1 then 0
    else
      var j := ArgMin(s[..|s| - 1], key);
      assert forall m :: 0 <= m < |s| - 1 ==> s[..|s| - 1][m] == s[m];
      if key(s[|s| - 1]) < key(s[j]) then |s| - 1 else j
  }

  /** The first item with the extreme key is the one a stable sort puts at
      the head: `sorted(s, key, reverse=True)[0]` is `max(s, key)` and
      `sorted(s, key)[0]` is `min(s, key)`. */
  lemma SortedHeadIsFirstExtreme<T(!new)>(s: seq<T>, key: T -> real, desc: bool)
    requires |s| > 0
    ensures SortBy(s, key, desc)[0] == s[if desc then ArgMax(s, key) else ArgMin(s, key)]
  {
    var r := SortBy(s, key, desc);
    var i := if desc then ArgMax(s, key) else ArgMin(s, key);
    var k := key(s[i]);
    SortBySorted(s, key, desc);
    SortedHeadExtreme(r, key, desc);
    assert r[0] in multiset(s);
    assert s[i] in multiset(r);
    var m :| 0 <= m < |r| && r[m] == s[i];
    assert !Before(r[m], r[0], key, desc);
    var n :| 0 <= n < |s| && s[n] == r[0];
    assert key(r[0]) == k;
    SortByStable(s, key, desc, k);
    FirstWithKey(r, key, k, 0);
    FirstWithKey(s, key, k, i);
  }

  /** When the item at `i` is the first with key `k`, it heads the filter. */
  lemma {:induction false} FirstWithKey<T>(s: seq<T>, key: T -> real, k: real, i: nat)
    requires i < |s| && key(s[i]) == k
    requires forall j :: 0 <= j < i ==> key(s[j]) != k
    ensures |WithKey(s, key, k)| > 0 && WithKey(s, key, k)[0] == s[i]
  {
    if i > 0 {
      FirstWithKey(s[1..], key, k, i - 1);
    }
  }

  // ---------------------------------------------------------------------------
  // Extremes of a finite set of reals
  // ---------------------------------------------------------------------------

  /** A set that is not empty has an element. */
  lemma Inhabited<T>(s: set<T>)
    ensures s == {} || exists x :: x in s
  {
    if forall x :: x !in s {
      assert s == {};
    }
  }

  /** Some element of a set that is not empty. */
  ghost function Element<T>(s: set<T>): (x: T)
    requires s != {}
    ensures x in s
  {
    Inhabited(s);
    var x :| x in s;
    x
  }

  lemma {:induction false} HasMax(s: set<real>)
    requires s != {}
    ensures exists m :: m in s && forall y :: y in s ==> y <= m
    decreases |s|
  {
    var x := Element(s);
    var rest := s - {x};
    if rest != {} {
      assert |rest| < |s|;
      HasMax(rest);
      var m :| m in rest && forall y :: y in rest ==> y <= m;
      var top := if x > m then x else m;
      assert top in s;
      forall y | y in s ensures y <= top {
        if y != x {
          assert y in rest;
        }
      }
    } else {
      forall y | y in s ensures y <= x {
        assert y == x || y in rest;
      }
    }
  }

  lemma {:induction false} HasMin(s: set<real>)
    requires s != {}
    ensures exists m :: m in s && forall y :: y in s ==> m <= y
    decreases |s|
  {
    var x := Element(s);
    var rest := s - {x};
    if rest != {} {
      assert |rest| < |s|;
      HasMin(rest);
      var m :| m in rest && forall y :: y in rest ==> m <= y;
      var bottom := if x < m then x else m;
      assert bottom in s;
      forall y | y in s ensures bottom <= y {
        if y != x {
          assert y in rest;
        }
      }
    } else {
      forall y | y in s ensures x <= y {
        assert y == x || y in rest;
      }
    }
  }

  /** `max` of the values, which does not depend on their order. */
  function SetMax(s: set<real>): (m: real)
    requires s != {}
    ensures m in s && forall y :: y in s ==> y <= m
  {
    HasMax(s);
    var m :| m in s && forall y :: y in s ==> y <= m;
    m
  }

  function SetMin(s: set<real>): (m: real)
    requires s != {}
    ensures m in s && forall y :: y in s ==> m <= y
  {
    HasMin(s);
    var m :| m in s && forall y :: y in s ==> m <= y;
    m
  }
}

=== FILE: pot.dfy ===
/** OXObjectPot: an insertion-ordered container of objects with append,
    remove-first-equal, id lookup, attribute and predicate search, and the
    set of normalised class names. */
module Pots {
  import opened Base
  import opened Data
  import opened Objects
  import opened Variables

  datatype Pot = Pot(id: Uuid, objects: seq<Obj>) {
    /** `len(pot)`. */
    function Len(): nat {
      |objects|
    }
  }

  function EmptyPot(id: Uuid): Pot {
    Pot(id, [])
  }

  // ---------------------------------------------------------------------------
  // Adding and removing
  // ---------------------------------------------------------------------------

  /** `add_object`: appends, duplicates included. */
  function Add(p: Pot, o: Obj): (r: Pot)
    ensures r.Len() == p.Len() + 1
    ensures r.objects[p.Len()] == o
    ensures r.objects[..p.Len()] == p.objects
    ensures r.id == p.id
  {
    p.(objects := p.objects + [o])
  }

  /** `remove_object`: `list.remove`, which deletes the first equal object and
      raises ValueError when there is none. */
  function Remove(p: Pot, o: Obj): (r: Result<Pot>)
    ensures r.Failure? <==> o !in p.objects
    ensures r.Failure? ==> r.error == ValueError
    ensures r.Success? ==> r.value.id == p.id && r.value.Len() == p.Len() - 1
    ensures r.Success? ==> exists i :: 0 <= i < p.Len() && p.objects[i] == o
                                     && (forall j :: 0 <= j < i ==> p.objects[j] != o)
                                     && r.value.objects == p.objects[..i] + p.objects[i + 1..]
  {
    var rest :- RemoveFirst(p.objects, o);
    Success(p.(objects := rest))
  }

  /** Adding an object and removing it again restores the pot when the
      object was not already there. */
  lemma AddRemove(p: Pot, o: Obj)
    requires o !in p.objects
    ensures Remove(Add(p, o), o) == Success(p)
  {
    var q := Add(p, o);
    assert forall j :: 0 <= j < p.Len() ==> q.objects[j] == p.objects[j] && q.objects[j] != o;
    assert q.objects[p.Len()] == o;
    var i := FirstIndex(q.objects, o);
    assert i == p.Len();
    assert q.objects[..i] == p.objects && q.objects[i + 1..] == [];
    assert q.objects[..i] + q.objects[i + 1..] == p.objects;
    assert RemoveFirst(q.objects, o) == Success(p.objects);
  }

  /** Removing keeps every other object and their order. */
  lemma RemoveKeepsOthers(p: Pot, o: Obj)
    requires Remove(p, o).Success?
    ensures multiset(Remove(p, o).value.objects) == multiset(p.objects) - multiset{o}
  {
    var r := RemoveFirst(p.objects, o);
  }

  // ---------------------------------------------------------------------------
  // Lookup
  // ---------------------------------------------------------------------------

  /** The key of `pot[key]`: a UUID, or any other value. */
  datatype Key = UuidKey(uuid: Uuid) | OtherKey(other: Value)

  const NotUuidMessage := "Only UUID indices are accepted"
  const NotFoundMessage := "Object not found"

  /** Position of the first object with the given id, or |s|. */
  function FindId(s: seq<Obj>, id: Uuid): (i: nat)
    ensures i <= |s|
    ensures i < |s| ==> Id(s[i]) == id
    ensures forall j :: 0 <= j < i ==> Id(s[j]) != id
  {
    if |s| == 0 then 0
    else if Id(s[0]) == id then 0
    else 1 + FindId(s[1..], id)
  }

  /** `pot[key]`. */
  function Get(p: Pot, key: Key): (r: Result<Obj>)
    ensures key.OtherKey? ==> r == Failure(OXception(NotUuidMessage))
    ensures key.UuidKey? && r.Success? ==> r.value in p.objects && Id(r.value) == key.uuid
    ensures key.UuidKey? && r.Success? ==>
      exists i :: 0 <= i < p.Len() && p.objects[i] == r.value
                  && forall j :: 0 <= j < i ==> Id(p.objects[j]) != key.uuid
    ensures key.UuidKey? ==>
      (r == Failure(OXception(NotFoundMessage)) <==> forall o :: o in p.objects ==> Id(o) != key.uuid)
  {
    match key
    case OtherKey(_) => Failure(OXception(NotUuidMessage))
    case UuidKey(id) =>
      var i := FindId(p.objects, id);
      if i == |p.objects| then Failure(OXception(NotFoundMessage)) else Success(p.objects[i])
  }

  /** The argument of `x in pot`: a UUID or an object. */
  datatype Probe = ProbeId(uuid: Uuid) | ProbeObj(obj: Obj)

  function ProbeTarget(x: Probe): Uuid {
    match x
    case ProbeId(id) => id
    case ProbeObj(o) => Id(o)
  }

  /** `x in pot`: membership by id. */
  function Contains(p: Pot, x: Probe): (b: bool)
    ensures b <==> exists o :: o in p.objects && Id(o) == ProbeTarget(x)
  {
    var i := FindId(p.objects, ProbeTarget(x));
    if i < |p.objects| then
      assert p.objects[i] in p.objects;
      true
    else
      false
  }

  /** Lookup and membership agree: `x in pot` exactly when `pot[x.id]` finds
      an object. */
  lemma ContainsIffGet(p: Pot, x: Probe)
    ensures Contains(p, x) <==> Get(p, UuidKey(ProbeTarget(x))).Success?
  {
  }

  /** An added object can be found by its id, and the pot contains it. */
  lemma AddThenGet(p: Pot, o: Obj)
    requires forall q :: q in p.objects ==> Id(q) != Id(o)
    ensures Get(Add(p, o), UuidKey(Id(o))) == Success(o)
    ensures Contains(Add(p, o), ProbeObj(o))
  {
    var q := Add(p, o);
    assert forall j :: 0 <= j < p.Len() ==> q.objects[j] == p.objects[j] && Id(q.objects[j]) != Id(o);
    assert FindId(q.objects, Id(o)) == p.Len();
  }

  /** `first_object` / `last_object`: `objects[0]` and `objects[-1]`, both
      raising IndexError on an empty pot. */
  function First(p: Pot): (r: Result<Obj>)
    ensures r.Failure? <==> p.Len() == 0
    ensures r.Failure? ==> r.error == IndexError
    ensures r.Success? ==> r.value == p.objects[0]
  {
    if |p.objects| == 0 then Failure(IndexError) else Success(p.objects[0])
  }

  function Last(p: Pot): (r: Result<Obj>)
    ensures r.Failure? <==> p.Len() == 0
    ensures r.Failure? ==> r.error == IndexError
    ensures r.Success? ==> r.value == p.objects[p.Len() - 1]
  {
    if |p.objects| == 0 then Failure(IndexError) else Success(p.objects[|p.objects| - 1])
  }

  /** After `add_object(o)` the last object is `o`; the first is unchanged
      unless the pot was empty. */
  lemma AddLast(p: Pot, o: Obj)
    ensures Last(Add(p, o)) == Success(o)
    ensures First(Add(p, o)) == if p.Len() == 0 then Success(o) else First(p)
  {
  }

  // ---------------------------------------------------------------------------
  // Search
  // ---------------------------------------------------------------------------

  /** The criteria test of `search`: every given attribute exists and is
      equal, checked in order and stopping at the first mismatch. */
  function MatchesAll(o: Obj, kvs: seq<(string, Value)>): (b: bool)
    ensures b <==> forall i :: 0 <= i < |kvs| ==> Attr(o, kvs[i].0) == Some(kvs[i].1)
    decreases |kvs|
  {
    if |kvs| == 0 then true
    else if Attr(o, kvs[0].0) != Some(kvs[0].1) then false
    else
      var b := MatchesAll(o, kvs[1..]);
      assert forall i :: 1 <= i < |kvs| ==> kvs[i] == kvs[1..][i - 1];
      b
  }

  /** `search(**kwargs)`, the loop over the objects. */
  method Search(p: Pot, kvs: seq<(string, Value)>) returns (r: seq<Obj>)
    ensures r == Filter(p.objects, o => MatchesAll(o, kvs))
    ensures forall o :: o in r <==>
      (o in p.objects && forall i :: 0 <= i < |kvs| ==> Attr(o, kvs[i].0) == Some(kvs[i].1))
    ensures IsSubsequence(r, p.objects)
  {
    r := [];
    var k := |p.objects|;
    // Filter is defined from the front; the loop builds it from the back.
    while k > 0
      invariant 0 <= k <= |p.objects|
      invariant r == Filter(p.objects[k..], o => MatchesAll(o, kvs))
    {
      k := k - 1;
      assert p.objects[k..][1..] == p.objects[k + 1..];
      if MatchesAll(p.objects[k], kvs) {
        r := [p.objects[k]] + r;
      }
    }
    assert p.objects[0..] == p.objects;
    FilterIsSubsequence(p.objects, o => MatchesAll(o, kvs));
  }

  /** Empty criteria select every object. */
  lemma SearchEmpty(p: Pot)
    ensures Filter(p.objects, o => MatchesAll(o, [])) == p.objects
  {
    FilterAll(p.objects, o => MatchesAll(o, []));
  }

  /** An object without the attribute is never selected. */
  lemma SearchMissingAttribute(o: Obj, kvs: seq<(string, Value)>, i: nat)
    requires i < |kvs| && Attr(o, kvs[i].0).None?
    ensures !MatchesAll(o, kvs)
  {
  }

  /** `search_by_function(f)`: the order-preserving filter. */
  method SearchByFunction(p: Pot, f: Obj -> bool) returns (r: seq<Obj>)
    ensures r == Filter(p.objects, f)
    ensures forall o :: o in r <==> o in p.objects && f(o)
    ensures IsSubsequence(r, p.objects)
  {
    r := [];
    var k := |p.objects|;
    while k > 0
      invariant 0 <= k <= |p.objects|
      invariant r == Filter(p.objects[k..], f)
    {
      k := k - 1;
      assert p.objects[k..][1..] == p.objects[k + 1..];
      if f(p.objects[k]) {
        r := [p.objects[k]] + r;
      }
    }
    assert p.objects[0..] == p.objects;
    FilterIsSubsequence(p.objects, f);
  }

  // ---------------------------------------------------------------------------
  // Object types
  // ---------------------------------------------------------------------------

  /** The class name after the last '.', lower-cased, with a leading "ox"
      removed: a dot-free suffix of the lower-cased name. */
  function TypeName(className: string): (t: string)
    ensures '.' !in t
    ensures exists k :: 0 <= k <= |className| && t == Lower(className)[k..]
  {
    var k := RFind(className, '.') + 1;
    var s := Lower(className[k..]);
    LowerSuffix(className, k);
    assert '.' !in s by {
      forall i | 0 <= i < |s| ensures s[i] != '.' {
        assert className[k..][i] == className[k + i];
      }
    }
    if |s| >= 2 && s[..2] == "ox" then
      assert s[2..] == Lower(className)[k + 2..];
      s[2..]
    else s
  }

  lemma LowerSuffix(s: string, k: nat)
    requires k <= |s|
    ensures Lower(s[k..]) == Lower(s)[k..]
  {
  }

  /** `get_object_types`: each normalised class name once. */
  function ObjectTypes(p: Pot): (ts: set<string>)
    ensures forall t :: t in ts <==> exists o :: o in p.objects && TypeName(ClassName(o)) == t
  {
    set o | o in p.objects :: TypeName(ClassName(o))
  }

  /** Only the part after the last '.' matters. */
  lemma TypeNameOfQualified(prefix: string, name: string)
    requires '.' !in name
    ensures var s := Lower(name);
      TypeName(prefix + "." + name) == if |s| >= 2 && s[..2] == "ox" then s[2..] else s
  {
    var n := prefix + "." + name;
    var k := RFind(n, '.');
    assert n[|prefix|] == '.';
    assert forall j :: |prefix| < j < |n| ==> n[j] == name[j - |prefix| - 1];
    assert n[k + 1..] == name;
  }

  /** Lower-casing "OX" + w gives "ox" + the lower-cased w. */
  lemma LowerOx(word: string)
    ensures Lower("OX" + word) == "ox" + Lower(word)
  {
    var name := "OX" + word;
    assert name[1..] == "X" + word;
    assert name[1..][1..] == word;
    assert Lower(name[1..]) == [LowerChar('X')] + Lower(word);
  }

  /** The library's own classes, named "OX" + a word, lose the module path
      and the prefix: `variables.OXVariable.OXVariable` gives "variable". */
  lemma LibraryTypeName(prefix: string, word: string)
    requires '.' !in word
    ensures TypeName(prefix + "." + ("OX" + word)) == Lower(word)
  {
    var name := "OX" + word;
    assert '.' !in name by {
      assert forall i :: 2 <= i < |name| ==> name[i] == word[i - 2];
    }
    TypeNameOfQualified(prefix, name);
    LowerOx(word);
    var s := Lower(name);
    assert s[..2] == "ox" && s[2..] == Lower(word);
  }

  /** A user class whose name does not start with "ox" (in any case) keeps
      its name, lower-cased: `TestObject` gives "testobject". */
  lemma UserTypeName(prefix: string, name: string)
    requires '.' !in name
    requires !(|name| >= 2 && Lower(name)[..2] == "ox")
    ensures TypeName(prefix + "." + name) == Lower(name)
  {
    TypeNameOfQualified(prefix, name);
  }
}

=== FILE: problem.dfy ===
/** The problem classes (OXCSPProblem, OXLPProblem, OXGPProblem) as one
    state record, and the methods that change it: decision variables,
    linear constraints with their generated names, the linear objective,
    goal constraints and the goal-programming objective. */
module Problems {
  import opened Base
  import opened Numbers
  import opened Expressions
  import opened Variables
  import opened Constraints
  import opened Objects
  import opened Pots
  import opened TypedSets
  import opened Specials

  datatype ObjectiveType = Minimize | Maximize

  /** The fields of OXGPProblem, which extends the other two: a CSP problem
      leaves the objective and the goal constraints at their defaults. */
  datatype Problem = Problem(
    id: Uuid,
    db: Pot,
    variables: Pot,
    constraints: Pot,
    specials: seq<Special>,
    constraintsInSpecial: seq<Uuid>,
    objective: Expression,
    objectiveType: ObjectiveType,
    goalConstraints: Pot)

  /** Each pot is a typed set and so holds only the objects its kind admits. */
  predicate Valid(p: Problem) {
    AllAdmitted(Database, p.db) && AllAdmitted(VariableSet, p.variables)
    && AllAdmitted(ConstraintSet, p.constraints) && AllAdmitted(ConstraintSet, p.goalConstraints)
  }

  /** A problem with every field at its default: empty sets and lists, an
      empty objective, minimisation. */
  function NewProblem(id: Uuid, dbId: Uuid, varsId: Uuid, consId: Uuid, goalsId: Uuid): (p: Problem)
    ensures Valid(p)
    ensures p.db.Len() == 0 && p.variables.Len() == 0 && p.constraints.Len() == 0 && p.goalConstraints.Len() == 0
    ensures p.specials == [] && p.constraintsInSpecial == [] && p.objectiveType == Minimize
    ensures p.objective.NumberOfVariables() == 0
  {
    Problem(id, EmptyPot(dbId), EmptyPot(varsId), EmptyPot(consId), [], [],
            Expression([], []), Minimize, EmptyPot(goalsId))
  }

  /** The ids of a list of objects, in order. */
  function Ids(objs: seq<Obj>): (ids: seq<Uuid>)
    ensures |ids| == |objs| && forall i :: 0 <= i < |objs| ==> ids[i] == Id(objs[i])
  {
    seq(|objs|, i requires 0 <= i < |objs| => Id(objs[i]))
  }

  // ---------------------------------------------------------------------------
  // create_decision_variable
  // ---------------------------------------------------------------------------

  function InvalidKeyMessage(key: string): string {
    "Invalid key " + key + " for decision variable."
  }

  /** Position of the first keyword whose key is not a type in the database,
      or the number of keywords. */
  function FirstInvalidKey(kwargs: seq<(string, Uuid)>, types: set<string>): (i: nat)
    ensures i <= |kwargs|
    ensures i < |kwargs| ==> kwargs[i].0 !in types
    ensures forall j :: 0 <= j < i ==> kwargs[j].0 in types
  {
    if |kwargs| == 0 then 0
    else if kwargs[0].0 !in types then 0
    else 1 + FirstInvalidKey(kwargs[1..], types)
  }

  /** The related data the keyword loop writes into a fresh variable, each
      keyword in turn overwriting an earlier one with the same key. */
  function RelatedFrom(kwargs: seq<(string, Uuid)>): map<string, Uuid> {
    if |kwargs| == 0 then map[]
    else RelatedFrom(kwargs[..|kwargs| - 1])[kwargs[|kwargs| - 1].0 := kwargs[|kwargs| - 1].1]
  }

  /** The keys of the related data are exactly the keywords given. */
  lemma {:induction false} RelatedFromKeys(kwargs: seq<(string, Uuid)>)
    ensures forall k :: k in RelatedFrom(kwargs) <==> exists i :: 0 <= i < |kwargs| && kwargs[i].0 == k
  {
    if |kwargs| > 0 {
      var n := |kwargs| - 1;
      var front := kwargs[..n];
      RelatedFromKeys(front);
      forall k ensures k in RelatedFrom(kwargs) <==> exists i :: 0 <= i < |kwargs| && kwargs[i].0 == k {
        if k in RelatedFrom(front) {
          var i :| 0 <= i < n && front[i].0 == k;
          assert kwargs[i].0 == k;
        }
        if exists i :: 0 <= i < |kwargs| && kwargs[i].0 == k {
          var i :| 0 <= i < |kwargs| && kwargs[i].0 == k;
          if i < n {
            assert front[i].0 == k;
          }
        }
      }
    }
  }

  /** A key's value is the one given at its last occurrence: later keywords
      win. */
  lemma {:induction false} RelatedFromLast(kwargs: seq<(string, Uuid)>, i: nat)
    requires i < |kwargs| && forall j :: i < j < |kwargs| ==> kwargs[j].0 != kwargs[i].0
    ensures kwargs[i].0 in RelatedFrom(kwargs) && RelatedFrom(kwargs)[kwargs[i].0] == kwargs[i].1
  {
    var n := |kwargs| - 1;
    if i < n {
      var front := kwargs[..n];
      assert forall j :: i < j < n ==> front[j] == kwargs[j];
      RelatedFromLast(front, i);
      assert front[i] == kwargs[i];
    }
  }

  /** `create_decision_variable`: construct the variable (which checks the
      bounds), reject any keyword that names no type in the database, record
      the keywords as related data and add the variable to the variable set.
      Nothing else changes. */
  function CreateDecisionVariable(p: Problem, id: Uuid, name: string, description: string,
                                  upperBound: Ext, lowerBound: Ext, kwargs: seq<(string, Uuid)>)
    : (r: Result<Problem>)
    ensures Lt(upperBound, lowerBound) ==> r == Failure(OXception(BoundsMessage))
    ensures var i := FirstInvalidKey(kwargs, ObjectTypes(p.db));
      !Lt(upperBound, lowerBound) && i < |kwargs| ==> r == Failure(OXception(InvalidKeyMessage(kwargs[i].0)))
    ensures r.Success? <==> !Lt(upperBound, lowerBound) && forall i :: 0 <= i < |kwargs| ==> kwargs[i].0 in ObjectTypes(p.db)
    ensures r.Success? ==> r.value.(variables := p.variables) == p
    ensures r.Success? ==> r.value.variables.id == p.variables.id
                           && r.value.variables.Len() == p.variables.Len() + 1
                           && r.value.variables.objects[..p.variables.Len()] == p.variables.objects
    ensures r.Success? ==>
      r.value.variables.Len() == p.variables.Len() + 1 &&
      var o := r.value.variables.objects[p.variables.Len()];
      o.OVariable? && o.v.id == id && o.v.description == description && o.v.value.None?
      && o.v.lowerBound == lowerBound && o.v.upperBound == upperBound
      && o.v.name == (if Strip(name) == "" then AutoName(id) else name)
      && o.v.relatedData == RelatedFrom(kwargs)
      && forall k :: k in o.v.relatedData ==> k in ObjectTypes(p.db)
    ensures Valid(p) && r.Success? ==> Valid(r.value)
  {
    if Lt(upperBound, lowerBound) then Failure(OXception(BoundsMessage))
    else
      var v := NewVariable(id, name, description, None, upperBound, lowerBound, map[]).value;
      var i := FirstInvalidKey(kwargs, ObjectTypes(p.db));
      if i < |kwargs| then Failure(OXception(InvalidKeyMessage(kwargs[i].0)))
      else
        var o := OVariable(v.(relatedData := RelatedFrom(kwargs)));
        RelatedFromKeys(kwargs);
        AddKeepsKind(VariableSet, p.variables, o);
        Success(p.(variables := Add(p.variables, o)))
  }

  /** Appending an object of the set's kind keeps every object of that kind. */
  lemma AddKeepsKind(k: SetKind, pot: Pot, o: Obj)
    requires Admits(k, o)
    ensures AllAdmitted(k, pot) ==> AllAdmitted(k, Add(pot, o))
  {
    assert Add(pot, o).objects == pot.objects + [o];
  }

  // ---------------------------------------------------------------------------
  // _check_parameters
  // ---------------------------------------------------------------------------

  const NoVariablesMessage := "Either variable_search_function or variables must be provided."
  const BothVariablesMessage := "Only one of variable_search_function or variables can be provided."
  const NoWeightsMessage := "Either weight_calculation_function or weights must be provided."
  const BothWeightsMessage := "Only one of weight_calculation_function or weights can be provided."
  const SearchWithoutWeightFnMessage := "weight_calculation_function must be provided if variable_search_function is provided."
  const VariablesWithoutWeightsMessage := "weights must be provided if variables is provided."
  const LengthMismatchMessage := "variables and weights must have the same length."

  /** The argument check shared by `create_constraint` and the linear
      objective: None when the arguments pass, else the message of the first
      failed test. Exactly two forms pass: both functions and no lists, or
      both lists, of equal length, and no functions. */
  function CheckParameters(hasSearch: bool, vars: Option<seq<Uuid>>, hasWeightFn: bool,
                           weights: Option<seq<Frac>>): (r: Option<string>)
    ensures r.None? <==>
      (hasSearch && hasWeightFn && vars.None? && weights.None?)
      || (!hasSearch && !hasWeightFn && vars.Some? && weights.Some? && |vars.value| == |weights.value|)
  {
    if !hasSearch && vars.None? then Some(NoVariablesMessage)
    else if hasSearch && vars.Some? then Some(BothVariablesMessage)
    else if !hasWeightFn && weights.None? then Some(NoWeightsMessage)
    else if hasWeightFn && weights.Some? then Some(BothWeightsMessage)
    else if hasSearch && !hasWeightFn then Some(SearchWithoutWeightFnMessage)
    else if vars.Some? && weights.None? then Some(VariablesWithoutWeightsMessage)
    else if vars.Some? && |vars.value| != |weights.value| then Some(LengthMismatchMessage)
    else None
  }

  /** The rejected calls of the parameter-validation test, each with the
      message the check raises. */
  lemma CheckParametersTested(id: Uuid)
    ensures CheckParameters(false, None, false, None) == Some(NoVariablesMessage)
    ensures CheckParameters(true, Some([id]), false, Some([Frac(1, 1)])) == Some(BothVariablesMessage)
    ensures CheckParameters(false, Some([id]), false, None) == Some(NoWeightsMessage)
    ensures CheckParameters(false, Some([id]), true, Some([Frac(1, 1)])) == Some(BothWeightsMessage)
    ensures CheckParameters(true, None, false, None) == Some(NoWeightsMessage)
    ensures CheckParameters(false, Some([id]), false, Some([Frac(1, 1), Frac(2, 1)])) == Some(LengthMismatchMessage)
  {
  }

  // ---------------------------------------------------------------------------
  // create_constraint
  // ---------------------------------------------------------------------------

  /** The variables of a new constraint or objective: the given list, or the
      ids of the variables the search function selects, in stored order. */
  function SelectedIds(p: Problem, search: Option<Obj -> bool>, vars: Option<seq<Uuid>>): (ids: seq<Uuid>)
    requires vars.Some? || search.Some?
    ensures vars.Some? ==> ids == vars.value
    ensures vars.None? ==> ids == Ids(Filter(p.variables.objects, search.value))
  {
    if vars.Some? then vars.value else Ids(Filter(p.variables.objects, search.value))
  }

  /** The weights: the given list, or the weight function applied to each
      selected id and the problem. */
  function SelectedWeights(p: Problem, weightFn: Option<(Uuid, Problem) -> Frac>, ids: seq<Uuid>,
                           weights: Option<seq<Frac>>): (ws: seq<Frac>)
    requires weights.Some? || weightFn.Some?
    ensures weights.Some? ==> ws == weights.value
    ensures weights.None? ==> |ws| == |ids| && forall i :: 0 <= i < |ids| ==> ws[i] == weightFn.value(ids[i], p)
  {
    if weights.Some? then weights.value else seq(|ids|, i requires 0 <= i < |ids| => weightFn.value(ids[i], p))
  }

  /** `pot[id]` for each id, stopping at the first that is not found. */
  function LookupAll(pot: Pot, ids: seq<Uuid>): (r: Result<seq<Obj>>)
    ensures r.Failure? <==> exists i :: 0 <= i < |ids| && Get(pot, UuidKey(ids[i])).Failure?
    ensures r.Failure? ==> r.error == OXception(NotFoundMessage)
    ensures r.Success? ==> |r.value| == |ids|
                           && forall i :: 0 <= i < |ids| ==> Get(pot, UuidKey(ids[i])) == Success(r.value[i])
  {
    if |ids| == 0 then Success([])
    else
      var o :- Get(pot, UuidKey(ids[0]));
      var rest :- LookupAll(pot, ids[1..]);
      assert forall i :: 1 <= i < |ids| ==> ids[i] == ids[1..][i - 1];
      Success([o] + rest)
  }

  /** The `name` attribute of each object, AttributeError for the first
      object that is not a variable. */
  function Names(objs: seq<Obj>): (r: Result<seq<string>>)
    ensures r.Failure? <==> exists i :: 0 <= i < |objs| && !IsVariable(objs[i])
    ensures r.Failure? ==> r.error == AttributeError
    ensures r.Success? ==> |r.value| == |objs|
                           && forall i :: 0 <= i < |objs| ==> r.value[i] == AsVariable(objs[i]).name
  {
    if |objs| == 0 then Success([])
    else if !IsVariable(objs[0]) then Failure(AttributeError)
    else
      var rest :- Names(objs[1..]);
      assert forall i :: 1 <= i < |objs| ==> objs[i] == objs[1..][i - 1];
      Success([AsVariable(objs[0]).name] + rest)
  }

  /** `w < 0` for a weight; weights have positive denominators. */
  predicate IsNegative(w: Frac) {
    w.num < 0
  }

  function AbsFrac(w: Frac): Frac {
    Frac(Abs(w.num), w.den)
  }

  /** One generated term "|w|*name"; `show` is the text `str` gives the
      absolute weight. */
  function Term(w: Frac, name: string, show: Frac -> string): string {
    show(AbsFrac(w)) + "*" + name
  }

  /** The prefix of a term: " - " for a negative weight, " + " otherwise,
      except that a first positive term has none. */
  function Prefix(w: Frac, first: bool): (s: string)
    ensures s == " - " <==> IsNegative(w)
    ensures s == "" <==> first && !IsNegative(w)
  {
    if IsNegative(w) then " - " else if first then "" else " + "
  }

  /** The terms, each behind its prefix, concatenated. */
  function JoinTerms(ws: seq<Frac>, names: seq<string>, show: Frac -> string, first: bool): string
    requires |ws| == |names|
  {
    if |ws| == 0 then ""
    else Prefix(ws[0], first) + Term(ws[0], names[0], show) + JoinTerms(ws[1..], names[1..], show, false)
  }

  /** The name `create_constraint` generates when none is given: look up
      every variable, join the terms and strip the result. An empty
      constraint raises IndexError on `prefixes[0]`. */
  function DefaultName(p: Problem, ids: seq<Uuid>, ws: seq<Frac>, show: Frac -> string): (r: Result<string>)
    requires |ids| == |ws|
    ensures LookupAll(p.variables, ids).Failure? ==> r == Failure(OXception(NotFoundMessage))
    ensures LookupAll(p.variables, ids).Success? && Valid(p) && |ids| == 0 ==> r == Failure(IndexError)
    ensures LookupAll(p.variables, ids).Success? && Valid(p) && |ids| > 0 ==> r.Success?
    ensures r.Success? ==> |ids| > 0 && Names(LookupAll(p.variables, ids).value).Success?
    ensures r.Success? ==>
      r.value == Strip(JoinTerms(ws, Names(LookupAll(p.variables, ids).value).value, show, true))
  {
    var objs :- LookupAll(p.variables, ids);
    assert Valid(p) ==> forall o :: o in objs ==> IsVariable(o) by {
      if Valid(p) {
        forall o | o in objs ensures IsVariable(o) {
          var i :| 0 <= i < |objs| && objs[i] == o;
          assert Get(p.variables, UuidKey(ids[i])) == Success(o);
        }
      }
    }
    var names :- Names(objs);
    if |ws| == 0 then Failure(IndexError)
    else Success(Strip(JoinTerms(ws, names, show, true)))
  }

  /** Stripping leaves a string alone when it starts and ends with a
      non-space character. */
  lemma StripUnspaced(s: string)
    requires Unspaced(s)
    ensures Strip(s) == s
  {
    assert SkipSpaces(s, 0) == 0;
    assert TrimEnd(s, 0, |s|) == |s|;
    assert s[0..|s|] == s;
  }

  /** `s` is nonempty and starts and ends with a non-space character. */
  predicate Unspaced(s: string) {
    |s| > 0 && !IsSpace(s[0]) && !IsSpace(s[|s| - 1])
  }

  /** The two-term names: terms joined by " + " or " - " by the sign of the
      second weight; a positive first term has no prefix, a negative one
      keeps "- " after stripping. */
  lemma TwoTermName(w0: Frac, w1: Frac, x: string, y: string, show: Frac -> string)
    requires Unspaced(show(AbsFrac(w0))) && Unspaced(y)
    ensures var name := Strip(JoinTerms([w0, w1], [x, y], show, true));
      var rest := Term(w0, x, show) + (if IsNegative(w1) then " - " else " + ") + Term(w1, y, show);
      name == (if IsNegative(w0) then "- " else "") + rest
  {
    var ws, ns := [w0, w1], [x, y];
    var t0, t1 := Term(w0, x, show), Term(w1, y, show);
    var sep := Prefix(w1, false);
    assert sep == if IsNegative(w1) then " - " else " + ";
    assert ws[1..] == [w1] && ns[1..] == [y];
    assert JoinTerms([w1], [y], show, false) == sep + t1 + JoinTerms([], [], show, false);
    var rest := t0 + sep + t1;
    assert JoinTerms(ws, ns, show, true) == Prefix(w0, true) + rest;
    assert t0[0] == show(AbsFrac(w0))[0];
    assert rest[|rest| - 1] == y[|y| - 1];
    if IsNegative(w0) {
      var u := "- " + rest;
      assert JoinTerms(ws, ns, show, true) == " " + u;
      StripLeadingSpace(u);
      StripUnspaced(u);
    } else {
      assert JoinTerms(ws, ns, show, true) == rest;
      StripUnspaced(rest);
    }
  }

  /** One leading space is stripped away. */
  lemma StripLeadingSpace(u: string)
    requires Unspaced(u)
    ensures Strip(" " + u) == u
  {
    var s := " " + u;
    assert SkipSpaces(s, 1) == 1;
    assert SkipSpaces(s, 0) == 1;
    assert TrimEnd(s, 1, |s|) == |s|;
    assert s[1..|s|] == u;
  }

  /** The case in the repository's tests: weights 1 and -2 on x and y give "1*x - 2*y". */
  lemma DefaultNameExample(show: Frac -> string)
    requires show(Frac(1, 1)) == "1" && show(Frac(2, 1)) == "2"
    ensures Strip(JoinTerms([Frac(1, 1), Frac(-2, 1)], ["x", "y"], show, true)) == "1*x - 2*y"
  {
    assert show(AbsFrac(Frac(1, 1))) == "1" && show(AbsFrac(Frac(-2, 1))) == "2";
    TwoTermName(Frac(1, 1), Frac(-2, 1), "x", "y", show);
    ExampleNameText();
  }

  lemma ExampleNameText()
    ensures "1*x" + " - " + "2*y" == "1*x - 2*y"
  {
  }

  /** The constraint `create_constraint` builds, before it is added. */
  function BuildConstraint(p: Problem, search: Option<Obj -> bool>, weightFn: Option<(Uuid, Problem) -> Frac>,
                           vars: Option<seq<Uuid>>, weights: Option<seq<Frac>>, op: RelOp, value: Frac,
                           name: Option<string>, show: Frac -> string, cid: Uuid): (r: Result<Constraint>)
    ensures var check := CheckParameters(search.Some?, vars, weightFn.Some?, weights);
      check.Some? ==> r == Failure(OXception(check.value))
    ensures r.Success? ==>
      var ids := SelectedIds(p, search, vars);
      var ws := SelectedWeights(p, weightFn, ids, weights);
      r.value.id == cid && r.value.op == op && r.value.rhs == value
      && r.value.expression == Expression(ids, ws) && |ids| == |ws|
      && (name.Some? ==> r.value.name == name.value)
      && (name.None? ==> DefaultName(p, ids, ws, show) == Success(r.value.name))
    ensures CheckParameters(search.Some?, vars, weightFn.Some?, weights).None? && name.Some? ==> r.Success?
  {
    var check := CheckParameters(search.Some?, vars, weightFn.Some?, weights);
    if check.Some? then Failure(OXception(check.value))
    else
      var ids := SelectedIds(p, search, vars);
      var ws := SelectedWeights(p, weightFn, ids, weights);
      var n :- if name.Some? then Success(name.value) else DefaultName(p, ids, ws, show);
      Success(Constraint(cid, Expression(ids, ws), op, value, n))
  }

  /** `create_constraint`: build the constraint and add it to the
      constraint set; nothing else changes. */
  function CreateConstraint(p: Problem, search: Option<Obj -> bool>, weightFn: Option<(Uuid, Problem) -> Frac>,
                            vars: Option<seq<Uuid>>, weights: Option<seq<Frac>>, op: RelOp, value: Frac,
                            name: Option<string>, show: Frac -> string, cid: Uuid): (r: Result<Problem>)
    ensures var c := BuildConstraint(p, search, weightFn, vars, weights, op, value, name, show, cid);
      (r.Failure? <==> c.Failure?)
      && (r.Failure? ==> r.error == c.error)
      && (r.Success? ==> r.value == p.(constraints := Add(p.constraints, OConstraint(c.value))))
    ensures Valid(p) && r.Success? ==> Valid(r.value)
  {
    var c :- BuildConstraint(p, search, weightFn, vars, weights, op, value, name, show, cid);
    AddKeepsKind(ConstraintSet, p.constraints, OConstraint(c));
    Success(p.(constraints := Add(p.constraints, OConstraint(c))))
  }

  // ---------------------------------------------------------------------------
  // The linear objective
  // ---------------------------------------------------------------------------

  /** OXLPProblem's `create_objective_function`: the same argument check,
      then the selected variables and weights become the objective. */
  function CreateObjective(p: Problem, search: Option<Obj -> bool>, weightFn: Option<(Uuid, Problem) -> Frac>,
                           vars: Option<seq<Uuid>>, weights: Option<seq<Frac>>, t: ObjectiveType)
    : (r: Result<Problem>)
    ensures var check := CheckParameters(search.Some?, vars, weightFn.Some?, weights);
      (r.Failure? <==> check.Some?) && (r.Failure? ==> r.error == OXception(check.value))
    ensures r.Success? ==>
      var ids := SelectedIds(p, search, vars);
      r.value == p.(objective := Expression(ids, SelectedWeights(p, weightFn, ids, weights)), objectiveType := t)
      && r.value.objective.NumberOfVariables() == |r.value.objective.weights|
  {
    var check := CheckParameters(search.Some?, vars, weightFn.Some?, weights);
    if check.Some? then Failure(OXception(check.value))
    else
      var ids := SelectedIds(p, search, vars);
      Success(p.(objective := Expression(ids, SelectedWeights(p, weightFn, ids, weights)), objectiveType := t))
  }

  // ---------------------------------------------------------------------------
  // Goal constraints
  // ---------------------------------------------------------------------------

  /** `id` names a variable of the pot. */
  predicate HasVariable(pot: Pot, id: Uuid) {
    Get(pot, UuidKey(id)).Success? && IsVariable(Get(pot, UuidKey(id)).value)
  }

  function UpperOf(pot: Pot, id: Uuid): Ext
    requires HasVariable(pot, id)
  {
    AsVariable(Get(pot, UuidKey(id)).value).upperBound
  }

  /** The loop of `create_goal_constraint`: the running bound is replaced by
      a variable's upper bound whenever that is strictly greater. A missing
      id raises the lookup's error, a non-variable AttributeError. */
  function MaxUpperFrom(pot: Pot, ids: seq<Uuid>, cur: Ext): (r: Result<Ext>)
    ensures r.Failure? <==> exists i :: 0 <= i < |ids| && !HasVariable(pot, ids[i])
    ensures r.Success? ==> Le(cur, r.value)
    ensures r.Success? ==> forall i :: 0 <= i < |ids| ==> Le(UpperOf(pot, ids[i]), r.value)
    ensures r.Success? ==> r.value == cur || exists i :: 0 <= i < |ids| && r.value == UpperOf(pot, ids[i])
  {
    if |ids| == 0 then Success(cur)
    else
      var o :- Get(pot, UuidKey(ids[0]));
      if !IsVariable(o) then Failure(AttributeError)
      else
        var ub := AsVariable(o).upperBound;
        assert forall i :: 1 <= i < |ids| ==> ids[i] == ids[1..][i - 1];
        var next := if Lt(cur, ub) then ub else cur;
        MaxUpperProps(pot, ids, cur, next);
        MaxUpperFrom(pot, ids[1..], next)
  }

  lemma MaxUpperProps(pot: Pot, ids: seq<Uuid>, cur: Ext, next: Ext)
    requires |ids| > 0 && HasVariable(pot, ids[0])
    requires next == if Lt(cur, UpperOf(pot, ids[0])) then UpperOf(pot, ids[0]) else cur
    ensures Le(cur, next) && Le(UpperOf(pot, ids[0]), next)
  {
  }

  /** `round(upper_bound // 7)`: floor division of a float by 7, then
      `round`, which raises ValueError on the nan that `inf // 7` gives. */
  function GoalBound(ub: Ext): (r: Result<int>)
    ensures r.Failure? <==> !ub.Fin?
    ensures r.Failure? ==> r.error == ValueError
    ensures r.Success? ==> 7.0 * r.value as real <= ub.r < 7.0 * r.value as real + 7.0
  {
    if !ub.Fin? then Failure(ValueError) else Success((ub.r / 7.0).Floor)
  }

  /** `round(upper_bound // 7)` after the loop over the constraint's
      variables that starts from 0: the deviation bound is a seventh of the
      largest of 0 and the variables' upper bounds, rounded down. An
      infinite upper bound makes it raise ValueError. */
  function GoalUpperBound(pot: Pot, ids: seq<Uuid>): (r: Result<int>)
    ensures (forall i :: 0 <= i < |ids| ==> HasVariable(pot, ids[i])) ==>
              (r.Failure? <==> exists i :: 0 <= i < |ids| && UpperOf(pot, ids[i]) == PosInf)
    ensures (exists i :: 0 <= i < |ids| && !HasVariable(pot, ids[i])) ==> r.Failure?
    ensures r.Success? ==> r.value >= 0
    ensures r.Success? ==> forall i :: 0 <= i < |ids| ==>
      HasVariable(pot, ids[i]) && Lt(UpperOf(pot, ids[i]), Fin(7.0 * r.value as real + 7.0))
    ensures r.Success? ==> r.value == 0 || exists i :: (0 <= i < |ids| &&
      HasVariable(pot, ids[i]) && Le(Fin(7.0 * r.value as real), UpperOf(pot, ids[i])))
  {
    match MaxUpperFrom(pot, ids, Fin(0.0))
    case Failure(e) => Failure(e)
    case Success(ub) =>
      GoalBoundFails(pot, ids, ub);
      GoalBoundRange(pot, ids, ub);
      GoalBound(ub)
  }

  /** The running maximum is infinite exactly when some upper bound is. */
  lemma GoalBoundFails(pot: Pot, ids: seq<Uuid>, ub: Ext)
    requires forall i :: 0 <= i < |ids| ==> HasVariable(pot, ids[i])
    requires Le(Fin(0.0), ub)
    requires forall i :: 0 <= i < |ids| ==> Le(UpperOf(pot, ids[i]), ub)
    requires ub == Fin(0.0) || exists i :: 0 <= i < |ids| && ub == UpperOf(pot, ids[i])
    ensures !ub.Fin? <==> exists i :: 0 <= i < |ids| && UpperOf(pot, ids[i]) == PosInf
  {
    if exists i :: 0 <= i < |ids| && UpperOf(pot, ids[i]) == PosInf {
      var i :| 0 <= i < |ids| && UpperOf(pot, ids[i]) == PosInf;
      assert Le(PosInf, ub);
    }
  }

  /** A finite running maximum m from 0 gives floor(m / 7) = k >= 0 with every
      upper bound below 7k + 7 and, unless k is 0, one at least 7k. */
  lemma GoalBoundRange(pot: Pot, ids: seq<Uuid>, ub: Ext)
    requires forall i :: 0 <= i < |ids| ==> HasVariable(pot, ids[i])
    requires Le(Fin(0.0), ub)
    requires forall i :: 0 <= i < |ids| ==> Le(UpperOf(pot, ids[i]), ub)
    requires ub == Fin(0.0) || exists i :: 0 <= i < |ids| && ub == UpperOf(pot, ids[i])
    ensures GoalBound(ub).Success? ==> GoalBound(ub).value >= 0
    ensures GoalBound(ub).Success? ==> forall i :: 0 <= i < |ids| ==>
      HasVariable(pot, ids[i]) && Lt(UpperOf(pot, ids[i]), Fin(7.0 * GoalBound(ub).value as real + 7.0))
    ensures GoalBound(ub).Success? ==>
      GoalBound(ub).value == 0 || exists i :: (0 <= i < |ids| &&
        HasVariable(pot, ids[i]) && Le(Fin(7.0 * GoalBound(ub).value as real), UpperOf(pot, ids[i])))
  {
    if ub.Fin? {
      var k := GoalBound(ub).value;
      var top := 7.0 * k as real + 7.0;
      assert 7.0 * k as real <= ub.r < top && 0.0 <= ub.r;
      assert k >= 0;
      forall i | 0 <= i < |ids| ensures Lt(UpperOf(pot, ids[i]), Fin(top)) {
        assert Le(UpperOf(pot, ids[i]), ub);
      }
      if ub == Fin(0.0) {
        assert k == 0;
      } else {
        var i :| 0 <= i < |ids| && ub == UpperOf(pot, ids[i]);
        assert Le(Fin(7.0 * k as real), UpperOf(pot, ids[i]));
      }
    }
  }

  /** Without a missing variable or an infinite upper bound there is a
      deviation bound. */
  lemma GoalUpperBoundFinite(pot: Pot, ids: seq<Uuid>)
    requires forall i :: 0 <= i < |ids| ==> HasVariable(pot, ids[i]) && UpperOf(pot, ids[i]) != PosInf
    ensures GoalUpperBound(pot, ids).Success?
  {
    assert !exists i :: 0 <= i < |ids| && UpperOf(pot, ids[i]) == PosInf;
  }

  /** The case in the repository's tests: variables with upper bounds 10 and 20 bound the
      deviations by floor(20 / 7) = 2. */
  lemma GoalUpperBoundExample(pot: Pot, a: Uuid, b: Uuid)
    requires HasVariable(pot, a) && HasVariable(pot, b)
    requires UpperOf(pot, a) == Fin(10.0) && UpperOf(pot, b) == Fin(20.0)
    ensures GoalUpperBound(pot, [a, b]) == Success(2)
  {
    var ids := [a, b];
    var r := GoalUpperBound(pot, ids);
    GoalUpperBoundFinite(pot, ids);
    var k := r.value;
    assert Lt(UpperOf(pot, ids[1]), Fin(7.0 * k as real + 7.0));
    assert k == 0 || 7.0 * k as real <= 20.0 by {
      if k != 0 {
        var i :| 0 <= i < |ids| && Le(Fin(7.0 * k as real), UpperOf(pot, ids[i]));
      }
    }
    SeventhOfTwenty(k);
  }

  lemma SeventhOfTwenty(k: int)
    requires 20.0 < 7.0 * k as real + 7.0 && (k == 0 || 7.0 * k as real <= 20.0)
    ensures k == 2
  {
  }

  /** `create_goal_constraint`: create the constraint, take it back out of
      the constraint set, bound its deviations as `GoalUpperBound` says, and
      add its goal form to the goal constraints. An exception after the
      removal leaves the constraint in neither set. */
  function CreateGoalConstraint(p: Problem, search: Option<Obj -> bool>, weightFn: Option<(Uuid, Problem) -> Frac>,
                                vars: Option<seq<Uuid>>, weights: Option<seq<Frac>>, op: RelOp, value: Frac,
                                name: Option<string>, show: Frac -> string,
                                cid: Uuid, goalId: Uuid, posId: Uuid, negId: Uuid): (r: Outcome<Problem>)
    ensures var c := BuildConstraint(p, search, weightFn, vars, weights, op, value, name, show, cid);
      c.Failure? ==> r == Raised(p, c.error)
    ensures r.Done? ==> r.state.(constraints := p.constraints, goalConstraints := p.goalConstraints) == p
    ensures r.Raised? ==> r.state.(constraints := p.constraints) == p
  {
    match BuildConstraint(p, search, weightFn, vars, weights, op, value, name, show, cid)
    case Failure(e) => Raised(p, e)
    case Success(c) => MoveToGoals(p, c, goalId, posId, negId)
  }

  /** The rest of `create_goal_constraint` once the constraint `c` is built:
      add it, take the last constraint back out, bound its deviations and
      add its goal form. */
  function MoveToGoals(p: Problem, c: Constraint, goalId: Uuid, posId: Uuid, negId: Uuid): (r: Outcome<Problem>)
    ensures r.Done? ==> r.state.(constraints := p.constraints, goalConstraints := p.goalConstraints) == p
    ensures r.Raised? ==> r.state.(constraints := p.constraints) == p
  {
    var q := p.(constraints := Add(p.constraints, OConstraint(c)));
    var last := Last(q.constraints).value;
    assert last == OConstraint(c) && last in q.constraints.objects;
    var q' := q.(constraints := TypedRemove(ConstraintSet, q.constraints, last).value);
    match GoalUpperBound(q'.variables, c.expression.variables)
    case Failure(e) => Raised(q', e)
    case Success(k) =>
      Done(q'.(goalConstraints := Add(q'.goalConstraints, OGoal(ToGoal(last.c, goalId, posId, negId, Fin(k as real))))))
  }

  /** When `c` is not already a constraint, the removal undoes the addition:
      the outcome depends only on the deviation bound. */
  lemma MoveToGoalsFresh(p: Problem, c: Constraint, goalId: Uuid, posId: Uuid, negId: Uuid)
    requires OConstraint(c) !in p.constraints.objects
    ensures var r := MoveToGoals(p, c, goalId, posId, negId);
      match GoalUpperBound(p.variables, c.expression.variables)
      case Failure(e) => r == Raised(p, e)
      case Success(k) => r == Done(p.(goalConstraints := Add(p.goalConstraints, OGoal(ToGoal(c, goalId, posId, negId, Fin(k as real))))))
  {
    var q := p.(constraints := Add(p.constraints, OConstraint(c)));
    assert Last(q.constraints).value == OConstraint(c);
    AddRemove(p.constraints, OConstraint(c));
    assert TypedRemove(ConstraintSet, q.constraints, OConstraint(c)) == Success(p.constraints);
    assert q.(constraints := p.constraints) == p;
  }

  /** When the new constraint is not already in the constraint set and no
      variable of it is unbounded above, the constraint moves: the
      constraint set is as before, and its goal form, with deviations bounded
      by `GoalUpperBound`, is appended to the goal constraints. */
  lemma GoalConstraintMoves(p: Problem, search: Option<Obj -> bool>, weightFn: Option<(Uuid, Problem) -> Frac>,
                            vars: Option<seq<Uuid>>, weights: Option<seq<Frac>>, op: RelOp, value: Frac,
                            name: Option<string>, show: Frac -> string,
                            cid: Uuid, goalId: Uuid, posId: Uuid, negId: Uuid, c: Constraint)
    requires BuildConstraint(p, search, weightFn, vars, weights, op, value, name, show, cid) == Success(c)
    requires OConstraint(c) !in p.constraints.objects
    requires forall i :: 0 <= i < |c.expression.variables| ==>
               HasVariable(p.variables, c.expression.variables[i])
               && UpperOf(p.variables, c.expression.variables[i]) != PosInf
    ensures GoalUpperBound(p.variables, c.expression.variables).Success?
    ensures var r := CreateGoalConstraint(p, search, weightFn, vars, weights, op, value, name, show, cid, goalId, posId, negId);
      var k := GoalUpperBound(p.variables, c.expression.variables).value;
      r.Done? && r.state.constraints == p.constraints
      && r.state.goalConstraints == Add(p.goalConstraints, OGoal(ToGoal(c, goalId, posId, negId, Fin(k as real))))
  {
    GoalUpperBoundFinite(p.variables, c.expression.variables);
    MoveToGoalsFresh(p, c, goalId, posId, negId);
  }

  /** An upper bound of +inf, the default of a decision variable, makes
      `inf // 7` nan and `round` raise ValueError, after the constraint has
      left the constraint set: the problem is as before. */
  lemma GoalConstraintInfiniteBound(p: Problem, search: Option<Obj -> bool>, weightFn: Option<(Uuid, Problem) -> Frac>,
                                    vars: Option<seq<Uuid>>, weights: Option<seq<Frac>>, op: RelOp, value: Frac,
                                    name: Option<string>, show: Frac -> string,
                                    cid: Uuid, goalId: Uuid, posId: Uuid, negId: Uuid, c: Constraint, j: nat)
    requires BuildConstraint(p, search, weightFn, vars, weights, op, value, name, show, cid) == Success(c)
    requires OConstraint(c) !in p.constraints.objects
    requires forall i :: 0 <= i < |c.expression.variables| ==> HasVariable(p.variables, c.expression.variables[i])
    requires j < |c.expression.variables| && UpperOf(p.variables, c.expression.variables[j]) == PosInf
    ensures CreateGoalConstraint(p, search, weightFn, vars, weights, op, value, name, show, cid, goalId, posId, negId)
            == Raised(p, ValueError)
  {
    var ids := c.expression.variables;
    assert GoalUpperBound(p.variables, ids) == Failure(ValueError) by {
      var ub := MaxUpperFrom(p.variables, ids, Fin(0.0));
      assert Le(UpperOf(p.variables, ids[j]), ub.value);
    }
    MoveToGoalsFresh(p, c, goalId, posId, negId);
  }

  // ---------------------------------------------------------------------------
  // The goal-programming objective
  // ---------------------------------------------------------------------------

  /** `d` is an undesired deviation of some stored goal (or, with `all`,
      any deviation of one). */
  predicate GoalHasDeviation(goals: seq<Obj>, d: Deviation, all: bool) {
    exists i :: 0 <= i < |goals| && goals[i].OGoal?
                && (d in UndesiredVariables(goals[i].g) || (all && d in DesiredVariables(goals[i].g)))
  }

  /** The undesired deviations of a stored goal; nothing for any other
      stored object. */
  function UndesiredOf(o: Obj): seq<Deviation> {
    if o.OGoal? then UndesiredVariables(o.g) else []
  }

  /** The desired deviations of a stored goal; nothing for any other stored
      object. */
  function DesiredOf(o: Obj): seq<Deviation> {
    if o.OGoal? then DesiredVariables(o.g) else []
  }

  /** The per-goal lists joined in goal order: what `extend` builds. */
  function GoalsUndesired(goals: seq<Obj>): seq<Deviation> {
    if |goals| == 0 then [] else UndesiredOf(goals[0]) + GoalsUndesired(goals[1..])
  }

  function GoalsDesired(goals: seq<Obj>): seq<Deviation> {
    if |goals| == 0 then [] else DesiredOf(goals[0]) + GoalsDesired(goals[1..])
  }

  /** Joining is compositional: the goals of `a` come first, then those of
      `b`, so a goal added later contributes its deviations at the end. */
  lemma {:induction false} GoalsJoin(a: seq<Obj>, b: seq<Obj>)
    ensures GoalsUndesired(a + b) == GoalsUndesired(a) + GoalsUndesired(b)
    ensures GoalsDesired(a + b) == GoalsDesired(a) + GoalsDesired(b)
    decreases |a|
  {
    if |a| > 0 {
      assert (a + b)[1..] == a[1..] + b;
      GoalsJoin(a[1..], b);
    } else {
      assert a + b == b;
    }
  }

  /** One entry per deviation, its variable's id, in list order. */
  function DeviationIds(ds: seq<Deviation>): (ids: seq<Uuid>)
    ensures |ids| == |ds|
    ensures forall i :: 0 <= i < |ds| ==> ids[i] == ds[i].v.id
  {
    seq(|ds|, i requires 0 <= i < |ds| => ds[i].v.id)
  }

  /** The undesired and the desired deviation variables of every goal, goal
      by goal; AttributeError at the first stored constraint that is not a
      goal. */
  function CollectDeviations(goals: seq<Obj>): (r: Result<(seq<Deviation>, seq<Deviation>)>)
    ensures r.Failure? <==> exists i :: 0 <= i < |goals| && !goals[i].OGoal?
    ensures r.Failure? ==> r.error == AttributeError
    ensures r.Success? ==> r.value == (GoalsUndesired(goals), GoalsDesired(goals))
    ensures r.Success? ==> forall d :: d in r.value.0 <==> GoalHasDeviation(goals, d, false)
    ensures r.Success? ==> forall d :: d in r.value.0 + r.value.1 <==> GoalHasDeviation(goals, d, true)
  {
    if |goals| == 0 then Success(([], []))
    else if !goals[0].OGoal? then Failure(AttributeError)
    else
      var rest :- CollectDeviations(goals[1..]);
      assert forall i :: 1 <= i < |goals| ==> goals[i] == goals[1..][i - 1];
      var g := goals[0].g;
      assert forall d, all: bool :: GoalHasDeviation(goals, d, all) <==>
        (d in UndesiredVariables(g) || (all && d in DesiredVariables(g))) || GoalHasDeviation(goals[1..], d, all) by {
        forall d, all: bool ensures GoalHasDeviation(goals, d, all) <==>
          (d in UndesiredVariables(g) || (all && d in DesiredVariables(g))) || GoalHasDeviation(goals[1..], d, all) {
          if GoalHasDeviation(goals[1..], d, all) {
            var i :| 0 <= i < |goals[1..]| && goals[1..][i].OGoal?
                     && (d in UndesiredVariables(goals[1..][i].g) || (all && d in DesiredVariables(goals[1..][i].g)));
            assert goals[i + 1] == goals[1..][i];
          }
        }
      }
      Success((UndesiredVariables(g) + rest.0, DesiredVariables(g) + rest.1))
  }

  /** The loop `if not var in self.variables: add_object(var)`: each
      deviation is appended unless a stored object already has its id. */
  function AddMissing(pot: Pot, ds: seq<Deviation>): (r: Pot)
    ensures r.id == pot.id && |pot.objects| <= |r.objects| && r.objects[..|pot.objects|] == pot.objects
    decreases |ds|
  {
    if |ds| == 0 then pot
    else
      var o := ODeviation(ds[0]);
      var next := if Contains(pot, ProbeObj(o)) then pot else Add(pot, o);
      var r := AddMissing(next, ds[1..]);
      assert next.objects[..|pot.objects|] == pot.objects;
      assert r.objects[..|pot.objects|] == r.objects[..|next.objects|][..|pot.objects|];
      r
  }

  /** Afterwards the pot contains (by id) every deviation given, and what was
      appended are deviations from the list. */
  lemma {:induction false} AddMissingProps(pot: Pot, ds: seq<Deviation>)
    ensures forall d :: d in ds ==> Contains(AddMissing(pot, ds), ProbeObj(ODeviation(d)))
    ensures forall o :: o in AddMissing(pot, ds).objects ==> o in pot.objects || exists d :: d in ds && o == ODeviation(d)
    decreases |ds|
  {
    if |ds| > 0 {
      var o := ODeviation(ds[0]);
      var next := if Contains(pot, ProbeObj(o)) then pot else Add(pot, o);
      var r := AddMissing(next, ds[1..]);
      assert r == AddMissing(pot, ds);
      AddMissingProps(next, ds[1..]);
      assert Contains(next, ProbeObj(o));
      ContainsGrows(next, r, ProbeObj(o));
      assert forall d :: d in ds ==> d == ds[0] || d in ds[1..];
      forall x | x in r.objects ensures x in pot.objects || exists d :: d in ds && x == ODeviation(d) {
        if x !in pot.objects && x in next.objects {
          assert x == o && ds[0] in ds;
        }
      }
    }
  }

  /** The `if not var in self.variables` skip: every appended object carries
      an id the pot did not hold and no other appended object carries. */
  lemma {:induction false} AddMissingSkips(pot: Pot, ds: seq<Deviation>)
    ensures forall i :: |pot.objects| <= i < |AddMissing(pot, ds).objects| ==>
      !Contains(pot, ProbeObj(AddMissing(pot, ds).objects[i]))
    ensures forall i, j :: |pot.objects| <= i < j < |AddMissing(pot, ds).objects| ==>
      Id(AddMissing(pot, ds).objects[i]) != Id(AddMissing(pot, ds).objects[j])
    decreases |ds|
  {
    if |ds| > 0 {
      var o := ODeviation(ds[0]);
      var next := if Contains(pot, ProbeObj(o)) then pot else Add(pot, o);
      var r := AddMissing(next, ds[1..]);
      assert r == AddMissing(pot, ds);
      AddMissingSkips(next, ds[1..]);
      AppendedFresh(pot, o, next, r);
    }
  }

  /** Deviations whose ids are all present already add nothing. */
  lemma {:induction false} AddMissingPresent(pot: Pot, ds: seq<Deviation>)
    requires forall d :: d in ds ==> Contains(pot, ProbeObj(ODeviation(d)))
    ensures AddMissing(pot, ds) == pot
    decreases |ds|
  {
    if |ds| > 0 {
      assert ds[0] in ds;
      assert forall d :: d in ds[1..] ==> d in ds;
      AddMissingPresent(pot, ds[1..]);
    }
  }

  /** The step of `AddMissingProps`: `next` is `pot`, or `pot` with `o`
      appended when its id was absent; what `r` appends past `next` is new to
      `next` and pairwise distinct, so what it appends past `pot` is too. */
  lemma AppendedFresh(pot: Pot, o: Obj, next: Pot, r: Pot)
    requires next == if Contains(pot, ProbeObj(o)) then pot else Add(pot, o)
    requires |next.objects| <= |r.objects| && r.objects[..|next.objects|] == next.objects
    requires forall i :: |next.objects| <= i < |r.objects| ==> !Contains(next, ProbeObj(r.objects[i]))
    requires forall i, j :: |next.objects| <= i < j < |r.objects| ==> Id(r.objects[i]) != Id(r.objects[j])
    ensures forall i :: |pot.objects| <= i < |r.objects| ==> !Contains(pot, ProbeObj(r.objects[i]))
    ensures forall i, j :: |pot.objects| <= i < j < |r.objects| ==> Id(r.objects[i]) != Id(r.objects[j])
  {
    if !Contains(pot, ProbeObj(o)) {
      var n := |pot.objects|;
      assert r.objects[n] == next.objects[n] == o;
      forall i | n < i < |r.objects| ensures !Contains(pot, ProbeObj(r.objects[i])) && Id(o) != Id(r.objects[i]) {
        assert !Contains(next, ProbeObj(r.objects[i]));
        assert o in next.objects;
        forall x | x in pot.objects ensures Id(x) != Id(r.objects[i]) {
          assert x in next.objects;
        }
      }
    }
  }

  /** A pot that extends another contains everything the other contains. */
  lemma ContainsGrows(p: Pot, q: Pot, x: Probe)
    requires |p.objects| <= |q.objects| && q.objects[..|p.objects|] == p.objects
    requires Contains(p, x)
    ensures Contains(q, x)
  {
    var o :| o in p.objects && Id(o) == ProbeTarget(x);
    var i :| 0 <= i < |p.objects| && p.objects[i] == o;
    assert q.objects[i] == q.objects[..|p.objects|][i];
  }

  /** OXGPProblem's `create_objective_function`, which ignores its
      arguments: minimise the sum of the undesired deviations of every goal,
      in goal order, each with weight 1, after adding the deviation
      variables the variable set does not yet contain. Nothing else
      changes. */
  function CreateGoalObjective(p: Problem): (r: Outcome<Problem>)
    ensures r.Raised? <==> exists i :: 0 <= i < p.goalConstraints.Len() && !p.goalConstraints.objects[i].OGoal?
    ensures r.Raised? ==> r == Raised(p, AttributeError)
    ensures r.Done? ==> r.state.(variables := p.variables, objective := p.objective, objectiveType := p.objectiveType) == p
    ensures r.Done? ==> r.state.objectiveType == Minimize
                        && |r.state.objective.variables| == |r.state.objective.weights|
                        && forall i :: 0 <= i < |r.state.objective.weights| ==> r.state.objective.weights[i] == Frac(1, 1)
    ensures r.Done? ==> |p.variables.objects| <= |r.state.variables.objects|
                        && r.state.variables.objects[..|p.variables.objects|] == p.variables.objects
    ensures r.Done? ==> forall d :: GoalHasDeviation(p.goalConstraints.objects, d, true)
                          ==> Contains(r.state.variables, ProbeObj(ODeviation(d)))
    ensures r.Done? ==> forall id :: id in r.state.objective.variables <==>
                          exists d :: GoalHasDeviation(p.goalConstraints.objects, d, false) && id == d.v.id
    ensures r.Done? ==> r.state.objective.variables == DeviationIds(GoalsUndesired(p.goalConstraints.objects))
    ensures Valid(p) && r.Done? ==> Valid(r.state)
  {
    match CollectDeviations(p.goalConstraints.objects)
    case Failure(e) => Raised(p, e)
    case Success(lists) =>
      var undesired := lists.0;
      var vs := AddMissing(p.variables, undesired + lists.1);
      var ids := DeviationIds(undesired);
      var ws := seq(|undesired|, i requires 0 <= i < |undesired| => Frac(1, 1));
      GoalObjectiveFacts(p, undesired, lists.1, vs, ids);
      Done(p.(variables := vs, objective := Expression(ids, ws), objectiveType := Minimize))
  }

  lemma GoalObjectiveFacts(p: Problem, undesired: seq<Deviation>, desired: seq<Deviation>, vs: Pot, ids: seq<Uuid>)
    requires CollectDeviations(p.goalConstraints.objects) == Success((undesired, desired))
    requires vs == AddMissing(p.variables, undesired + desired)
    requires |ids| == |undesired| && forall i :: 0 <= i < |undesired| ==> ids[i] == undesired[i].v.id
    ensures forall d :: GoalHasDeviation(p.goalConstraints.objects, d, true) ==> Contains(vs, ProbeObj(ODeviation(d)))
    ensures forall id :: id in ids <==> exists d :: GoalHasDeviation(p.goalConstraints.objects, d, false) && id == d.v.id
    ensures Valid(p) ==> Valid(p.(variables := vs))
  {
    AddMissingProps(p.variables, undesired + desired);
    forall id | id in ids
      ensures exists d :: GoalHasDeviation(p.goalConstraints.objects, d, false) && id == d.v.id
    {
      var j :| 0 <= j < |ids| && ids[j] == id;
      assert undesired[j] in undesired;
    }
    forall id | exists d :: GoalHasDeviation(p.goalConstraints.objects, d, false) && id == d.v.id
      ensures id in ids
    {
      var d :| GoalHasDeviation(p.goalConstraints.objects, d, false) && id == d.v.id;
      var j :| 0 <= j < |undesired| && undesired[j] == d;
      assert ids[j] == id;
    }
  }
}

=== FILE: rhs_analysis.dfy ===
/** OXRightHandSideAnalysis over given scenario results: each constraint's
    slack and binding scenarios, its right-hand side read under every
    scenario (with the database's active scenarios restored afterwards), the
    sensitivity ratio, criticality, and the result's two list queries. */
module RhsAnalysis {
  import opened Base
  import opened Constraints
  import opened Data
  import opened Orders
  import opened Solutions
  import Objects

  /** The binding tolerance, 1e-6. */
  const BindingTolerance: real := 0.000001

  // ---------------------------------------------------------------------------
  // Slack and binding
  // ---------------------------------------------------------------------------

  /** The slack of a solved constraint, chosen by the constraint's own
      operator: rhs - lhs for <=, lhs - rhs for >=, and |lhs - rhs| for every
      other operator, the strict ones included. */
  function Slack(op: RelOp, lhs: real, rhs: real): (s: real)
    ensures (op == LessThanEqual || op == GreaterThanEqual) ==> (s >= 0.0 <==> Holds(op, lhs, rhs))
    ensures op != LessThanEqual && op != GreaterThanEqual ==> s >= 0.0 && (s == 0.0 <==> lhs == rhs)
    ensures AbsReal(s) == AbsReal(lhs - rhs)
  {
    if op == LessThanEqual then rhs - lhs
    else if op == GreaterThanEqual then lhs - rhs
    else AbsReal(lhs - rhs)
  }

  predicate IsBinding(slack: real) {
    AbsReal(slack) < BindingTolerance
  }

  /** Binding does not depend on the operator or on which side of its bound
      the solution lies: it is |lhs - rhs| < 1e-6. A `<=` constraint violated
      by less than the tolerance is binding too. */
  lemma BindingIgnoresOperator(op: RelOp, lhs: real, rhs: real)
    ensures IsBinding(Slack(op, lhs, rhs)) <==> -BindingTolerance < lhs - rhs < BindingTolerance
  {
    if lhs - rhs < 0.0 {
      assert AbsReal(lhs - rhs) == rhs - lhs;
    }
  }

  /** A scenario reports the constraint: status OPTIMAL, a solution, and the
      constraint among the solution's evaluated constraints. */
  predicate Reports(r: ScenarioResult, id: Uuid) {
    r.status == Optimal && r.solution.Some? && id in r.solution.value.constraintValues
  }

  /** The slack of `c` in a reporting scenario, from the solution's lhs and
      rhs and the constraint's operator (the solution's operator is unused). */
  function SlackIn(r: ScenarioResult, c: Constraint): real
    requires Reports(r, c.id)
  {
    var v := r.solution.value.constraintValues[c.id];
    Slack(c.op, v.0, v.2)
  }

  predicate BindsIn(r: ScenarioResult, c: Constraint) {
    Reports(r, c.id) && IsBinding(SlackIn(r, c))
  }

  /** `slack_values`: the slack in every reporting scenario. */
  function SlackValues(rs: ScenarioResults, c: Constraint): (m: map<string, real>)
    ensures forall n :: n in m <==> exists i :: 0 <= i < |rs| && rs[i].0 == n && Reports(rs[i].1, c.id)
  {
    if |rs| == 0 then map[]
    else
      var rest := SlackValues(rs[1..], c);
      assert forall i :: 0 < i < |rs| ==> rs[i] == rs[1..][i - 1];
      (if Reports(rs[0].1, c.id) then map[rs[0].0 := SlackIn(rs[0].1, c)] else map[]) + rest
  }

  /** A later scenario of the same name overwrites an earlier one, as a
      dictionary assignment does: the stored slack is the last one's. */
  lemma {:induction false} SlackValuesLastWins(rs: ScenarioResults, c: Constraint, i: nat)
    requires i < |rs| && Reports(rs[i].1, c.id)
    requires forall j :: i < j < |rs| ==> rs[j].0 != rs[i].0
    ensures rs[i].0 in SlackValues(rs, c) && SlackValues(rs, c)[rs[i].0] == SlackIn(rs[i].1, c)
  {
    if i > 0 {
      assert forall j :: i - 1 < j < |rs[1..]| ==> rs[1..][j] == rs[j + 1];
      SlackValuesLastWins(rs[1..], c, i - 1);
    } else {
      assert forall j :: 0 <= j < |rs[1..]| ==> rs[1..][j].0 != rs[0].0;
    }
  }

  /** `binding_scenarios`: the names, in scenario order, of the reporting
      scenarios whose slack is binding. */
  function BindingScenarios(rs: ScenarioResults, c: Constraint): (b: seq<string>)
    ensures forall n :: n in b <==> exists i :: 0 <= i < |rs| && rs[i].0 == n && BindsIn(rs[i].1, c)
  {
    if |rs| == 0 then []
    else
      assert forall i :: 0 < i < |rs| ==> rs[i] == rs[1..][i - 1];
      (if BindsIn(rs[0].1, c) then [rs[0].0] else []) + BindingScenarios(rs[1..], c)
  }

  lemma {:induction false} BindingScenariosOrdered(rs: ScenarioResults, c: Constraint)
    ensures IsSubsequence(BindingScenarios(rs, c), Names(rs))
  {
    if |rs| > 0 {
      BindingScenariosOrdered(rs[1..], c);
      var rest := BindingScenarios(rs[1..], c);
      assert Names(rs)[1..] == Names(rs[1..]);
      if BindsIn(rs[0].1, c) {
        assert BindingScenarios(rs, c) == [rs[0].0] + rest;
        assert ([rs[0].0] + rest)[1..] == rest;
        assert Names(rs)[0] == rs[0].0;
      } else {
        assert BindingScenarios(rs, c) == rest;
        SkipHead(rest, Names(rs));
      }
    }
  }

  /** Every binding scenario has a recorded slack, and in a dictionary of
      results that slack is binding. */
  lemma BindingHasSlack(rs: ScenarioResults, c: Constraint)
    requires DistinctNames(rs)
    ensures forall n :: n in BindingScenarios(rs, c) ==>
      n in SlackValues(rs, c) && IsBinding(SlackValues(rs, c)[n])
  {
    forall n | n in BindingScenarios(rs, c)
      ensures n in SlackValues(rs, c) && IsBinding(SlackValues(rs, c)[n])
    {
      var i :| 0 <= i < |rs| && rs[i].0 == n && BindsIn(rs[i].1, c);
      SlackValuesLastWins(rs, c, i);
    }
  }

  // ---------------------------------------------------------------------------
  // Scenario objectives and the success rate
  // ---------------------------------------------------------------------------

  /** Solved in the sense of the RHS analysis: OPTIMAL with a solution
      (FEASIBLE does not count here). */
  predicate Solved(r: ScenarioResult) {
    r.status == Optimal && r.solution.Some?
  }

  /** `scenario_objective_values`. */
  function ObjectiveValues(rs: ScenarioResults): (m: map<string, real>)
    ensures forall n :: n in m <==> exists i :: 0 <= i < |rs| && rs[i].0 == n && Solved(rs[i].1)
  {
    if |rs| == 0 then map[]
    else
      assert forall i :: 0 < i < |rs| ==> rs[i] == rs[1..][i - 1];
      (if Solved(rs[0].1) then map[rs[0].0 := rs[0].1.solution.value.objectiveValue] else map[])
        + ObjectiveValues(rs[1..])
  }

  /** The value stored under a solved scenario's name is its objective
      value, unless a later scenario of the same name overwrites it. */
  lemma {:induction false} ObjectiveValuesLastWins(rs: ScenarioResults, i: nat)
    requires i < |rs| && Solved(rs[i].1)
    requires forall j :: i < j < |rs| ==> rs[j].0 != rs[i].0
    ensures rs[i].0 in ObjectiveValues(rs)
    ensures ObjectiveValues(rs)[rs[i].0] == rs[i].1.solution.value.objectiveValue
  {
    if i > 0 {
      assert forall j :: i - 1 < j < |rs[1..]| ==> rs[1..][j] == rs[j + 1];
      ObjectiveValuesLastWins(rs[1..], i - 1);
    } else {
      assert forall j :: 0 <= j < |rs[1..]| ==> rs[1..][j].0 != rs[0].0;
    }
  }

  /** `feasible_scenario_count`: one per solved scenario. */
  function FeasibleCount(rs: ScenarioResults): (k: nat)
    ensures k <= |rs|
  {
    if |rs| == 0 then 0
    else (if Solved(rs[0].1) then 1 else 0) + FeasibleCount(rs[1..])
  }

  lemma AddFreshKey(k: string, v: real, m: map<string, real>)
    requires k !in m
    ensures |map[k := v] + m| == |m| + 1
  {
    assert (map[k := v] + m).Keys == m.Keys + {k};
  }

  /** On a dictionary of results the count is the number of recorded
      objective values. */
  lemma {:induction false} FeasibleCountIsSize(rs: ScenarioResults)
    requires DistinctNames(rs)
    ensures FeasibleCount(rs) == |ObjectiveValues(rs)|
  {
    if |rs| > 0 {
      var rest := ObjectiveValues(rs[1..]);
      assert DistinctNames(rs[1..]);
      FeasibleCountIsSize(rs[1..]);
      if Solved(rs[0].1) {
        assert forall j :: 0 <= j < |rs[1..]| ==> rs[1..][j].0 != rs[0].0;
        assert rs[0].0 !in rest;
        AddFreshKey(rs[0].0, rs[0].1.solution.value.objectiveValue, rest);
      } else {
        assert map[] + rest == rest;
      }
    }
  }

  /** `scenario_feasibility`: each scenario's status is OPTIMAL. */
  function Feasibility(rs: ScenarioResults): (m: map<string, bool>)
    ensures forall n :: n in m <==> n in Names(rs)
    ensures DistinctNames(rs) ==> forall i :: 0 <= i < |rs| ==> m[rs[i].0] == (rs[i].1.status == Optimal)
  {
    if |rs| == 0 then map[]
    else
      var rest := Feasibility(rs[1..]);
      assert forall n :: n in Names(rs) <==> n == rs[0].0 || n in Names(rs[1..]) by {
        assert Names(rs) == [rs[0].0] + Names(rs[1..]);
      }
      assert forall i :: 0 < i < |rs| ==> rs[i] == rs[1..][i - 1];
      DistinctTail(rs);
      MergeHead(rs[0].0, rs[0].1.status == Optimal, rest);
      map[rs[0].0 := rs[0].1.status == Optimal] + rest
  }

  // ---------------------------------------------------------------------------
  // One constraint's analysis
  // ---------------------------------------------------------------------------

  /** `get_rhs_statistics` without the float statistics. */
  datatype RhsStats = RhsStats(minimum: real, maximum: real, range: real)

  /** OXConstraintRHSAnalysis (shadow prices are never filled in). */
  datatype ConstraintAnalysis = ConstraintAnalysis(
    constraintId: Uuid,
    constraintName: string,
    rhsValues: map<string, real>,
    bindingScenarios: seq<string>,
    slackValues: map<string, real>,
    rhsRange: Option<RhsStats>,
    sensitivity: real,
    constraintType: string)

  /** `get_rhs_statistics`: nothing for no values, otherwise the least and
      greatest value and their difference. */
  function RhsStatistics(values: map<string, real>): (r: Option<RhsStats>)
    ensures r.None? <==> |values| == 0
    ensures r.Some? ==> r.value.minimum in values.Values && r.value.maximum in values.Values
    ensures r.Some? ==> r.value.range == r.value.maximum - r.value.minimum
    ensures r.Some? ==> forall n :: n in values ==> r.value.minimum <= values[n] <= r.value.maximum
  {
    if |values| == 0 then None
    else
      Inhabited(values.Keys);
      var n :| n in values.Keys;
      assert values[n] in values.Values;
      var lo, hi := SetMin(values.Values), SetMax(values.Values);
      assert forall k :: k in values ==> values[k] in values.Values;
      Some(RhsStats(lo, hi, hi - lo))
  }

  /** The spread `max - min` of the values of `m` over `keys`, which does not
      depend on the order the keys are visited in. */
  function Range(m: map<string, real>, keys: set<string>): (r: real)
    requires keys != {} && keys <= m.Keys
    ensures r >= 0.0
    ensures forall a, b :: a in keys && b in keys ==> m[a] - m[b] <= r
    ensures exists a, b :: a in keys && b in keys && m[a] - m[b] == r
    ensures r == 0.0 <==> forall a, b :: a in keys && b in keys ==> m[a] == m[b]
  {
    var vs := set k | k in keys :: m[k];
    Inhabited(keys);
    var k0 :| k0 in keys;
    assert m[k0] in vs;
    var hi, lo := SetMax(vs), SetMin(vs);
    assert forall a :: a in keys ==> m[a] in vs;
    var a0 :| a0 in keys && m[a0] == hi;
    var b0 :| b0 in keys && m[b0] == lo;
    hi - lo
  }

  /** `_calculate_constraint_sensitivity`: 0 with fewer than two rhs values,
      fewer than two scenarios having both an rhs value and an objective
      value, or a constant rhs over those; otherwise |objective spread / rhs
      spread| over those scenarios. */
  function Sensitivity(rhs: map<string, real>, objectives: map<string, real>): (s: real)
    ensures s >= 0.0
    ensures |rhs| < 2 || |rhs.Keys * objectives.Keys| < 2 ==> s == 0.0
  {
    if |rhs| < 2 then 0.0
    else
      var common := rhs.Keys * objectives.Keys;
      if |common| < 2 then 0.0
      else
        var rr := Range(rhs, common);
        if rr == 0.0 then 0.0 else AbsReal(Range(objectives, common) / rr)
  }

  /** The objective spread is `s` times the rhs spread. */
  predicate Spreads(s: real, rhsSpread: real, objectiveSpread: real) {
    s * rhsSpread == objectiveSpread
  }

  /** What the ratio means: over the common scenarios, the objective's spread
      is the sensitivity times the rhs's spread; a constant rhs gives 0. */
  lemma SensitivityMeaning(rhs: map<string, real>, objectives: map<string, real>)
    requires |rhs| >= 2 && |rhs.Keys * objectives.Keys| >= 2
    ensures Range(rhs, rhs.Keys * objectives.Keys) == 0.0 ==> Sensitivity(rhs, objectives) == 0.0
    ensures Range(rhs, rhs.Keys * objectives.Keys) > 0.0 ==>
      Spreads(Sensitivity(rhs, objectives), Range(rhs, rhs.Keys * objectives.Keys),
              Range(objectives, rhs.Keys * objectives.Keys))
  {
    SensitivityValue(rhs, objectives);
    if Range(rhs, rhs.Keys * objectives.Keys) > 0.0 {
      RatioTimes(Range(objectives, rhs.Keys * objectives.Keys), Range(rhs, rhs.Keys * objectives.Keys));
    }
  }

  lemma SensitivityValue(rhs: map<string, real>, objectives: map<string, real>)
    requires |rhs| >= 2 && |rhs.Keys * objectives.Keys| >= 2
    ensures Sensitivity(rhs, objectives)
         == if Range(rhs, rhs.Keys * objectives.Keys) == 0.0 then 0.0
            else AbsReal(Range(objectives, rhs.Keys * objectives.Keys) / Range(rhs, rhs.Keys * objectives.Keys))
  {
  }

  lemma RatioTimes(a: real, b: real)
    requires a >= 0.0 && b > 0.0
    ensures Spreads(AbsReal(a / b), b, a)
  {
    assert a / b >= 0.0;
  }

  /** An rhs that is the same in every scenario has sensitivity 0. */
  lemma ConstantRhsInsensitive(rhs: map<string, real>, objectives: map<string, real>, v: real)
    requires forall n :: n in rhs ==> rhs[n] == v
    ensures Sensitivity(rhs, objectives) == 0.0
  {
    var common := rhs.Keys * objectives.Keys;
    if |rhs| >= 2 && |common| >= 2 {
      assert Range(rhs, common) == 0.0;
    }
  }

  /** `binding / len(rhs_values)`, 0 when there are no rhs values. */
  function BindingRate(a: ConstraintAnalysis): real {
    if |a.rhsValues| == 0 then 0.0 else |a.bindingScenarios| as real / |a.rhsValues| as real
  }

  /** `is_critical_constraint(threshold)`: false without rhs values or
      without binding scenarios, otherwise the binding rate reaches the
      threshold. */
  function IsCritical(a: ConstraintAnalysis, threshold: real): (b: bool)
    ensures b <==> |a.rhsValues| > 0 && |a.bindingScenarios| > 0
                   && |a.bindingScenarios| as real >= threshold * |a.rhsValues| as real
  {
    if |a.rhsValues| == 0 || |a.bindingScenarios| == 0 then false
    else
      var n, d := |a.bindingScenarios| as real, |a.rhsValues| as real;
      assert BindingRate(a) * d == n;
      assert BindingRate(a) >= threshold <==> BindingRate(a) * d >= threshold * d;
      BindingRate(a) >= threshold
  }

  /** With the threshold `analyze` uses, critical means binding in at least
      half of the scenarios with an rhs value; and a lower threshold keeps
      every critical constraint critical. */
  lemma CriticalThresholds(a: ConstraintAnalysis, t1: real, t2: real)
    ensures IsCritical(a, 0.5) <==> |a.bindingScenarios| > 0 && 2 * |a.bindingScenarios| >= |a.rhsValues| > 0
    ensures t1 <= t2 && IsCritical(a, t2) ==> IsCritical(a, t1)
  {
    if t1 <= t2 && IsCritical(a, t2) {
      assert t1 * |a.rhsValues| as real <= t2 * |a.rhsValues| as real;
    }
  }

  // ---------------------------------------------------------------------------
  // Reading the rhs under a scenario
  // ---------------------------------------------------------------------------

  /** `original_scenarios`: each object's active scenario by id (a later
      object with the same id overwrites an earlier one). */
  function Originals(db: seq<DataObject>): (m: map<Uuid, string>)
    ensures m.Keys == set i | 0 <= i < |db| :: db[i].id
  {
    if |db| == 0 then map[]
    else
      assert forall i :: 0 < i < |db| ==> db[i] == db[1..][i - 1];
      map[db[0].id := db[0].activeScenario] + Originals(db[1..])
  }

  /** Objects sharing an id share an active scenario, as they must when the
      same object was added to the database twice. */
  predicate ConsistentIds(db: seq<DataObject>) {
    forall i, j :: 0 <= i < |db| && 0 <= j < |db| && db[i].id == db[j].id ==>
      db[i].activeScenario == db[j].activeScenario
  }

  /** In a consistent database the recorded scenario of every object's id
      is that object's own. */
  lemma {:induction false} OriginalsConsistent(db: seq<DataObject>)
    requires ConsistentIds(db)
    ensures forall i :: 0 <= i < |db| ==> Originals(db)[db[i].id] == db[i].activeScenario
  {
    if |db| > 0 {
      var rest := Originals(db[1..]);
      assert ConsistentIds(db[1..]);
      OriginalsConsistent(db[1..]);
      forall i | 0 <= i < |db| ensures Originals(db)[db[i].id] == db[i].activeScenario {
        if i > 0 {
          assert db[1..][i - 1] == db[i];
        } else if db[0].id in rest {
          var k :| 0 <= k < |db[1..]| && db[1..][k].id == db[0].id;
          assert db[k + 1] == db[1..][k];
        }
      }
    }
  }

  /** The switch before the read: the requested scenario where the object
      has it, "Default" otherwise. */
  function SwitchAll(db: seq<DataObject>, scenario: string): (e: seq<DataObject>)
    ensures |e| == |db|
    ensures forall i :: 0 <= i < |db| ==>
      e[i] == SetActive(db[i], if scenario in db[i].scenarios then scenario else DefaultScenario)
  {
    seq(|db|, i requires 0 <= i < |db| =>
      SetActive(db[i], if scenario in db[i].scenarios then scenario else DefaultScenario))
  }

  /** The `finally` block: every object whose id was recorded gets the
      recorded scenario back. */
  function RestoreAll(db: seq<DataObject>, originals: map<Uuid, string>): (e: seq<DataObject>)
    ensures |e| == |db|
    ensures forall i :: 0 <= i < |db| && db[i].id in originals ==>
      e[i].activeScenario == originals[db[i].id] && e[i] == db[i].(activeScenario := e[i].activeScenario)
    ensures forall i :: 0 <= i < |db| && db[i].id !in originals ==> e[i] == db[i]
  {
    seq(|db|, i requires 0 <= i < |db| =>
      if db[i].id in originals then SetActive(db[i], originals[db[i].id]) else db[i])
  }

  /** `_extract_rhs_values_for_constraint`: the rhs value and the database
      after the `finally`. Only active scenarios are touched, and a
      database whose objects are consistent by id comes back unchanged. */
  function ExtractRhs(db: seq<DataObject>, c: Constraint, scenario: string): (r: (real, seq<DataObject>))
    requires c.Valid()
    ensures r.0 == c.rhs.Value()
    ensures |r.1| == |db|
    ensures forall i :: 0 <= i < |db| ==> r.1[i] == db[i].(activeScenario := r.1[i].activeScenario)
    ensures ConsistentIds(db) ==> r.1 == db
  {
    var during := SwitchAll(db, scenario);
    RestoreFacts(db, scenario);
    (c.rhs.Value(), RestoreAll(during, Originals(db)))
  }

  lemma RestoreFacts(db: seq<DataObject>, scenario: string)
    ensures var after := RestoreAll(SwitchAll(db, scenario), Originals(db));
      && (forall i :: 0 <= i < |db| ==> after[i] == db[i].(activeScenario := after[i].activeScenario))
      && (ConsistentIds(db) ==> after == db)
  {
    var during, originals := SwitchAll(db, scenario), Originals(db);
    var after := RestoreAll(during, originals);
    forall i | 0 <= i < |db| ensures after[i] == db[i].(activeScenario := originals[db[i].id]) {
      assert db[i].id in originals;
      assert during[i].id == db[i].id;
    }
    if ConsistentIds(db) {
      OriginalsConsistent(db);
      forall i | 0 <= i < |db| ensures after[i] == db[i] {
        assert originals[db[i].id] == db[i].activeScenario;
      }
    }
  }

  /** `rhs_values`: one extraction per scenario name, in order, each on the
      database the previous one left behind. */
  function RhsValuesFor(db: seq<DataObject>, c: Constraint, names: seq<string>)
    : (r: (map<string, real>, seq<DataObject>))
    requires c.Valid()
    ensures forall n :: n in r.0 <==> n in names
    ensures ConsistentIds(db) ==> r.1 == db
    decreases |names|
  {
    if |names| == 0 then (map[], db)
    else
      var x := ExtractRhs(db, c, names[0]);
      var rest := RhsValuesFor(x.1, c, names[1..]);
      assert forall i :: 0 < i < |names| ==> names[i] == names[1..][i - 1];
      (map[names[0] := x.0] + rest.0, rest.1)
  }

  /** The constraint's rhs is a field of its own that no scenario overrides,
      so every scenario reads the same value. */
  lemma {:induction false} RhsValuesIgnoreScenarios(db: seq<DataObject>, c: Constraint, names: seq<string>)
    requires c.Valid()
    ensures forall n :: n in RhsValuesFor(db, c, names).0 ==> RhsValuesFor(db, c, names).0[n] == c.rhs.Value()
    decreases |names|
  {
    if |names| > 0 {
      RhsValuesIgnoreScenarios(ExtractRhs(db, c, names[0]).1, c, names[1..]);
    }
  }

  /** The fallback name `Constraint_<id>` for an unnamed constraint. */
  function AnalysisName(c: Constraint): (n: string)
    ensures c.name != "" ==> n == c.name
    ensures c.name == "" ==> n == "Constraint_" + c.id.text
  {
    if c.name == "" then "Constraint_" + c.id.text else c.name
  }

  /** The analysis of one constraint stated without the database: every
      scenario's rhs value is the constraint's own rhs. */
  function AnalysisOf(c: Constraint, rs: ScenarioResults, objectives: map<string, real>): ConstraintAnalysis
    requires c.Valid()
  {
    var values := map n | n in Names(rs) :: c.rhs.Value();
    ConstraintAnalysis(c.id, AnalysisName(c), values, BindingScenarios(rs, c), SlackValues(rs, c),
                       RhsStatistics(values), Sensitivity(values, objectives), Objects.OpSymbol(c.op))
  }

  /** The body of `analyze`'s loop for one constraint, with the database it
      leaves behind. The analysis is the database-free one above. */
  function AnalyzeConstraint(c: Constraint, db: seq<DataObject>, rs: ScenarioResults,
                             objectives: map<string, real>): (r: (ConstraintAnalysis, seq<DataObject>))
    requires c.Valid()
    ensures r.0.constraintId == c.id && r.0.constraintName == AnalysisName(c)
    ensures forall n :: n in r.0.rhsValues <==> n in Names(rs)
    ensures forall n :: n in r.0.rhsValues ==> r.0.rhsValues[n] == c.rhs.Value()
    ensures r.0.bindingScenarios == BindingScenarios(rs, c) && IsSubsequence(r.0.bindingScenarios, Names(rs))
    ensures r.0.slackValues == SlackValues(rs, c)
    ensures r.0.rhsRange == RhsStatistics(r.0.rhsValues) && (r.0.rhsRange.None? <==> |rs| == 0)
    ensures r.0.sensitivity == Sensitivity(r.0.rhsValues, objectives)
    ensures r.0.constraintType == Objects.OpSymbol(c.op)
    ensures r.0 == AnalysisOf(c, rs, objectives)
    ensures ConsistentIds(db) ==> r.1 == db
  {
    var x := RhsValuesFor(db, c, Names(rs));
    RhsValuesIgnoreScenarios(db, c, Names(rs));
    SameValues(x.0, map n | n in Names(rs) :: c.rhs.Value(), c.rhs.Value());
    BindingScenariosOrdered(rs, c);
    assert |rs| > 0 ==> Names(rs)[0] in x.0.Keys;
    var a := ConstraintAnalysis(c.id, AnalysisName(c), x.0, BindingScenarios(rs, c), SlackValues(rs, c),
                                RhsStatistics(x.0), Sensitivity(x.0, objectives), Objects.OpSymbol(c.op));
    (a, x.1)
  }

  /** Because the rhs read is the same under every scenario, every analysed
      constraint gets sensitivity 0 and an rhs range of 0. */
  lemma AnalyzedSensitivityZero(c: Constraint, db: seq<DataObject>, rs: ScenarioResults,
                                objectives: map<string, real>)
    requires c.Valid()
    ensures AnalyzeConstraint(c, db, rs, objectives).0.sensitivity == 0.0
    ensures AnalyzeConstraint(c, db, rs, objectives).0.rhsRange.Some? ==>
      AnalyzeConstraint(c, db, rs, objectives).0.rhsRange.value.range == 0.0
  {
    var values := RhsValuesFor(db, c, Names(rs)).0;
    RhsValuesIgnoreScenarios(db, c, Names(rs));
    ConstantRhsInsensitive(values, objectives, c.rhs.Value());
  }

  // ---------------------------------------------------------------------------
  // The whole analysis and its queries
  // ---------------------------------------------------------------------------

  /** OXRightHandSideAnalysisResult without the quantile-based fields. */
  datatype RhsResult = RhsResult(
    scenarioCount: nat,
    feasibility: map<string, bool>,
    objectiveValues: map<string, real>,
    feasibleCount: nat,
    successRate: real,
    analyses: seq<ConstraintAnalysis>,
    critical: seq<Uuid>)

  const NoScenariosMessage := "No scenarios found for RHS analysis"

  /** Which constraints are analysed: the given ids, or every constraint
      when none are given (an empty set counts as none). */
  predicate Targeted(c: Constraint, targets: set<Uuid>) {
    targets == {} || c.id in targets
  }

  /** The constraints `analyze` visits, in constraint order. */
  function Targets(cs: seq<Constraint>, targets: set<Uuid>): (ts: seq<Constraint>)
    ensures forall c :: c in ts <==> c in cs && Targeted(c, targets)
  {
    Filter(cs, c => Targeted(c, targets))
  }

  /** Two maps with the same keys and one value throughout are equal. */
  lemma SameValues(m: map<string, real>, m': map<string, real>, v: real)
    requires forall n :: n in m <==> n in m'
    requires forall n :: n in m ==> m[n] == v
    requires forall n :: n in m' ==> m'[n] == v
    ensures m == m'
  {
  }

  /** `analyses` holds, in order, the analysis of each of `ts`. */
  predicate AnalysesOf(analyses: seq<ConstraintAnalysis>, ts: seq<Constraint>, rs: ScenarioResults,
                       objectives: map<string, real>) {
    |analyses| == |ts| && forall i :: 0 <= i < |ts| ==> ts[i].Valid() && analyses[i] == AnalysisOf(ts[i], rs, objectives)
  }

  lemma AnalysesOfCons(a: ConstraintAnalysis, rest: seq<ConstraintAnalysis>, c: Constraint, ts: seq<Constraint>,
                       rs: ScenarioResults, objectives: map<string, real>)
    requires c.Valid() && a == AnalysisOf(c, rs, objectives) && AnalysesOf(rest, ts, rs, objectives)
    ensures AnalysesOf([a] + rest, [c] + ts, rs, objectives)
  {
    var xs, ys := [a] + rest, [c] + ts;
    forall i | 0 <= i < |ys| ensures ys[i].Valid() && xs[i] == AnalysisOf(ys[i], rs, objectives) {
      if i > 0 {
        assert xs[i] == rest[i - 1] && ys[i] == ts[i - 1];
      }
    }
  }

  /** `analyze`'s loop over the constraints: one analysis per targeted
      constraint, in constraint order, each extraction running on the
      database the previous one left behind. */
  function AnalyzeAll(cs: seq<Constraint>, targets: set<Uuid>, db: seq<DataObject>, rs: ScenarioResults,
                      objectives: map<string, real>): (r: (seq<ConstraintAnalysis>, seq<DataObject>))
    requires forall c :: c in cs ==> c.Valid()
    ensures AnalysesOf(r.0, Targets(cs, targets), rs, objectives)
    ensures ConsistentIds(db) ==> r.1 == db
    decreases |cs|
  {
    if |cs| == 0 then ([], db)
    else
      TargetsCons(cs, targets);
      if !Targeted(cs[0], targets) then
        AnalyzeAll(cs[1..], targets, db, rs, objectives)
      else
        var x := AnalyzeConstraint(cs[0], db, rs, objectives);
        var r := AnalyzeAll(cs[1..], targets, x.1, rs, objectives);
        AnalysesOfCons(x.0, r.0, cs[0], Targets(cs[1..], targets), rs, objectives);
        ([x.0] + r.0, r.1)
  }

  lemma TargetsCons(cs: seq<Constraint>, targets: set<Uuid>)
    requires |cs| > 0
    ensures Targets(cs, targets) == (if Targeted(cs[0], targets) then [cs[0]] else []) + Targets(cs[1..], targets)
  {
  }

  /** The constraint ids of a list of analyses, position by position. */
  function AnalysisIds(analyses: seq<ConstraintAnalysis>): (ids: seq<Uuid>)
    ensures |ids| == |analyses|
    ensures forall i :: 0 <= i < |analyses| ==> ids[i] == analyses[i].constraintId
  {
    if |analyses| == 0 then [] else [analyses[0].constraintId] + AnalysisIds(analyses[1..])
  }

  predicate CriticalAtHalf(a: ConstraintAnalysis) {
    IsCritical(a, 0.5)
  }

  /** `critical_constraints`: the ids of the analyses critical at 0.5, in
      analysis order, one entry per such analysis. */
  function CriticalIds(analyses: seq<ConstraintAnalysis>): (ids: seq<Uuid>)
    ensures forall id :: id in ids <==> exists a :: a in analyses && IsCritical(a, 0.5) && a.constraintId == id
    ensures ids == AnalysisIds(Filter(analyses, CriticalAtHalf))
  {
    if |analyses| == 0 then []
    else
      var rest := CriticalIds(analyses[1..]);
      var r := (if IsCritical(analyses[0], 0.5) then [analyses[0].constraintId] else []) + rest;
      CriticalStep(analyses, rest);
      r
  }

  /** One step of `CriticalIds`: the head's id, when it is critical, goes
      before the ids of the critical analyses in the tail. */
  lemma CriticalStep(analyses: seq<ConstraintAnalysis>, rest: seq<Uuid>)
    requires |analyses| > 0 && rest == AnalysisIds(Filter(analyses[1..], CriticalAtHalf))
    ensures (if IsCritical(analyses[0], 0.5) then [analyses[0].constraintId] else []) + rest
            == AnalysisIds(Filter(analyses, CriticalAtHalf))
  {
    if CriticalAtHalf(analyses[0]) {
      var f := Filter(analyses, CriticalAtHalf);
      assert f == [analyses[0]] + Filter(analyses[1..], CriticalAtHalf);
      assert f[1..] == Filter(analyses[1..], CriticalAtHalf);
    }
  }

  /** `analyze` on the results of solving every scenario: an exception when
      there are none; otherwise the scenario bookkeeping, one analysis per
      targeted constraint in constraint order, and the critical ids; and
      StatisticsError from `statistics.quantiles` when exactly one
      constraint was analysed. */
  function Analyze(cs: seq<Constraint>, targets: set<Uuid>, db: seq<DataObject>, rs: ScenarioResults)
    : (r: Result<(RhsResult, seq<DataObject>)>)
    requires forall i :: 0 <= i < |cs| ==> cs[i].Valid()
    ensures r.Failure? <==> |rs| == 0 || |Targets(cs, targets)| == 1
    ensures |rs| == 0 ==> r == Failure(OXception(NoScenariosMessage))
    ensures |rs| > 0 && |Targets(cs, targets)| == 1 ==> r == Failure(StatisticsError)
    ensures r.Success? ==>
      var res := r.value.0;
      res.scenarioCount == |rs| && res.feasibility == Feasibility(rs) && res.objectiveValues == ObjectiveValues(rs)
      && res.feasibleCount == FeasibleCount(rs) && res.feasibleCount <= |rs|
      && res.successRate == SuccessRate(res.feasibleCount, |rs|) && 0.0 <= res.successRate <= 1.0
    ensures r.Success? ==>
      AnalysesOf(r.value.0.analyses, Targets(cs, targets), rs, ObjectiveValues(rs))
      && r.value.0.critical == CriticalIds(r.value.0.analyses)
    ensures r.Success? ==> forall a :: a in r.value.0.analyses ==> a.sensitivity == 0.0
    ensures r.Success? && ConsistentIds(db) ==> r.value.1 == db
  {
    if |rs| == 0 then Failure(OXception(NoScenariosMessage))
    else
      var objectives := ObjectiveValues(rs);
      var count := FeasibleCount(rs);
      var x := AnalyzeAll(cs, targets, db, rs, objectives);
      if |x.0| == 1 then Failure(StatisticsError)
      else
        AllInsensitive(cs, targets, db, rs, objectives);
        Success((RhsResult(|rs|, Feasibility(rs), objectives, count, SuccessRate(count, |rs|), x.0,
                           CriticalIds(x.0)), x.1))
  }

  /** Every analysis `analyze` produces has sensitivity 0. */
  lemma AllInsensitive(cs: seq<Constraint>, targets: set<Uuid>, db: seq<DataObject>,
                       rs: ScenarioResults, objectives: map<string, real>)
    requires forall i :: 0 <= i < |cs| ==> cs[i].Valid()
    ensures forall a :: a in AnalyzeAll(cs, targets, db, rs, objectives).0 ==> a.sensitivity == 0.0
  {
    var r := AnalyzeAll(cs, targets, db, rs, objectives).0;
    var ts := Targets(cs, targets);
    assert AnalysesOf(r, ts, rs, objectives);
    forall a | a in r ensures a.sensitivity == 0.0 {
      var i :| 0 <= i < |r| && r[i] == a;
      AnalyzedSensitivityZero(ts[i], db, rs, objectives);
    }
  }

  /** The sort key of `get_top_sensitive_constraints`. */
  function Score(a: ConstraintAnalysis): real {
    a.sensitivity
  }

  /** `s[:n]` for any integer `n`; a negative `n` drops `-n` items from the end. */
  function PyPrefix<T>(s: seq<T>, n: int): (r: seq<T>)
    ensures |r| <= |s| && r == s[..|r|]
    ensures n >= 0 ==> |r| == (if n < |s| then n else |s|)
    ensures n < 0 ==> |r| == (if |s| + n > 0 then |s| + n else 0)
  {
    if n >= 0 then (if n < |s| then s[..n] else s)
    else if |s| + n > 0 then s[..|s| + n] else []
  }

  /** `get_top_sensitive_constraints(top_n)`: the analyses sorted by
      sensitivity, highest first, cut at `top_n`. */
  function TopSensitive(analyses: seq<ConstraintAnalysis>, topN: int): (r: seq<ConstraintAnalysis>)
    ensures |r| <= |analyses| && r == SortBy(analyses, Score, true)[..|r|]
    ensures topN >= 0 ==> |r| == (if topN < |analyses| then topN else |analyses|)
    ensures topN < 0 ==> |r| == (if |analyses| + topN > 0 then |analyses| + topN else 0)
    ensures SortedBy(r, Score, true)
    ensures forall a :: a in r ==> a in analyses
    ensures topN >= |analyses| ==> multiset(r) == multiset(analyses)
  {
    var sorted := SortBy(analyses, Score, true);
    SortBySorted(analyses, Score, true);
    var r := PyPrefix(sorted, topN);
    assert forall a :: a in r ==> a in multiset(sorted);
    r
  }

  /** No analysis left out scores higher than one kept. */
  lemma TopSensitiveKeepsHighest(analyses: seq<ConstraintAnalysis>, topN: int)
    ensures forall a, b ::
      (a in analyses && a !in TopSensitive(analyses, topN) && b in TopSensitive(analyses, topN))
      ==> a.sensitivity <= b.sensitivity
  {
    var sorted := SortBy(analyses, Score, true);
    SortBySorted(analyses, Score, true);
    var r := TopSensitive(analyses, topN);
    forall a, b | a in analyses && a !in r && b in r ensures a.sensitivity <= b.sensitivity {
      assert a in multiset(sorted);
      var j :| 0 <= j < |sorted| && sorted[j] == a;
      var i :| 0 <= i < |r| && r[i] == b;
      assert sorted[i] == b;
      assert !Before(sorted[j], sorted[i], Score, true);
    }
  }

  /** Kept by `get_constraints_by_binding_frequency`: rhs values, binding
      scenarios and a binding rate of at least `minFrequency`. */
  predicate Frequent(a: ConstraintAnalysis, minFrequency: real) {
    |a.rhsValues| > 0 && |a.bindingScenarios| > 0 && BindingRate(a) >= minFrequency
  }

  /** `get_constraints_by_binding_frequency(min_frequency)`: exactly the
      frequent analyses, highest binding rate first. */
  function ByBindingFrequency(analyses: seq<ConstraintAnalysis>, minFrequency: real): (r: seq<ConstraintAnalysis>)
    ensures forall a :: a in r <==> a in analyses && Frequent(a, minFrequency)
    ensures multiset(r) == multiset(Filter(analyses, a => Frequent(a, minFrequency)))
    ensures SortedBy(r, BindingRate, true)
  {
    var kept := Filter(analyses, a => Frequent(a, minFrequency));
    SortBySorted(kept, BindingRate, true);
    var r := SortBy(kept, BindingRate, true);
    assert forall a :: (a in r <==> a in multiset(r)) && (a in kept <==> a in multiset(kept));
    r
  }

  /** Analyses with the same binding rate keep their original order. */
  lemma ByBindingFrequencyStable(analyses: seq<ConstraintAnalysis>, minFrequency: real, rate: real)
    ensures WithKey(ByBindingFrequency(analyses, minFrequency), BindingRate, rate)
         == WithKey(Filter(analyses, a => Frequent(a, minFrequency)), BindingRate, rate)
  {
    SortByStable(Filter(analyses, a => Frequent(a, minFrequency)), BindingRate, true, rate);
  }
}

=== FILE: solutions.dfy ===
/** What a solver run per scenario hands to the analysis helpers: a status,
    and for a solved scenario the objective value and each constraint's
    evaluated (lhs, operator, rhs). The solving itself is a parameter: the
    results arrive as a dictionary from scenario name to result, written here
    as its items in insertion order. */
module Solutions {
  import opened Base
  import opened Constraints

  /** OXSolutionStatus. */
  datatype Status = Optimal | Feasible | Infeasible | Unbounded | Timeout | SolverError | Unknown

  datatype Solution = Solution(objectiveValue: real, constraintValues: map<Uuid, (real, RelOp, real)>)

  datatype ScenarioResult = ScenarioResult(status: Status, solution: Option<Solution>)

  type ScenarioResults = seq<(string, ScenarioResult)>

  function Names<T>(items: seq<(string, T)>): (ns: seq<string>)
    ensures |ns| == |items| && forall i :: 0 <= i < |items| ==> ns[i] == items[i].0
  {
    seq(|items|, i requires 0 <= i < |items| => items[i].0)
  }

  /** The items of a dictionary: no name occurs twice. */
  predicate DistinctNames<T>(items: seq<(string, T)>) {
    forall i, j :: 0 <= i < j < |items| ==> items[i].0 != items[j].0
  }

  /** The tail of a dictionary's items is a dictionary without the head's name. */
  lemma DistinctTail<T>(items: seq<(string, T)>)
    requires |items| > 0
    ensures DistinctNames(items) ==>
      DistinctNames(items[1..]) && forall j :: 0 <= j < |items[1..]| ==> items[1..][j].0 != items[0].0
  {
  }

  /** A name stored before the rest of a dictionary's entries: the rest
      overrides it, and keeps its own values. */
  lemma MergeHead<V>(k: string, v: V, rest: map<string, V>)
    ensures (map[k := v] + rest).Keys == rest.Keys + {k}
    ensures k !in rest ==> (map[k := v] + rest)[k] == v
    ensures forall n :: n in rest ==> (map[k := v] + rest)[n] == rest[n]
  {
  }

  /** `d.get(name)` on a dictionary given by its items. */
  function Lookup<T(==)>(items: seq<(string, T)>, name: string): (r: Option<T>)
    ensures r.None? <==> name !in Names(items)
    ensures r.Some? ==> exists i :: 0 <= i < |items| && items[i] == (name, r.value)
  {
    if |items| == 0 then None
    else if items[0].0 == name then Some(items[0].1)
    else
      var r := Lookup(items[1..], name);
      assert Names(items) == [items[0].0] + Names(items[1..]);
      if r.Some? then
        var i :| 0 <= i < |items[1..]| && items[1..][i] == (name, r.value);
        assert items[i + 1] == (name, r.value);
        r
      else r
  }

  /** In a dictionary the value found is the one stored under the name. */
  lemma LookupDistinct<T>(items: seq<(string, T)>, i: nat)
    requires DistinctNames(items) && i < |items|
    ensures Lookup(items, items[i].0) == Some(items[i].1)
  {
    var r := Lookup(items, items[i].0);
    assert Names(items)[i] == items[i].0;
    var j :| 0 <= j < |items| && items[j] == (items[i].0, r.value);
    assert j == i;
  }

  /** `hits / total if total > 0 else 0.0`. */
  function SuccessRate(hits: nat, total: nat): (r: real)
    ensures total == 0 ==> r == 0.0
    ensures total > 0 ==> r * total as real == hits as real
    ensures hits <= total ==> 0.0 <= r <= 1.0
    ensures 0 < hits <= total ==> 0.0 < r
  {
    if total > 0 then hits as real / total as real else 0.0
  }

  /** The rate is 1 exactly when every scenario counted, and 0 exactly when
      none did (or there were none). */
  lemma SuccessRateExtremes(hits: nat, total: nat)
    requires hits <= total
    ensures SuccessRate(hits, total) == 1.0 <==> total > 0 && hits == total
    ensures SuccessRate(hits, total) == 0.0 <==> total == 0 || hits == 0
  {
    if total > 0 && SuccessRate(hits, total) == 1.0 {
      assert 1.0 * total as real == hits as real;
    }
  }
}

=== FILE: special.dfy ===
/** The special constraints: records naming variables (and, for the
    conditional, constraints) by id, and what each record requires of an
    integer assignment, as the OR-Tools back-end's solution callback
    evaluates it. */
module Specials {
  import opened Base
  import opened Numbers
  import opened Constraints

  /** Field order follows the dataclasses: the non-linear equalities inherit
      `output_variable` first; summation declares its inputs first. */
  datatype Special =
    | Multiplicative(id: Uuid, output: Uuid, inputs: seq<Uuid>)
    | Division(id: Uuid, output: Uuid, input: Uuid, denominator: int)
    | Modulo(id: Uuid, output: Uuid, input: Uuid, denominator: int)
    | Summation(id: Uuid, inputs: seq<Uuid>, output: Uuid)
    | Conditional(id: Uuid, indicator: Uuid, inputConstraint: Uuid, ifTrue: Uuid, ifFalse: Uuid)

  /** Subclasses of OXNonLinearEqualityConstraint. */
  predicate IsNonLinearEquality(s: Special) {
    s.Multiplicative? || s.Division? || s.Modulo?
  }

  /** `output_variable`, which every record but the conditional has. */
  function OutputVariable(s: Special): (r: Option<Uuid>)
    ensures r.None? <==> s.Conditional?
    ensures IsNonLinearEquality(s) ==> r == Some(s.output)
  {
    if s.Conditional? then None else Some(s.output)
  }

  // ---------------------------------------------------------------------------
  // Construction with defaults
  // ---------------------------------------------------------------------------

  /** Which record a default construction builds. */
  datatype SpecialKind = MultiplicativeKind | DivisionKind | ModuloKind | SummationKind | ConditionalKind

  /** The record a value is. */
  function KindOf(s: Special): SpecialKind {
    match s
    case Multiplicative(_, _, _) => MultiplicativeKind
    case Division(_, _, _, _) => DivisionKind
    case Modulo(_, _, _, _) => ModuloKind
    case Summation(_, _, _) => SummationKind
    case Conditional(_, _, _, _, _) => ConditionalKind
  }

  /** The UUID-typed fields a record declares beyond its own id, in the
      order the dataclasses declare them. */
  function IdFields(s: Special): seq<Uuid> {
    match s
    case Multiplicative(_, output, _) => [output]
    case Division(_, output, input, _) => [output, input]
    case Modulo(_, output, input, _) => [output, input]
    case Summation(_, _, output) => [output]
    case Conditional(_, indicator, input, ifTrue, ifFalse) => [indicator, input, ifTrue, ifFalse]
  }

  /** A `default_factory` for an id field: `uuid4` draws a fresh id (given
      here), while the class `UUID` called with no argument raises TypeError. */
  datatype IdFactory = Uuid4 | UuidClass

  function MakeId(f: IdFactory, next: Uuid): Result<Uuid> {
    match f
    case Uuid4 => Success(next)
    case UuidClass => Failure(TypeError)
  }

  /** Construction with every field defaulted. OXObject's `id` comes first
      (from `uuid4`, given as `id`); then each class's fields in declaration
      order: an id field calls `factory` with the next fresh id, a list field
      is empty and the denominator is 1. The first factory that raises ends
      the construction. */
  function DefaultConstruct(kind: SpecialKind, factory: IdFactory, id: Uuid, ids: seq<Uuid>): (r: Result<Special>)
    requires |ids| == 4
    ensures r.Success? <==> factory == Uuid4
    ensures r.Failure? ==> r.error == TypeError
    ensures r.Success? ==> KindOf(r.value) == kind && r.value.id == id
    ensures r.Success? ==> 0 < |IdFields(r.value)| && IdFields(r.value) == ids[..|IdFields(r.value)|]
    ensures r.Success? && (r.value.Multiplicative? || r.value.Summation?) ==> r.value.inputs == []
    ensures r.Success? && (r.value.Division? || r.value.Modulo?) ==> r.value.denominator == 1
  {
    match kind
    case MultiplicativeKind =>
      var output :- MakeId(factory, ids[0]);
      Success(Multiplicative(id, output, []))
    case DivisionKind =>
      var output :- MakeId(factory, ids[0]);
      var input :- MakeId(factory, ids[1]);
      Success(Division(id, output, input, 1))
    case ModuloKind =>
      var output :- MakeId(factory, ids[0]);
      var input :- MakeId(factory, ids[1]);
      Success(Modulo(id, output, input, 1))
    case SummationKind =>
      var output :- MakeId(factory, ids[0]);
      Success(Summation(id, [], output))
    case ConditionalKind =>
      var indicator :- MakeId(factory, ids[0]);
      var input :- MakeId(factory, ids[1]);
      var ifTrue :- MakeId(factory, ids[2]);
      var ifFalse :- MakeId(factory, ids[3]);
      Success(Conditional(id, indicator, input, ifTrue, ifFalse))
  }

  /** As written the id fields' factory is `UUID` itself, so every default
      construction raises TypeError at its first id field. */
  function DefaultSpecialAsWritten(kind: SpecialKind, id: Uuid, ids: seq<Uuid>): (r: Result<Special>)
    requires |ids| == 4
    ensures r == Failure(TypeError)
  {
    DefaultConstruct(kind, UuidClass, id, ids)
  }

  /** The evidently intended defaults: fresh ids from `uuid4`, in field
      order, an empty input list and denominator 1. */
  function DefaultSpecial(kind: SpecialKind, id: Uuid, ids: seq<Uuid>): (r: Result<Special>)
    requires |ids| == 4
    ensures r.Success? && KindOf(r.value) == kind && r.value.id == id
    ensures IdFields(r.value) == ids[..|IdFields(r.value)|]
    ensures (r.value.Multiplicative? || r.value.Summation?) ==> r.value.inputs == []
    ensures (r.value.Division? || r.value.Modulo?) ==> r.value.denominator == 1
    ensures OutputVariable(r.value).Some? <==> kind != ConditionalKind
  {
    DefaultConstruct(kind, Uuid4, id, ids)
  }

  /** The construction the repository's tests perform, `OXMultiplicativeEqualityConstraint()`,
      raises as written and gives an output id and no inputs as intended. */
  lemma DefaultsRaiseAsWritten(id: Uuid, ids: seq<Uuid>)
    requires |ids| == 4
    ensures DefaultSpecialAsWritten(MultiplicativeKind, id, ids) == Failure(TypeError)
    ensures DefaultSpecial(MultiplicativeKind, id, ids) == Success(Multiplicative(id, ids[0], []))
  {
  }

  // ---------------------------------------------------------------------------
  // Meaning
  // ---------------------------------------------------------------------------

  function Values(ids: seq<Uuid>, x: Uuid -> int): (vs: seq<int>)
    ensures |vs| == |ids| && forall i :: 0 <= i < |ids| ==> vs[i] == x(ids[i])
  {
    seq(|ids|, i requires 0 <= i < |ids| => x(ids[i]))
  }

  /** Python's `sum` over integers (0 for an empty list). */
  function Sum(xs: seq<int>): int {
    if |xs| == 0 then 0 else xs[0] + Sum(xs[1..])
  }

  lemma {:induction false} SumConcat(a: seq<int>, b: seq<int>)
    ensures Sum(a + b) == Sum(a) + Sum(b)
  {
    if |a| > 0 {
      assert (a + b)[1..] == a[1..] + b;
      SumConcat(a[1..], b);
    } else {
      assert a + b == b;
    }
  }

  lemma {:induction false} ProductConcat(a: seq<int>, b: seq<int>)
    ensures Product(a + b) == Product(a) * Product(b)
  {
    if |a| > 0 {
      assert (a + b)[1..] == a[1..] + b;
      ProductConcat(a[1..], b);
      assert a[0] * (Product(a[1..]) * Product(b)) == (a[0] * Product(a[1..])) * Product(b);
    } else {
      assert a + b == b;
    }
  }

  /** The callback's pair (input_value, output_value) for a non-conditional
      record: the product, floor quotient, floor remainder or sum of the
      inputs, and the output's value. Python raises ZeroDivisionError for a
      zero denominator. */
  function Evaluate(s: Special, x: Uuid -> int): (r: Result<(int, int)>)
    requires !s.Conditional?
    ensures r.Failure? <==> (s.Division? || s.Modulo?) && s.denominator == 0
    ensures r.Failure? ==> r.error == ZeroDivisionError
    ensures r.Success? ==> r.value.1 == x(s.output)
  {
    match s
    case Multiplicative(_, out, ins) => Success((Product(Values(ins, x)), x(out)))
    case Division(_, out, i, d) =>
      if d == 0 then Failure(ZeroDivisionError) else Success((FloorDiv(x(i), d), x(out)))
    case Modulo(_, out, i, d) =>
      if d == 0 then Failure(ZeroDivisionError) else Success((FloorMod(x(i), d), x(out)))
    case Summation(_, ins, out) => Success((Sum(Values(ins, x)), x(out)))
  }

  /** The record holds under `x`: the two values agree. */
  predicate Satisfied(s: Special, x: Uuid -> int)
    requires !s.Conditional?
  {
    var r := Evaluate(s, x);
    r.Success? && r.value.0 == r.value.1
  }

  /** Division means floor division: for a positive denominator d the output
      q is the one integer with d*q <= input < d*q + d. */
  lemma DivisionMeaning(s: Special, x: Uuid -> int)
    requires s.Division? && s.denominator > 0
    ensures Satisfied(s, x) <==>
      s.denominator * x(s.output) <= x(s.input) < s.denominator * x(s.output) + s.denominator
  {
    var d, a, q := s.denominator, x(s.input), x(s.output);
    var r := FloorMod(a, d);
    assert a == d * FloorDiv(a, d) + r;
    if d * q <= a < d * q + d {
      DivUnique(a, d, q, a - d * q);
    }
  }

  /** Modulo means the floor remainder: for a positive denominator d the
      output lies in [0, d) and differs from the input by a multiple of d. */
  lemma ModuloMeaning(s: Special, x: Uuid -> int)
    requires s.Modulo? && s.denominator > 0
    ensures Satisfied(s, x) <==>
      0 <= x(s.output) < s.denominator && Divides(s.denominator, x(s.input) - x(s.output))
  {
    var d, a, r := s.denominator, x(s.input), x(s.output);
    assert a == d * FloorDiv(a, d) + FloorMod(a, d);
    if Satisfied(s, x) {
      DividesIntro(d, FloorDiv(a, d));
    }
    if 0 <= r < d && Divides(d, a - r) {
      DividesWitness(d, a - r);
      var k := (a - r) / d;
      DivUnique(a, d, k, r);
    }
  }

  /** A division and a modulo record on the same input and nonzero
      denominator recover the input: input == d * quotient + remainder. */
  lemma DivisionModuloIdentity(div: Special, md: Special, x: Uuid -> int)
    requires div.Division? && md.Modulo?
    requires div.input == md.input && div.denominator == md.denominator != 0
    requires Satisfied(div, x) && Satisfied(md, x)
    ensures x(div.input) == div.denominator * x(div.output) + x(md.output)
    ensures div.denominator > 0 ==> 0 <= x(md.output) < div.denominator
  {
  }

  /** Splitting the inputs splits the product and the sum. */
  lemma SplitInputs(a: seq<Uuid>, b: seq<Uuid>, x: Uuid -> int)
    ensures Product(Values(a + b, x)) == Product(Values(a, x)) * Product(Values(b, x))
    ensures Sum(Values(a + b, x)) == Sum(Values(a, x)) + Sum(Values(b, x))
  {
    assert Values(a + b, x) == Values(a, x) + Values(b, x);
    ProductConcat(Values(a, x), Values(b, x));
    SumConcat(Values(a, x), Values(b, x));
  }

  /** With two inputs, the records mean output = u * v and output = u + v. */
  lemma TwoInputs(id: Uuid, out: Uuid, u: Uuid, v: Uuid, x: Uuid -> int)
    ensures Satisfied(Multiplicative(id, out, [u, v]), x) <==> x(out) == x(u) * x(v)
    ensures Satisfied(Summation(id, [u, v], out), x) <==> x(out) == x(u) + x(v)
  {
    SplitInputs([u], [v], x);
    assert [u] + [v] == [u, v];
  }

  /** A record with no inputs: the product is 1 and the sum 0. */
  lemma NoInputs(id: Uuid, out: Uuid, x: Uuid -> int)
    ensures Satisfied(Multiplicative(id, out, []), x) <==> x(out) == 1
    ensures Satisfied(Summation(id, [], out), x) <==> x(out) == 0
  {
  }

  // ---------------------------------------------------------------------------
  // The conditional
  // ---------------------------------------------------------------------------

  /** A linear constraint holds under a real assignment. */
  predicate ConstraintHolds(c: Constraint, x: Uuid -> real)
    requires c.Valid()
  {
    Holds(c.op, LhsValue(c, x), c.rhs.Value())
  }

  /** The four enforced constraints of a conditional: with indicator 1 the
      input and true-branch constraints, with indicator 0 the reversed input
      and the false-branch constraint. Reversing raises for an equality. */
  function ConditionalEnforces(input: Constraint, ifTrue: Constraint, ifFalse: Constraint,
                               indicator: bool, x: Uuid -> real, freshId: Uuid): (r: Result<bool>)
    requires input.Valid() && ifTrue.Valid() && ifFalse.Valid()
    ensures r.Failure? <==> input.op == Equal
  {
    var reversed :- Reverse(input, freshId);
    assert reversed.Valid();
    Success((indicator ==> ConstraintHolds(input, x) && ConstraintHolds(ifTrue, x))
         && (!indicator ==> ConstraintHolds(reversed, x) && ConstraintHolds(ifFalse, x)))
  }

  /** Whenever the enforced constraints hold, the indicator is the truth of
      the input constraint, and the branch chosen by it holds. */
  lemma ConditionalIndicator(input: Constraint, ifTrue: Constraint, ifFalse: Constraint,
                             indicator: bool, x: Uuid -> real, freshId: Uuid)
    requires input.Valid() && ifTrue.Valid() && ifFalse.Valid()
    requires ConditionalEnforces(input, ifTrue, ifFalse, indicator, x, freshId) == Success(true)
    ensures indicator <==> ConstraintHolds(input, x)
    ensures ConstraintHolds(input, x) ==> ConstraintHolds(ifTrue, x)
    ensures !ConstraintHolds(input, x) ==> ConstraintHolds(ifFalse, x)
  {
  }
}

=== FILE: typed_sets.dfy ===
/** The kind-checked pots: OXConstraintSet (constraints and goal
    constraints), OXVariableSet (variables and deviation variables) and
    OXDatabase (data objects), and the variable set's `query` over related
    data. */
module TypedSets {
  import opened Base
  import opened Variables
  import opened Objects
  import opened Pots

  datatype SetKind = ConstraintSet | VariableSet | Database

  /** The `isinstance` check each kind performs. */
  predicate Admits(k: SetKind, o: Obj) {
    match k
    case ConstraintSet => IsConstraint(o)
    case VariableSet => IsVariable(o)
    case Database => IsData(o)
  }

  function ElementClass(k: SetKind): string {
    match k
    case ConstraintSet => "OXConstraint"
    case VariableSet => "OXVariable"
    case Database => "OXData"
  }

  function SetClass(k: SetKind): string {
    match k
    case ConstraintSet => "OXConstraintSet"
    case VariableSet => "OXVariableSet"
    case Database => "OXDatabase"
  }

  function AddMessage(k: SetKind): string {
    "Only " + ElementClass(k) + " can be added to " + SetClass(k)
  }

  function RemoveMessage(k: SetKind): string {
    "Only " + ElementClass(k) + " can be removed from " + SetClass(k)
  }

  /** Every stored object is of the set's kind. */
  predicate AllAdmitted(k: SetKind, p: Pot) {
    forall o :: o in p.objects ==> Admits(k, o)
  }

  /** `add_object` of a typed set: the kind check, then the pot's append. */
  function TypedAdd(k: SetKind, p: Pot, o: Obj): (r: Result<Pot>)
    ensures r.Failure? <==> !Admits(k, o)
    ensures r.Failure? ==> r.error == OXception(AddMessage(k))
    ensures r.Success? ==> r.value == Add(p, o)
  {
    if !Admits(k, o) then Failure(OXception(AddMessage(k))) else Success(Add(p, o))
  }

  /** `remove_object` of a typed set: the kind check before touching the
      list, then the pot's remove (ValueError when absent). */
  function TypedRemove(k: SetKind, p: Pot, o: Obj): (r: Result<Pot>)
    ensures !Admits(k, o) ==> r == Failure(OXception(RemoveMessage(k)))
    ensures Admits(k, o) ==> r == Remove(p, o)
    ensures Admits(k, o) && o !in p.objects ==> r == Failure(ValueError)
  {
    if !Admits(k, o) then Failure(OXception(RemoveMessage(k))) else Remove(p, o)
  }

  /** A typed set only ever holds objects of its kind: adding and removing
      keep the invariant. */
  lemma TypedOpsKeepKind(k: SetKind, p: Pot, o: Obj)
    requires AllAdmitted(k, p)
    ensures TypedAdd(k, p, o).Success? ==> AllAdmitted(k, TypedAdd(k, p, o).value)
    ensures TypedRemove(k, p, o).Success? ==> AllAdmitted(k, TypedRemove(k, p, o).value)
  {
    if TypedRemove(k, p, o).Success? {
      var q := TypedRemove(k, p, o).value;
      RemoveKeepsOthers(p, o);
      forall x | x in q.objects ensures Admits(k, x) {
        assert x in multiset(q.objects);
      }
    }
  }

  /** Goal constraints are constraints and deviation variables are
      variables: the subclasses are accepted. */
  lemma SubclassesAdmitted(p: Pot, g: Constraints.Goal, d: Deviation)
    ensures TypedAdd(ConstraintSet, p, OGoal(g)) == Success(Add(p, OGoal(g)))
    ensures TypedAdd(VariableSet, p, ODeviation(d)) == Success(Add(p, ODeviation(d)))
  {
  }

  // ---------------------------------------------------------------------------
  // OXVariableSet.query
  // ---------------------------------------------------------------------------

  /** What `query` promises of one variable: at least one query key is in its
      related data, and every key that is there has the queried value. Keys
      it does not hold are ignored. */
  predicate QueryMatches(rel: map<string, Uuid>, q: seq<(string, Uuid)>) {
    (exists i :: 0 <= i < |q| && q[i].0 in rel)
    && forall i :: 0 <= i < |q| && q[i].0 in rel ==> rel[q[i].0] == q[i].1
  }

  /** The nested `query_function` loop: counts the keys found and returns
      False at the first mismatch, and False at the end when none was found. */
  function QueryLoop(rel: map<string, Uuid>, q: seq<(string, Uuid)>, found: nat): (b: bool)
    ensures b <==> (found > 0 || exists i :: 0 <= i < |q| && q[i].0 in rel)
                   && forall i :: 0 <= i < |q| && q[i].0 in rel ==> rel[q[i].0] == q[i].1
    decreases |q|
  {
    if |q| == 0 then found > 0
    else
      assert forall i :: 1 <= i < |q| ==> q[i] == q[1..][i - 1];
      if q[0].0 in rel then
        if rel[q[0].0] != q[0].1 then false else QueryLoop(rel, q[1..], found + 1)
      else QueryLoop(rel, q[1..], found)
  }

  const ShouldNotHappenMessage := "This should not happen."

  /** `query(**kwargs)`: `search_by_function` with `query_function`, which
      raises on a stored object that is not a variable. */
  function Query(p: Pot, q: seq<(string, Uuid)>): (r: Result<seq<Obj>>)
    ensures r.Failure? <==> exists o :: o in p.objects && !IsVariable(o)
    ensures r.Failure? ==> r.error == OXception(ShouldNotHappenMessage)
    ensures r.Success? ==>
      r.value == Filter(p.objects, o => IsVariable(o) && QueryMatches(AsVariable(o).relatedData, q))
  {
    if exists o :: o in p.objects && !IsVariable(o) then Failure(OXception(ShouldNotHappenMessage))
    else
      FilterExt(p.objects, o => IsVariable(o) && QueryLoop(AsVariable(o).relatedData, q, 0),
                           o => IsVariable(o) && QueryMatches(AsVariable(o).relatedData, q));
      Success(Filter(p.objects, o => IsVariable(o) && QueryLoop(AsVariable(o).relatedData, q, 0)))
  }

  /** On a variable set the query never raises, and its result is an
      order-preserving selection of the stored variables. */
  lemma QueryOnVariableSet(p: Pot, q: seq<(string, Uuid)>)
    requires AllAdmitted(VariableSet, p)
    ensures Query(p, q).Success?
    ensures IsSubsequence(Query(p, q).value, p.objects)
    ensures forall o :: o in Query(p, q).value <==> o in p.objects && QueryMatches(AsVariable(o).relatedData, q)
  {
    FilterIsSubsequence(p.objects, o => IsVariable(o) && QueryMatches(AsVariable(o).relatedData, q));
  }

  /** An empty query returns nothing. */
  lemma QueryEmpty(p: Pot)
    requires AllAdmitted(VariableSet, p)
    ensures Query(p, []) == Success([])
  {
    FilterNone(p.objects, o => IsVariable(o) && QueryMatches(AsVariable(o).relatedData, []));
  }

  /** A key no stored variable holds selects nothing. */
  lemma QueryUnheldKey(p: Pot, key: string, id: Uuid)
    requires AllAdmitted(VariableSet, p)
    requires forall o :: o in p.objects ==> key !in AsVariable(o).relatedData
    ensures Query(p, [(key, id)]) == Success([])
  {
    var q := [(key, id)];
    forall i | 0 <= i < p.Len()
      ensures IsVariable(p.objects[i]) && !QueryMatches(AsVariable(p.objects[i]).relatedData, q)
    {
      assert p.objects[i] in p.objects;
    }
    FilterNone(p.objects, o => IsVariable(o) && QueryMatches(AsVariable(o).relatedData, q));
  }

  /** Keys a variable does not hold are ignored, not failed: a variable that
      has the first key with the queried value and lacks the second is kept,
      although the documentation describes the criteria as all required. */
  lemma QueryIgnoresUnheldKeys(v: Variable, k1: string, id1: Uuid, k2: string, id2: Uuid)
    requires k1 in v.relatedData && v.relatedData[k1] == id1 && k2 !in v.relatedData
    ensures QueryMatches(v.relatedData, [(k1, id1), (k2, id2)])
  {
    assert [(k1, id1), (k2, id2)][0].0 in v.relatedData;
  }

  /** The documented criteria: a non-empty query, every key of which the
      variable holds with the queried value. */
  predicate QueryMatchesAll(rel: map<string, Uuid>, q: seq<(string, Uuid)>) {
    |q| > 0 && forall i :: 0 <= i < |q| ==> q[i].0 in rel && rel[q[i].0] == q[i].1
  }

  /** The evidently intended `query`: the same failure, and the variables
      meeting every criterion, in stored order. */
  function IntendedQuery(p: Pot, q: seq<(string, Uuid)>): (r: Result<seq<Obj>>)
    ensures r.Failure? <==> Query(p, q).Failure?
    ensures r.Failure? ==> r.error == OXception(ShouldNotHappenMessage)
    ensures r.Success? ==> IsSubsequence(r.value, p.objects)
    ensures r.Success? ==> forall o :: o in r.value <==>
      o in p.objects && IsVariable(o) && QueryMatchesAll(AsVariable(o).relatedData, q)
  {
    if exists o :: o in p.objects && !IsVariable(o) then Failure(OXception(ShouldNotHappenMessage))
    else
      FilterIsSubsequence(p.objects, o => IsVariable(o) && QueryMatchesAll(AsVariable(o).relatedData, q));
      Success(Filter(p.objects, o => IsVariable(o) && QueryMatchesAll(AsVariable(o).relatedData, q)))
  }

  /** The intended query keeps only variables the query as written keeps,
      and the two agree when every stored variable holds every queried key. */
  lemma IntendedQueryNarrower(p: Pot, q: seq<(string, Uuid)>)
    requires Query(p, q).Success?
    ensures forall o :: o in IntendedQuery(p, q).value ==> o in Query(p, q).value
    ensures (forall o, i :: o in p.objects && 0 <= i < |q| ==> q[i].0 in AsVariable(o).relatedData)
            ==> IntendedQuery(p, q) == Query(p, q)
  {
    forall o | o in IntendedQuery(p, q).value ensures o in Query(p, q).value {
      assert q[0].0 in AsVariable(o).relatedData;
    }
    if forall o, i :: o in p.objects && 0 <= i < |q| ==> q[i].0 in AsVariable(o).relatedData {
      FilterExt(p.objects, o => IsVariable(o) && QueryMatchesAll(AsVariable(o).relatedData, q),
                           o => IsVariable(o) && QueryMatches(AsVariable(o).relatedData, q));
    }
  }

  /** For the variable of `QueryIgnoresUnheldKeys` the intended criteria
      fail: the second key is missing. */
  lemma IntendedQueryNeedsEveryKey(v: Variable, k1: string, id1: Uuid, k2: string, id2: Uuid)
    requires k2 !in v.relatedData
    ensures !QueryMatchesAll(v.relatedData, [(k1, id1), (k2, id2)])
  {
    assert [(k1, id1), (k2, id2)][1].0 == k2;
  }

  /** The case in the repository's tests: of two variables holding different keys, querying one
      variable's key and value returns exactly that variable. */
  lemma QueryOneHolder(v1: Variable, v2: Variable, key: string, id: Uuid, pid: Uuid)
    requires v1.relatedData == map[key := id] && key !in v2.relatedData
    ensures Query(Pot(pid, [OVariable(v1), OVariable(v2)]), [(key, id)]) == Success([OVariable(v1)])
  {
    var q := [(key, id)];
    var s := [OVariable(v1), OVariable(v2)];
    var f := o => IsVariable(o) && QueryMatches(AsVariable(o).relatedData, q);
    assert q[0].0 in v1.relatedData;
    assert f(OVariable(v1)) && !f(OVariable(v2));
    assert s[1..][1..] == [];
    assert Filter(s, f) == [OVariable(v1)];
  }
}

=== FILE: variables.dfy ===
/** OXVariable and OXDeviationVar: decision variables with extended-real
    bounds, the construction-time bound check and automatic naming. */
module Variables {
  import opened Base
  import opened Numbers

  /** A constructed variable. `value` is the solver's value, absent (None)
      until one is assigned. */
  datatype Variable = Variable(
    id: Uuid,
    name: string,
    description: string,
    value: Option<real>,
    upperBound: Ext,
    lowerBound: Ext,
    relatedData: map<string, Uuid>)

  /** A goal-programming deviation variable: a variable with a `desired` flag. */
  datatype Deviation = Deviation(v: Variable, desired: bool)

  const BoundsMessage := "Lower bound cannot be greater than upper bound."

  /** The name `__post_init__` gives a variable whose name is blank. */
  function AutoName(id: Uuid): (n: string)
    ensures Strip(n) != ""
  {
    var n := "var_" + id.text;
    assert !IsSpace(n[0]);
    n
  }

  /** The dataclass constructor followed by `__post_init__`: raises when
      lower_bound > upper_bound, otherwise replaces a blank name. */
  function NewVariable(id: Uuid, name: string, description: string, value: Option<real>,
                       upperBound: Ext, lowerBound: Ext, relatedData: map<string, Uuid>)
    : (r: Result<Variable>)
    ensures r.Failure? <==> Lt(upperBound, lowerBound)
    ensures r.Failure? ==> r.error == OXception(BoundsMessage)
    ensures r.Success? ==> Le(r.value.lowerBound, r.value.upperBound)
    ensures r.Success? ==>
      r.value == Variable(id, r.value.name, description, value, upperBound, lowerBound, relatedData)
    ensures r.Success? && Strip(name) != "" ==> r.value.name == name
    ensures r.Success? && Strip(name) == "" ==> r.value.name == AutoName(id)
  {
    if Lt(upperBound, lowerBound) then Failure(OXception(BoundsMessage))
    else
      var n := if Strip(name) == "" then AutoName(id) else name;
      Success(Variable(id, n, description, value, upperBound, lowerBound, relatedData))
  }

  /** `OXVariable(id=...)` with every other field defaulted. */
  function DefaultVariable(id: Uuid): Result<Variable> {
    NewVariable(id, "", "", None, PosInf, Fin(0.0), map[])
  }

  /** Defaults: lower bound 0, upper bound +inf, no value, no related data,
      and the automatic name. */
  lemma DefaultVariableFields(id: Uuid)
    ensures DefaultVariable(id).Success?
    ensures var v := DefaultVariable(id).value;
      v.lowerBound == Fin(0.0) && v.upperBound == PosInf && v.value == None
      && v.relatedData == map[] && v.name == "var_" + id.text
  {
    assert Strip("") == "";
  }

  /** Rebuilding a constructed variable from its own fields gives it back:
      the check passes again and the name is no longer blank. */
  lemma NewVariableIdempotent(v: Variable, id: Uuid, name: string, description: string,
                              value: Option<real>, ub: Ext, lb: Ext, rel: map<string, Uuid>)
    requires NewVariable(id, name, description, value, ub, lb, rel) == Success(v)
    ensures NewVariable(v.id, v.name, v.description, v.value, v.upperBound, v.lowerBound,
                        v.relatedData) == Success(v)
  {
    if Strip(name) == "" {
      assert Strip(v.name) != "";
    }
  }

  /** `str(variable)` is its name. */
  function VariableString(v: Variable): (s: string)
    ensures s == v.name
  {
    v.name
  }

  /** A constructed variable prints as the name it was given, or as
      `var_<id>` when that name was blank; either way the text is not blank. */
  lemma ConstructedVariableString(id: Uuid, name: string, description: string, value: Option<real>,
                                  ub: Ext, lb: Ext, rel: map<string, Uuid>)
    requires NewVariable(id, name, description, value, ub, lb, rel).Success?
    ensures var s := VariableString(NewVariable(id, name, description, value, ub, lb, rel).value);
      Strip(s) != "" && (Strip(name) != "" ==> s == name) && (Strip(name) == "" ==> s == "var_" + id.text)
  {
  }

  function BoolString(b: bool): string {
    if b then "True" else "False"
  }

  /** `str(deviation)`: the name followed by the desired flag. */
  function DeviationString(d: Deviation): (s: string)
    ensures s == d.v.name + " (desired: " + BoolString(d.desired) + ")"
  {
    VariableString(d.v) + " (desired: " + BoolString(d.desired) + ")"
  }

  /** The flag can be read back from the text: two deviation variables with
      the same name print alike exactly when their flags agree. */
  lemma DeviationStringFlag(a: Deviation, b: Deviation)
    requires a.v.name == b.v.name
    ensures DeviationString(a) == DeviationString(b) <==> a.desired == b.desired
  {
    if a.desired != b.desired {
      var k := |a.v.name| + |" (desired: "|;
      assert DeviationString(a)[k] != DeviationString(b)[k];
    }
  }

  /** OXDeviationVar construction: the inherited `__post_init__` applies, and
      `desired` defaults to False. */
  function NewDeviation(id: Uuid, name: string, description: string, value: Option<real>,
                        upperBound: Ext, lowerBound: Ext, relatedData: map<string, Uuid>,
                        desired: bool)
    : (r: Result<Deviation>)
    ensures r.Failure? <==> Lt(upperBound, lowerBound)
    ensures r.Success? ==> r.value.desired == desired
    ensures r.Success? ==>
      Success(r.value.v) == NewVariable(id, name, description, value, upperBound, lowerBound, relatedData)
  {
    var v :- NewVariable(id, name, description, value, upperBound, lowerBound, relatedData);
    Success(Deviation(v, desired))
  }

  /** `OXDeviationVar(id=...)`: not desired, bounds [0, +inf]. */
  lemma DefaultDeviationFields(id: Uuid)
    ensures var r := NewDeviation(id, "", "", None, PosInf, Fin(0.0), map[], false);
      r.Success? && !r.value.desired && r.value.v == DefaultVariable(id).value
  {
    DefaultVariableFields(id);
  }
}
